=== FILE: README.md ===
# AI companion app: a Dafny model of its decision logic

The app is a SwiftUI iOS companion. A user signs in by SMS or as a guest and
goes through onboarding: a nickname, a birth-chart ("bazi") reading, and a KYC
chat with the assistant about themselves. They then set goals with a goal-setting
assistant. The home screen shows today's tasks drawn from the goal plans. A
goal-tracking page lets the user edit goals, milestones and tasks, and review
expired milestones. The main chat can ask the phone to run native actions
(alarm, calendar, health, screen time), behind the platform's permissions. A
small Python helper script asks for the next task on a terminal.

This project models the part of the app that decides things rather than draws
them. That covers:

- **Goal plans.** Milestone states and the current milestone, in both the
  current and the legacy version. Optimistic plan updates that overwrite only
  the fields a request carries. Edit dialogs that send only what changed and
  confirm status changes first. The expired-milestone review wizard and the
  goal selection of the tracking page.
- **Onboarding and sign-in.** Nickname validation and clean-up. The routing
  from stored auth, onboarding and subscription facts to the first screen. The
  SMS login screen and its resend countdown. The token store with its refresh
  rule. The personality review and the KYC chat.
- **Chat and goal setting.** Sending, the history pages, the date divider and
  greeting, and unwrapping replies that arrive as nested JSON. Native actions
  that stop at the first permission request. The backend's goal-setting stages
  and the one-time automatic continue.
- **Today's tasks.** Visible tasks and their grouping by goal. The postpone
  rule. The week strip's Monday-first arithmetic and completion colours. The
  greeting by hour and the fortune line.
- **Small tables.** Heavenly stems and earthly branches to the five elements.
  Hex colour strings. The alarm-time parser. The permission cache.
  Subscription identifiers. The helper script's exit words.

Every module is a set of immutable datatypes and pure functions. The chats'
sends, their automatic continuation, the goal-plan fetch and the chat's
history loads are split into the part that runs on the tap and the part that
runs when the answer arrives, so a tap in between can be modelled. The other
asynchronous actions take all their answers at once and run in one step; they
are listed under "Left out". What the server, the platform, the clock or the
user answers is an input of the function:

- network answers are `Answer`-style datatypes with a thrown-error case;
- permission states, location results, date formats and JSON parsing are
  parameters;
- dates are whole day numbers and times are whole seconds.

Common string helpers live in `common.dfy`:

- `Trim`, standing for `trimmingCharacters(in:)` and Python's `strip`;
- `Split` and `Join`;
- `Filter`;
- `ParseInt`, standing for Swift's `Int(_:)` on 64-bit integers;
- decimal printing.

Tables that two screens share are defined once: the goal stages in
`goal_stages.dfy` and the five elements in `five_elements.dfy`.

## Model

| member | source | states |
|---|---|---|
| MilestoneStateHelpers.CalculateState | AICompanion/Home/GoalTracking/MilestoneStateHelpers.swift:20-43 | A milestone is completed iff its status is "completed", whatever the current-id set holds; a milestone that is not completed is current iff its status is "active" or its id is in the set; every other milestone is upcoming. |
| MilestoneStateHelpers.StateIgnoresPosition | AICompanion/Home/GoalTracking/MilestoneStateHelpers.swift:20-25 | The index and the milestone list passed in do not affect the state. |
| MilestoneStateHelpers.FindCurrentIndex | AICompanion/Home/GoalTracking/MilestoneStateHelpers.swift:46-68 | The scroll target is the first milestone the classifier calls current. With none current, it is the first milestone not completed. It is absent iff none is current and all are completed. |
| MilestoneStateHelpers.FindCurrentMilestoneIndex | AICompanion/Home/GoalTracking/MilestoneStateHelpers.swift:46-68 | Under `calculateMilestoneState`, the index is the first current milestone if there is one. With none current it is the first milestone that is not completed. It is absent exactly when every milestone is completed. |
| MilestoneStateHelpers.FlagIcon | AICompanion/Home/GoalTracking/MilestoneStateHelpers.swift:86-95 | The flag symbol is one of "checkmark", "flag.fill" and "flag". |
| MilestoneStateHelpers.FlagStylingDistinct | AICompanion/Home/GoalTracking/MilestoneStateHelpers.swift:74-95 | Different states never share a flag icon or a flag colour. |
| MilestoneStateHelpers.ConnectingLineColor | AICompanion/Home/GoalTracking/MilestoneStateHelpers.swift:169-177 | The line is green iff both ends are completed, and gray iff it starts at an upcoming milestone. It is the primary colour iff it starts at a current milestone, or at a completed one followed by one that is not completed. |
| MilestoneStateHelpers.FlagColor | AICompanion/Home/GoalTracking/MilestoneStateHelpers.swift:74-83 | The flag is green exactly for a completed milestone and in the primary colour exactly for the current one; the rest are grey. |
| LegacyMilestoneState.LegacyState | AICompanion/Home/GoalTrackingSectionView.swift:49-76 | The older section calls a milestone completed iff its status is "completed". It calls one that is not completed current iff its id has tasks today or its status is "in_progress". |
| LegacyMilestoneState.LegacyStateIgnoresHistory | AICompanion/Home/GoalTrackingSectionView.swift:65-75 | The check of the earlier milestones never changes the answer: both of its outcomes give upcoming. |
| LegacyMilestoneState.ActiveIsNotCurrentHere | AICompanion/Home/GoalTrackingSectionView.swift:60-63 | A milestone that is "active" and has no task today is upcoming in the older section, but current under `calculateMilestoneState`. |
| LegacyMilestoneState.LegacyCurrentIndex | AICompanion/Home/GoalTrackingSectionView.swift:79-93 | The scroll target is the first milestone the older classifier calls current, if there is one. With none current it is the first milestone that is not completed. It is absent iff all milestones are completed. |
| GoalTrackingViewModel.DisplayPlan | AICompanion/Home/GoalTracking/GoalTrackingViewModel.swift:25-27 | The local optimistic copy, when there is one, is shown instead of the plan passed in. |
| GoalTrackingViewModel.PatchGoalFields | AICompanion/Home/GoalTracking/GoalTrackingViewModel.swift:34-45 | A goal update takes the title, due date and status from the request when it supplies them. Otherwise it keeps the old values. Every other goal field is unchanged. |
| GoalTrackingViewModel.PatchMilestoneFields | AICompanion/Home/GoalTracking/GoalTrackingViewModel.swift:55-64 | A milestone update takes title, description, due date, priority and status from the request when it supplies them. The id, start date and tasks never change. |
| GoalTrackingViewModel.PatchTaskFields | AICompanion/Home/GoalTracking/GoalTrackingViewModel.swift:96-105 | A task update takes title, frequency, status and priority from the request when it supplies them. The id, description, due time and estimate never change. |
| GoalTrackingViewModel.EmptyRequestsAreIdentity | AICompanion/Home/GoalTracking/GoalTrackingViewModel.swift:34-105 | A request with no field set leaves the goal, milestone or task unchanged. |
| GoalTrackingViewModel.PatchesIdempotent | AICompanion/Home/GoalTracking/GoalTrackingViewModel.swift:34-105 | Applying the same request twice gives the same record as applying it once. |
| GoalTrackingViewModel.UpdateMilestones | AICompanion/Home/GoalTracking/GoalTrackingViewModel.swift:53-67 | The list keeps its length and order. Each milestone with the given id is patched; every other milestone stays as it was. |
| GoalTrackingViewModel.UpdateTasks | AICompanion/Home/GoalTracking/GoalTrackingViewModel.swift:94-108 | Within one milestone, each task with the given id is patched and every other task stays as it was, in the same order. |
| GoalTrackingViewModel.UpdateTasksInMilestones | AICompanion/Home/GoalTracking/GoalTrackingViewModel.swift:93-120 | Every milestone keeps all its own fields; only its task list is replaced, by the patched list. |
| GoalTrackingViewModel.UpdateMilestonesKeepsIds | AICompanion/Home/GoalTracking/GoalTrackingViewModel.swift:53-67 | Every position of the updated list carries the id it had before. |
| GoalTrackingViewModel.FirstTaskWithId | AICompanion/Home/GoalTracking/GoalTrackingViewModel.swift:138-143 | A task is found iff some milestone holds a task with that id, and the one found has that id and belongs to one of the milestones. |
| GoalTrackingViewModel.ApplyGoalUpdate | AICompanion/Home/GoalTracking/GoalTrackingViewModel.swift:31-48 | Without a current plan nothing changes. Otherwise the local copy becomes the patched plan, and the selections are kept. |
| GoalTrackingViewModel.ApplyMilestoneUpdate | AICompanion/Home/GoalTracking/GoalTrackingViewModel.swift:50-88 | Without a current plan nothing changes. Otherwise the local copy gets the updated milestone list. When the plan has a milestone with that id, the selection becomes the patched copy of the first such milestone; otherwise the selection is kept. The selected task is kept. |
| GoalTrackingViewModel.ApplyTaskUpdate | AICompanion/Home/GoalTracking/GoalTrackingViewModel.swift:90-144 | Without a current plan nothing changes. Otherwise the local copy gets the updated task lists. The selected task becomes the patched copy of the first task with that id in plan order, if there is one; the selected milestone is kept. |
| GoalTrackingViewModel.UpdatesKeepGoalFields | AICompanion/Home/GoalTracking/GoalTrackingViewModel.swift:69-133 | Milestone and task updates leave every goal-level field other than the milestone list unchanged. |
| GoalTrackingViewModel.SelectedTaskIsFirstPatched | AICompanion/Home/GoalTracking/GoalTrackingViewModel.swift:137-143 | Searching the updated plan finds a task iff searching the original plan does. What it finds is the patched copy of the original's first match. |
| GoalTrackingViewModel.FinishUpdateCall | AICompanion/Home/GoalTracking/GoalTrackingViewModel.swift:148-179 | A successful server call keeps the optimistic copy; a failed one drops it. The selections are kept either way. |
| GoalTrackingViewModel.ResetLocalPlan | AICompanion/Home/GoalTracking/GoalTrackingViewModel.swift:197-199 | The local copy is gone and the selections are kept. |
| GoalTrackingViewModel.RevertShowsServerPlan | AICompanion/Home/GoalTracking/GoalTrackingViewModel.swift:152-199 | After a failed update or a reset, the plan shown is the server's plan. |
| GoalTrackingViewModel.PatchGoal | AICompanion/Home/GoalTracking/GoalTrackingViewModel.swift:34-45 | The rebuilt goal differs from the old one at most in title, due date and status; id, description, progress and milestones are carried over. |
| GoalTrackingViewModel.PatchMilestone | AICompanion/Home/GoalTracking/GoalTrackingViewModel.swift:55-63 | The rebuilt milestone differs at most in title, description, due date, priority and status; id, start date and tasks are carried over. |
| GoalTrackingViewModel.PatchTask | AICompanion/Home/GoalTracking/GoalTrackingViewModel.swift:95-104 | The rebuilt task differs at most in title, frequency, status and priority; id, description, due time and estimate are carried over. |
| GoalTrackingPage.SelectedPlan | AICompanion/Home/GoalTracking/GoalTrackingPageView.swift:82-85 | With no selection the first plan is shown, or none if there are no plans. With a selection, a plan is shown iff some plan has that goal id, and the plan shown is one of them. |
| GoalTrackingPage.MilestoneIdsOfGoal | AICompanion/Home/GoalTracking/GoalTrackingPageView.swift:90-93 | An id is in the set iff some task of today belongs to that goal and names that milestone. |
| GoalTrackingPage.CurrentMilestoneIds | AICompanion/Home/GoalTracking/GoalTrackingPageView.swift:88-94 | With neither a selection nor a plan, no milestone is current. Otherwise the current milestones are exactly those that today's tasks of the selected goal, or else of the first plan's goal, belong to. |
| GoalTrackingPage.OnAppear | AICompanion/Home/GoalTracking/GoalTrackingPageView.swift:64-69 | A selection is kept. A missing selection becomes the first plan's goal, or stays missing when there are no plans. |
| GoalTrackingPage.OnPlansChange | AICompanion/Home/GoalTracking/GoalTrackingPageView.swift:70-79 | When there are plans, the repaired selection names one of them, and a selection that still names a plan is kept. With no plans the selection is left as it is. |
| GoalTrackingPage.RepairedSelectionShowsPlan | AICompanion/Home/GoalTracking/GoalTrackingPageView.swift:64-85 | Once the plans change, a plan is always shown when there is one. On appearing, a plan is shown unless a stale selection survives. |
| GoalTrackingPage.DropdownShowsChosenGoal | AICompanion/Home/GoalTracking/GoalTrackingPageView.swift:82-101 | Picking a plan in the dropdown shows a plan with that plan's goal id. |
| GoalTrackingPage.ShowsGoalDropdown | AICompanion/Home/GoalTracking/GoalTrackingPageView.swift:18 | The goal dropdown appears iff there are at least two plans; with one plan and no selection, that plan is the one shown. |
| GoalTrackingPage.EffectiveGoalId | AICompanion/Home/GoalTracking/GoalTrackingPageView.swift:89 | The highlighted goal is the selection when there is one; otherwise there is one iff there are plans, and it is a goal of some plan. |
| GoalTrackingPage.SelectGoal | AICompanion/Home/GoalTracking/GoalTrackingPageView.swift:98-101 | Choosing a plan from the dropdown selects an id under which that plan is the one shown. |
| GoalEditDialogs.StatusOptionSets | AICompanion/Home/GoalTracking/GoalEditDialogs.swift:134-138 | Every milestone status option is also a goal status option. "abandoned" can be chosen for a goal but not for a milestone. There are three goal options and two milestone options. |
| GoalEditDialogs.OnStatusSelectionChange | AICompanion/Home/GoalTracking/GoalEditDialogs.swift:46-53 | A status that differs from both the shown status and the record's own status is held as pending and raises the confirmation; the shown status stays. Any other status is applied at once. |
| GoalEditDialogs.ConfirmPendingStatus | AICompanion/Home/GoalTracking/GoalEditDialogs.swift:71-76 | Confirming adopts the pending status, if there is one, and always clears it. |
| GoalEditDialogs.StatusChangeNeedsConfirmation | AICompanion/Home/GoalTracking/GoalEditDialogs.swift:42-77 | Tapping a new status only opens the confirmation. Confirming then shows the new status with nothing pending and the overlay closed. Cancelling keeps the old status and closes the overlay. |
| GoalEditDialogs.ReturningStatusAppliesDirectly | AICompanion/Home/GoalTracking/GoalEditDialogs.swift:47-52 | Tapping the shown or the original status applies it without the overlay. |
| GoalEditDialogs.TapPlainOption | AICompanion/Home/GoalTracking/GoalEditDialogs.swift:284-286 | On a picker without a change handler, the tapped option becomes the selection. |
| GoalEditDialogs.GoalFormOnAppear | AICompanion/Home/GoalTracking/GoalEditDialogs.swift:79-86 | The form takes the goal's title and status. The due-date toggle is on iff the goal has a due date the formatter reads; the picker then holds that date as the formatter writes it, and otherwise keeps today. Nothing is pending or saving. |
| GoalEditDialogs.GoalRequest | AICompanion/Home/GoalTracking/GoalEditDialogs.swift:93-97 | The request carries the title iff it changed and the status iff it changed. It carries the due date iff the toggle is on. |
| GoalEditDialogs.GoalRequestRoundTrip | AICompanion/Home/GoalTracking/GoalEditDialogs.swift:93-97 | Patching the goal with its request gives the form's title and status, and the form's due date when the toggle is on. With the toggle off the old due date stays. |
| GoalEditDialogs.UntouchedGoalRequest | AICompanion/Home/GoalTracking/GoalEditDialogs.swift:79-97 | Saving a goal form as it opened sends no title and no status. A due date is sent iff the goal has one the formatter reads, and it is sent as the formatter writes it. That is the goal's own text exactly when the text is already in that form. |
| GoalEditDialogs.LenientDueDateRewritten | AICompanion/Home/GoalTracking/GoalEditDialogs.swift:82-96 | When the formatter reads a stored due date but writes it differently, saving an untouched form sends a due date that differs from the stored one. |
| GoalEditDialogs.SavingLocksDialog | AICompanion/Home/GoalTracking/GoalEditDialogs.swift:34-91 | Once saving starts, a tap on the background does not dismiss the dialog, and neither button is enabled. |
| GoalEditDialogs.EmptyTitleBlocksSave | AICompanion/Home/GoalTracking/GoalEditDialogs.swift:60 | With an empty title the save button is disabled in every dialog. |
| GoalEditDialogs.MilestoneFormOnAppear | AICompanion/Home/GoalTracking/GoalEditDialogs.swift:216-225 | The form takes the milestone's title, priority and status, and its description with "" for none. The due-date toggle is on iff the milestone has a readable due date; the picker then holds it as the formatter writes it, and otherwise keeps today. |
| GoalEditDialogs.MilestoneRequest | AICompanion/Home/GoalTracking/GoalEditDialogs.swift:232-238 | Each of title, description (a missing one counting as ""), priority and status is sent iff it changed. The due date is sent iff the toggle is on. |
| GoalEditDialogs.MilestoneRequestRoundTrip | AICompanion/Home/GoalTracking/GoalEditDialogs.swift:232-238 | Patching the milestone with its request reproduces every edited field. |
| GoalEditDialogs.UntouchedMilestoneRequest | AICompanion/Home/GoalTracking/GoalEditDialogs.swift:216-238 | Saving a milestone form as it opened sends no title, description, priority or status. A readable due date is resent as the formatter writes it. |
| GoalEditDialogs.TaskFormOnAppear | AICompanion/Home/GoalTracking/GoalEditDialogs.swift:298-302 | The form takes the task's title and frequency. Its priority is the task's, or "medium" when the task has none. |
| GoalEditDialogs.TaskRequest | AICompanion/Home/GoalTracking/GoalEditDialogs.swift:309-313 | Title, priority (a missing one counting as "medium") and frequency are each sent iff they changed. A status is never sent. |
| GoalEditDialogs.UntouchedTaskRequest | AICompanion/Home/GoalTracking/GoalEditDialogs.swift:298-313 | Saving a task form as it opened sends the empty request, also for a task without a priority. |
| GoalEditDialogs.TaskRequestRoundTrip | AICompanion/Home/GoalTracking/GoalEditDialogs.swift:309-313 | Patching the task with its request reproduces the edited fields and keeps the task's status. |
| GoalEditDialogs.TapStatusOption | AICompanion/Home/GoalTracking/GoalEditDialogs.swift:42-54 | A tap on a status other than both the shown and the original one leaves the shown status, holds the tap as pending and raises the confirmation. A tap on the shown or the original status takes it at once and leaves the overlay as it was. |
| GoalEditDialogs.TapConfirmation | AICompanion/Home/GoalTracking/GoalEditDialogs.swift:67-77 | Either overlay button dismisses the overlay. Confirm adopts the pending status, if any, and clears it. Cancel keeps the shown status and the pending one. |
| GoalEditDialogs.SaveDisabled | AICompanion/Home/GoalTracking/GoalEditDialogs.swift:60 | Saving is disabled iff the title is empty; a title of spaces only is not blocked. |
| GoalEditDialogs.StartGoalSave | AICompanion/Home/GoalTracking/GoalEditDialogs.swift:89-97 | Saving raises the saving flag and leaves the rest of the form alone. The request names a title iff the title was changed. |
| DialogComponents.BackgroundTap | AICompanion/DesignSystem/Components/DialogComponents.swift:22-28 | A tap on the dimmed background closes the dialog iff dismissing on tap is allowed. Otherwise the dialog stays as it was. |
| DialogComponents.ButtonRowState | AICompanion/DesignSystem/Components/DialogComponents.swift:207-238 | Cancel accepts taps iff nothing is being saved. Save accepts taps iff nothing is being saved and saving is not disabled. |
| DialogComponents.ButtonRowWhileSaving | AICompanion/DesignSystem/Components/DialogComponents.swift:220-238 | While saving, neither button accepts taps. Save is never enabled when cancel is not. |
| DialogComponents.OptionPickerTap | AICompanion/DesignSystem/Components/DialogComponents.swift:125-132 | With a change handler, the tapped option is handed to it and the selection is left alone. Without one, the tapped option becomes the selection. |
| DialogComponents.OverlayTap | AICompanion/DesignSystem/Components/DialogComponents.swift:286-306 | Either button closes the overlay. The confirm action runs iff the confirm button was tapped. |
| ExpiredMilestoneWizard.Unfulfilled | AICompanion/Home/GoalTracking/ExpiredMilestoneWizardView.swift:46-51 | The unfulfilled list keeps the input order. It holds exactly the milestones marked not achieved, continue or skip. |
| ExpiredMilestoneWizard.AllReviewed | AICompanion/Home/GoalTracking/ExpiredMilestoneWizardView.swift:34-38 | Every milestone is reviewed iff each one has some review status recorded. |
| ExpiredMilestoneWizard.AllAchieved | AICompanion/Home/GoalTracking/ExpiredMilestoneWizardView.swift:40-44 | Every milestone counts as achieved iff each one has a status recorded and that status is achieved. |
| ExpiredMilestoneWizard.AchievedImpliesReviewed | AICompanion/Home/GoalTracking/ExpiredMilestoneWizardView.swift:34-44 | If every milestone is achieved, every milestone has been reviewed. An empty list counts as both. |
| ExpiredMilestoneWizard.RestartIsSubsequenceOfUnfulfilled | AICompanion/Home/GoalTracking/ExpiredMilestoneWizardView.swift:46-57 | The milestones to restart are exactly the continue-marked ones among the unfulfilled, in the same order. |
| ExpiredMilestoneWizard.MarkReviewed | AICompanion/Home/GoalTracking/ExpiredMilestoneWizardView.swift:163-181 | The achieved and not-achieved buttons record that status for the milestone. Nothing else in the wizard changes. |
| ExpiredMilestoneWizard.ContinuePlan | AICompanion/Home/GoalTracking/ExpiredMilestoneWizardView.swift:325-328 | "延续计划" marks the milestone for a restart and opens the date picker for it. The chosen dates and the step are kept. |
| ExpiredMilestoneWizard.SkipMilestone | AICompanion/Home/GoalTracking/ExpiredMilestoneWizardView.swift:343-346 | Skipping marks the milestone skipped and forgets its new due date. Every other milestone's date is kept. |
| ExpiredMilestoneWizard.PickDate | AICompanion/Home/GoalTracking/ExpiredMilestoneWizardView.swift:384-387 | The date picked is stored for that milestone and no status changes. |
| ExpiredMilestoneWizard.ConfirmDate | AICompanion/Home/GoalTracking/ExpiredMilestoneWizardView.swift:395-401 | After "确定" the milestone always has a due date, and the picker is closed. A date already chosen is kept; otherwise the date is one week from now. |
| ExpiredMilestoneWizard.DismissDatePicker | AICompanion/Home/GoalTracking/ExpiredMilestoneWizardView.swift:372-375 | A tap beside the picker closes it and keeps the dates and statuses. |
| ExpiredMilestoneWizard.CompleteActions | AICompanion/Home/GoalTracking/ExpiredMilestoneWizardView.swift:436-478 | Every call is a "complete" without a date for an achieved milestone. Every achieved milestone gets one. |
| ExpiredMilestoneWizard.ReopenActions | AICompanion/Home/GoalTracking/ExpiredMilestoneWizardView.swift:481-497 | Every call is a "reopen" of a continue-marked milestone, carrying its chosen date. Every continue-marked milestone with a date gets one. |
| ExpiredMilestoneWizard.SaveRestartMilestones | AICompanion/Home/GoalTracking/ExpiredMilestoneWizardView.swift:459-507 | Saving sends the complete calls and then the reopen calls, and loading ends either way. A failed reopen shows "保存失败，请稍后再试" and keeps the wizard open. Otherwise there is no error, the wizard closes and the completion callback runs. |
| ExpiredMilestoneWizard.ReopenExactlyContinuedWithDate | AICompanion/Home/GoalTracking/ExpiredMilestoneWizardView.swift:481-497 | A skipped milestone is never reopened. A continue-marked milestone with a date always is, with that date. |
| ExpiredMilestoneWizard.ContinueThenConfirmReopens | AICompanion/Home/GoalTracking/ExpiredMilestoneWizardView.swift:481-497 | Choosing "延续计划" and then "确定" always leads to a reopen call for that milestone on save. |
| ExpiredMilestoneWizard.SkipNeverReopens | AICompanion/Home/GoalTracking/ExpiredMilestoneWizardView.swift:481-497 | After a skip, saving sends no reopen call for that milestone. |
| ExpiredMilestoneWizard.HandleNextStep | AICompanion/Home/GoalTracking/ExpiredMilestoneWizardView.swift:420-451 | When all milestones are achieved, their complete calls go out and the wizard moves to success. Otherwise it moves to the restart step with no call. The statuses and dates are kept. |
| ExpiredMilestoneWizard.AllAchievedCompletesAll | AICompanion/Home/GoalTracking/ExpiredMilestoneWizardView.swift:433-451 | When every milestone is achieved, there is exactly one complete call per milestone, in list order. |
| ExpiredMilestoneWizard.HandleComplete | AICompanion/Home/GoalTracking/ExpiredMilestoneWizardView.swift:509-512 | Finishing closes the wizard and runs the completion callback. |
| ExpiredMilestoneWizard.NextEnabled | AICompanion/Home/GoalTracking/ExpiredMilestoneWizardView.swift:34-38 | The next button accepts taps iff every expired milestone has a review status. |
| ExpiredMilestoneWizard.ToRestart | AICompanion/Home/GoalTracking/ExpiredMilestoneWizardView.swift:53-57 | The milestones to restart are exactly the expired ones marked to continue, in their original order: each returned one is marked to continue, every milestone marked to continue is returned, and the list is a sublist of the expired ones. |
| GoalStages.BackendValue | AICompanion/Home/GoalWizard/GoalWizardView.swift:292-307 | Every stage has one of the five backend names. |
| GoalStages.MapStage | AICompanion/Home/GoalWizard/GoalWizardView.swift:292-307 | A backend stage name is recognised iff it is one of the five names, and the stage found carries that name back. The onboarding goal chat has the same table at AICompanion/Onboarding/GoalOnboardingChatView.swift:234-249. |
| GoalStages.MapStageRoundTrip | AICompanion/Home/GoalWizard/GoalWizardView.swift:292-307 | Every stage is recognised from its own backend name, and no two stages share a name. |
| GoalStages.MapStageInjective | AICompanion/Home/GoalWizard/GoalWizardView.swift:292-307 | Two names recognised as the same stage are the same name. |
| GoalStages.ProgressThirds | AICompanion/Home/GoalWizard/GoalWizardView.swift:279-290 | The progress bar never exceeds full (three thirds). |
| GoalStages.ProgressFollowsFlow | AICompanion/Home/GoalWizard/GoalWizardView.swift:279-290 | The bar grows from the operator to the setting expert to the splitting expert. It is full iff the stage is the splitting expert or done, and empty iff the stage is an error. The onboarding chat's copy is at AICompanion/Onboarding/GoalOnboardingChatView.swift:221-232. |
| GoalStages.TitleMatchesProgress | AICompanion/Home/GoalWizard/GoalWizardView.swift:264-277 | For the three expert stages, the title starts with "k/3", where k is the bar's fill in thirds. The onboarding chat's copy is at AICompanion/Onboarding/GoalOnboardingChatView.swift:173-186. |
| GoalStages.GoalToFetch | AICompanion/Home/GoalWizard/GoalWizardView.swift:429-435 | A plan is to be fetched iff the answer is a reply saying the goal is complete and a goal id is known, from the reply or from before. The id is `known ?? reply id` read after the reply id was stored, so the reply's id when it carries one. Both chats' answer handlers use it (GoalWizard.TakeStage, GoalOnboardingChat.TakeStage). |
| GoalStages.StageTitle | AICompanion/Home/GoalWizard/GoalWizardView.swift:264-277 | The title carries a "k/3" counter iff the stage is one of the three experts; done and error titles have none. |
| GoalWizard.SendMessage | AICompanion/Home/GoalWizard/GoalWizardView.swift:396-409 | Blank input changes nothing and sends nothing. Otherwise the trimmed text is sent and the conversation ends with it as a user bubble. A bubble is added iff the conversation did not already end with that same user text. The screen is busy, no error shows, and nothing else changes. |
| GoalWizard.RepeatedSendShowsOnce | AICompanion/Home/GoalWizard/GoalWizardView.swift:399-403 | Sending the same text twice in a row shows it only once. |
| GoalWizard.SendCurrentMessage | AICompanion/Home/GoalWizard/GoalWizardView.swift:389-394 | While a message or the plan is in flight, nothing happens. Otherwise the draft is emptied and its text goes through the send path. |
| GoalWizard.BusyIgnoresSend | AICompanion/Home/GoalWizard/GoalWizardView.swift:390 | While busy, the send button sends nothing and keeps the draft. |
| GoalWizard.StartPlanFetch | AICompanion/Home/GoalWizard/GoalWizardView.swift:484-486 | While a fetch is in flight a second one requests nothing. Otherwise the in-flight flag goes up, the plan is requested for the given goal, and nothing else changes. |
| GoalWizard.FinishPlanFetch | AICompanion/Home/GoalWizard/GoalWizardView.swift:488-500 | When the plan answer arrives the in-flight flag comes down. A fetched plan is stored and opens the start prompt, leaving the error as it was. A failure keeps the old plan and prompt and shows the plan error. Nothing else changes. |
| GoalWizard.TakeStage | AICompanion/Home/GoalWizard/GoalWizardView.swift:415-435 | A reply sets the mapped stage and the goal id, the reply's when it has one, else the one known before. A plan fetch starts iff no fetch is in flight and `GoalToFetch` names a goal, and the goal fetched is the one the screen now remembers. A thrown answer changes nothing. Only the stage, the goal id and the in-flight flag can change. |
| GoalWizard.FinishSend | AICompanion/Home/GoalWizard/GoalWizardView.swift:411-445 | A failure shows the send error. A reply sets the stage and appends the trimmed reply as one bubble only when it is not blank. A plan fetch is started iff no fetch is in flight and `GoalToFetch` names a goal; the send then stays busy until the plan arrives. Otherwise the busy flag stays set iff a continuation is running. |
| GoalWizard.FinishSendAfterPlan | AICompanion/Home/GoalWizard/GoalWizardView.swift:434-445 | When the plan fetched after a reply arrives, the fetch ends, and then the send ends unless a continuation is running. A fetched plan opens the start prompt; a failure shows the plan error. The conversation is untouched. |
| GoalWizard.PlanFetchIffGoalComplete | AICompanion/Home/GoalWizard/GoalWizardView.swift:423-435 | A reply leads to a plan fetch exactly when no fetch is in flight, the server says the goal is complete, and a goal id is known from the reply or from before. The id fetched is the reply's, else the earlier one. |
| GoalWizard.PlanInFlightLocksInput | AICompanion/Home/GoalWizard/GoalWizardView.swift:389-445 | While the plan fetched after a reply is in flight, the send button does nothing. Once the plan has arrived, and no continuation runs, neither the send nor the fetch is in flight. Without a fetch the send ends at once. |
| GoalWizard.AutoContinue | AICompanion/Home/GoalWizard/GoalWizardView.swift:448-456 | The first call marks the continuation done, locks the input and sends "ok" for this user. Every later call does nothing. |
| GoalWizard.OnStageChange | AICompanion/Home/GoalWizard/GoalWizardView.swift:87-91 | A request goes out iff the new stage starts the continuation and the continuation has not run before. |
| GoalWizard.FinishAutoContinue | AICompanion/Home/GoalWizard/GoalWizardView.swift:458-480 | A failure shows the plan-generation error and unlocks the input at once. A reply sets the stage; a plan fetch is started iff no fetch is in flight and `GoalToFetch` names a goal, and the input then stays locked until the plan arrives. Without a fetch the input is unlocked and the continuation is over. The conversation is untouched. |
| GoalWizard.FinishAutoContinueAfterPlan | AICompanion/Home/GoalWizard/GoalWizardView.swift:468-480 | When the plan fetched by the continuation arrives, the fetch ends, the input is unlocked and the continuation is over. A fetched plan opens the start prompt. |
| GoalWizard.AutoContinueOnce | AICompanion/Home/GoalWizard/GoalWizardView.swift:448-450 | Once the continuation has run, no later stage change sends a second "ok", whatever answers and plans arrive in between. |
| GoalWizard.ContinuationKeepsInputLocked | AICompanion/Home/GoalWizard/GoalWizardView.swift:441-443 | A reply to an ordinary message that arrives during the continuation leaves the input locked. The send button then sends nothing. |
| GoalWizard.SetupInitialMessageAsWritten | AICompanion/Home/GoalWizard/GoalWizardView.swift:370-387 | On appearing with an empty conversation, a non-empty candidate is shown untrimmed and then goes through the send path. Without one, the greeting is shown. A conversation already under way is left alone. |
| GoalWizard.PaddedCandidateShownTwice | AICompanion/Home/GoalWizard/GoalWizardView.swift:374-403 | The candidate " 早睡" ends up as two user bubbles: " 早睡" and "早睡". |
| GoalWizard.BlankCandidateLeavesBlankBubble | AICompanion/Home/GoalWizard/GoalWizardView.swift:374-398 | A blank candidate leaves a blank user bubble. No greeting is shown and nothing is sent. |
| GoalWizard.SetupShowsOneMessage | AICompanion/Home/GoalWizard/GoalWizardView.swift:370-387 | Corrected version: an empty conversation gets exactly one first bubble. A request goes out iff the candidate is not blank, and the bubble is then the trimmed text that is sent. Otherwise the bubble is the greeting and nothing else changes. |
| GoalWizard.TrimmedCandidateAgrees | AICompanion/Home/GoalWizard/GoalWizardView.swift:370-387 | For a candidate that is already trimmed, the corrected and as-written set-ups agree. |
| GoalWizard.SetupRunsOnce | AICompanion/Home/GoalWizard/GoalWizardView.swift:371 | Appearing again never adds a second first message. |
| GoalWizard.ToggleInput | AICompanion/Home/GoalWizard/GoalWizardView.swift:503-510 | Toggling always changes the input mode and nothing else. |
| GoalWizard.FinishStartToday | AICompanion/Home/GoalWizard/GoalWizardView.swift:598-618 | Whether the daily-plan call succeeds or fails, the prompt closes, the spinner stops and the wizard is dismissed. Only a failure shows the assignment error. |
| GoalWizard.StartLater | AICompanion/Home/GoalWizard/GoalWizardView.swift:620-623 | Starting later closes the prompt and dismisses the wizard, changing nothing else. |
| GoalWizard.SetupInitialMessage | AICompanion/Home/GoalWizard/GoalWizardView.swift:370-371 | Corrected version: on a conversation that already has messages, nothing changes and nothing is sent. |
| GoalWizard.TapStartToday | AICompanion/Home/GoalWizard/GoalWizardView.swift:546-599 | A tap is ignored iff tasks are already being assigned (the button is disabled); otherwise only the assigning flag is raised. |
| GoalWizard.StartTodayTapsOnce | AICompanion/Home/GoalWizard/GoalWizardView.swift:546-618 | A second tap while the call is out is ignored. Once the call returns the prompt is closed and the button accepts taps again. |
| GoalOnboardingChat.DotsCount | AICompanion/Onboarding/GoalOnboardingChatView.swift:189 | The loading indicator always shows three, four or five dots. |
| GoalOnboardingChat.DotsCycle | AICompanion/Onboarding/GoalOnboardingChatView.swift:189 | The dot count repeats every three steps and changes at every step. It is three exactly at the multiples of three. |
| GoalOnboardingChat.Dots | AICompanion/Onboarding/GoalOnboardingChatView.swift:189-190 | The indicator text is only dots, as many as the count for that step. |
| GoalOnboardingChat.TickDots | AICompanion/Onboarding/GoalOnboardingChatView.swift:215-218 | A timer tick advances the dots by one step while a message is in flight. Otherwise it changes nothing, and it never touches anything else. |
| GoalOnboardingChat.SetupInitialMessage | AICompanion/Onboarding/GoalOnboardingChatView.swift:306-312 | An empty conversation gets exactly one bubble: the greeting. A conversation under way is left alone. |
| GoalOnboardingChat.GreetingOnce | AICompanion/Onboarding/GoalOnboardingChatView.swift:306-312 | The greeting opens with the user's nickname, and a second appearance adds nothing. |
| GoalOnboardingChat.StartSend | AICompanion/Onboarding/GoalOnboardingChatView.swift:321-333 | Blank input changes nothing. Without the onboarding's user id, only the missing-user error shows. Otherwise the trimmed text is always appended as a new user bubble and sent under that id, and the screen becomes busy. A bubble is added iff a request goes out. |
| GoalOnboardingChat.SendCurrentMessage | AICompanion/Onboarding/GoalOnboardingChatView.swift:314-319 | While a message or the plan is in flight, nothing happens. Otherwise the draft is emptied and its text is sent. |
| GoalOnboardingChat.NoUserNoMessage | AICompanion/Onboarding/GoalOnboardingChatView.swift:323-326 | Without a user id, no message is ever added, whatever is typed. |
| GoalOnboardingChat.CompleteIffSomeTask | AICompanion/Onboarding/GoalOnboardingChatView.swift:470-473 | The plan check "has milestones and some milestone has a task" holds iff some milestone has a task. |
| GoalOnboardingChat.PlanIsComplete | AICompanion/Onboarding/GoalOnboardingChatView.swift:471-474 | The plan check holds iff some milestone has a task, so the milestone check adds nothing. |
| GoalOnboardingChat.StartPlanFetch | AICompanion/Onboarding/GoalOnboardingChatView.swift:464-466 | While a fetch is in flight a second one requests nothing. Otherwise the in-flight flag goes up, the plan is requested for the given goal, and nothing else changes. |
| GoalOnboardingChat.FinishPlanFetch | AICompanion/Onboarding/GoalOnboardingChatView.swift:468-486 | When the plan answer arrives the in-flight flag comes down. A plan with a task is stored and moves onboarding to the plan step. A plan without any task shows the incomplete-plan error, and a failure shows the fetch error; onboarding is then unchanged. |
| GoalOnboardingChat.PlanScreenIffComplete | AICompanion/Onboarding/GoalOnboardingChatView.swift:470-477 | When the fetch returns, the chat hands over to the plan screen iff the answer is a plan in which some milestone has a task. |
| GoalOnboardingChat.TakeStage | AICompanion/Onboarding/GoalOnboardingChatView.swift:343-367 | A reply sets the mapped stage and stores its goal id in the onboarding state when it carries one. A plan fetch starts iff no fetch is in flight and `GoalToFetch` names a goal, and the goal fetched is the one now stored. A thrown answer changes nothing. Only the stage and the in-flight flag of the screen can change. |
| GoalOnboardingChat.FinishSend | AICompanion/Onboarding/GoalOnboardingChatView.swift:335-377 | A failure shows the send error. A reply sets the stage and appends the trimmed reply only when it is not blank. A plan fetch is started iff no fetch is in flight and `GoalToFetch` names a goal; the send then stays busy until the plan arrives. Otherwise the busy flag stays set iff a continuation is running. |
| GoalOnboardingChat.FinishSendAfterPlan | AICompanion/Onboarding/GoalOnboardingChatView.swift:365-377 | When the plan fetched after a reply arrives, the fetch ends with its outcome for onboarding, and then the send ends unless a continuation is running. A failure shows the fetch error and leaves onboarding alone. |
| GoalOnboardingChat.PlanFetchIffGoalComplete | AICompanion/Onboarding/GoalOnboardingChatView.swift:350-367 | A reply leads to a plan fetch exactly when no fetch is in flight, the server says the goal is complete, and a goal id is known from the reply or from the onboarding state. The id fetched is the reply's, else the stored one. |
| GoalOnboardingChat.PlanInFlightLocksInput | AICompanion/Onboarding/GoalOnboardingChatView.swift:314-367 | While the plan fetched after a reply is in flight, the send button does nothing. |
| GoalOnboardingChat.AutoContinue | AICompanion/Onboarding/GoalOnboardingChatView.swift:380-394 | The first call uses up the once-only mark before it looks at the user id. With an id it locks the input and sends "ok" under it; without one it does nothing else. Later calls do nothing. |
| GoalOnboardingChat.OnStageChange | AICompanion/Onboarding/GoalOnboardingChatView.swift:118-122 | A request goes out iff the new stage starts the continuation, the continuation has not been tried, and a user id is known. |
| GoalOnboardingChat.FinishAutoContinue | AICompanion/Onboarding/GoalOnboardingChatView.swift:396-432 | A failure shows the plan-generation error and unlocks the input at once. A reply sets the stage; a plan fetch is started iff no fetch is in flight and `GoalToFetch` names a goal, and the input then stays locked until the plan arrives. Without a fetch the input is unlocked and the continuation ends. |
| GoalOnboardingChat.FinishAutoContinueAfterPlan | AICompanion/Onboarding/GoalOnboardingChatView.swift:416-432 | When the plan fetched by the continuation arrives, the fetch ends with its outcome for onboarding, the input is unlocked and the continuation ends. |
| GoalOnboardingChat.AbortedContinuationNotRetried | AICompanion/Onboarding/GoalOnboardingChatView.swift:381-387 | A continuation dropped for want of a user id is never retried, even once the id is known. |
| GoalOnboardingChat.AutoContinueOnce | AICompanion/Onboarding/GoalOnboardingChatView.swift:381-382 | The continuation sends "ok" at most once, whatever answers and plans arrive afterwards. |
| GoalOnboardingChat.StartSkip | AICompanion/Onboarding/GoalOnboardingChatView.swift:444-450 | Skipping without a user id only shows the missing-user error. With one, it asks the server to skip for exactly that id. |
| GoalOnboardingChat.FinishSkip | AICompanion/Onboarding/GoalOnboardingChatView.swift:452-460 | A failed skip shows the skip error; a successful one leaves the screen as it is. |
| GoalOnboardingChat.ToggleInput | AICompanion/Onboarding/GoalOnboardingChatView.swift:435-442 | Toggling always changes the input mode and nothing else. |
| ChatBasics.ToggleInputMode | AICompanion/Home/GoalWizard/GoalWizardView.swift:503-510 | The toggle always switches between text and voice. |
| ChatBasics.ToggleInputModeTwice | AICompanion/Home/GoalWizard/GoalWizardView.swift:503-510 | Toggling twice gets back to the starting mode. |
| ChatBasics.OutgoingText | AICompanion/Home/GoalWizard/GoalWizardView.swift:397-398 | A draft is dropped iff it is all whitespace and newlines. Otherwise the text sent is non-empty, has no whitespace at either end, and is no longer than the draft. |
| ChatBasics.OutgoingTextStable | AICompanion/Home/GoalWizard/GoalWizardView.swift:397-398 | Trimming text that is already outgoing changes nothing. |
| ChatBasics.OutgoingTextIsInfix | AICompanion/Home/GoalWizard/GoalWizardView.swift:397-398 | The outgoing text is a contiguous piece of the draft, found by dropping its leading whitespace. |
| FiveElements.Glyph | AICompanion/Onboarding/BaziAnalysisResultView.swift:35-50 | Every element is written as a single character. |
| FiveElements.ElementNamed | AICompanion/Onboarding/BaziAnalysisResultView.swift:69-84 | A character read as an element is that element's own character. |
| FiveElements.GlyphRoundTrip | AICompanion/Onboarding/BaziAnalysisResultView.swift:35-84 | Every element is read back from its character, and no two elements share a character. |
| FiveElements.ElementForStem | AICompanion/Onboarding/BaziAnalysisResultView.swift:35-50 | A string has an element iff it is one of the ten heavenly stems. |
| FiveElements.StemsPairUp | AICompanion/Onboarding/BaziAnalysisResultView.swift:35-50 | Taken in their traditional order, the stems run through wood, fire, earth, metal and water, two stems each. |
| FiveElements.ElementForBranch | AICompanion/Onboarding/BaziAnalysisResultView.swift:52-67 | A string has an element iff it is one of the twelve earthly branches. |
| FiveElements.BranchesInOrder | AICompanion/Onboarding/BaziAnalysisResultView.swift:52-67 | Taken in traditional order, the branches carry the elements water, earth, wood, wood, earth, fire, fire, earth, metal, metal, earth, water. |
| FiveElements.NamesDistinct | AICompanion/Onboarding/BaziAnalysisResultView.swift:35-67 | Each stem and each branch appears once in its table. |
| FiveElements.StemsOf | AICompanion/Onboarding/BaziAnalysisResultView.swift:35-50 | Every element has exactly two stems, and these are the stems mapped to it. |
| FiveElements.BranchesOf | AICompanion/Onboarding/BaziAnalysisResultView.swift:52-67 | Earth has four branches and every other element two, and these are the branches mapped to it. |
| FiveElements.ColorForElement | AICompanion/Onboarding/BaziAnalysisResultView.swift:69-84 | A name gets the default text colour iff it is not an element's character. |
| FiveElements.ElementColorsDistinct | AICompanion/Onboarding/BaziAnalysisResultView.swift:69-84 | Each element has a colour of its own, and none of them is the text colour. |
| FiveElements.ColorForStem | AICompanion/Onboarding/BaziAnalysisResultView.swift:86-91 | A stem is drawn in the text colour iff it is not one of the ten stems. |
| FiveElements.ColorForBranch | AICompanion/Onboarding/BaziAnalysisResultView.swift:93-98 | A branch is drawn in the text colour iff it is not one of the twelve branches. |
| FiveElements.SameColorSameElement | AICompanion/Onboarding/BaziAnalysisResultView.swift:86-98 | A known stem and a known branch share a colour iff they belong to the same element. |
| BaziResult.PartnerName | AICompanion/Onboarding/BaziAnalysisResultView.swift:26-33 | The partner name is empty iff the day stem is missing or is not a heavenly stem. |
| BaziResult.PartnerNameNamesElement | AICompanion/Onboarding/BaziAnalysisResultView.swift:30-33 | For a known day stem, the partner name is two characters: the stem's element, then "宝". |
| BaziResult.Pillars | AICompanion/Onboarding/BaziAnalysisResultView.swift:115-120 | Four pillars are drawn, and the third is the day pillar. |
| BaziResult.CharacterIndex | AICompanion/Onboarding/BaziAnalysisResultView.swift:125-126 | Every character of the chart gets an animation position from 0 to 7. |
| BaziResult.CharacterIndexBijective | AICompanion/Onboarding/BaziAnalysisResultView.swift:100-126 | The eight characters get the eight positions, one each, so the stagger never repeats a delay. |
| BaziResult.CharacterColors | AICompanion/Onboarding/BaziAnalysisResultView.swift:123-144 | The character at each position is drawn in its stem's or its branch's colour. |
| BaziResult.KnownChartFullyColored | AICompanion/Onboarding/BaziAnalysisResultView.swift:123-144 | A chart whose stems and branches are all known draws no character in the text colour. |
| KycIntro.PartnerName | AICompanion/Onboarding/KYCIntroView.swift:27-30 | The partner is called "伙伴" iff the day stem is missing or unknown. |
| KycIntro.PartnerNamesAgree | AICompanion/Onboarding/KYCIntroView.swift:27-30 | The intro never leaves the name empty. It names the partner as the analysis screen does wherever that screen shows a name, and uses "伙伴" where that screen shows nothing. |
| KycIntro.FirstLine | AICompanion/Onboarding/KYCIntroView.swift:55 | The first line opens with the fixed greeting up to the opening corner bracket "「" and closes with "」", so the partner's name sits between them. |
| KycIntro.FirstLineNamesPartner | AICompanion/Onboarding/KYCIntroView.swift:55 | The first line ends with the partner's name between corner brackets. |
| KycIntro.Confirm | AICompanion/Onboarding/KYCIntroView.swift:135-138 | Confirming starts the personality review at its first trait and changes nothing else in onboarding. |
| HomeHeader.Greeting | AICompanion/Home/Components/HomeHeaderView.swift:118-130 | The greeting is always one of the four greetings. |
| HomeHeader.GreetingBuckets | AICompanion/Home/Components/HomeHeaderView.swift:118-130 | The hours 5 to 11 get the morning greeting, 12 and 13 the noon greeting, and 14 to 17 the afternoon greeting. Every other hour, including hours outside 0 to 23, gets the evening greeting. Each holds in both directions. |
| HomeHeader.FormattedSolarDate | AICompanion/Home/Components/HomeHeaderView.swift:138-149 | An unreadable date is shown as it came. A readable one is at least nine characters long and ends with "日". |
| HomeHeader.FormattedSolarDateReadsBack | AICompanion/Home/Components/HomeHeaderView.swift:138-149 | A readable date is shown as text that reads back, piece by piece, to the same year, month and day. The older screen's copy of this function (HomeDailyTasksView.swift) is the same. |
| HomeHeader.EarlyYearIsPadded | AICompanion/Home/Components/HomeHeaderView.swift:146-148 | The `yyyy` field pads the year to four digits while `M` and `d` do not pad: year 25, January 5 shows as "0025年1月5日". |
| HomeHeader.NormalizeCommas | AICompanion/Home/Components/HomeHeaderView.swift:92 | Each full-width comma becomes an ASCII comma; every other character and the length are kept. |
| HomeHeader.TrimEach | AICompanion/Home/Components/HomeHeaderView.swift:94 | Each piece loses its surrounding spaces and tabs, and the pieces keep their order. |
| HomeHeader.PiecesHaveNoComma | AICompanion/Home/Components/HomeHeaderView.swift:91-93 | After the split, no piece holds a comma of either kind. |
| HomeHeader.FortuneItemsWellFormed | AICompanion/Home/Components/HomeHeaderView.swift:91-95 | Every line shown is non-empty, has no space or tab at either end, and has no comma of either kind. |
| HomeHeader.FortuneItemsAtComma | AICompanion/Home/Components/HomeHeaderView.swift:91-95 | A comma of either kind splits the value into the lines of its left side followed by the lines of its right side. |
| HomeHeader.FortuneSingleItem | AICompanion/Home/Components/HomeHeaderView.swift:91-95 | A value without commas that is not blank is one line: the value with its spaces trimmed. |
| HomeHeader.BlankFortuneHasNoItems | AICompanion/Home/Components/HomeHeaderView.swift:91-95 | A blank value shows no lines. |
| HomeHeader.FortuneColumns | AICompanion/Home/Components/HomeHeaderView.swift:47-57 | There is one column for each of colour, food and direction that is present. |
| HomeHeader.ShowsFortuneIffColumns | AICompanion/Home/Components/HomeHeaderView.swift:45-57 | The guide shows fortune data iff there is at least one column to show; otherwise it shows the fetch button. |
| HomeHeader.ShowsFortune | AICompanion/Home/Components/HomeHeaderView.swift:45 | Fortune data is shown only when there is a fortune, and always when that fortune has a colour. |
| HomeHeader.FortuneItems | AICompanion/Home/Components/HomeHeaderView.swift:91-95 | No line shown for a fortune value is empty. |
| DailyTasks.FetchCalendarAndPlanAsWritten | AICompanion/Home/HomeDailyTasksViewModel.swift:48-74 | With a user id, the load always ends with the loading flag down. Without one, the flag stays up, the missing-account error is set, and the plan is unchanged. |
| DailyTasks.NoUserKeepsSplash | AICompanion/Home/HomeDailyTasksViewModel.swift:40-74 | Without a user id the splash never goes away, even after the screen reappears and retries. |
| DailyTasks.FetchCalendarAndPlan | AICompanion/Home/HomeDailyTasksViewModel.swift:48-74 | Corrected version: the flag always ends down. The error is absent iff the calendar arrived, a user id is known and the plan arrived. Otherwise the error names the failure that happened last. The calendar and the plan are replaced exactly when they arrived. |
| DailyTasks.CorrectedLoadAgreesWithUser | AICompanion/Home/HomeDailyTasksViewModel.swift:48-74 | With a user id, the corrected load is the load as written. |
| DailyTasks.LoadInitialDataIfNeeded | AICompanion/Home/HomeDailyTasksViewModel.swift:40-46 | After the call nothing is loading. A screen that has finished loading is left as it is. |
| DailyTasks.InitialLoadRunsOnce | AICompanion/Home/HomeDailyTasksViewModel.swift:40-46 | Once loaded, reappearing does not load again, whatever the server would answer. |
| DailyTasks.RequestFor | AICompanion/Home/HomeDailyTasksView.swift:284-297 | Only a postpone carries a date, and that date is tomorrow. The server reads the request back as the action that was tapped. |
| DailyTasks.RequestNamesDistinct | AICompanion/Home/HomeDailyTasksView.swift:286-297 | Different actions send different names. |
| DailyTasks.StartAction | AICompanion/Home/HomeDailyTasksView.swift:271-281 | While an update is in flight, every action is ignored. Otherwise a request goes out iff the action is not a postpone of a daily or weekday task. It is that action's request, and it raises the flag and clears the error. A refused postpone only sets the no-postpone error. |
| DailyTasks.FinishAction | AICompanion/Home/HomeDailyTasksView.swift:309-314 | The flag always comes down. A failure reports the update error; a success keeps whatever error was there. |
| DailyTasks.OneActionAtATime | AICompanion/Home/HomeDailyTasksView.swift:272-314 | While one action is in flight, every other is ignored. After it ends, success or not, the next action is accepted unless it is a refused postpone. |
| DailyTasks.RepeatingNeverPostponed | AICompanion/Home/HomeDailyTasksView.swift:274-277 | No request sent for a daily or weekday task is a postpone or carries a new date. |
| HomeDailyTasks.Init | AICompanion/Home/HomeDailyTasksViewModel.swift:6-23 | A fresh model keeps the user id, is loading today's data, has no goal plans and no load in flight. |
| HomeDailyTasks.ActiveGoalPlans | AICompanion/Home/HomeDailyTasksViewModel.swift:36-38 | The plans listed are exactly the plans whose status is "active", in their original order. |
| HomeDailyTasks.ActiveGoalIds | AICompanion/Home/HomeDailyTasksViewModel.swift:28 | An id is active iff some plan with that id has status "active". |
| HomeDailyTasks.VisibleTasksMembership | AICompanion/Home/HomeDailyTasksViewModel.swift:26-33 | A task is listed iff it is in today's plan, its status is "planned" or "in_progress", and some active plan has its goal id. |
| HomeDailyTasks.VisibleTasksInOrder | AICompanion/Home/HomeDailyTasksViewModel.swift:29-32 | The listed tasks keep the order of today's plan. |
| HomeDailyTasks.NothingVisibleWithoutActiveGoal | AICompanion/Home/HomeDailyTasksViewModel.swift:26-33 | Without a plan, or without any active goal, nothing is listed. |
| HomeDailyTasks.StartGoalPlanLoad | AICompanion/Home/HomeDailyTasksViewModel.swift:76-87 | A fetch starts iff no load is running, no plans are held and a user id is known. A running load or held plans change nothing. A missing user id only sets the missing-account error. |
| HomeDailyTasks.FinishGoalPlanLoad | AICompanion/Home/HomeDailyTasksViewModel.swift:88-96 | The flag comes down. The plans received replace the old ones; a failure only sets the error. |
| HomeDailyTasks.GoalPlansLoadOnce | AICompanion/Home/HomeDailyTasksViewModel.swift:76-96 | A load in flight is never doubled. Non-empty plans, once received, are not fetched again. A failed load can be retried. |
| HomeDailyTasks.StartFortuneLoad | AICompanion/Home/HomeDailyTasksViewModel.swift:99-108 | A fetch starts iff no fortune load is running and a user id is known. A missing id only sets the missing-account error. |
| HomeDailyTasks.FinishFortuneLoad | AICompanion/Home/HomeDailyTasksViewModel.swift:110-118 | The flag comes down. The fortune received replaces the old one; a failure only sets the error. |
| HomeDailyTasks.FortuneFetchedAgain | AICompanion/Home/HomeDailyTasksViewModel.swift:99-118 | A fortune load in flight is never doubled, but a fortune already received is fetched again on the next request. |
| HomeDailyTasks.ReloadPlanOnly | AICompanion/Home/HomeDailyTasksViewModel.swift:121-130 | A plan that arrives replaces today's plan. Without a user id, or on failure, nothing changes. |
| HomeDailyTasks.ReloadListsNewPlan | AICompanion/Home/HomeDailyTasksViewModel.swift:121-130 | After a reload, a task is listed iff it is among the fetched tasks, it is still open, and its goal is active in the new goal plans. |
| HomeDailyTasks.HandleAction | AICompanion/Home/HomeDailyTasksView.swift:271-299 | Starting an action never touches the model or the celebration. A request goes out iff the gate lets the action through, and it is sent with the task's execution id. |
| HomeDailyTasks.FinishHomeAction | AICompanion/Home/HomeDailyTasksView.swift:299-314 | The flag comes down. A successful update reloads the plan; a failure leaves the model and sets the update error. |
| HomeDailyTasks.CelebrationOnlyAfterCompletion | AICompanion/Home/HomeDailyTasksView.swift:301-306 | The celebration appears iff the update succeeded and the action was a completion. |
| HomeDailyTasks.VisibleTasks | AICompanion/Home/HomeDailyTasksViewModel.swift:26-33 | Without a plan nothing is listed. With one, at most the plan's tasks are listed, and each is open and of an active goal. |
| DailyTasks.AfterCalendar | AICompanion/Home/HomeDailyTasksViewModel.swift:48-58 | After the calendar step the flag is up and the plan untouched. The error is clear iff the calendar arrived; the calendar is replaced iff it arrived. |
| DailyTasks.AfterPlan | AICompanion/Home/HomeDailyTasksViewModel.swift:60-73 | After the plan step the flag is down and the calendar untouched. An arrived plan replaces the old one and keeps the error; a failure keeps the old plan and sets the plan error. |
| DailyTasks.LoadInitialDataAsWritten | AICompanion/Home/HomeDailyTasksViewModel.swift:40-74 | As written: when not loading nothing happens. Otherwise the flag ends up iff there is no user id. |
| LegacyHome.LegacyVisibleTasks | AICompanion/HomeDailyTasksView.swift:18-23 | Without a plan nothing is listed. Otherwise a task is listed iff it is in the plan with status "planned" or "in_progress", and the list keeps the plan's order. |
| LegacyHome.AllOpenAllListed | AICompanion/HomeDailyTasksView.swift:18-23 | A plan whose tasks are all open is listed in full. |
| LegacyHome.TabbedScreenNarrowsLegacy | AICompanion/HomeDailyTasksView.swift:18-23 | The tabbed screen lists the older screen's tasks narrowed to active goals: the same tasks, in the same order, minus those of other goals. |
| LegacyHome.PriorityColor | AICompanion/HomeDailyTasksView.swift:435-444 | A task icon is red iff the priority is "high" and black iff it is "medium". Every other priority is gray. |
| LegacyHome.PriorityOptionsDistinctColors | AICompanion/HomeDailyTasksView.swift:435-444 | The three priorities a task can be edited to get three different colours. An unknown priority looks like "low". |
| LegacyHome.DaysUntil | AICompanion/HomeDailyTasksView.swift:459-475 | The difference is known iff both dates can be read, and it is then the target's day number minus the base's. |
| LegacyHome.NextTermLabel | AICompanion/HomeDailyTasksView.swift:137-144 | The next-term line always starts with "下一个节气：" and the term's name. |
| LegacyHome.NextTermLabelCounts | AICompanion/HomeDailyTasksView.swift:137-144 | The line counts the days left iff the difference is known and positive. Otherwise it reads "today". |
| LegacyHome.NextTermLabelReadsBack | AICompanion/HomeDailyTasksView.swift:137-144 | The number shown between "还有" and "天" reads back to the day difference when that is known and positive. Otherwise the line shows no count. |
| LegacyHome.LegacyReloadPlanOnly | AICompanion/HomeDailyTasksView.swift:374-383 | Without a user id nothing changes. Otherwise a plan that arrives replaces today's plan, and a failure sets the reload error on the action line. The loading flag, the calendar and the update flag are never touched. |
| LegacyHome.LegacyFinishAction | AICompanion/HomeDailyTasksView.swift:420-430 | The update flag comes down. A failure leaves today's data and sets the update error; a success reloads the plan. |
| LegacyHome.LegacyErrorAfterSuccess | AICompanion/HomeDailyTasksView.swift:401-430 | After a successful update, the error line is empty unless the reload failed, in which case it shows the reload error. |
| TaskCard.Press | AICompanion/Home/TaskExecutionCardView.swift:36-58 | The card emits a postpone iff the postpone button is pressed on a task that is not daily or weekday. Delete and complete go to the screen's confirmation when it supplies one, and are emitted as cancel and complete otherwise. |
| TaskCard.CardActionsAreAccepted | AICompanion/Home/TaskExecutionCardView.swift:36-58 | Whatever the card emits is sent to the server whenever no other update is in flight. The handler's own postpone refusal never fires for a press on the card. |
| WeeklyCalendar.DaysFromMonday | AICompanion/Home/DailyTasks/DailyTasksPageView.swift:99-101 | Today's offset from Monday is always a valid column, 0 to 6. |
| WeeklyCalendar.DaysFromMondayBijective | AICompanion/Home/DailyTasks/DailyTasksPageView.swift:100-101 | Monday is column 0 and Sunday column 6, and no two weekdays share a column. |
| WeeklyCalendar.ColumnWeekdayInverse | AICompanion/Home/DailyTasks/DailyTasksPageView.swift:56-101 | Each column belongs to exactly one weekday: the column's weekday maps back to the column, and each weekday's column maps back to the weekday. |
| WeeklyCalendar.ColumnsRunMondayToSunday | AICompanion/Home/DailyTasks/DailyTasksPageView.swift:56-104 | Column i shows a day that falls on the i-th weekday counted from Monday, matching its heading. |
| WeeklyCalendar.DayInfoForIndex | AICompanion/Home/DailyTasks/DailyTasksPageView.swift:96-152 | The circle shows the day of the month of the column's date. The column is today iff its date is today, and today alone gets the primary fill. The number is white iff the fill is not the card white. |
| WeeklyCalendar.TodayColumn | AICompanion/Home/DailyTasks/DailyTasksPageView.swift:101-109 | Exactly one column is today: the one at today's offset from Monday. |
| WeeklyCalendar.FutureDaysUncoloured | AICompanion/Home/DailyTasks/DailyTasksPageView.swift:126-129 | Days after today are white, whatever their records say. |
| WeeklyCalendar.PastDayColours | AICompanion/Home/DailyTasks/DailyTasksPageView.swift:116-144 | A past day is white iff no record carries its date. It is green iff its first record's rate is at least 1, and red iff that rate is below 1. |
| TaskGrouping.BeforeTotal | AICompanion/Home/DailyTasks/TaskForTodayView.swift:188 | The title order used for sorting relates any two different titles one way round and never both. |
| TaskGrouping.BeforeTransitive | AICompanion/Home/DailyTasks/TaskForTodayView.swift:188 | The title order is transitive. |
| TaskGrouping.GroupsCoverGoals | AICompanion/Home/DailyTasks/TaskForTodayView.swift:180-182 | There is one group for each goal that has a task today, and no other. |
| TaskGrouping.GroupsAreGroupOf | AICompanion/Home/DailyTasks/TaskForTodayView.swift:180-186 | Each group holds exactly its goal's tasks in plan order. Its title is the first task's goal title, or "未命名目标". |
| TaskGrouping.GroupsDistinct | AICompanion/Home/DailyTasks/TaskForTodayView.swift:180-182 | No goal has two groups. |
| TaskGrouping.GroupsTotal | AICompanion/Home/DailyTasks/TaskForTodayView.swift:180-182 | Together the groups hold as many tasks as the plan, so each task sits in exactly one group. |
| TaskGrouping.SortFacts | AICompanion/Home/DailyTasks/TaskForTodayView.swift:188 | Sorting keeps exactly the same groups and tasks, and the titles never decrease down the page. |
| TaskGrouping.GoalGroupsWellFormed | AICompanion/Home/DailyTasks/TaskForTodayView.swift:179-189 | The page shows one card per goal with a task today, and no goal twice. Each card holds exactly its goal's tasks, in plan order, under its first task's goal title or the placeholder. All cards together hold every task once, and titles never decrease down the page. |
| TaskGrouping.EachTaskInItsGoalsCard | AICompanion/Home/DailyTasks/TaskForTodayView.swift:179-189 | A task sits in a card iff the card is its goal's, and each card lists its tasks in the plan's order. |
| TaskGrouping.StartLoad | AICompanion/Home/DailyTasks/TaskForTodayView.swift:156-163 | Only a loading page starts a fetch, and then iff a user id is known. Without one, the page stops loading and shows the missing-account error. |
| TaskGrouping.FinishLoad | AICompanion/Home/DailyTasks/TaskForTodayView.swift:165-176 | Loading always ends. The error is absent iff the plan arrived, and the plan is replaced only when it arrived. |
| TaskGrouping.Retry | AICompanion/Home/DailyTasks/TaskForTodayView.swift:101-104 | The retry button fetches again iff a user id is known, from a loading page with no error. Without an id it ends at the missing-account error. |
| TaskGrouping.LoadsUntilDone | AICompanion/Home/DailyTasks/TaskForTodayView.swift:101-176 | Once the page has loaded or given up, it never loads again by itself. The retry button always fetches again when a user id is known. |
| WeeklyCalendar.ColumnWeekday | AICompanion/Home/DailyTasks/DailyTasksPageView.swift:99-101 | Every column 0 to 6 stands for a weekday 1 to 7 in the calendar's numbering. |
| TaskGrouping.GoalGroups | AICompanion/Home/DailyTasks/TaskForTodayView.swift:179-189 | The cards have distinct goals, come in non-decreasing title order, and hold as many tasks together as the plan has. |
| TaskCard.CanPostpone | AICompanion/Home/TaskExecutionCardView.swift:52 | Daily and weekday tasks cannot be postponed; once, weekly and monthly tasks can. |
| AuthManager.SaveTokens | AICompanion/Services/AuthManager.swift:54-65 | After a save, a token is stored and the session is authenticated. Both tokens are the ones given, and the expiry is now plus the lifetime. The user and the user-derived flags are kept. |
| AuthManager.ClearTokens | AICompanion/Services/AuthManager.swift:68-88 | Clearing forgets the tokens, the expiry, the user and every flag derived from them. Nothing stays stored, and the loading flag and the error are untouched. |
| AuthManager.UpdateUserState | AICompanion/Services/AuthManager.swift:91-96 | The user is stored, and the guest and onboarding flags become the user's. The tokens and the authenticated flag are untouched. |
| AuthManager.RefreshAccessToken | AICompanion/Services/AuthManager.swift:101-120 | Without a refresh token, or when the refresh fails, the session ends cleared. A successful refresh stores the new pair with its new expiry and authenticates. |
| AuthManager.GetAccessToken | AICompanion/Services/AuthManager.swift:37-44 | A token not yet within the refresh margin is handed out as stored, with nothing changed. Otherwise a refresh runs first. The token handed out is always the one stored afterwards. |
| AuthManager.RefreshWindow | AICompanion/Services/AuthManager.swift:38-39 | A token is refreshed iff the time is within 60 seconds of its expiry or later. |
| AuthManager.FailedRefreshHandsOutNothing | AICompanion/Services/AuthManager.swift:37-119 | A failed refresh hands out no token and leaves nothing stored. |
| AuthManager.FetchCurrentUser | AICompanion/Services/AuthManager.swift:123-140 | Loading always ends. The fetch succeeds iff a token can be had and the server returns a user, and that user is then stored with no error. Without a token it fails with the error cleared; when the server refuses, its message is kept as the auth error. |
| AuthManager.Logout | AICompanion/Services/AuthManager.swift:143-153 | Whatever the server says, logout ends with a cleared session and nothing stored. |
| AuthManager.ClearForgetsSave | AICompanion/Services/AuthManager.swift:54-88 | Clearing twice is clearing once, and clearing after a save forgets everything the save stored. |
| AuthManager.NeedsRefresh | AICompanion/Services/AuthManager.swift:39 | A refresh is due iff there is an expiry and at most 60 seconds are left before it; without an expiry never. |
| AuthManager.HasStoredToken | AICompanion/Services/AuthManager.swift:47-49 | A stored access token always counts, even one that is due for a refresh; without one, the session counts as stored iff a refresh token is kept. SaveTokens always leaves a stored token and ClearTokens never does. |
| OnboardingState.WhitespaceIsNotNicknameChar | AICompanion/Onboarding/OnboardingState.swift:273-280 | No whitespace or newline character belongs to the nickname class (Han characters and ASCII letters). |
| OnboardingState.NicknameGuard | AICompanion/Onboarding/OnboardingState.swift:269-275 | The empty value and values over the maximum length are rejected, and every value the intended rule accepts passes the check as written. |
| OnboardingState.TrailingNewlineAccepted | AICompanion/Onboarding/OnboardingState.swift:269-275 | "ab" followed by a newline passes the check as written, though the intended rule rejects it. |
| OnboardingState.AsWrittenDiffersOnlyAtLineBreak | AICompanion/Onboarding/OnboardingState.swift:273-274 | The check as written and the intended rule disagree only on values that end in a line terminator. |
| OnboardingState.SanitizeNickname | AICompanion/Onboarding/OnboardingState.swift:277-288 | The sanitised nickname is at most 12 characters, each a Han character or an ASCII letter. |
| OnboardingState.SanitizeKeepsFirstNicknameChars | AICompanion/Onboarding/OnboardingState.swift:277-288 | The sanitised nickname is the first 12 nickname characters of the input, in order. The trim removes nothing the filter would keep. |
| OnboardingState.SanitizeIsSubsequence | AICompanion/Onboarding/OnboardingState.swift:277-288 | The sanitiser only deletes characters; it never adds or reorders them. |
| OnboardingState.SanitizeGivesValidOrEmpty | AICompanion/Onboarding/OnboardingState.swift:265-288 | Whatever the input, the sanitised nickname is empty or valid. |
| OnboardingState.ValidIffSanitizeFixes | AICompanion/Onboarding/OnboardingState.swift:269-288 | Under the intended rule, a nickname is valid iff it is non-empty and the sanitiser leaves it unchanged. |
| OnboardingState.SanitizeIdempotent | AICompanion/Onboarding/OnboardingState.swift:277-288 | Sanitising twice changes nothing more. |
| OnboardingState.InitializeFromAuthState | AICompanion/Onboarding/OnboardingState.swift:94-156 | With no stored token, onboarding starts fresh on the intro with the login option, and the session is untouched. A failed user lookup also starts fresh, with the session cleared. A found user sets the onboarding user id and nickname and routes to the user's screen. The login option is dropped only for a signed-in user who has not finished onboarding. |
| OnboardingState.RoutingTable | AICompanion/Onboarding/OnboardingState.swift:120-148 | With a valid token, a guest goes to login and an unfinished user to the intro without the login option. A finished user goes home with subscription access and to the paywall without it. The token stays stored. |
| OnboardingState.FailedLookupStartsFresh | AICompanion/Onboarding/OnboardingState.swift:149-155 | Every failed user lookup ends on the intro with the login option and no stored token. |
| OnboardingState.NoLoginOptionMeansIncompleteUser | AICompanion/Onboarding/OnboardingState.swift:126-132 | The intro without the login option is reached only by a non-guest who has not finished onboarding. |
| OnboardingState.RequestFor | AICompanion/Onboarding/OnboardingState.swift:192-214 | A request is built iff a city is selected, and it carries that city's id, the nickname and the gender. |
| OnboardingState.SubmitOnboarding | AICompanion/Onboarding/OnboardingState.swift:185-251 | Without a city nothing changes. Otherwise submitting always ends and never moves the step. A failure records its message and leaves the session alone. A success records the user id, clears the error, loads the traits (empty when absent) and restarts the personality review with no ratings, and no other onboarding field changes. |
| OnboardingState.SubmitStoresTokensWhenComplete | AICompanion/Onboarding/OnboardingState.swift:225-235 | Tokens are saved after a submit iff the response carries all three parts: access token, refresh token and lifetime. Otherwise the session is unchanged. |
| OnboardingState.RetryAfterFailureClearsError | AICompanion/Onboarding/OnboardingState.swift:198-247 | A failed submit keeps what an earlier success recorded, and a later success clears the error. |
| OnboardingState.IsHan | AICompanion/Onboarding/OnboardingState.swift:273 | Every CJK unified ideograph is Han. Every Han character lies between U+2E80 and U+323AF and is neither an ASCII letter nor white space. |
| OnboardingState.IsNicknameChar | AICompanion/Onboarding/OnboardingState.swift:271-273 | Every ASCII letter is in the nickname class. No space, line break or digit is. |
| OnboardingState.IsValidNickname | AICompanion/Onboarding/OnboardingState.swift:269-275 | Intended rule: a valid nickname has 1 to max characters, starts and ends with a non-space, and holds no line terminator. |
| OnboardingState.MatchesNicknamePattern | AICompanion/Onboarding/OnboardingState.swift:273-274 | The pattern matches everything the intended rule accepts. Whatever it matches is non-empty, and either valid by the intended rule or ending in a line terminator. |
| OnboardingState.IsValidNicknameAsWritten | AICompanion/Onboarding/OnboardingState.swift:269-275 | A value the check accepts has 1 to max characters, and its first character is a Han character or a letter. |
| OnboardingState.ScreenForUser | AICompanion/Onboarding/OnboardingState.swift:120-148 | A guest goes to login, a user who has not finished onboarding to the intro, a finished user with access to home, and one without access to the paywall; each screen only in its own case. |
| OnboardingState.StartFresh | AICompanion/Onboarding/OnboardingState.swift:110-116 | Starting fresh shows the intro with the login option and changes nothing else. |
| PersonalityReview.CurrentIndex | AICompanion/Onboarding/KYCPersonalityReviewView.swift:18-21 | The trait on screen is at 0 for an empty list, and otherwise inside the list. A stored cursor inside the list is kept as it is. A negative cursor shows the first trait and one past the end shows the last. |
| PersonalityReview.CurrentIndexIdempotent | AICompanion/Onboarding/KYCPersonalityReviewView.swift:18-21 | Clamping a clamped cursor changes nothing. |
| PersonalityReview.CurrentTrait | AICompanion/Onboarding/KYCPersonalityReviewView.swift:23-26 | There is a trait on screen iff the list is non-empty, and it is one of the user's traits. |
| PersonalityReview.SelectedRating | AICompanion/Onboarding/KYCPersonalityReviewView.swift:28-31 | A rating is shown only when a trait is on screen and that trait has been rated. |
| PersonalityReview.ProgressCounts | AICompanion/Onboarding/KYCPersonalityReviewView.swift:33-36 | The counter's total is the number of traits. The position is 0 for an empty list, and otherwise runs from 1 to the total. |
| PersonalityReview.ProgressTextReadsBack | AICompanion/Onboarding/KYCPersonalityReviewView.swift:33-36 | The counter text splits at its slash into two decimal numbers: the position and the total. |
| PersonalityReview.ProgressFraction | AICompanion/Onboarding/KYCPersonalityReviewView.swift:114-165 | The bar is never empty and never more than full. It is full iff the last trait is on screen. |
| PersonalityReview.PrimaryButtonTitle | AICompanion/Onboarding/KYCPersonalityReviewView.swift:38-44 | The button reads "完成" iff the last trait is on screen. |
| PersonalityReview.IsLastTrait | AICompanion/Onboarding/KYCPersonalityReviewView.swift:38-40 | The last trait is on screen iff there is a trait and the cursor is at or past the end of the list, or the list has one trait, since a cursor out of range is clamped. |
| PersonalityReview.SetRating | AICompanion/Onboarding/KYCPersonalityReviewView.swift:46-49 | With no traits, nothing changes. Otherwise the trait on screen gets the new rating, replacing any earlier one, and the screen shows it. |
| PersonalityReview.SetRatingIsLocal | AICompanion/Onboarding/KYCPersonalityReviewView.swift:46-49 | Rating one trait leaves every other trait's rating, and whether it has one, as it was. |
| PersonalityReview.FeedbackFlag | AICompanion/Onboarding/KYCPersonalityReviewView.swift:67-78 | Each rating is sent as one of "not_accurate", "somewhat_accurate" and "accurate". |
| PersonalityReview.FeedbackFlagRoundTrip | AICompanion/Onboarding/KYCPersonalityReviewView.swift:67-78 | The server can read each rating back from its flag, so no two ratings share a flag. |
| PersonalityReview.TraitFeedbacks | AICompanion/Onboarding/KYCPersonalityReviewView.swift:67-78 | One feedback entry is sent per rated trait, for exactly the rated traits. |
| PersonalityReview.TraitFeedbacksRoundTrip | AICompanion/Onboarding/KYCPersonalityReviewView.swift:67-78 | The server can recover every rating from the feedback entries. |
| PersonalityReview.FeedbackRequestFor | AICompanion/Onboarding/KYCPersonalityReviewView.swift:61-80 | Feedback is sent iff a user id is known. The request carries that id and one entry per rated trait. |
| PersonalityReview.HandlePrimaryAction | AICompanion/Onboarding/KYCPersonalityReviewView.swift:51-92 | With no traits nothing happens. Before the last trait, the button advances the cursor by one. On the last trait it sends the feedback, and the flow moves to the KYC chat iff a user id is known and the server accepts. Nothing else changes. |
| PersonalityReview.PressesReachLastTrait | AICompanion/Onboarding/KYCPersonalityReviewView.swift:51-59 | From any position in the list, count - 1 - i presses reach the last trait, and the ratings are kept. |
| PersonalityReview.ProgressText | AICompanion/Onboarding/KYCPersonalityReviewView.swift:33-36 | The counter ends with "/" and then the number of traits. |
| PersonalityReview.ParseFeedbackFlag | AICompanion/Onboarding/KYCPersonalityReviewView.swift:67-78 | A flag that is read back gives a rating whose flag is that same string. Exactly the three flags are read. |
| PersonalityReview.Press | AICompanion/Onboarding/KYCPersonalityReviewView.swift:51-59 | Pressing the button with every submit rejected never moves back and keeps the traits and ratings. |
| Login.KeepDigits | AICompanion/Onboarding/LoginView.swift:92-115 | The field keeps no more characters than its limit, and all of them are digits. |
| Login.KeepDigitsIsSubsequence | AICompanion/Onboarding/LoginView.swift:92-115 | The filter only deletes typed characters. It never adds or reorders them. |
| Login.KeepDigitsFixesDigits | AICompanion/Onboarding/LoginView.swift:92-115 | A value passes the filter unchanged iff it is all digits and within the limit. Filtering twice is the same as filtering once. |
| Login.EditPhone | AICompanion/Onboarding/LoginView.swift:91-93 | After typing, the phone field holds at most eleven digits. Nothing else on the screen changes. |
| Login.EditCode | AICompanion/Onboarding/LoginView.swift:114-116 | After typing, the code field holds at most six digits. Nothing else on the screen changes. |
| Login.TypedPhoneValidity | AICompanion/Onboarding/LoginView.swift:227-230 | A typed phone number is valid iff the digits typed number at least eleven and the first of them is 1. |
| Login.StartCountdown | AICompanion/Onboarding/LoginView.swift:307-309 | Starting the countdown sets the counter to the given seconds and runs the timer. |
| Login.Tick | AICompanion/Onboarding/LoginView.swift:310-316 | A timer firing takes one off a positive counter. At zero it stops the timer and changes nothing else. |
| Login.CountdownAfterTicks | AICompanion/Onboarding/LoginView.swift:307-316 | After n firings, a counter that started at c >= 0 shows max(c - n, 0). A negative counter never moves. Only the counter and the timer flag ever change. |
| Login.SendSms | AICompanion/Onboarding/LoginView.swift:238-264 | An invalid phone sends nothing. On success the code field appears and a 60-second countdown starts. A refusal with a retry delay shows the message, shows the code field and counts down that delay. A refusal without one, or a thrown error, only shows the message. Loading always ends. |
| Login.ResendLockedForSixtySeconds | AICompanion/Onboarding/LoginView.swift:247-316 | After a successful send, the resend button stays disabled for exactly the first 60 timer firings. |
| Login.VerifyCode | AICompanion/Onboarding/LoginView.swift:266-305 | Nothing happens unless the phone is valid and the code has six digits. Otherwise loading ends and one verify request goes out with the typed phone and code. It carries the token `getAccessToken` hands out iff the user is a guest binding a stored session, and no token otherwise. On success the new tokens are saved, the user id and nickname are stored and `onLoginSuccess` gets the new-user flag. On failure the error is shown, onboarding is unchanged, and the session is what the token lookup left: unchanged for a plain sign-in, cleared when a binding guest's refresh failed. |
| Login.BindingSendsSessionToken | AICompanion/Onboarding/LoginView.swift:276-283 | Only a binding guest sends a token. A token not yet due for a refresh is sent as stored. When the refresh is due and fails, the request goes out with no token, and if the verify then fails the guest is left with no stored session. A plain sign-in that fails leaves the session as it was. |
| Login.VerifyImpliesSendable | AICompanion/Onboarding/LoginView.swift:163-234 | Whenever the verify button is enabled, sending for the same number would be enabled too. |
| Login.IsPhoneValid | AICompanion/Onboarding/LoginView.swift:227-230 | A phone number is valid iff it has 11 characters and begins with "1". |
| Login.CanVerify | AICompanion/Onboarding/LoginView.swift:232-234 | Verifying needs a valid phone number; a code that is not 6 characters long never verifies. |
| Login.SendEnabled | AICompanion/Onboarding/LoginView.swift:187 | The send button is off while loading, and when on, the number has 11 characters. |
| Login.VerifyEnabled | AICompanion/Onboarding/LoginView.swift:163 | When verifying is enabled, sending is enabled too and the code has 6 characters. |
| Login.ResendEnabled | AICompanion/Onboarding/LoginView.swift:123 | The resend button is on iff the countdown has run out and nothing is loading. |
| Login.Title | AICompanion/Onboarding/LoginView.swift:52 | The title is "绑定手机号" iff a guest with a stored token is binding a phone; a signed-out user always sees "登录/注册". |
| Login.IsGuestBinding | AICompanion/Onboarding/LoginView.swift:24-26 | The screen binds a phone only for a guest. A guest holding an access token is always binding, and without any stored token nobody is. |
| KycChat.History | AICompanion/Onboarding/KYCChatView.swift:258-261 | The history has one entry per bubble, in order, with the same text. An entry has the user role iff its bubble is the user's. |
| KycChat.HistoryRoundTrip | AICompanion/Onboarding/KYCChatView.swift:258-261 | The server can rebuild the whole conversation from the history. |
| KycChat.StartSend | AICompanion/Onboarding/KYCChatView.swift:244-263 | Blank input does nothing. Without a user id only the "缺少用户信息" error is shown. Otherwise the trimmed text is appended as a user bubble, the draft is cleared, sending starts, and the request carries the user id, the text and the history including the new bubble. |
| KycChat.RequestHistoryEndsWithNewMessage | AICompanion/Onboarding/KYCChatView.swift:253-263 | The request's history is the earlier conversation followed by the new message in the user role. |
| KycChat.FinishSend | AICompanion/Onboarding/KYCChatView.swift:265-279 | Sending always ends. A reply is appended as an assistant bubble. A failure shows "发送失败" and adds no bubble. Onboarding moves to the KYC end screen iff the status is "完成" or the server reports KYC complete. Nothing else in onboarding changes. |
| KycChat.ExchangeAddsTwoBubbles | AICompanion/Onboarding/KYCChatView.swift:244-279 | A full exchange adds exactly two bubbles: the user's trimmed message, then the reply. |
| KycChat.LocationUpdateFor | AICompanion/Onboarding/KYCChatView.swift:177-222 | The profile update always carries the user id. A found city is sent with its coordinates. A refusal is recorded as "拒绝提供" and an unresolved location as "未知", both without coordinates. |
| KycChat.LocationSentencesDistinct | AICompanion/Onboarding/KYCChatView.swift:193-226 | The three kinds of location outcome never produce the same sentence. The city can be read back from "我目前在" + city. |
| KycChat.SetupInitialMessage | AICompanion/Onboarding/KYCChatView.swift:159-166 | The greeting is added only to an empty conversation, as its single assistant bubble. The location lookup starts iff the conversation was empty and a user id is known. |
| KycChat.SetupGreetsOnce | AICompanion/Onboarding/KYCChatView.swift:159-160 | Setting up a second time changes nothing and starts no lookup. |
| KycChat.OnLocation | AICompanion/Onboarding/KYCChatView.swift:168-222 | The check made when the lookup starts and again when the location arrives: the lookup stops iff some bubble on screen at that moment is the user's; otherwise the profile update for the outcome is sent. |
| KycChat.AfterLocationUpdate | AICompanion/Onboarding/KYCChatView.swift:186-228 | After the profile update returns, with a user id, the trimmed location sentence is appended as a user bubble on the conversation as it stands then, the draft is cleared, and the request carries the whole conversation. Without a user id nothing is sent. No check is repeated. |
| KycChat.LocationSentenceIsSent | AICompanion/Onboarding/KYCChatView.swift:174-228 | If the user had not spoken when the location arrived, the sentence is sent on whatever conversation stands after the profile update, even one the user has spoken in since, and the draft is cleared. The two fixed sentences go out verbatim. |
| KycChat.MessageDuringUpdateStillFollowed | AICompanion/Onboarding/KYCChatView.swift:174-244 | A message the user sends while the profile update is in flight is followed by the location sentence as a second user bubble. |
| KycChat.MessageBeforeLocationStopsLookup | AICompanion/Onboarding/KYCChatView.swift:169-175 | A message sent before the location arrives stops the lookup: no profile update and no sentence. |
| KycChat.HandleSkip | AICompanion/Onboarding/KYCChatView.swift:283-301 | Without a user id only the "缺少用户信息" error is shown. An accepted skip moves to the KYC end screen in skipped-icebreaking mode. A refused skip shows "跳过失败" and stays. |
| KycChat.KycEndOnlyByServer | AICompanion/Onboarding/KYCChatView.swift:271-301 | Onboarding reaches the KYC end screen only through an accepted skip with a known user, or a reply that ends collection. |
| KycChat.Greeting | AICompanion/Onboarding/KYCChatView.swift:162 | The greeting names the user right after "嗨，" and ends with a full-width question mark. |
| KycChat.LocationSentence | AICompanion/Onboarding/KYCChatView.swift:193-226 | Every location sentence is non-empty and starts with a non-space, so the send goes through. For a found city it is "我目前在" followed by the city. |
| PermissionManager.RawValue | AICompanion/Services/PermissionManager.swift:7-11 | Each permission kind is named by one of the three tool names "calendar_manager", "health_data" and "screen_time". |
| PermissionManager.PermissionTypeFor | AICompanion/Services/PermissionManager.swift:62-64 | A tool name maps to a permission kind iff it is one of the three tool names, and then to the kind with that name. |
| PermissionManager.PermissionTypeRoundTrip | AICompanion/Services/PermissionManager.swift:7-64 | Every kind is found again from its tool name, and no two kinds share a name. |
| PermissionManager.RequiresPermission | AICompanion/Services/PermissionManager.swift:11-69 | A tool needs a permission iff some kind carries its name. "alarm_manager" needs none. |
| PermissionManager.MessagesDistinct | AICompanion/Services/PermissionManager.swift:13-35 | Every kind has a non-empty display name, context message and denial message, and no two kinds share any of them. |
| PermissionManager.CalendarStatus | AICompanion/Services/PermissionManager.swift:112-126 | Calendar access reads as authorized for full or authorized access, restricted for restricted or write-only access, and denied only when denied. Everything else reads as not determined. |
| PermissionManager.QueryStatus | AICompanion/Services/PermissionManager.swift:77-159 | Uncached health is restricted iff the device has no health store, and never authorized or denied. Screen time is always not determined. |
| PermissionManager.CheckStatus | AICompanion/Services/PermissionManager.swift:72-90 | A cached status is returned without touching the cache. Otherwise the platform's status is returned and cached. Afterwards the cache always holds the status returned. |
| PermissionManager.CheckStatusIsCached | AICompanion/Services/PermissionManager.swift:72-90 | A second check returns the same status and leaves the cache as it was, whatever the platform says by then. |
| PermissionManager.ClearCache | AICompanion/Services/PermissionManager.swift:106-108 | Nothing stays cached. |
| PermissionManager.ClearThenCheckQueries | AICompanion/Services/PermissionManager.swift:72-108 | After clearing, the next check asks the platform again. |
| PermissionManager.RequestPermission | AICompanion/Services/PermissionManager.swift:93-182 | A screen-time request is denied and caches nothing. A health request without a store is restricted and caches nothing. Calendar is authorized iff the user grants access. Health is authorized iff the prompt completes. Either result is cached. The result is never "not determined". |
| PermissionManager.RequestThenCheck | AICompanion/Services/PermissionManager.swift:128-182 | After a calendar or health request, a check returns the request's outcome. |
| PermissionManager.CacheConsistencyPreserved | AICompanion/Services/PermissionManager.swift:72-108 | Checking, requesting and clearing all keep the cache consistent with the device. Screen time is only ever cached as not determined. Without a health store, health is only ever cached as restricted. |
| PermissionManager.ScreenTimeNeverAuthorized | AICompanion/Services/PermissionManager.swift:83-101 | With a consistent cache, screen time checks as not determined and requests as denied. |
| PermissionManager.DisplayName | AICompanion/Services/PermissionManager.swift:13-19 | Each kind's name has at least two characters. |
| PermissionManager.ContextMessage | AICompanion/Services/PermissionManager.swift:21-27 | Each context message begins "为了帮你" (in order to help you), saying why the app asks. |
| PermissionManager.DenialMessage | AICompanion/Services/PermissionManager.swift:29-35 | Each denial message begins "没关系，你也可以在" (never mind, you can also …), offering another way. |
| NativeToolExecutor.TextParam | AICompanion/Services/NativeToolExecutor.swift:60-145 | A parameter is read as text iff the action carries it under that key and it holds a string. |
| NativeToolExecutor.AlarmTime | AICompanion/Services/NativeToolExecutor.swift:65-70 | A time is readable iff splitting it at ':', with empty pieces dropped, leaves exactly two pieces and both parse as integers. |
| NativeToolExecutor.CInt | AICompanion/Services/NativeToolExecutor.swift:92 | Cutting a number to a C int gives a value in the signed 32-bit range that agrees with it modulo 2^32, and leaves numbers already in range alone. |
| NativeToolExecutor.TimeText | AICompanion/Services/NativeToolExecutor.swift:92 | The time written with "%02d:%02d" is five characters with the colon in the middle whenever hour and minute are below 100. Each number is first cut to 32 bits, as `%d` reads a C int. |
| NativeToolExecutor.TimeTextRoundTrip | AICompanion/Services/NativeToolExecutor.swift:65-92 | Any hour and minute within 32 bits, once written in the success message, read back as the same pair. |
| NativeToolExecutor.TimeTextReadsBack | AICompanion/Services/NativeToolExecutor.swift:65-92 | For any hour and minute the success message reads back as their low 32 bits, signed. |
| NativeToolExecutor.TimeTextShowsLowBits | AICompanion/Services/NativeToolExecutor.swift:65-92 | An hour of 2^32 + 5 is accepted as it is, but the message shows "05:05", which does not read back as the alarm that was set. |
| NativeToolExecutor.AlarmTimeHasNoRangeCheck | AICompanion/Services/NativeToolExecutor.swift:65-70 | Nothing checks the range: "99:99" is accepted as hour 99, minute 99. |
| NativeToolExecutor.AlarmTimeDropsEmptyPieces | AICompanion/Services/NativeToolExecutor.swift:65 | Stray separators are ignored: ":7::8:" reads as 7:08. |
| NativeToolExecutor.AlarmTimeNeedsTwoPieces | AICompanion/Services/NativeToolExecutor.swift:66 | "7:8:9" is rejected. |
| NativeToolExecutor.AlarmAction | AICompanion/Services/NativeToolExecutor.swift:54-93 | An action other than create_alarm fails as unknown. A missing time fails as missing. Success happens iff the time is readable, and the message names the time and the label, "闹钟" when no label is given. An alarm never asks for a permission. |
| NativeToolExecutor.PermissionGate | AICompanion/Services/NativeToolExecutor.swift:99-108 | The action runs iff the permission is authorized. A permission that is not determined asks for itself. A denied or restricted one gives the kind's fallback text. |
| NativeToolExecutor.ParseDateTime | AICompanion/Services/NativeToolExecutor.swift:210-235 | A text is readable iff some format accepts it. The first format wins when it accepts. |
| NativeToolExecutor.ParseDateTimeFirstWins | AICompanion/Services/NativeToolExecutor.swift:218-223 | The instant comes from the first format, in order, that accepts the text. |
| NativeToolExecutor.CreateEvent | AICompanion/Services/NativeToolExecutor.swift:120-155 | A missing title fails first. An event is handed to the store iff there is a title and a readable start. It carries the title, the start and the notes, and ends at the readable end or one hour after the start. The result succeeds iff the save succeeds, and names the title. A failed save reports the store's error. |
| NativeToolExecutor.EventLine | AICompanion/Services/NativeToolExecutor.swift:173-177 | Each event line is a bullet line. |
| NativeToolExecutor.QueryEvents | AICompanion/Services/NativeToolExecutor.swift:157-180 | Querying always succeeds. The message is "今天没有日程安排" iff there are no events today. |
| NativeToolExecutor.QueryEventsLines | AICompanion/Services/NativeToolExecutor.swift:172-179 | With no line breaks inside the events, the message splits into the header and one bullet line per event, in order. |
| NativeToolExecutor.CalendarAction | AICompanion/Services/NativeToolExecutor.swift:97-118 | The permission is checked before the action name. Once authorized, create_event creates, query_events lists today's events, and any other action fails as unknown. |
| NativeToolExecutor.HealthAction | AICompanion/Services/NativeToolExecutor.swift:184-199 | Past the permission, every health action returns the placeholder text, and only then does it succeed. |
| NativeToolExecutor.Execute | AICompanion/Services/NativeToolExecutor.swift:27-42 | Exactly four tool names are dispatched, and any other fails as unknown. An alarm touches neither the cache nor the store, and screen time is always denied with its fallback text. Calendar and health look their permission up through the cache and leave the cache that lookup leaves. Without authorisation they return the gate's answer. Authorised, a calendar query lists today's events, create_event gives the event creation's result and the event handed to the store, another calendar action fails as unknown, and health returns its placeholder. A permission request names the tool's own kind. |
| NativeToolExecutor.CheckPermissionStatus | AICompanion/Services/NativeToolExecutor.swift:45-50 | A status is given iff the tool needs a permission. A tool without one leaves the cache alone. |
| NativeToolExecutor.ExecuteAgreesWithCheck | AICompanion/Services/NativeToolExecutor.swift:27-194 | For calendar and health, execution asks for a permission iff the check says not determined, and is denied iff the check says denied or restricted. Both leave the same cache. |
| NativeToolExecutor.ScreenTimeCheckDisagrees | AICompanion/Services/NativeToolExecutor.swift:37-50 | For screen time the check says not determined, yet executing is denied. |
| ChatViewModel.ServerMessageId | AICompanion/Chat/ChatViewModel.swift:20 | A message the server numbered gets an id starting with "server-". |
| ChatViewModel.ServerMessageIdRoundTrip | AICompanion/Chat/ChatViewModel.swift:20 | The server's number can be read back from the id, so different numbers never share an id. |
| ChatViewModel.ExtractReplyText | AICompanion/Chat/ChatViewModel.swift:331-351 | The text shown is always trimmed. When what follows the optional "json" tag starts with "{" and parses to an object with a string "reply", that reply, trimmed, is shown. Otherwise the reply is shown trimmed and nothing more. |
| ChatViewModel.PlainReplyIsOnlyTrimmed | AICompanion/Chat/ChatViewModel.swift:331-351 | A reply that has no "json" tag and is not an object is only trimmed. Extracting it twice gives the same text. |
| ChatViewModel.NestedReplyIsUnwrapped | AICompanion/Chat/ChatViewModel.swift:332-347 | Any object with a string "reply" is unwrapped, whether it comes bare or behind a "json" tag in any letter case, and whatever white space or line breaks surround the reply or separate the tag from the object. |
| ChatViewModel.PaddedCandidate | AICompanion/Chat/ChatViewModel.swift:332-338 | For such a padded, optionally tagged object, the text offered to the JSON parser is exactly the object. |
| ChatViewModel.SenderOf | AICompanion/Chat/ChatViewModel.swift:261 | A history message is the user's iff its role is "user". |
| ChatViewModel.FromHistory | AICompanion/Chat/ChatViewModel.swift:260-266 | A history message keeps its server id, sender and timestamp and is not a divider. A user message keeps its text verbatim. |
| ChatViewModel.FromHistoryPage | AICompanion/Chat/ChatViewModel.swift:260-266 | A page is shown one message per entry, in the server's order. |
| ChatViewModel.BeginHistoryLoad | AICompanion/Chat/ChatViewModel.swift:251-253 | Starting a history load raises the loading flag and clears the error, and changes nothing else. |
| ChatViewModel.FinishHistoryLoad | AICompanion/Chat/ChatViewModel.swift:255-287 | When the page arrives, loading ends. The first page replaces the list as it is by then, a later page goes in front of it, and the paging state is the server's. A failed first page changes nothing else; a failed later page shows the history error. Only the list, the paging state, the error and the flag can change. |
| ChatViewModel.LoadHistory | AICompanion/Chat/ChatViewModel.swift:251-287 | With nothing in between, loading always ends and the error is cleared, unless a later page fails and shows the history error. The first page replaces the list, and a later page goes in front of it. |
| ChatViewModel.PagingKeepsSuffix | AICompanion/Chat/ChatViewModel.swift:271-274 | Paging keeps everything already on screen, in order, at the end of the list. |
| ChatViewModel.LoadMoreHistory | AICompanion/Chat/ChatViewModel.swift:116-122 | More history loads only when no load is running, the server said there is more, and an oldest id is known. It loads from that id. |
| ChatViewModel.DividerAfter | AICompanion/Chat/ChatViewModel.swift:93-104 | A divider is added iff there is history. It is an empty assistant marker. |
| ChatViewModel.StartInitialHistory | AICompanion/Chat/ChatViewModel.swift:72-74 | The initial load starts iff it has not run before, and it is marked as run at once; nothing else changes. |
| ChatViewModel.FinishInitialHistory | AICompanion/Chat/ChatViewModel.swift:76-113 | When the greeting and the first page are in, loading ends and the greeting, or the fallback when it failed, is the last message. A page replaces the list and is followed by a divider when it is not empty. A failed page keeps the messages on screen by then, again with a divider when there are any. |
| ChatViewModel.LoadInitialHistory | AICompanion/Chat/ChatViewModel.swift:72-114 | With nothing in between, the initial load runs once. It always ends with the greeting, or the fallback greeting, as the last message, after the first page and a divider when the page was not empty. |
| ChatViewModel.MessageDuringInitialLoadIsReplaced | AICompanion/Chat/ChatViewModel.swift:72-140 | A message the user sends while the first page is in flight shows at once, but the page then replaces the list, so it is gone from the screen; the rest of the result is what the load alone gives, with the send still marked busy. |
| ChatViewModel.InitialLoadRunsOnce | AICompanion/Chat/ChatViewModel.swift:73-74 | A second initial load changes nothing, whatever the server would answer. |
| ChatViewModel.DividerIffHistory | AICompanion/Chat/ChatViewModel.swift:93-108 | With no history only the greeting shows. Otherwise the divider sits between the history and the greeting and is dated by the first message, or by now when that has no date. |
| ChatViewModel.StartSend | AICompanion/Chat/ChatViewModel.swift:131-140 | A request goes out iff the text is not blank. It carries the trimmed text, and the same text goes up as the user's bubble. Blank text changes nothing. |
| ChatViewModel.SendCurrentMessage | AICompanion/Chat/ChatViewModel.swift:124-129 | Nothing happens while sending. Otherwise the draft is cleared and its text sent. |
| ChatViewModel.NestedActions | AICompanion/Chat/ChatViewModel.swift:173-186 | The actions found nested in the tool calls are exactly those the calls carry, at most one per call. |
| ChatViewModel.NestedActionsOfOne | AICompanion/Chat/ChatViewModel.swift:174-184 | A single tool call contributes its nested action if it has one, and nothing otherwise. |
| ChatViewModel.NestedActionsConcat | AICompanion/Chat/ChatViewModel.swift:174-184 | The actions of two runs of calls are those of the first run followed by those of the second. So actions keep call order and multiplicity. |
| ChatViewModel.ResultText | AICompanion/Chat/ChatViewModel.swift:293-317 | Every action result leaves a text in the chat except a permission request. |
| ChatViewModel.DeviceParksOwnPermission | AICompanion/Chat/ChatViewModel.swift:27-42 | The executor only asks for the permission that guards the tool it runs. |
| ChatViewModel.RunActions | AICompanion/Chat/ChatViewModel.swift:289-319 | When an action is parked for a permission, it is in the list and every action before it left one text. Otherwise every action left one text. |
| ChatViewModel.RunActionsStep | AICompanion/Chat/ChatViewModel.swift:290-317 | Running a list tells the first action's text, then what the rest tells from the cache the first left. |
| ChatViewModel.RunActionsStopsWhenParked | AICompanion/Chat/ChatViewModel.swift:302-307 | Once an action is parked, the actions after it never run. |
| ChatViewModel.RunActionsFirstFinishes | AICompanion/Chat/ChatViewModel.swift:290-318 | When no action parks, the first finishes and the rest run from its cache to the same final cache. |
| ChatViewModel.RunActionsInOrder | AICompanion/Chat/ChatViewModel.swift:290-318 | Actions run strictly in order: running xs + ys tells what xs tells, then what ys tells from the cache xs left. |
| ChatViewModel.RunActionsParksInOrder | AICompanion/Chat/ChatViewModel.swift:290-318 | When xs parks nothing, the action parked in xs + ys is the one ys parks, at its place in the whole list. |
| ChatViewModel.AiBubbles | AICompanion/Chat/ChatViewModel.swift:295-315 | Each text becomes one assistant bubble, in order. |
| ChatViewModel.HandlePendingActions | AICompanion/Chat/ChatViewModel.swift:289-319 | Existing messages are kept and at most one bubble is added per action. A newly parked action is one of the list and shows the alert, with its own tool's permission. When fewer bubbles than actions were added, the next action is the one parked. |
| ChatViewModel.ShowReply | AICompanion/Chat/ChatViewModel.swift:149-153 | An empty reply adds no bubble. Otherwise it goes up as the assistant's bubble. |
| ChatViewModel.FinishSend | AICompanion/Chat/ChatViewModel.swift:142-200 | Sending always ends. A failure shows the send error and changes nothing else. A reply keeps the earlier messages, and its non-empty text is the first new bubble. A reply without actions leaves the permission cache and the parked action alone. |
| ChatViewModel.PlainExchange | AICompanion/Chat/ChatViewModel.swift:131-200 | A plain exchange ends with the user's trimmed words and the reply as the last two bubbles, with no error. |
| ChatViewModel.RetryText | AICompanion/Chat/ChatViewModel.swift:203-225 | A refused prompt tells the permission's fallback text. |
| ChatViewModel.GrantedRetryAnswers | AICompanion/Chat/ChatViewModel.swift:209-221 | Once the permission is granted, the parked action always has something to tell. |
| ChatViewModel.RequestPermissionAndExecute | AICompanion/Chat/ChatViewModel.swift:203-229 | Without a parked action nothing happens. Otherwise nothing stays parked and at most one bubble is added after the earlier messages. A refusal adds the fallback text. |
| ChatViewModel.GrantedRetryAnswersOnce | AICompanion/Chat/ChatViewModel.swift:209-221 | After a granted prompt for the parked action's own permission, exactly one bubble is added. |
| ChatViewModel.HandlePermissionAlertCancel | AICompanion/Chat/ChatViewModel.swift:240-247 | Cancelling clears the parked action and adds the fallback text iff a permission was pending. Nothing else changes. |
| ChatViewModel.CancelMatchesRefusal | AICompanion/Chat/ChatViewModel.swift:203-247 | For the calendar, cancelling tells the user the same as refusing the prompt. |
| ChatViewModel.Bubble | AICompanion/Chat/ChatViewModel.swift:19-26 | A message made on the device has the given text and sender, no server id, no date, and is not a divider. |
| ChatViewModel.Divider | AICompanion/Chat/ChatViewModel.swift:29-31 | A divider is flagged as one, has empty text, carries its date and no server id. |
| ChatViewModel.Initial | AICompanion/Chat/ChatViewModel.swift:38-68 | A fresh view model has the user id and the shared cache, an empty conversation and draft, no send or error, initial loading on, no history loaded or paged, and no pending permission. |
| HexColor.HexValue | AICompanion/DesignSystem/Colors.swift:105-106 | The number written by n hex digits is below 16^n. |
| HexColor.HexRunLength | AICompanion/DesignSystem/Colors.swift:106 | The scanner reads the longest run of hex digits at the front and stops at the first character that is not one. |
| HexColor.ScanHex | AICompanion/DesignSystem/Colors.swift:106 | The scanner skips a leading "0x" or "0X" and then reads the longest run of hex digits as one number; with no such run it reads 0. |
| HexColor.Sanitize | AICompanion/DesignSystem/Colors.swift:104 | Sanitizing leaves no non-alphanumeric character at either end and never lengthens the text. It empties the text iff no character is a letter or digit, and it leaves a text with nothing to trim unchanged. |
| HexColor.HexRgb | AICompanion/DesignSystem/Colors.swift:102-121 | Every channel is between 0 and 255. A sanitized string whose length is neither 6 nor 3 gives black. |
| HexColor.PaddingIgnored | AICompanion/DesignSystem/Colors.swift:104 | Characters that are neither letters nor digits around the colour are ignored, so "#RRGGBB" reads like "RRGGBB". |
| HexColor.Byte | AICompanion/DesignSystem/Colors.swift:110-111 | Two hex digits make one channel value between 0 and 255. |
| HexColor.SanitizeKeepsHex | AICompanion/DesignSystem/Colors.swift:104 | A run of hex digits has nothing to trim. |
| HexColor.ScanAllHex | AICompanion/DesignSystem/Colors.swift:104-106 | A run of hex digits without a "0x" prefix is kept whole and scanned whole. |
| HexColor.SixDigitValue | AICompanion/DesignSystem/Colors.swift:105-111 | Six digits scan as red times 65536, plus green times 256, plus blue. |
| HexColor.SixDigits | AICompanion/DesignSystem/Colors.swift:110-111 | Six hex digits give red, green and blue from the digit pairs, in order. |
| HexColor.ThreeDigitValue | AICompanion/DesignSystem/Colors.swift:105-117 | Three digits scan as one number with a place of sixteen per digit. |
| HexColor.ThreeDigits | AICompanion/DesignSystem/Colors.swift:112-118 | Three hex digits give one channel per digit, each digit times 17. |
| HexColor.ShortFormDoubles | AICompanion/DesignSystem/Colors.swift:110-118 | The short form doubles each digit: "ABC" is the same colour as "AABBCC". |
| Subscription.StateFromRawValue | AICompanion/Models/SubscriptionModels.swift:40-45 | A decoded state has exactly the raw value that was decoded. |
| Subscription.StateRawValueRoundTrip | AICompanion/Models/SubscriptionModels.swift:40-45 | Every state decodes back from its raw value. Exactly the four strings "trial", "active", "expired" and "cancelled" decode. |
| Subscription.StateDisplayNamesDistinct | AICompanion/Models/SubscriptionModels.swift:46-53 | Two states share a label iff they are the same state. |
| Subscription.PlanFromRawValue | AICompanion/Models/SubscriptionModels.swift:58-60 | A decoded plan has exactly the raw value that was decoded. |
| Subscription.PlanNamesDistinct | AICompanion/Models/SubscriptionModels.swift:58-67 | Plans decode back from their raw values. No two plans share a raw value or a label. |
| Subscription.ProductPlan | AICompanion/Models/SubscriptionModels.swift:116-121 | A product buys the monthly plan iff it is the monthly product. |
| Subscription.AllIdentifiers | AICompanion/Models/SubscriptionModels.swift:123-125 | The identifier set holds every product's raw value and nothing else. |
| Subscription.TwoDistinctIdentifiers | AICompanion/Models/SubscriptionModels.swift:112-125 | There are exactly two identifiers, the monthly and the yearly premium product. They buy different plans. |
| Subscription.StateRawValue | AICompanion/Models/SubscriptionModels.swift:40-45 | Every state's raw value is a non-empty lower-case ASCII word. |
| Subscription.StateDisplayName | AICompanion/Models/SubscriptionModels.swift:46-53 | Every state's label has three characters, and it begins "已" (already) for every state but the trial. |
| Subscription.PlanRawValue | AICompanion/Models/SubscriptionModels.swift:58-61 | Every plan's raw value is a lower-case ASCII word ending in "ly". |
| Subscription.PlanDisplayName | AICompanion/Models/SubscriptionModels.swift:62-67 | Every plan's label is four characters: its period and then "会员" (membership). |
| Subscription.ProductRawValue | AICompanion/Models/SubscriptionModels.swift:112-114 | Every product identifier lies under the app's bundle id "ai.dors.AICompanion.". |
| NextTask.Repeat | python_script/next_task.py:7-10 | The banner string of '=' has the requested length and holds only '='. |
| NextTask.Printed | python_script/next_task.py:7-10 | Printing lines writes at least one character per line and always ends with a line break. |
| NextTask.PromptOutput | python_script/next_task.py:7-13 | The prompt ends with "> " on a line of its own, right after the closing line break of the banner, and waits there for the task. |
| NextTask.LowerChar | python_script/next_task.py:18 | Lower-casing changes exactly the upper-case ASCII letters, and never turns whitespace into anything else or the reverse. |
| NextTask.Lower | python_script/next_task.py:18 | Lower-casing works character by character and keeps the length. |
| NextTask.LowerStripCommute | python_script/next_task.py:18 | Lower-casing and stripping can be done in either order. |
| NextTask.IsExitCommand | python_script/next_task.py:18 | Only an input of at least four characters that is not all whitespace can end the session. |
| NextTask.ExitCommandIff | python_script/next_task.py:18 | An input ends the session iff, stripped, it spells "exit" or "quit" in some mix of cases. Such an input is four characters once stripped. |
| NextTask.PaddedVariantsExit | python_script/next_task.py:18 | Any case variant of an exit word, with any whitespace around it, ends the session. |
| NextTask.WrongLengthIsTask | python_script/next_task.py:18 | A stripped input that is not four characters long is a task. |
| NextTask.WordExits | python_script/next_task.py:18 | A word that lower-cases to an exit word ends the session. |
| NextTask.CaseVariantsExit | python_script/next_task.py:18-20 | "EXIT" and "Quit" end the session. |
| NextTask.PaddedQuitExits | python_script/next_task.py:18-20 | "  quit  " ends the session. |
| NextTask.TaskExamples | python_script/next_task.py:18 | The empty line, "exit now" and "ex it" are tasks. |
| NextTask.EchoLine | python_script/next_task.py:23 | The echo is the task exactly as typed, quoted and indented by two spaces. |
| NextTask.Respond | python_script/next_task.py:12-24 | An interrupted read ends the session with "Session ended by user.". Otherwise the session ends, saying goodbye, iff the input is an exit command. Any other input is echoed between the "Received" and "Thank you" lines. |
| NextTask.BannerShape | python_script/next_task.py:7-10 | The prompt opens and closes with a line of 120 '=' characters, the first after a blank line. |
| NextTask.TaskEchoedRaw | python_script/next_task.py:22-23 | A task is echoed unstripped: whitespace typed around it stays inside the quotes. |
| NextTask.EmptyInputIsTask | python_script/next_task.py:18-24 | An empty line is echoed as an empty task. It does not end the session. |

## Left out

- Rendering: the SwiftUI view bodies, fonts, colours as values, animation, GIF and image views, toasts' and overlays' timing, and the keyboard-height notifications are layout with nothing to state.
- Networking and persistence: the API clients, JSON coding, the Keychain and UserDefaults (the `persist*` helpers of OnboardingState.swift) are replaced by their outcomes, which are inputs of the functions.
- Platform frameworks: EventKit, HealthKit, CoreLocation, StoreKit, UIApplication's URL opening and speech input appear only through what they answer (a permission state, a save error, a location result, a list of today's events).
- Clocks and timers: "now" and today's weekday are parameters; the resend timer is a sequence of ticks; date parsing and formatting are parameters (`DateFormat`, `format`, `dayOfMonth`), and `latestAllowedDate`, `earliestAllowedDate` and `isProfileValid` of OnboardingState.swift, which are pure calendar arithmetic on `Date`, are not modelled.
- GoalEditDialogs.GoalFormOnAppear and GoalEditDialogs.MilestoneFormOnAppear: the dialogs' `yyyy-MM-dd` formatter is the parameter `reformat`, which gives for a server date string the text the formatter writes back after reading it, or nothing when it cannot read it. No property of the formatter is assumed: an untouched form resends `reformat`'s text, which differs from the server's when the formatter reads leniently (`GoalEditDialogs.LenientDueDateRewritten`).
- Floating point: the /255 colour scaling, opacities and animation delays are left out; completion rates are exact `real`s, stage progress is counted in thirds.
- UUIDs: a message made on the device has no id in the model; only server ids are modelled.
- HexColor.HexRgb: `CharacterSet.alphanumerics` is read as the ASCII letters and digits, so a non-ASCII letter at either end of the string is trimmed here but kept by the app; the `UInt64` scan cannot overflow on the six digits that are used, so no wrap-around is modelled.
- Login.KeepDigits: `Character.isNumber` is read as the ASCII digits; other numeric characters (full-width digits, other scripts' digits) are dropped here but kept by the app.
- OnboardingState.IsValidNickname: Swift's `count` counts grapheme clusters and the model counts code points, which differ only for combining marks and "\r\n"; `\p{Han}` is the Han script as Scripts.txt of Unicode 15.0 lists it (`OnboardingState.IsHan`), so a later Unicode version's additions on the device are not covered.
- NextTask.Lower: Python's `lower()` is read on ASCII letters only; `strip()` is read as the Unicode whitespace class plus the four ASCII separators U+001C to U+001F; an end of input (`EOFError`) is not modelled, only the keyboard interrupt; printing and `sys.exit` become the returned lines and outcome.
- TaskGrouping.GoalGroups: the order of `Dictionary(grouping:)` is unspecified, so groups are built in order of first appearance and then sorted stably by title; groups with equal titles may come out in another order in the app. Titles are compared by character code, not by Swift's Unicode-aware `String <`.
- WeeklyCalendar.DayInfoForIndex: the fallback for a failed `Calendar.date(byAdding:)` (DailyTasksPageView.swift:103-106) cannot happen with whole day numbers and is not modelled.
- PersonalityReview: `handleSkip` (KYCPersonalityReviewView.swift:94-112) changes no state, so it has no member.
- OnboardingState: `lastSubmitResponse` is not a field of the model; the screens that read its bazi take the response as a parameter, and the submit stores the user id and traits it carries. The subscription status record and the receipt requests of SubscriptionModels.swift are plain data with no behaviour.
- LegacyHome: the legacy `fetchCalendarAndPlan` (AICompanion/HomeDailyTasksView.swift:345-371) repeats the load of HomeDailyTasksViewModel.swift and its early return, and is covered by the DailyTasks members only. Its `formattedSolarDate` (AICompanion/HomeDailyTasksView.swift:446-456) is the same formatting as the header's and is covered by `HomeHeader.FormattedSolarDate`.
- Screen-level members that the tracking and home views call but that are not defined in the files modelled here are not part of this model. Among them are `showGoalWizard`, `goalDataNeedsRefresh`, `loadGoalPlanIfNeeded(forceReload:)`, `goalWizardSource`, `assignTodayTasks`, `allTasksCompleted`, `weeklyCompletion`, `expiredMilestones`, `yesterdaySummaryMessage`, and the toast and edit-dialog flags.
- One-step actions: nothing else runs while these wait for their answers — ChatViewModel.HandlePendingActions (each action's execution), ChatViewModel.LoadMoreHistory, ChatViewModel.RequestPermissionAndExecute, ExpiredMilestoneWizard.HandleNextStep and ExpiredMilestoneWizard.SaveRestartMilestones, AuthManager.FetchCurrentUser and AuthManager.Logout, Login.SendSms and Login.VerifyCode, and the home screens' reloads after an action. A tap while one of them waits is not modelled.
- ChatViewModel.LoadInitialHistory: the whole initial load with nothing in between; ChatViewModel.StartInitialHistory and ChatViewModel.FinishInitialHistory are its two halves, and ChatViewModel.MessageDuringInitialLoadIsReplaced states what a send in between does.
- Login.VerifyCode: the device name sent with the request (`UIDevice.current.name`) is not part of the modelled request.
- Health queries: after the permission, the health action only returns its placeholder text, as the app does.

## Findings

| source | as written | input that shows it | evidently intended | confidence | as-written member | corrected member |
|---|---|---|---|---|---|---|
| AICompanion/Onboarding/OnboardingState.swift:269-275 | The nickname check anchors its pattern with `^…$`; in an ICU regular expression `$` also matches before a final line terminator, so one trailing newline passes. | "ab\n": 3 characters, within the limit of 12, and the pattern matches "ab" before the newline. | Only Han characters and ASCII letters are allowed, with no exceptions, which is what `sanitizeNickname` keeps. | not executed | OnboardingState.IsValidNicknameAsWritten, OnboardingState.TrailingNewlineAccepted | OnboardingState.IsValidNickname, OnboardingState.ValidIffSanitizeFixes |
| AICompanion/Home/GoalWizard/GoalWizardView.swift:370-403 | The initial candidate is appended untrimmed as a user bubble, then passed to `sendMessage`, whose de-duplication compares the last bubble with the trimmed text. | The candidate " 早睡" leaves two user bubbles, " 早睡" and "早睡". | The candidate appears once, as the text that is sent. | not executed | GoalWizard.SetupInitialMessageAsWritten, GoalWizard.PaddedCandidateShownTwice | GoalWizard.SetupInitialMessage, GoalWizard.SetupShowsOneMessage |
| AICompanion/Home/HomeDailyTasksViewModel.swift:48-74 | Without a user id, `fetchCalendarAndPlan` returns from inside the `do` block before `isLoading = false`, and `loadInitialDataIfNeeded` retries only while loading, so the splash stays. | `userId == nil` on first appearance: `isLoading` stays true after every retry, and the error message is hidden behind the splash. | The loading flag is lowered on every path, and the error is shown. | not executed | DailyTasks.FetchCalendarAndPlanAsWritten, DailyTasks.NoUserKeepsSplash | DailyTasks.FetchCalendarAndPlan, DailyTasks.CorrectedLoadAgreesWithUser, DailyTasks.InitialLoadRunsOnce |

=== FILE: auth_manager.dfy ===
/**
 * The session store: access and refresh tokens with their expiry, the
 * signed-in user and the flags derived from it. Keychain and UserDefaults
 * writes are not modelled; the clock and the server's answers are inputs.
 * Times are whole seconds.
 */
module AuthManager {
  import opened Common

  /** `CurrentUserResponse`, with the fields the client acts on. */
  datatype CurrentUser = CurrentUser(id: int, nickname: string, isGuest: bool, hasCompletedOnboarding: bool)

  datatype AuthState = AuthState(
    accessToken: Option<string>,
    refreshToken: Option<string>,
    tokenExpiry: Option<int>,
    isAuthenticated: bool,
    isGuest: bool,
    hasCompletedOnboarding: bool,
    currentUser: Option<CurrentUser>,
    isLoading: bool,
    authError: Option<string>)

  /** Tokens are refreshed this many seconds before they expire. */
  const RefreshMargin := 60

  /** The state after `clearTokens`, which is also the state with nothing stored. */
  const Cleared := AuthState(None, None, None, false, false, false, None, false, None)

  /** `hasStoredToken`. */
  predicate HasStoredToken(st: AuthState)
    ensures st.accessToken.Some? ==> HasStoredToken(st)
    ensures st.accessToken.None? ==> (HasStoredToken(st) <==> st.refreshToken.Some?)
  {
    st.accessToken.Some? || st.refreshToken.Some?
  }

  /** Everything `clearTokens` resets is reset; the loading flag and error are its own business. */
  predicate IsCleared(st: AuthState) {
    st.(isLoading := false, authError := None) == Cleared
  }

  /** `saveTokens(accessToken:refreshToken:expiresIn:)` at time `now`. */
  function SaveTokens(st: AuthState, access: string, refresh: string, expiresIn: int, now: int): (r: AuthState)
    ensures HasStoredToken(r) && r.isAuthenticated
    ensures r.accessToken == Some(access) && r.refreshToken == Some(refresh)
    ensures r.tokenExpiry == Some(now + expiresIn)
    ensures r.currentUser == st.currentUser && r.isGuest == st.isGuest
    ensures r.hasCompletedOnboarding == st.hasCompletedOnboarding
  {
    st.(accessToken := Some(access), refreshToken := Some(refresh), tokenExpiry := Some(now + expiresIn), isAuthenticated := true)
  }

  /** `clearTokens`. */
  function ClearTokens(st: AuthState): (r: AuthState)
    ensures IsCleared(r) && !HasStoredToken(r)
    ensures r.isLoading == st.isLoading && r.authError == st.authError
  {
    Cleared.(isLoading := st.isLoading, authError := st.authError)
  }

  /** `updateUserState(user:)`. */
  function UpdateUserState(st: AuthState, user: CurrentUser): (r: AuthState)
    ensures r.currentUser == Some(user)
    ensures r.isGuest == user.isGuest && r.hasCompletedOnboarding == user.hasCompletedOnboarding
    ensures r.accessToken == st.accessToken && r.refreshToken == st.refreshToken && r.tokenExpiry == st.tokenExpiry
    ensures r.isAuthenticated == st.isAuthenticated
  {
    st.(currentUser := Some(user), isGuest := user.isGuest, hasCompletedOnboarding := user.hasCompletedOnboarding)
  }

  /** The server's answer to a token refresh. */
  datatype RefreshAnswer = Refreshed(access: string, refresh: string, expiresIn: int) | RefreshFailed

  /** `refreshAccessToken`; `answer` is only consulted when a refresh token exists. */
  function RefreshAccessToken(st: AuthState, answer: RefreshAnswer, now: int): (r: AuthState)
    ensures st.refreshToken.None? ==> IsCleared(r)
    ensures st.refreshToken.Some? && answer.RefreshFailed? ==> IsCleared(r)
    ensures st.refreshToken.Some? && answer.Refreshed? ==>
      && r.accessToken == Some(answer.access) && r.refreshToken == Some(answer.refresh)
      && r.tokenExpiry == Some(now + answer.expiresIn) && r.isAuthenticated
  {
    if st.refreshToken.None? then ClearTokens(st)
    else
      match answer
      case Refreshed(a, rf, e) => SaveTokens(st, a, rf, e, now)
      case RefreshFailed => ClearTokens(st)
  }

  /** The token counts as expired from 60 seconds before its expiry on; unknown expiry never does. */
  predicate NeedsRefresh(st: AuthState, now: int)
    ensures NeedsRefresh(st, now) <==> st.tokenExpiry.Some? && st.tokenExpiry.value - now <= RefreshMargin
    ensures st.tokenExpiry.None? ==> !NeedsRefresh(st, now)
  {
    st.tokenExpiry.Some? && now + RefreshMargin >= st.tokenExpiry.value
  }

  /** `getAccessToken`: the new state and the token handed out. */
  function GetAccessToken(st: AuthState, answer: RefreshAnswer, now: int): (r: (AuthState, Option<string>))
    ensures !NeedsRefresh(st, now) ==> r.0 == st && r.1 == st.accessToken
    ensures NeedsRefresh(st, now) ==> r.0 == RefreshAccessToken(st, answer, now)
    ensures r.1 == r.0.accessToken
  {
    var st1 := if NeedsRefresh(st, now) then RefreshAccessToken(st, answer, now) else st;
    (st1, st1.accessToken)
  }

  /** A token well before its expiry is handed out without a refresh; one within a minute of it is not. */
  lemma RefreshWindow(st: AuthState, now: int)
    requires st.tokenExpiry.Some?
    ensures now < st.tokenExpiry.value - 60 ==> !NeedsRefresh(st, now)
    ensures now >= st.tokenExpiry.value - 60 ==> NeedsRefresh(st, now)
  {
  }

  /** A failed refresh hands out no token at all. */
  lemma FailedRefreshHandsOutNothing(st: AuthState, now: int)
    requires NeedsRefresh(st, now)
    ensures GetAccessToken(st, RefreshFailed, now).1.None?
    ensures !HasStoredToken(GetAccessToken(st, RefreshFailed, now).0)
  {
  }

  /** The server's answer to `/auth/me`. */
  datatype UserAnswer = UserFetched(user: CurrentUser) | UserFetchFailed(message: string)

  /** Whether `fetchCurrentUser` returned normally or threw. */
  datatype FetchResult = FetchOk | FetchThrew

  /** `fetchCurrentUser`: fetch a token (refreshing if due), then the user. */
  function FetchCurrentUser(st: AuthState, refresh: RefreshAnswer, answer: UserAnswer, now: int): (r: (AuthState, FetchResult))
    ensures !r.0.isLoading
    ensures r.1 == FetchOk ==> r.0.currentUser.Some? && answer.UserFetched? && r.0.currentUser == Some(answer.user)
    ensures GetAccessToken(st, refresh, now).1.None? ==> r.1 == FetchThrew
    ensures answer.UserFetchFailed? ==> r.1 == FetchThrew
    ensures GetAccessToken(st, refresh, now).1.Some? && answer.UserFetched? ==> r.1 == FetchOk
    ensures GetAccessToken(st, refresh, now).1.Some? && answer.UserFetchFailed? ==> r.0.authError == Some(answer.message)
    ensures GetAccessToken(st, refresh, now).1.None? || answer.UserFetched? ==> r.0.authError.None?
  {
    var st1 := st.(isLoading := true, authError := None);
    var (st2, token) := GetAccessToken(st1, refresh, now);
    if token.None? then (st2.(isLoading := false), FetchThrew)
    else
      match answer
      case UserFetched(u) => (UpdateUserState(st2, u).(isLoading := false), FetchOk)
      case UserFetchFailed(msg) => (st2.(authError := Some(msg), isLoading := false), FetchThrew)
  }

  /** `logout`: whatever the server says, the session ends cleared. */
  function Logout(st: AuthState, serverSucceeded: bool): (r: AuthState)
    ensures IsCleared(r) && !HasStoredToken(r)
  {
    ClearTokens(st)
  }

  /** Clearing is idempotent and forgets everything a save stored. */
  lemma ClearForgetsSave(st: AuthState, a: string, rf: string, e: int, now: int)
    ensures ClearTokens(ClearTokens(st)) == ClearTokens(st)
    ensures ClearTokens(SaveTokens(st, a, rf, e, now)) == ClearTokens(st)
  {
  }
}

=== FILE: bazi_result.dfy ===
/**
 * The Bazi analysis screen: the four pillars of the user's birth chart, each
 * a heavenly stem over an earthly branch, drawn in their elements' colours
 * with a staggered animation, and the partner named after the day stem.
 */
module BaziResult {
  import opened Common
  import opened FiveElements

  /** One pillar: a stem and a branch (`Ganzhi`; the hidden stems are not shown here). */
  datatype Ganzhi = Ganzhi(heavenlyStem: string, earthlyBranch: string)

  /** `BaziData`: the year, month, day and hour pillars. */
  datatype BaziData = BaziData(yearGanzhi: Ganzhi, monthGanzhi: Ganzhi, dayGanzhi: Ganzhi, hourGanzhi: Ganzhi)

  /** The day stem the partner is named after; empty when the chart is missing. */
  function DayHeavenlyStem(bazi: Option<BaziData>): string {
    match bazi
    case Some(b) => b.dayGanzhi.heavenlyStem
    case None => ""
  }

  /** `partnerName`: the day stem's element followed by "宝", or nothing for an unknown stem. */
  function PartnerName(bazi: Option<BaziData>): (name: string)
    ensures name == [] <==> DayHeavenlyStem(bazi) !in HeavenlyStems
  {
    match ElementForStem(DayHeavenlyStem(bazi))
    case Some(e) => Glyph(e) + "宝"
    case None => ""
  }

  /** A partner's name is two characters, and its first names the day stem's element. */
  lemma PartnerNameNamesElement(bazi: Option<BaziData>)
    requires DayHeavenlyStem(bazi) in HeavenlyStems
    ensures var name := PartnerName(bazi);
      |name| == 2 && name[1] == '宝' && ElementNamed(name[..1]) == ElementForStem(DayHeavenlyStem(bazi))
  {
    var e := ElementForStem(DayHeavenlyStem(bazi)).value;
    assert PartnerName(bazi)[..1] == Glyph(e);
    GlyphRoundTrip(e, e);
  }

  /** The pillars in the order they are drawn. */
  function Pillars(b: BaziData): (ps: seq<Ganzhi>)
    ensures |ps| == 4 && ps[2] == b.dayGanzhi
  {
    [b.yearGanzhi, b.monthGanzhi, b.dayGanzhi, b.hourGanzhi]
  }

  /** The position of a character in the animation: the stem of pillar `i` is `2i`, its branch `2i + 1`. */
  function CharacterIndex(pillar: nat, isBranch: bool): (k: nat)
    requires pillar < 4
    ensures k < 8
  {
    if isBranch then pillar * 2 + 1 else pillar * 2
  }

  /** The eight characters get the eight positions 0..7, one each. */
  lemma CharacterIndexBijective(p: nat, a: bool, q: nat, b: bool, k: nat)
    requires p < 4 && q < 4 && k < 8
    ensures CharacterIndex(p, a) == CharacterIndex(q, b) ==> p == q && a == b
    ensures CharacterIndex(k / 2, k % 2 == 1) == k
  {
  }

  /** The colour of every character of the chart, in animation order. */
  function CharacterColors(b: BaziData): (cs: seq<Ink>)
    ensures |cs| == 8
    ensures forall i :: 0 <= i < 4 ==>
      cs[CharacterIndex(i, false)] == ColorForStem(Pillars(b)[i].heavenlyStem)
      && cs[CharacterIndex(i, true)] == ColorForBranch(Pillars(b)[i].earthlyBranch)
  {
    var ps := Pillars(b);
    seq(8, k requires 0 <= k < 8 => if k % 2 == 0 then ColorForStem(ps[k / 2].heavenlyStem) else ColorForBranch(ps[k / 2].earthlyBranch))
  }

  /** A chart whose names are all known draws no character in the default text colour. */
  lemma KnownChartFullyColored(b: BaziData)
    requires forall i :: 0 <= i < 4 ==> Pillars(b)[i].heavenlyStem in HeavenlyStems && Pillars(b)[i].earthlyBranch in EarthlyBranches
    ensures forall k :: 0 <= k < 8 ==> CharacterColors(b)[k] != TextBlack
  {
    forall k | 0 <= k < 8
      ensures CharacterColors(b)[k] != TextBlack
    {
      CharacterIndexBijective(0, false, 0, false, k);
    }
  }
}

=== FILE: chat_basics.dfy ===
/**
 * What the app's chat screens have in common: who sent a bubble, the
 * text/voice input switch, and the rule that turns a draft into outgoing text.
 */
module ChatBasics {
  import opened Common

  datatype Sender = User | Ai

  /** The input area shows a text field or a hold-to-talk button. */
  datatype InputMode = TextInput | VoiceInput

  /** A chat bubble of the onboarding and goal chats. */
  datatype Message = Message(text: string, sender: Sender)

  /** `toggleInputMode`: text becomes voice and voice becomes text. */
  function ToggleInputMode(m: InputMode): (r: InputMode)
    ensures r != m
  {
    match m
    case TextInput => VoiceInput
    case VoiceInput => TextInput
  }

  /** Toggling twice gets back to where it started. */
  lemma ToggleInputModeTwice(m: InputMode)
    ensures ToggleInputMode(ToggleInputMode(m)) == m
  {
  }

  /** `messages.contains { $0.sender == .user }`. */
  predicate HasUserMessage(ms: seq<Message>) {
    exists i :: 0 <= i < |ms| && ms[i].sender == User
  }

  /**
   * The first step of every `sendMessage`: trim whitespace and newlines, and
   * give up on what is left empty.
   */
  function OutgoingText(content: string): (r: Option<string>)
    ensures r.None? <==> AllIn(content, IsWhitespaceOrNewline)
    ensures r.Some? ==> r.value != [] && IsTrimmed(r.value, IsWhitespaceOrNewline) && |r.value| <= |content|
  {
    var trimmed := Trim(content, IsWhitespaceOrNewline);
    if trimmed == [] then None else Some(trimmed)
  }

  /** Outgoing text is already in its final form: preparing it again gives the same text. */
  lemma OutgoingTextStable(content: string)
    requires OutgoingText(content).Some?
    ensures OutgoingText(OutgoingText(content).value) == OutgoingText(content)
  {
  }

  /** The outgoing text is the draft without its surrounding whitespace. */
  lemma OutgoingTextIsInfix(content: string)
    requires OutgoingText(content).Some?
    ensures var t := OutgoingText(content).value; var k := TrimOffset(content, IsWhitespaceOrNewline);
      k + |t| <= |content| && t == content[k..k + |t|]
  {
    TrimIsInfix(content, IsWhitespaceOrNewline);
  }
}

=== FILE: chat_view_model.dfy ===
/**
 * The main chat screen's view model: the message list with its history
 * pages, date divider and greeting; sending a message and taking in the reply;
 * and running the native actions a reply asks for, which may stop to ask the
 * user for a permission. Every server call is split into what happens on the
 * tap and what happens when the answer (an input here) arrives.
 */
module ChatViewModel {
  import opened Common
  import opened ChatBasics
  import opened PermissionManager
  import opened NativeToolExecutor

  // ---------------------------------------------------------------------------
  // Messages
  // ---------------------------------------------------------------------------

  const ServerIdPrefix := "server-"

  /** The id of a message the server numbered; other messages get a fresh UUID. */
  function ServerMessageId(n: int): (id: string)
    ensures |id| > |ServerIdPrefix| && id[..|ServerIdPrefix|] == ServerIdPrefix
  {
    ServerIdPrefix + IntToString(n)
  }

  /** The server's number can be read back from the id, so different numbers give different ids. */
  lemma ServerMessageIdRoundTrip(m: int, n: int)
    requires Int64Min <= m <= Int64Max && Int64Min <= n <= Int64Max
    ensures ParseInt(ServerMessageId(n)[|ServerIdPrefix|..]) == Some(n)
    ensures ServerMessageId(m) == ServerMessageId(n) ==> m == n
  {
    assert ServerMessageId(n)[|ServerIdPrefix|..] == IntToString(n);
    assert ServerMessageId(m)[|ServerIdPrefix|..] == IntToString(m);
    IntToStringRoundTrip(m);
    IntToStringRoundTrip(n);
  }

  /** `ChatMessage` without its UUID. */
  datatype ChatMessage = ChatMessage(
    serverId: Option<int>,
    text: string,
    sender: Sender,
    createdAt: Option<Instant>,
    isDivider: bool)

  /** A message made on the device: no server id, no date, never a divider. */
  function Bubble(text: string, sender: Sender): (r: ChatMessage)
    ensures r.serverId.None? && r.createdAt.None? && !r.isDivider
    ensures r.text == text && r.sender == sender
  {
    ChatMessage(None, text, sender, None, false)
  }

  /** `ChatMessage.divider(date:)`. */
  function Divider(date: Instant): (r: ChatMessage)
    ensures r.isDivider && r.text == [] && r.createdAt == Some(date) && r.serverId.None?
  {
    ChatMessage(None, "", Ai, Some(date), true)
  }

  datatype ChatMessageRequest = ChatMessageRequest(userId: int, message: string)

  datatype ChatState = ChatState(
    userId: int,
    messages: seq<ChatMessage>,
    draft: string,
    isSending: bool,
    errorText: Option<string>,
    inputMode: InputMode,
    toast: Option<string>,
    isInitialLoading: bool,
    isLoadingHistory: bool,
    hasMoreHistory: bool,
    oldestMessageId: Option<int>,
    hasLoadedInitialHistory: bool,
    pendingPermissionAction: Option<PendingClientAction>,
    showPermissionAlert: bool,
    permissionType: Option<PermissionType>,
    cache: Cache)

  /** A fresh view model; `cache` is the shared permission manager's cache. */
  function Initial(userId: int, cache: Cache): (r: ChatState)
    ensures r.userId == userId && r.cache == cache
    ensures r.messages == [] && r.draft == [] && !r.isSending && r.errorText.None?
    ensures r.isInitialLoading && !r.hasLoadedInitialHistory && !r.hasMoreHistory && r.oldestMessageId.None?
    ensures r.pendingPermissionAction.None? && !r.showPermissionAlert
  {
    ChatState(userId, [], "", false, None, TextInput, None, true, false, false, None, false, None, false, None, cache)
  }

  const FallbackGreeting := "你好！有什么我可以帮你的吗？"
  const SendFailedText := "消息发送失败，请检查网络后稍后再试。"
  const HistoryFailedText := "加载历史消息失败"
  const CalendarToast := "日历已更新"
  const ActionFailedPrefix := "抱歉，操作失败了："
  const RetryFailedPrefix := "操作失败："

  // ---------------------------------------------------------------------------
  // Reply extraction
  // ---------------------------------------------------------------------------

  /** Reading a text as JSON and taking its string field "reply", if it has one. */
  type ReplyParser = string -> Option<string>

  /** Lower-casing as far as it matters for comparing with ASCII letters. */
  function LowerAscii(c: char): char {
    if 'A' <= c <= 'Z' then (c as int + 32) as char else c
  }

  /** `lowercased().hasPrefix("json")`. */
  predicate HasJsonPrefix(s: string) {
    |s| >= 4 && LowerAscii(s[0]) == 'j' && LowerAscii(s[1]) == 's' && LowerAscii(s[2]) == 'o' && LowerAscii(s[3]) == 'n'
  }

  /** The text offered to the JSON parser: the trimmed reply without a leading "json" tag. */
  function JsonCandidate(trimmed: string): string {
    if HasJsonPrefix(trimmed) then Trim(trimmed[4..], IsWhitespaceOrNewline) else trimmed
  }

  /**
   * `extractReplyText`: the trimmed reply, unless what follows an optional
   * "json" tag is an object with a string "reply", which is then returned trimmed.
   */
  function ExtractReplyText(reply: string, parse: ReplyParser): (r: string)
    ensures IsTrimmed(r, IsWhitespaceOrNewline)
    ensures r != Trim(reply, IsWhitespaceOrNewline) ==>
      var c := JsonCandidate(Trim(reply, IsWhitespaceOrNewline));
      c != [] && c[0] == '{' && parse(c).Some? && r == Trim(parse(c).value, IsWhitespaceOrNewline)
    ensures var c := JsonCandidate(Trim(reply, IsWhitespaceOrNewline));
      c != [] && c[0] == '{' && parse(c).Some? ==> r == Trim(parse(c).value, IsWhitespaceOrNewline)
  {
    var trimmed := Trim(reply, IsWhitespaceOrNewline);
    var candidate := JsonCandidate(trimmed);
    if candidate != [] && candidate[0] == '{' && parse(candidate).Some? then
      Trim(parse(candidate).value, IsWhitespaceOrNewline)
    else trimmed
  }

  /** Text that is neither tagged "json" nor an object is only trimmed, and extracting again changes nothing. */
  lemma PlainReplyIsOnlyTrimmed(reply: string, parse: ReplyParser)
    requires var t := Trim(reply, IsWhitespaceOrNewline); !HasJsonPrefix(t) && (t == [] || t[0] != '{')
    ensures ExtractReplyText(reply, parse) == Trim(reply, IsWhitespaceOrNewline)
    ensures ExtractReplyText(ExtractReplyText(reply, parse), parse) == ExtractReplyText(reply, parse)
  {
    TrimIdempotent(reply, IsWhitespaceOrNewline);
  }

  /**
   * An object whose "reply" the parser finds is unwrapped, whether it comes
   * bare or behind a "json" tag in any letter case, with any white space or
   * line breaks around the reply and between the tag and the object.
   */
  lemma NestedReplyIsUnwrapped(pre: string, tag: string, gap: string, body: string, post: string,
                               nested: string, parse: ReplyParser)
    requires AllIn(pre, IsWhitespaceOrNewline) && AllIn(gap, IsWhitespaceOrNewline) && AllIn(post, IsWhitespaceOrNewline)
    requires tag == [] || (|tag| == 4 && HasJsonPrefix(tag))
    requires body != [] && body[0] == '{' && IsTrimmed(body, IsWhitespaceOrNewline)
    requires parse(body) == Some(nested)
    ensures ExtractReplyText(pre + tag + gap + body + post, parse) == Trim(nested, IsWhitespaceOrNewline)
  {
    PaddedCandidate(pre, tag, gap, body, post);
  }

  /** What the JSON parser is offered for a padded, optionally tagged object is the object itself. */
  lemma PaddedCandidate(pre: string, tag: string, gap: string, body: string, post: string)
    requires AllIn(pre, IsWhitespaceOrNewline) && AllIn(gap, IsWhitespaceOrNewline) && AllIn(post, IsWhitespaceOrNewline)
    requires tag == [] || (|tag| == 4 && HasJsonPrefix(tag))
    requires body != [] && body[0] == '{' && IsTrimmed(body, IsWhitespaceOrNewline)
    ensures JsonCandidate(Trim(pre + tag + gap + body + post, IsWhitespaceOrNewline)) == body
  {
    var s := pre + tag + gap + body + post;
    if tag == [] {
      assert s == (pre + gap) + body + post;
      TrimPadded(pre + gap, body, post, IsWhitespaceOrNewline);
      assert !HasJsonPrefix(body);
    } else {
      var t := tag + gap + body;
      assert s == pre + t + post;
      TaggedCandidate(tag, gap, body);
      TrimPadded(pre, t, post, IsWhitespaceOrNewline);
    }
  }

  /** A tagged object with no padding outside is already trimmed, and the tag and gap are dropped. */
  lemma TaggedCandidate(tag: string, gap: string, body: string)
    requires AllIn(gap, IsWhitespaceOrNewline)
    requires |tag| == 4 && HasJsonPrefix(tag)
    requires body != [] && IsTrimmed(body, IsWhitespaceOrNewline)
    ensures IsTrimmed(tag + gap + body, IsWhitespaceOrNewline) && tag + gap + body != []
    ensures JsonCandidate(tag + gap + body) == body
  {
    var t := tag + gap + body;
    TagLetterIsNotBlank(tag[0]);
    assert t[0] == tag[0] && t[|t| - 1] == body[|body| - 1];
    assert t[..4] == tag;
    assert HasJsonPrefix(t);
    assert t[4..] == gap + body + [];
    TrimPadded(gap, body, [], IsWhitespaceOrNewline);
  }

  /** The first letter of the tag is a "j" in some case, never white space. */
  lemma TagLetterIsNotBlank(c: char)
    requires LowerAscii(c) == 'j'
    ensures !IsWhitespaceOrNewline(c)
  {
    assert c == 'j' || c == 'J';
  }

  // ---------------------------------------------------------------------------
  // History
  // ---------------------------------------------------------------------------

  /** A message of a history page; `createdAt` is its timestamp once parsed, if it parses. */
  datatype HistoryMessage = HistoryMessage(id: int, role: string, content: string, createdAt: Option<Instant>)

  datatype HistoryAnswer =
    | HistoryPage(page: seq<HistoryMessage>, hasMore: bool, oldestId: Option<int>)
    | HistoryThrew

  /** Role "user" is the user; every other role is the assistant. */
  function SenderOf(role: string): (s: Sender)
    ensures s == User <==> role == "user"
  {
    if role == "user" then User else Ai
  }

  /** One history message on screen: the assistant's text goes through reply extraction. */
  function FromHistory(h: HistoryMessage, parse: ReplyParser): (m: ChatMessage)
    ensures m.serverId == Some(h.id) && m.sender == SenderOf(h.role) && m.createdAt == h.createdAt && !m.isDivider
    ensures m.sender == User ==> m.text == h.content
  {
    var sender := SenderOf(h.role);
    ChatMessage(Some(h.id), if sender == Ai then ExtractReplyText(h.content, parse) else h.content, sender, h.createdAt, false)
  }

  /** A history page on screen, in the server's order. */
  function FromHistoryPage(page: seq<HistoryMessage>, parse: ReplyParser): (ms: seq<ChatMessage>)
    ensures |ms| == |page|
    ensures forall i :: 0 <= i < |page| ==> ms[i] == FromHistory(page[i], parse)
  {
    seq(|page|, i requires 0 <= i < |page| => FromHistory(page[i], parse))
  }

  /** The start of `loadHistory(beforeId:)`: the flag goes up and the error is cleared. */
  function BeginHistoryLoad(st: ChatState): (r: ChatState)
    ensures r.isLoadingHistory && r.errorText.None?
    ensures r.(isLoadingHistory := st.isLoadingHistory, errorText := st.errorText) == st
  {
    st.(isLoadingHistory := true, errorText := None)
  }

  /**
   * The rest of `loadHistory(beforeId:)`, once the page arrives: the first
   * page replaces the list as it is by then, a later page goes in front of it.
   * A failed first page is silent; a failed later page shows an error.
   */
  function FinishHistoryLoad(st: ChatState, beforeId: Option<int>, answer: HistoryAnswer, parse: ReplyParser): (r: ChatState)
    ensures !r.isLoadingHistory
    ensures answer.HistoryPage? && beforeId.None? ==> r.messages == FromHistoryPage(answer.page, parse)
    ensures answer.HistoryPage? && beforeId.Some? ==> r.messages == FromHistoryPage(answer.page, parse) + st.messages
    ensures answer.HistoryPage? ==> r.hasMoreHistory == answer.hasMore && r.oldestMessageId == answer.oldestId && r.errorText == st.errorText
    ensures answer.HistoryThrew? ==>
      r == st.(isLoadingHistory := false, errorText := if beforeId.Some? then Some(HistoryFailedText) else st.errorText)
    ensures r == st.(messages := r.messages, hasMoreHistory := r.hasMoreHistory, oldestMessageId := r.oldestMessageId,
                     errorText := r.errorText, isLoadingHistory := false)
  {
    var answered :=
      match answer
      case HistoryThrew =>
        if beforeId.Some? then st.(errorText := Some(HistoryFailedText)) else st
      case HistoryPage(page, more, oldest) =>
        var shown := FromHistoryPage(page, parse);
        st.(messages := if beforeId.None? then shown else shown + st.messages,
            hasMoreHistory := more, oldestMessageId := oldest);
    answered.(isLoadingHistory := false)
  }

  /** `loadHistory(beforeId:)` with nothing happening while the page is in flight. */
  function LoadHistory(st: ChatState, beforeId: Option<int>, answer: HistoryAnswer, parse: ReplyParser): (r: ChatState)
    ensures !r.isLoadingHistory
    ensures answer.HistoryPage? && beforeId.None? ==> r.messages == FromHistoryPage(answer.page, parse)
    ensures answer.HistoryPage? && beforeId.Some? ==> r.messages == FromHistoryPage(answer.page, parse) + st.messages
    ensures answer.HistoryPage? ==> r.hasMoreHistory == answer.hasMore && r.oldestMessageId == answer.oldestId && r.errorText.None?
    ensures answer.HistoryThrew? ==>
      r == st.(isLoadingHistory := false, errorText := if beforeId.Some? then Some(HistoryFailedText) else None)
    ensures r == st.(messages := r.messages, hasMoreHistory := r.hasMoreHistory, oldestMessageId := r.oldestMessageId,
                     errorText := r.errorText, isLoadingHistory := false)
  {
    FinishHistoryLoad(BeginHistoryLoad(st), beforeId, answer, parse)
  }

  /** Paging keeps everything already on screen, as the tail of the list, in order. */
  lemma PagingKeepsSuffix(st: ChatState, before: int, answer: HistoryAnswer, parse: ReplyParser)
    ensures var r := LoadHistory(st, Some(before), answer, parse);
      |r.messages| >= |st.messages| && r.messages[|r.messages| - |st.messages|..] == st.messages
  {
  }

  /** `loadMoreHistory`: only when idle, when the server said there is more, and from the oldest id. */
  function LoadMoreHistory(st: ChatState, answer: HistoryAnswer, parse: ReplyParser): (r: ChatState)
    ensures st.isLoadingHistory || !st.hasMoreHistory || st.oldestMessageId.None? ==> r == st
    ensures !st.isLoadingHistory && st.hasMoreHistory && st.oldestMessageId.Some? ==>
      r == LoadHistory(st, st.oldestMessageId, answer, parse)
  {
    if st.isLoadingHistory || !st.hasMoreHistory || st.oldestMessageId.None? then st
    else LoadHistory(st, st.oldestMessageId, answer, parse)
  }

  /** The divider between history and greeting: dated by the first message, or by `now`. */
  function DividerAfter(history: seq<ChatMessage>, now: Instant): (d: seq<ChatMessage>)
    ensures |d| == (if history == [] then 0 else 1)
    ensures d != [] ==> d[0].isDivider && d[0].text == [] && d[0].sender == Ai
  {
    if history == [] then [] else [Divider(history[0].createdAt.GetOr(now))]
  }

  /** The synchronous part of `loadInitialHistory`: it runs once, and marks itself as run before anything is awaited. */
  function StartInitialHistory(st: ChatState): (r: (ChatState, bool))
    ensures r.1 <==> !st.hasLoadedInitialHistory
    ensures r.0.hasLoadedInitialHistory
    ensures r.0.(hasLoadedInitialHistory := st.hasLoadedInitialHistory) == st
  {
    (st.(hasLoadedInitialHistory := true), !st.hasLoadedInitialHistory)
  }

  /**
   * The end of `loadInitialHistory`, after the greeting's await (`greeting` is
   * None when it failed, and the fallback is used) and the first page's: the
   * page is applied to the messages as they are by then, a divider follows
   * when the list is not empty, and the greeting goes last.
   */
  function FinishInitialHistory(st: ChatState, greeting: Option<string>, answer: HistoryAnswer,
                                parse: ReplyParser, now: Instant): (r: ChatState)
    ensures !r.isInitialLoading && !r.isLoadingHistory && r.hasLoadedInitialHistory == st.hasLoadedInitialHistory
    ensures r.messages != [] && r.messages[|r.messages| - 1] == Bubble(greeting.GetOr(FallbackGreeting), Ai)
    ensures answer.HistoryPage? ==>
      var history := FromHistoryPage(answer.page, parse);
      r.messages == history + DividerAfter(history, now) + [Bubble(greeting.GetOr(FallbackGreeting), Ai)]
    ensures answer.HistoryThrew? ==>
      r.messages == st.messages + DividerAfter(st.messages, now) + [Bubble(greeting.GetOr(FallbackGreeting), Ai)]
  {
    var loaded := FinishHistoryLoad(st, None, answer, parse);
    var shown := loaded.messages + DividerAfter(loaded.messages, now) + [Bubble(greeting.GetOr(FallbackGreeting), Ai)];
    loaded.(messages := shown, isInitialLoading := false)
  }

  /** `loadInitialHistory` with nothing happening while the greeting and the first page are in flight. */
  function LoadInitialHistory(st: ChatState, greeting: Option<string>, answer: HistoryAnswer,
                              parse: ReplyParser, now: Instant): (r: ChatState)
    ensures st.hasLoadedInitialHistory ==> r == st
    ensures !st.hasLoadedInitialHistory ==> r.hasLoadedInitialHistory && !r.isInitialLoading && !r.isLoadingHistory
    ensures !st.hasLoadedInitialHistory ==>
      r.messages != [] && r.messages[|r.messages| - 1] == Bubble(greeting.GetOr(FallbackGreeting), Ai)
    ensures !st.hasLoadedInitialHistory && answer.HistoryPage? ==>
      var history := FromHistoryPage(answer.page, parse);
      r.messages == history + DividerAfter(history, now) + [Bubble(greeting.GetOr(FallbackGreeting), Ai)]
  {
    var (started, go) := StartInitialHistory(st);
    if !go then st
    else FinishInitialHistory(BeginHistoryLoad(started), greeting, answer, parse, now)
  }

  /**
   * A message the user sends while the first page is in flight shows at
   * once, and is gone from the screen when the page arrives, because the page
   * replaces the list.
   */
  lemma MessageDuringInitialLoadIsReplaced(st: ChatState, text: string, greeting: Option<string>,
                                           page: seq<HistoryMessage>, more: bool, oldest: Option<int>,
                                           parse: ReplyParser, now: Instant)
    requires !st.hasLoadedInitialHistory && !AllIn(text, IsWhitespaceOrNewline)
    ensures var during := StartSend(BeginHistoryLoad(StartInitialHistory(st).0), text).0;
      var r := FinishInitialHistory(during, greeting, HistoryPage(page, more, oldest), parse, now);
      && Bubble(Trim(text, IsWhitespaceOrNewline), User) in during.messages
      && Bubble(Trim(text, IsWhitespaceOrNewline), User) !in r.messages
      && r == FinishInitialHistory(BeginHistoryLoad(StartInitialHistory(st).0), greeting, HistoryPage(page, more, oldest), parse, now)
           .(isSending := true)
  {
    var during := StartSend(BeginHistoryLoad(StartInitialHistory(st).0), text).0;
    var r := FinishInitialHistory(during, greeting, HistoryPage(page, more, oldest), parse, now);
    var b := Bubble(Trim(text, IsWhitespaceOrNewline), User);
    var history := FromHistoryPage(page, parse);
    assert r.messages == history + DividerAfter(history, now) + [Bubble(greeting.GetOr(FallbackGreeting), Ai)];
    forall i | 0 <= i < |r.messages|
      ensures r.messages[i] != b
    {
      if i < |history| {
        assert r.messages[i].serverId.Some?;
      } else if i < |history| + |DividerAfter(history, now)| {
        assert r.messages[i].isDivider;
      } else {
        assert r.messages[i].sender == Ai;
      }
    }
  }

  /** A second initial load does nothing, whatever the server would answer. */
  lemma InitialLoadRunsOnce(st: ChatState, g1: Option<string>, a1: HistoryAnswer, g2: Option<string>, a2: HistoryAnswer,
                            parse: ReplyParser, now: Instant, later: Instant)
    ensures var once := LoadInitialHistory(st, g1, a1, parse, now);
      LoadInitialHistory(once, g2, a2, parse, later) == once
  {
  }

  /** The divider appears exactly when the first page had messages, right before the greeting. */
  lemma DividerIffHistory(st: ChatState, greeting: Option<string>, page: seq<HistoryMessage>, more: bool, oldest: Option<int>,
                          parse: ReplyParser, now: Instant)
    requires !st.hasLoadedInitialHistory
    ensures var r := LoadInitialHistory(st, greeting, HistoryPage(page, more, oldest), parse, now);
      && (page == [] ==> r.messages == [Bubble(greeting.GetOr(FallbackGreeting), Ai)])
      && (page != [] ==>
            (|r.messages| == |page| + 2 && r.messages[|page|].isDivider
             && r.messages[|page|].createdAt == Some(page[0].createdAt.GetOr(now))))
  {
  }

  // ---------------------------------------------------------------------------
  // Sending
  // ---------------------------------------------------------------------------

  /** The tap on send in `sendMessage`: the user's bubble goes up and the request goes out. */
  function StartSend(st: ChatState, content: string): (r: (ChatState, Option<ChatMessageRequest>))
    ensures r.1.None? <==> AllIn(content, IsWhitespaceOrNewline)
    ensures r.1.None? ==> r.0 == st
    ensures r.1.Some? ==>
      && r.1.value == ChatMessageRequest(st.userId, Trim(content, IsWhitespaceOrNewline))
      && r.0 == st.(messages := st.messages + [Bubble(r.1.value.message, User)], isSending := true, errorText := None)
  {
    match OutgoingText(content)
    case None => (st, None)
    case Some(text) =>
      (st.(messages := st.messages + [Bubble(text, User)], isSending := true, errorText := None),
       Some(ChatMessageRequest(st.userId, text)))
  }

  /** `sendCurrentMessage`: ignored while sending; otherwise the draft is cleared and sent. */
  function SendCurrentMessage(st: ChatState): (r: (ChatState, Option<ChatMessageRequest>))
    ensures st.isSending ==> r == (st, None)
    ensures !st.isSending ==> r.0.draft == [] && r == StartSend(st.(draft := []), st.draft)
  {
    if st.isSending then (st, None) else StartSend(st.(draft := []), st.draft)
  }

  /** A tool call of the reply, with the client action nested in its result, if one was found there. */
  datatype ToolCallRecord = ToolCallRecord(tool: string, nestedAction: Option<PendingClientAction>)

  /** The actions nested in the tool calls, in call order. */
  function NestedActions(calls: seq<ToolCallRecord>): (r: seq<PendingClientAction>)
    ensures |r| <= |calls|
    ensures forall i :: 0 <= i < |r| ==> exists j :: 0 <= j < |calls| && calls[j].nestedAction == Some(r[i])
    ensures forall j :: 0 <= j < |calls| && calls[j].nestedAction.Some? ==> calls[j].nestedAction.value in r
    decreases |calls|
  {
    if calls == [] then []
    else
      var rest := NestedActions(calls[1..]);
      assert forall i :: 0 <= i < |rest| ==> exists j :: 0 <= j < |calls| && calls[j].nestedAction == Some(rest[i]) by {
        forall i | 0 <= i < |rest|
          ensures exists j :: 0 <= j < |calls| && calls[j].nestedAction == Some(rest[i])
        {
          var j :| 0 <= j < |calls[1..]| && calls[1..][j].nestedAction == Some(rest[i]);
          assert calls[j + 1].nestedAction == Some(rest[i]);
        }
      }
      assert forall j :: 1 <= j < |calls| ==> calls[j] == calls[1..][j - 1];
      match calls[0].nestedAction
      case None => rest
      case Some(a) => [a] + rest
  }

  /** One tool call contributes its nested action, if it has one, and nothing else. */
  lemma NestedActionsOfOne(c: ToolCallRecord)
    ensures c.nestedAction.None? ==> NestedActions([c]) == []
    ensures c.nestedAction.Some? ==> NestedActions([c]) == [c.nestedAction.value]
  {
    assert [c][1..] == [];
  }

  /**
   * The actions of consecutive runs of tool calls are the actions of the first
   * run followed by those of the second: the actions keep call order, and
   * each call contributes as often as it appears.
   */
  lemma {:induction false} NestedActionsConcat(a: seq<ToolCallRecord>, b: seq<ToolCallRecord>)
    ensures NestedActions(a + b) == NestedActions(a) + NestedActions(b)
    decreases |a|
  {
    if a != [] {
      assert (a + b)[1..] == a[1..] + b;
      assert (a + b)[0] == a[0];
      NestedActionsStep(a + b);
      NestedActionsStep(a);
      NestedActionsConcat(a[1..], b);
      var head := if a[0].nestedAction.Some? then [a[0].nestedAction.value] else [];
      assert head + (NestedActions(a[1..]) + NestedActions(b)) == (head + NestedActions(a[1..])) + NestedActions(b);
    } else {
      assert a + b == b;
    }
  }

  /** The first call's action, if any, comes before the actions of the rest. */
  lemma NestedActionsStep(calls: seq<ToolCallRecord>)
    requires calls != []
    ensures NestedActions(calls) ==
      (if calls[0].nestedAction.Some? then [calls[0].nestedAction.value] else []) + NestedActions(calls[1..])
  {
  }

  /** The server's answer to a chat message. */
  datatype SendAnswer =
    | Replied(reply: string, pendingClientActions: seq<PendingClientAction>, toolCallsMade: seq<ToolCallRecord>)
    | SendThrew

  /** The text a finished native action leaves in the chat; a permission request leaves none. */
  function ResultText(result: NativeToolResult): (t: Option<string>)
    ensures t.None? <==> result.PermissionRequired?
  {
    match result
    case Success(m) => Some(m)
    case PermissionDenied(f) => Some(f)
    case Failed(e) => Some(ActionFailedPrefix + e)
    case PermissionRequired(_) => None
  }

  /**
   * What running a list of actions produced: the assistant texts, whether a
   * calendar action succeeded (which shows the toast), the permission cache
   * afterwards, and the position and permission of the action parked for a
   * permission, if one was.
   */
  datatype ActionRun = ActionRun(texts: seq<string>, calendarToast: bool, cache: Cache, parked: Option<(nat, PermissionType)>)

  /** The shared executor as the view model calls it: an action and the permission cache in, an execution out. */
  type Executor = (PendingClientAction, Cache) -> Execution

  /** The native tool executor on a given device. */
  function Executes(d: Device): Executor {
    (a, c) => Execute(a, c, d)
  }

  /** An executor that only ever asks for the permission guarding the action's own tool. */
  ghost predicate ParksOwnPermission(run: Executor) {
    forall a, c :: run(a, c).result.PermissionRequired? ==> RawValue(run(a, c).result.permission) == a.tool
  }

  /** The native tool executor asks only for the permission of the tool it runs. */
  lemma DeviceParksOwnPermission(d: Device)
    ensures ParksOwnPermission(Executes(d))
  {
    forall a, c | Executes(d)(a, c).result.PermissionRequired?
      ensures RawValue(Executes(d)(a, c).result.permission) == a.tool
    {
      assert Executes(d)(a, c) == Execute(a, c, d);
    }
  }

  /** The loop of `handlePendingActions`: in order, until an action needs a permission. */
  function RunActions(actions: seq<PendingClientAction>, cache: Cache, run: Executor): (r: ActionRun)
    ensures r.parked.Some? ==>
      && r.parked.value.0 < |actions|
      && |r.texts| == r.parked.value.0
      && (ParksOwnPermission(run) ==> RawValue(r.parked.value.1) == actions[r.parked.value.0].tool)
    ensures r.parked.None? ==> |r.texts| == |actions|
    decreases |actions|
  {
    if actions == [] then ActionRun([], false, cache, None)
    else
      var ex := run(actions[0], cache);
      match ResultText(ex.result)
      case None => ActionRun([], false, ex.cache, Some((0, ex.result.permission)))
      case Some(text) =>
        var rest := RunActions(actions[1..], ex.cache, run);
        ActionRun([text] + rest.texts,
                  rest.calendarToast || (ex.result.Success? && actions[0].tool == "calendar_manager"),
                  rest.cache,
                  if rest.parked.Some? then Some((rest.parked.value.0 + 1, rest.parked.value.1)) else None)
  }

  /** Running a list unfolds into running its first action and then the rest. */
  lemma RunActionsStep(actions: seq<PendingClientAction>, cache: Cache, run: Executor)
    requires actions != [] && ResultText(run(actions[0], cache).result).Some?
    ensures var ex := run(actions[0], cache);
      var rest := RunActions(actions[1..], ex.cache, run);
      var r := RunActions(actions, cache, run);
      && r.texts == [ResultText(ex.result).value] + rest.texts
      && r.cache == rest.cache
      && r.parked == (if rest.parked.Some? then Some((rest.parked.value.0 + 1, rest.parked.value.1)) else None)
  {
  }

  /** Once an action is parked, the actions after it are never run. */
  lemma {:induction false} RunActionsStopsWhenParked(xs: seq<PendingClientAction>, ys: seq<PendingClientAction>, cache: Cache, run: Executor)
    requires RunActions(xs, cache, run).parked.Some?
    ensures RunActions(xs + ys, cache, run) == RunActions(xs, cache, run)
    decreases |xs|
  {
    assert (xs + ys)[0] == xs[0] && (xs + ys)[1..] == xs[1..] + ys;
    var ex := run(xs[0], cache);
    if ResultText(ex.result).Some? {
      RunActionsStopsWhenParked(xs[1..], ys, ex.cache, run);
    }
  }

  /** When the first action finishes, the rest of the list runs from the cache it left. */
  lemma RunActionsFirstFinishes(xs: seq<PendingClientAction>, ys: seq<PendingClientAction>, cache: Cache, run: Executor)
    requires xs != [] && RunActions(xs, cache, run).parked.None?
    ensures ResultText(run(xs[0], cache).result).Some?
    ensures RunActions(xs[1..], run(xs[0], cache).cache, run).parked.None?
    ensures RunActions(xs[1..], run(xs[0], cache).cache, run).cache == RunActions(xs, cache, run).cache
    ensures (xs + ys)[0] == xs[0] && (xs + ys)[1..] == xs[1..] + ys
  {
    assert (xs + ys)[1..] == xs[1..] + ys;
  }

  /**
   * Actions run strictly in order: when `xs` parks nothing, running `xs + ys`
   * tells what `xs` told and then what `ys` tells, run from the cache `xs` left,
   * and ends with the cache `ys` leaves.
   */
  lemma {:induction false} RunActionsInOrder(xs: seq<PendingClientAction>, ys: seq<PendingClientAction>, cache: Cache, run: Executor)
    requires RunActions(xs, cache, run).parked.None?
    ensures var first := RunActions(xs, cache, run);
      var second := RunActions(ys, first.cache, run);
      RunActions(xs + ys, cache, run).texts == first.texts + second.texts && RunActions(xs + ys, cache, run).cache == second.cache
    decreases |xs|
  {
    if xs == [] {
      assert xs + ys == ys;
      assert [] + RunActions(ys, cache, run).texts == RunActions(ys, cache, run).texts;
    } else {
      var ex := run(xs[0], cache);
      RunActionsFirstFinishes(xs, ys, cache, run);
      RunActionsStep(xs, cache, run);
      RunActionsStep(xs + ys, cache, run);
      RunActionsInOrder(xs[1..], ys, ex.cache, run);
      var t := ResultText(ex.result).value;
      var first' := RunActions(xs[1..], ex.cache, run);
      var second := RunActions(ys, first'.cache, run);
      assert [t] + (first'.texts + second.texts) == ([t] + first'.texts) + second.texts;
    }
  }

  /** An action parked while running `xs + ys` after `xs` finished is one of `ys`, at its place in the whole list. */
  lemma {:induction false} RunActionsParksInOrder(xs: seq<PendingClientAction>, ys: seq<PendingClientAction>, cache: Cache, run: Executor)
    requires RunActions(xs, cache, run).parked.None?
    ensures var second := RunActions(ys, RunActions(xs, cache, run).cache, run);
      RunActions(xs + ys, cache, run).parked ==
        (if second.parked.Some? then Some((|xs| + second.parked.value.0, second.parked.value.1)) else None)
    decreases |xs|
  {
    if xs == [] {
      assert xs + ys == ys;
    } else {
      var ex := run(xs[0], cache);
      RunActionsFirstFinishes(xs, ys, cache, run);
      RunActionsStep(xs + ys, cache, run);
      RunActionsParksInOrder(xs[1..], ys, ex.cache, run);
    }
  }

  /** Assistant bubbles for a list of texts. */
  function AiBubbles(texts: seq<string>): (ms: seq<ChatMessage>)
    ensures |ms| == |texts|
    ensures forall i :: 0 <= i < |texts| ==> ms[i] == Bubble(texts[i], Ai)
  {
    seq(|texts|, i requires 0 <= i < |texts| => Bubble(texts[i], Ai))
  }

  /**
   * `handlePendingActions`: each answer becomes an assistant bubble, and the
   * action that needs a permission is parked with the alert shown.
   */
  function HandlePendingActions(st: ChatState, actions: seq<PendingClientAction>, run: Executor): (r: ChatState)
    ensures actions == [] ==> r == st
    ensures Extends(r.messages, st.messages)
    ensures |r.messages| <= |st.messages| + |actions|
    ensures r.pendingPermissionAction != st.pendingPermissionAction ==>
      && r.pendingPermissionAction.Some? && r.pendingPermissionAction.value in actions
      && r.permissionType.Some? && r.showPermissionAlert
      && (ParksOwnPermission(run) ==> RawValue(r.permissionType.value) == r.pendingPermissionAction.value.tool)
    ensures |r.messages| < |st.messages| + |actions| ==>
      && r.pendingPermissionAction == Some(actions[|r.messages| - |st.messages|])
      && r.showPermissionAlert
  {
    var ran := RunActions(actions, st.cache, run);
    var told := st.(messages := st.messages + AiBubbles(ran.texts), cache := ran.cache,
                    toast := if ran.calendarToast then Some(CalendarToast) else st.toast);
    match ran.parked
    case None => told
    case Some((k, t)) => told.(pendingPermissionAction := Some(actions[k]), permissionType := Some(t), showPermissionAlert := true)
  }

  /** The assistant's reply goes up as a bubble unless it came out empty. */
  function ShowReply(st: ChatState, text: string): (r: ChatState)
    ensures text == [] ==> r == st
    ensures text != [] ==> r == st.(messages := st.messages + [Bubble(text, Ai)])
  {
    if text == [] then st else st.(messages := st.messages + [Bubble(text, Ai)])
  }

  /**
   * `sendMessage` once the answer is in: the extracted reply (when not empty),
   * then the replies' client actions, top-level first and then those nested in
   * tool calls; a failure shows the send error. Sending ends either way.
   */
  function FinishSend(st: ChatState, answer: SendAnswer, parse: ReplyParser, run: Executor): (r: ChatState)
    ensures !r.isSending
    ensures answer.SendThrew? ==> r == st.(errorText := Some(SendFailedText), isSending := false)
    ensures Extends(r.messages, st.messages)
    ensures answer.Replied? && ExtractReplyText(answer.reply, parse) != [] ==>
      |r.messages| > |st.messages| && r.messages[|st.messages|] == Bubble(ExtractReplyText(answer.reply, parse), Ai)
    ensures answer.Replied? && answer.pendingClientActions == [] && NestedActions(answer.toolCallsMade) == [] ==>
      r.cache == st.cache && r.pendingPermissionAction == st.pendingPermissionAction
  {
    match answer
    case SendThrew => st.(errorText := Some(SendFailedText), isSending := false)
    case Replied(reply, top, calls) =>
      var text := ExtractReplyText(reply, parse);
      var shown := ShowReply(st, text);
      var handled := HandlePendingActions(shown, top + NestedActions(calls), run);
      ExtendsTransitive(handled.messages, shown.messages, st.messages);
      assert text != [] ==> handled.messages[|st.messages|] == shown.messages[|st.messages|] == Bubble(text, Ai);
      handled.(isSending := false)
  }

  /** A plain exchange leaves the user's words and the assistant's reply as the last two bubbles. */
  lemma PlainExchange(st: ChatState, content: string, reply: string, parse: ReplyParser, run: Executor)
    requires !AllIn(content, IsWhitespaceOrNewline)
    requires ExtractReplyText(reply, parse) != []
    ensures var (sent, request) := StartSend(st, content);
      var r := FinishSend(sent, Replied(reply, [], []), parse, run);
      r.messages == st.messages + [Bubble(request.value.message, User), Bubble(ExtractReplyText(reply, parse), Ai)]
      && !r.isSending && r.errorText.None?
  {
  }

  // ---------------------------------------------------------------------------
  // Permissions
  // ---------------------------------------------------------------------------

  /**
   * What a permission prompt for the parked action tells the user, and the
   * cache it leaves: granted, the action runs again and a success or failure
   * is told (anything else is not); refused, the fallback text is.
   */
  function RetryText(cache: Cache, t: PermissionType, a: PendingClientAction, answer: PromptAnswer, d: Device): (r: (Option<string>, Cache))
    ensures RequestPermission(cache, t, d.platform, answer).0 != Authorized ==>
      r.0 == Some(DenialMessage(t))
  {
    var (status, granted) := RequestPermission(cache, t, d.platform, answer);
    if status != Authorized then (Some(DenialMessage(t)), granted)
    else
      var ex := Execute(a, granted, d);
      match ex.result
      case Success(m) => (Some(m), ex.cache)
      case Failed(e) => (Some(RetryFailedPrefix + e), ex.cache)
      case _ => (None, ex.cache)
  }

  /**
   * An action parked for its own permission, once that permission is granted,
   * runs past the permission check and always has something to tell.
   */
  lemma GrantedRetryAnswers(cache: Cache, t: PermissionType, a: PendingClientAction, answer: PromptAnswer, d: Device)
    requires RawValue(t) == a.tool
    requires RequestPermission(cache, t, d.platform, answer).0 == Authorized
    ensures RetryText(cache, t, a, answer, d).0.Some?
  {
    var (status, granted) := RequestPermission(cache, t, d.platform, answer);
    assert t != ScreenTime;
    assert t in granted && granted[t] == Authorized;
    if t == Calendar {
      assert a.tool == "calendar_manager";
      var r := CalendarAction(a, Authorized, d.formats, d.saveError, d.today);
      assert r.0.Success? || r.0.Failed?;
    } else {
      assert a.tool == "health_data";
    }
  }

  /** `requestPermissionAndExecute`: tell the outcome of the prompt; nothing stays parked. */
  function RequestPermissionAndExecute(st: ChatState, answer: PromptAnswer, d: Device): (r: ChatState)
    ensures st.permissionType.None? || st.pendingPermissionAction.None? ==> r == st
    ensures st.permissionType.Some? && st.pendingPermissionAction.Some? ==>
      && r.pendingPermissionAction.None? && r.permissionType.None?
      && |st.messages| <= |r.messages| <= |st.messages| + 1
      && r.messages[..|st.messages|] == st.messages
    ensures st.permissionType.Some? && st.pendingPermissionAction.Some?
            && RequestPermission(st.cache, st.permissionType.value, d.platform, answer).0 != Authorized ==>
      r.messages == st.messages + [Bubble(DenialMessage(st.permissionType.value), Ai)]
  {
    if st.permissionType.None? || st.pendingPermissionAction.None? then st
    else
      var (text, cache) := RetryText(st.cache, st.permissionType.value, st.pendingPermissionAction.value, answer, d);
      var told := if text.Some? then st.messages + [Bubble(text.value, Ai)] else st.messages;
      st.(messages := told, cache := cache, pendingPermissionAction := None, permissionType := None)
  }

  /** After a granted prompt for the parked action's own permission, exactly one bubble is added. */
  lemma GrantedRetryAnswersOnce(st: ChatState, answer: PromptAnswer, d: Device)
    requires st.pendingPermissionAction.Some? && st.permissionType.Some?
    requires RawValue(st.permissionType.value) == st.pendingPermissionAction.value.tool
    requires RequestPermission(st.cache, st.permissionType.value, d.platform, answer).0 == Authorized
    ensures |RequestPermissionAndExecute(st, answer, d).messages| == |st.messages| + 1
  {
    GrantedRetryAnswers(st.cache, st.permissionType.value, st.pendingPermissionAction.value, answer, d);
  }

  /** `handlePermissionAlertCancel`: the fallback text for the parked permission, and nothing stays parked. */
  function HandlePermissionAlertCancel(st: ChatState): (r: ChatState)
    ensures r.pendingPermissionAction.None? && r.permissionType.None?
    ensures st.permissionType.Some? ==> r.messages == st.messages + [Bubble(DenialMessage(st.permissionType.value), Ai)]
    ensures st.permissionType.None? ==> r.messages == st.messages
    ensures r == st.(messages := r.messages, pendingPermissionAction := None, permissionType := None)
  {
    var told := if st.permissionType.Some? then st.messages + [Bubble(DenialMessage(st.permissionType.value), Ai)] else st.messages;
    st.(messages := told, pendingPermissionAction := None, permissionType := None)
  }

  /** Cancelling tells the user the same thing as refusing the prompt would have. */
  lemma CancelMatchesRefusal(st: ChatState, d: Device)
    requires st.pendingPermissionAction.Some? && st.permissionType.Some?
    requires st.permissionType.value == Calendar
    ensures RequestPermissionAndExecute(st, Answered(false), d).messages == HandlePermissionAlertCancel(st).messages
  {
  }
}

=== FILE: common.dfy ===
/**
 * Shared vocabulary of the model: an optional value, the character classes
 * Foundation uses when trimming text, trimming itself, and order-preserving
 * filtering of lists.
 */
module Common {

  /** Swift's `Optional`. */
  datatype Option<+T> = None | Some(value: T) {

    /** Swift's `??`: the wrapped value, or `default` when there is none. */
    function GetOr(default: T): T {
      match this
      case Some(v) => v
      case None => default
    }

    /** Swift's `??` between two optionals: this value if present, else `other`. */
    function Or(other: Option<T>): Option<T> {
      if this.Some? then this else other
    }
  }

  // ---------------------------------------------------------------------------
  // Character classes
  // ---------------------------------------------------------------------------

  /** Unicode general category Zs (space separators). */
  predicate IsSpaceSeparator(c: char) {
    || c == ' '
    || c == '\U{00A0}'
    || c == '\U{1680}'
    || ('\U{2000}' <= c <= '\U{200A}')
    || c == '\U{202F}'
    || c == '\U{205F}'
    || c == '\U{3000}'
  }

  /** Foundation's `CharacterSet.whitespaces`: category Zs plus the tab. */
  predicate IsWhitespace(c: char) {
    c == '\t' || IsSpaceSeparator(c)
  }

  /**
   * Foundation's `CharacterSet.whitespacesAndNewlines`: category Z*
   * (Zs, the line and paragraph separators), tab, U+000A to U+000D and U+0085.
   */
  predicate IsWhitespaceOrNewline(c: char) {
    || IsWhitespace(c)
    || ('\U{000A}' <= c <= '\U{000D}')
    || c == '\U{0085}'
    || c == '\U{2028}'
    || c == '\U{2029}'
  }

  /** ASCII letters `A-Z` and `a-z`. */
  predicate IsAsciiLetter(c: char) {
    ('A' <= c <= 'Z') || ('a' <= c <= 'z')
  }

  /** ASCII decimal digits. */
  predicate IsAsciiDigit(c: char) {
    '0' <= c <= '9'
  }

  // ---------------------------------------------------------------------------
  // Decimal numerals
  // ---------------------------------------------------------------------------

  /** The ASCII digit for `d`. */
  function DigitChar(d: nat): (c: char)
    requires d < 10
    ensures IsAsciiDigit(c) && c as int - '0' as int == d
  {
    (d + '0' as int) as char
  }

  /** The value of an ASCII digit. */
  function DigitValue(c: char): (d: nat)
    requires IsAsciiDigit(c)
    ensures d < 10 && DigitChar(d) == c
  {
    c as int - '0' as int
  }

  /** Swift's `"\(n)"` for a non-negative integer: decimal digits, no leading zero. */
  function NatToString(n: nat): (s: string)
    ensures |s| > 0 && AllIn(s, IsAsciiDigit)
    ensures |s| > 1 ==> s[0] != '0'
    decreases n
  {
    if n < 10 then [DigitChar(n)] else NatToString(n / 10) + [DigitChar(n % 10)]
  }

  /** The number a string of ASCII digits denotes. */
  function DigitsValue(s: string): nat
    requires AllIn(s, IsAsciiDigit)
  {
    if |s| == 0 then 0 else DigitsValue(s[..|s| - 1]) * 10 + DigitValue(s[|s| - 1])
  }

  /** Reading back a rendered number gives the number. */
  lemma {:induction false} NatToStringRoundTrip(n: nat)
    ensures DigitsValue(NatToString(n)) == n
    decreases n
  {
    var s := NatToString(n);
    if n >= 10 {
      NatToStringRoundTrip(n / 10);
      assert s[..|s| - 1] == NatToString(n / 10);
    }
  }

  /** Different numbers are rendered differently. */
  lemma NatToStringInjective(m: nat, n: nat)
    ensures NatToString(m) == NatToString(n) ==> m == n
  {
    NatToStringRoundTrip(m);
    NatToStringRoundTrip(n);
  }

  // ---------------------------------------------------------------------------
  // Trimming
  // ---------------------------------------------------------------------------

  /** Neither end of `s` is a character of the class `ws`. */
  predicate IsTrimmed(s: string, ws: char -> bool) {
    |s| == 0 || (!ws(s[0]) && !ws(s[|s| - 1]))
  }

  /** Every character of `s` belongs to the class `ws` (true of ""). */
  predicate AllIn(s: string, ws: char -> bool) {
    forall i :: 0 <= i < |s| ==> ws(s[i])
  }

  /** How many characters at the start of `s` belong to the class `ws`. */
  function LeadingCount(s: string, ws: char -> bool): (k: nat)
    ensures k <= |s|
    ensures forall i :: 0 <= i < k ==> ws(s[i])
    ensures k < |s| ==> !ws(s[k])
  {
    if |s| > 0 && ws(s[0]) then 1 + LeadingCount(s[1..], ws) else 0
  }

  /** How many characters at the end of `s` belong to the class `ws`. */
  function TrailingCount(s: string, ws: char -> bool): (k: nat)
    ensures k <= |s|
    ensures forall i :: |s| - k <= i < |s| ==> ws(s[i])
    ensures k < |s| ==> !ws(s[|s| - 1 - k])
  {
    if |s| > 0 && ws(s[|s| - 1]) then 1 + TrailingCount(s[..|s| - 1], ws) else 0
  }

  /** How many leading characters `Trim` removes. */
  function TrimOffset(s: string, ws: char -> bool): (k: nat)
    ensures k <= |s|
  {
    LeadingCount(s, ws)
  }

  /** Foundation's `trimmingCharacters(in:)`. */
  function Trim(s: string, ws: char -> bool): (r: string)
    ensures IsTrimmed(r, ws)
    ensures |r| <= |s|
    ensures r == [] <==> AllIn(s, ws)
    ensures IsTrimmed(s, ws) ==> r == s
  {
    var t := s[LeadingCount(s, ws)..];
    t[..|t| - TrailingCount(t, ws)]
  }

  /** What is left after trimming is the contiguous piece of the input that starts at `TrimOffset`. */
  lemma TrimIsInfix(s: string, ws: char -> bool)
    ensures TrimOffset(s, ws) + |Trim(s, ws)| <= |s|
    ensures Trim(s, ws) == s[TrimOffset(s, ws)..TrimOffset(s, ws) + |Trim(s, ws)|]
    ensures AllIn(s[..TrimOffset(s, ws)], ws)
    ensures AllIn(s[TrimOffset(s, ws) + |Trim(s, ws)|..], ws)
  {
    var a := LeadingCount(s, ws);
    var t := s[a..];
    var n := |t| - TrailingCount(t, ws);
    assert Trim(s, ws) == t[..n] == s[a..a + n];
    assert s[a + n..] == t[n..];
  }

  lemma {:induction false} LeadingCountSkip(p: string, t: string, ws: char -> bool)
    requires AllIn(p, ws) && (t == [] || !ws(t[0]))
    ensures LeadingCount(p + t, ws) == |p|
  {
    if p != [] {
      LeadingCountSkip(p[1..], t, ws);
      assert (p + t)[1..] == p[1..] + t;
    }
  }

  lemma {:induction false} TrailingCountSkip(t: string, q: string, ws: char -> bool)
    requires AllIn(q, ws) && (t == [] || !ws(t[|t| - 1]))
    ensures TrailingCount(t + q, ws) == |q|
  {
    if q != [] {
      TrailingCountSkip(t, q[..|q| - 1], ws);
      assert (t + q)[..|t + q| - 1] == t + q[..|q| - 1];
    }
  }

  /** Padding of the trimmed class on both sides is exactly what trimming removes. */
  lemma TrimPadded(p: string, s: string, q: string, ws: char -> bool)
    requires AllIn(p, ws) && AllIn(q, ws) && s != [] && IsTrimmed(s, ws)
    ensures Trim(p + s + q, ws) == s
  {
    LeadingCountSkip(p, s + q, ws);
    assert p + s + q == p + (s + q);
    assert (p + s + q)[|p|..] == s + q;
    TrailingCountSkip(s, q, ws);
    assert (s + q)[..|s|] == s;
  }

  /** Trimming twice trims nothing more. */
  lemma TrimIdempotent(s: string, ws: char -> bool)
    ensures Trim(Trim(s, ws), ws) == Trim(s, ws)
  {
  }

  // ---------------------------------------------------------------------------
  // Order-preserving filtering
  // ---------------------------------------------------------------------------

  /** `a` can be obtained from `b` by deleting elements. */
  predicate IsSubsequence<T(==)>(a: seq<T>, b: seq<T>)
    decreases |b|
  {
    if |a| == 0 then true
    else if |b| == 0 then false
    else if a[0] == b[0] then IsSubsequence(a[1..], b[1..])
    else IsSubsequence(a, b[1..])
  }

  /** Swift's `filter`: the elements satisfying `p`, in their original order. */
  function Filter<T>(s: seq<T>, p: T -> bool): (r: seq<T>)
    ensures |r| <= |s|
    ensures forall i :: 0 <= i < |r| ==> p(r[i])
  {
    if |s| == 0 then []
    else if p(s[0]) then [s[0]] + Filter(s[1..], p)
    else Filter(s[1..], p)
  }

  /** The filter keeps exactly the elements of `s` that satisfy `p`. */
  lemma {:induction false} FilterMembers<T>(s: seq<T>, p: T -> bool, x: T)
    ensures x in Filter(s, p) <==> x in s && p(x)
  {
    if |s| > 0 {
      FilterMembers(s[1..], p, x);
      assert s == [s[0]] + s[1..];
    }
  }

  /** `FilterMembers` for every value at once. */
  lemma FilterMembership<T>(s: seq<T>, p: T -> bool)
    ensures forall x :: x in Filter(s, p) <==> x in s && p(x)
  {
    forall x {
      FilterMembers(s, p, x);
    }
  }

  lemma {:induction false} FilterIsSubsequence<T>(s: seq<T>, p: T -> bool)
    ensures IsSubsequence(Filter(s, p), s)
  {
    if |s| > 0 {
      FilterIsSubsequence(s[1..], p);
      var r := Filter(s, p);
      if !p(s[0]) {
        SubsequenceOfTail(r, s);
      }
    }
  }

  /** A subsequence of the tail is a subsequence of the whole. */
  lemma {:induction false} SubsequenceOfTail<T>(a: seq<T>, b: seq<T>)
    requires |b| > 0 && IsSubsequence(a, b[1..])
    ensures IsSubsequence(a, b)
    decreases |b|, |a|
  {
    if |a| > 0 && a[0] == b[0] {
      SubsequenceDropHead(a, b[1..]);
    }
  }

  /** Dropping the first element of a subsequence keeps it a subsequence. */
  lemma {:induction false} SubsequenceDropHead<T>(a: seq<T>, b: seq<T>)
    requires |a| > 0 && IsSubsequence(a, b)
    ensures IsSubsequence(a[1..], b)
    decreases |b|, |a|
  {
    if a[0] == b[0] {
      if |a| > 1 {
        SubsequenceOfTail(a[1..], b);
      }
    } else {
      SubsequenceDropHead(a, b[1..]);
      if |a| > 1 {
        SubsequenceOfTail(a[1..], b);
      }
    }
  }

  /** `longer` starts with `shorter`: what was there is kept, in place. */
  predicate Extends<T(==)>(longer: seq<T>, shorter: seq<T>) {
    |shorter| <= |longer| && longer[..|shorter|] == shorter
  }

  lemma ExtendsTransitive<T>(a: seq<T>, b: seq<T>, c: seq<T>)
    requires Extends(a, b) && Extends(b, c)
    ensures Extends(a, c)
  {
    assert a[..|c|] == a[..|b|][..|c|];
  }

  /** Filtering by a stronger predicate can be done after a weaker one. */
  lemma {:induction false} FilterNarrow<T>(s: seq<T>, p: T -> bool, q: T -> bool)
    requires forall x :: q(x) ==> p(x)
    ensures Filter(Filter(s, p), q) == Filter(s, q)
  {
    if |s| > 0 {
      FilterNarrow(s[1..], p, q);
    }
  }

  /** Filtering distributes over concatenation. */
  lemma {:induction false} FilterConcat<T>(a: seq<T>, b: seq<T>, p: T -> bool)
    ensures Filter(a + b, p) == Filter(a, p) + Filter(b, p)
  {
    if |a| > 0 {
      FilterConcat(a[1..], b, p);
      assert (a + b)[1..] == a[1..] + b;
    } else {
      assert a + b == b;
    }
  }

  /** Filtering a list whose elements all pass changes nothing. */
  lemma {:induction false} FilterAll<T>(s: seq<T>, p: T -> bool)
    requires forall i :: 0 <= i < |s| ==> p(s[i])
    ensures Filter(s, p) == s
  {
    if |s| > 0 {
      FilterAll(s[1..], p);
    }
  }

  /** Trimming characters that a filter drops anyway does not change what the filter keeps. */
  lemma FilterOfTrim(s: string, ws: char -> bool, p: char -> bool)
    requires forall c :: ws(c) ==> !p(c)
    ensures Filter(Trim(s, ws), p) == Filter(s, p)
  {
    FilterDropLeading(s, ws, p);
    FilterDropTrailing(s[LeadingCount(s, ws)..], ws, p);
  }

  lemma {:induction false} FilterDropLeading(s: string, ws: char -> bool, p: char -> bool)
    requires forall c :: ws(c) ==> !p(c)
    ensures Filter(s[LeadingCount(s, ws)..], p) == Filter(s, p)
  {
    if |s| > 0 && ws(s[0]) {
      FilterDropLeading(s[1..], ws, p);
      assert s[LeadingCount(s, ws)..] == s[1..][LeadingCount(s[1..], ws)..];
    }
  }

  lemma {:induction false} FilterDropTrailing(t: string, ws: char -> bool, p: char -> bool)
    requires forall c :: ws(c) ==> !p(c)
    ensures Filter(t[..|t| - TrailingCount(t, ws)], p) == Filter(t, p)
  {
    if |t| > 0 && ws(t[|t| - 1]) {
      var u := t[..|t| - 1];
      var last := t[|t| - 1];
      FilterDropTrailing(u, ws, p);
      assert t[..|t| - TrailingCount(t, ws)] == u[..|u| - TrailingCount(u, ws)];
      assert t == u + [last];
      FilterConcat(u, [last], p);
      assert Filter([last], p) == [] by {
        assert !p(last);
      }
      calc {
        Filter(t, p);
        Filter(u + [last], p);
        Filter(u, p) + Filter([last], p);
        Filter(u, p);
      }
    } else {
      assert t[..|t| - TrailingCount(t, ws)] == t;
    }
  }

  /** A prefix of a subsequence is still a subsequence. */
  lemma {:induction false} SubsequencePrefix<T>(a: seq<T>, b: seq<T>, k: nat)
    requires IsSubsequence(a, b) && k <= |a|
    ensures IsSubsequence(a[..k], b)
    decreases |b|
  {
    if k > 0 && |b| > 0 {
      if a[0] == b[0] {
        SubsequencePrefix(a[1..], b[1..], k - 1);
        assert a[..k][1..] == a[1..][..k - 1];
      } else {
        SubsequencePrefix(a, b[1..], k);
      }
    }
  }

  /** Filtering an empty list, or with a predicate nothing meets, gives []. */
  lemma {:induction false} FilterNone<T>(s: seq<T>, p: T -> bool)
    requires forall i :: 0 <= i < |s| ==> !p(s[i])
    ensures Filter(s, p) == []
  {
    if |s| > 0 {
      FilterNone(s[1..], p);
    }
  }

  // ---------------------------------------------------------------------------
  // Searching
  // ---------------------------------------------------------------------------

  /** Swift's `firstIndex(where:)`: the smallest index whose element satisfies `p`. */
  function FirstIndex<T>(s: seq<T>, p: T -> bool): (r: Option<nat>)
    ensures r.Some? ==> r.value < |s| && p(s[r.value])
    ensures r.Some? ==> forall j :: 0 <= j < r.value ==> !p(s[j])
    ensures r.None? <==> forall i :: 0 <= i < |s| ==> !p(s[i])
  {
    if |s| == 0 then None
    else if p(s[0]) then Some(0)
    else
      match FirstIndex(s[1..], p)
      case None => None
      case Some(k) => Some(k + 1)
  }

  /** Swift's `first(where:)`. */
  function First<T>(s: seq<T>, p: T -> bool): (r: Option<T>)
    ensures r.Some? <==> exists i :: 0 <= i < |s| && p(s[i])
    ensures r.Some? ==> p(r.value) && r.value in s
  {
    match FirstIndex(s, p)
    case None => None
    case Some(k) => Some(s[k])
  }

  // ---------------------------------------------------------------------------
  // Integer parsing, zero padding and splitting
  // ---------------------------------------------------------------------------

  const Int64Max: int := 0x7FFF_FFFF_FFFF_FFFF
  const Int64Min: int := -0x8000_0000_0000_0000

  /** A leading zero does not change the value of a digit string. */
  lemma {:induction false} DigitsValueLeadingZero(s: string)
    requires AllIn(s, IsAsciiDigit)
    ensures AllIn(['0'] + s, IsAsciiDigit) && DigitsValue(['0'] + s) == DigitsValue(s)
    decreases |s|
  {
    if |s| > 0 {
      DigitsValueLeadingZero(s[..|s| - 1]);
      assert (['0'] + s)[..|s|] == ['0'] + s[..|s| - 1];
    }
  }

  /** `n` written with leading zeros to at least `width` digits, as a `yyyy` date field writes a year. */
  function ZeroPad(n: nat, width: nat): (s: string)
    ensures |s| == if |NatToString(n)| >= width then |NatToString(n)| else width
    ensures AllIn(s, IsAsciiDigit) && DigitsValue(s) == n
    decreases width
  {
    if |NatToString(n)| >= width then
      NatToStringRoundTrip(n);
      NatToString(n)
    else
      var t := ZeroPad(n, width - 1);
      DigitsValueLeadingZero(t);
      ['0'] + t
  }

  /**
   * Reads a non-empty run of ASCII digits that ends at the first `mark` of
   * `s`: the run's value and what follows the mark.
   */
  function ReadNumberUpTo(s: string, mark: char): Option<(nat, string)> {
    match FirstIndex(s, (c: char) => c == mark)
    case None => None
    case Some(k) =>
      if k > 0 && AllIn(s[..k], IsAsciiDigit) then Some((DigitsValue(s[..k]), s[k + 1..])) else None
  }

  /** Digits, then a mark that is not a digit, read back as the digits' value and the rest. */
  lemma ReadNumberUpToDigits(digits: string, mark: char, rest: string)
    requires digits != [] && AllIn(digits, IsAsciiDigit) && !IsAsciiDigit(mark)
    ensures ReadNumberUpTo(digits + [mark] + rest, mark) == Some((DigitsValue(digits), rest))
  {
    var s := digits + [mark] + rest;
    var p := (c: char) => c == mark;
    assert p(s[|digits|]);
    assert forall j :: 0 <= j < |digits| ==> s[j] == digits[j] && !p(s[j]);
    var k := FirstIndex(s, p);
    assert k == Some(|digits|);
    assert s[..|digits|] == digits;
    assert s[|digits| + 1..] == rest;
  }

  /**
   * Swift's `Int(_:)` on a string: an optional `+` or `-`, then one or more
   * ASCII digits and nothing else; a value outside the 64-bit range is nil.
   */
  function ParseInt(s: string): (r: Option<int>)
    ensures r.Some? ==> Int64Min <= r.value <= Int64Max
    ensures r.Some? ==> s != [] && AllIn(s[1..], IsAsciiDigit)
    ensures AllIn(s, IsAsciiDigit) && s != [] && DigitsValue(s) <= Int64Max ==> r == Some(DigitsValue(s))
  {
    var signed := |s| > 0 && (s[0] == '+' || s[0] == '-');
    var digits := if signed then s[1..] else s;
    if digits == [] || !AllIn(digits, IsAsciiDigit) then None
    else
      var v: int := if signed && s[0] == '-' then 0 - DigitsValue(digits) else DigitsValue(digits);
      if Int64Min <= v <= Int64Max then Some(v) else None
  }

  /** Swift's `"\(n)"` for any integer: a minus sign before a negative number's digits. */
  function IntToString(n: int): (s: string)
    ensures s != []
    ensures n >= 0 ==> AllIn(s, IsAsciiDigit)
  {
    if n < 0 then "-" + NatToString(-n) else NatToString(n)
  }

  /** `Int(_:)` reads a rendered 64-bit integer back. */
  lemma IntToStringRoundTrip(n: int)
    requires Int64Min <= n <= Int64Max
    ensures ParseInt(IntToString(n)) == Some(n)
  {
    if n < 0 {
      NatToStringRoundTrip(-n);
      assert IntToString(n)[1..] == NatToString(-n);
    } else {
      NatToStringRoundTrip(n);
    }
  }

  /**
   * `String(format: "%02d", n)`: a non-negative value below ten gets one
   * leading zero; anything else, a negative value included, is already at
   * least two characters wide.
   */
  function Pad2(n: int): (s: string)
    ensures |s| >= 2
    ensures n >= 0 ==> AllIn(s, IsAsciiDigit)
    ensures 0 <= n < 100 ==> |s| == 2
  {
    if 0 <= n < 10 then "0" + NatToString(n)
    else
      assert 10 <= n < 100 ==> |NatToString(n / 10)| == 1;
      IntToString(n)
  }

  /** Reading a padded number back with `Int(_:)` gives the number. */
  lemma Pad2RoundTrip(n: int)
    requires Int64Min <= n <= Int64Max
    ensures ParseInt(Pad2(n)) == Some(n)
  {
    if 0 <= n < 10 {
      NatToStringRoundTrip(n);
      DigitsValueLeadingZero(NatToString(n));
    } else {
      IntToStringRoundTrip(n);
    }
  }

  /** The predicate "is not `sep`". */
  function IsNot(sep: char): char -> bool {
    c => c != sep
  }

  /**
   * Swift's `split(separator:)` with its default of dropping empty pieces,
   * with `current` the piece read so far.
   */
  function SplitFrom(s: string, sep: char, current: string): seq<string>
    decreases |s|
  {
    if s == [] then (if current == [] then [] else [current])
    else if s[0] == sep then (if current == [] then [] else [current]) + SplitFrom(s[1..], sep, [])
    else SplitFrom(s[1..], sep, current + [s[0]])
  }

  /** `s.split(separator: sep)`. */
  function Split(s: string, sep: char): seq<string> {
    SplitFrom(s, sep, [])
  }

  /** All pieces glued together, in order. */
  function Concat(pieces: seq<string>): string {
    if pieces == [] then [] else pieces[0] + Concat(pieces[1..])
  }

  /**
   * The pieces are non-empty, hold no separator, and together spell out the
   * input with its separators deleted.
   */
  lemma {:induction false} SplitFromPieces(s: string, sep: char, current: string)
    requires AllIn(current, IsNot(sep))
    ensures forall i :: 0 <= i < |SplitFrom(s, sep, current)| ==>
      SplitFrom(s, sep, current)[i] != [] && AllIn(SplitFrom(s, sep, current)[i], IsNot(sep))
    ensures Concat(SplitFrom(s, sep, current)) == current + Filter(s, IsNot(sep))
    decreases |s|
  {
    if s == [] {
    } else if s[0] == sep {
      SplitFromPieces(s[1..], sep, []);
      var head: seq<string> := if current == [] then [] else [current];
      ConcatAppend(head, SplitFrom(s[1..], sep, []));
    } else {
      SplitFromPieces(s[1..], sep, current + [s[0]]);
      assert current + [s[0]] + Filter(s[1..], IsNot(sep)) == current + Filter(s, IsNot(sep));
    }
  }

  lemma {:induction false} ConcatAppend(a: seq<string>, b: seq<string>)
    ensures Concat(a + b) == Concat(a) + Concat(b)
    decreases |a|
  {
    if a == [] {
      assert a + b == b;
    } else {
      ConcatAppend(a[1..], b);
      assert (a + b)[1..] == a[1..] + b;
    }
  }

  /** Characters without a separator only extend the current piece. */
  lemma {:induction false} SplitFromNoSeparator(a: string, t: string, sep: char, current: string)
    requires AllIn(a, IsNot(sep))
    ensures SplitFrom(a + t, sep, current) == SplitFrom(t, sep, current + a)
    decreases |a|
  {
    if a == [] {
      assert a + t == t;
      assert current + a == current;
    } else {
      assert (a + t)[0] == a[0] && (a + t)[1..] == a[1..] + t;
      SplitFromNoSeparator(a[1..], t, sep, current + [a[0]]);
      assert current + [a[0]] + a[1..] == current + a;
    }
  }

  /** Swift's `joined(separator:)` on a non-empty list of pieces. */
  function Join(pieces: seq<string>, sep: char): (s: string)
    requires pieces != []
    decreases |pieces|
  {
    if |pieces| == 1 then pieces[0] else pieces[0] + [sep] + Join(pieces[1..], sep)
  }

  /** Splitting at one separator splits the two sides independently. */
  lemma {:induction false} SplitAtSeparator(x: string, y: string, sep: char, current: string)
    ensures SplitFrom(x + [sep] + y, sep, current) == SplitFrom(x, sep, current) + SplitFrom(y, sep, [])
    decreases |x|
  {
    if x == [] {
      assert x + [sep] + y == [sep] + y && ([sep] + y)[1..] == y;
    } else {
      assert (x + [sep] + y)[0] == x[0] && (x + [sep] + y)[1..] == x[1..] + [sep] + y;
      if x[0] == sep {
        SplitAtSeparator(x[1..], y, sep, []);
      } else {
        SplitAtSeparator(x[1..], y, sep, current + [x[0]]);
      }
    }
  }

  /** A property of every character of the input holds of every character of every piece. */
  lemma {:induction false} SplitKeepsCharacters(s: string, sep: char, current: string, q: char -> bool)
    requires AllIn(s, q) && AllIn(current, q)
    ensures forall i :: 0 <= i < |SplitFrom(s, sep, current)| ==> AllIn(SplitFrom(s, sep, current)[i], q)
    decreases |s|
  {
    if s != [] {
      if s[0] == sep {
        SplitKeepsCharacters(s[1..], sep, [], q);
      } else {
        SplitKeepsCharacters(s[1..], sep, current + [s[0]], q);
      }
    }
  }

  /** Non-empty separator-free pieces, once joined, split back into the same pieces. */
  lemma {:induction false} SplitJoin(pieces: seq<string>, sep: char)
    requires pieces != []
    requires forall i :: 0 <= i < |pieces| ==> pieces[i] != [] && AllIn(pieces[i], IsNot(sep))
    ensures Split(Join(pieces, sep), sep) == pieces
    decreases |pieces|
  {
    var a := pieces[0];
    assert [] + a == a;
    if |pieces| == 1 {
      SplitFromNoSeparator(a, [], sep, []);
      assert a + [] == a;
    } else {
      var rest := Join(pieces[1..], sep);
      SplitJoin(pieces[1..], sep);
      SplitFromNoSeparator(a, [sep] + rest, sep, []);
      assert a + [sep] + rest == a + ([sep] + rest);
      assert ([sep] + rest)[0] == sep && ([sep] + rest)[1..] == rest;
      assert pieces == [a] + pieces[1..];
    }
  }
}

=== FILE: daily_tasks.dfy ===
/**
 * What the two home screens (the tabbed home screen and the older single
 * page) share: loading today's calendar and plan, and the gate through which
 * a task card's complete, cancel or postpone action reaches the server.
 */
module DailyTasks {
  import opened Common
  import opened GoalModels

  /** The next solar term the calendar reports. */
  datatype SolarTerm = SolarTerm(name: string, solarDate: string)

  /** `CalendarInfoResponse`, the fields the home screens read. */
  datatype CalendarInfo = CalendarInfo(
    solarDate: string,
    lunarDate: string,
    currentJieqi: Option<string>,
    nextJieqi: Option<SolarTerm>)

  /** The outcome of a server call: its value, or a thrown error. */
  datatype Answer<T> = Answered(value: T) | Threw

  /** The task statuses the home screens list: not yet done and not cancelled. */
  predicate IsOpen(status: string) {
    status == "planned" || status == "in_progress"
  }

  // ---------------------------------------------------------------------------
  // Today's calendar and plan
  // ---------------------------------------------------------------------------

  /** The loading state of today's data; the splash screen shows while `isLoading`. */
  datatype TodayLoad = TodayLoad(
    calendarInfo: Option<CalendarInfo>,
    dailyPlan: Option<seq<DailyTaskItem>>,
    isLoading: bool,
    loadError: Option<string>)

  /** Nothing loaded yet; the screens start out loading. */
  const InitialToday := TodayLoad(None, None, true, None)

  const CalendarFailedText := "日历信息加载失败，请检查网络后稍后再试。"
  const NoAccountTasksText := "系统暂时无法获取你的账户信息，今日待办暂时无法加载，请稍后再试。"
  const PlanFailedText := "暂时无法获取今日待办事项，请稍后再试。"

  /** The calendar half of the load: the flag is raised, the error cleared, then the calendar taken or its failure noted. */
  function AfterCalendar(st: TodayLoad, calendar: Answer<CalendarInfo>): (r: TodayLoad)
    ensures r.isLoading && r.dailyPlan == st.dailyPlan
    ensures r.loadError.None? <==> calendar.Answered?
    ensures calendar.Answered? ==> r.calendarInfo == Some(calendar.value)
    ensures calendar.Threw? ==> r.calendarInfo == st.calendarInfo
  {
    var started := st.(isLoading := true, loadError := None);
    match calendar
    case Answered(info) => started.(calendarInfo := Some(info))
    case Threw => started.(loadError := Some(CalendarFailedText))
  }

  /** The plan half, for a known user: the plan taken or its failure noted, then the flag lowered. */
  function AfterPlan(st: TodayLoad, plan: Answer<seq<DailyTaskItem>>): (r: TodayLoad)
    ensures !r.isLoading && r.calendarInfo == st.calendarInfo
    ensures plan.Answered? ==> r.dailyPlan == Some(plan.value) && r.loadError == st.loadError
    ensures plan.Threw? ==> r.dailyPlan == st.dailyPlan && r.loadError == Some(PlanFailedText)
  {
    match plan
    case Answered(items) => st.(dailyPlan := Some(items), isLoading := false)
    case Threw => st.(loadError := Some(PlanFailedText), isLoading := false)
  }

  /**
   * `fetchCalendarAndPlan` as written. Without a user id it returns from
   * inside the `do` block, before the line that lowers the loading flag.
   */
  function FetchCalendarAndPlanAsWritten(
    st: TodayLoad, userId: Option<int>, calendar: Answer<CalendarInfo>, plan: Answer<seq<DailyTaskItem>>): (r: TodayLoad)
    ensures userId.None? ==> r.isLoading && r.loadError == Some(NoAccountTasksText) && r.dailyPlan == st.dailyPlan
    ensures userId.Some? ==> !r.isLoading
  {
    var c := AfterCalendar(st, calendar);
    if userId.None? then c.(loadError := Some(NoAccountTasksText))
    else AfterPlan(c, plan)
  }

  /** The load as written, retried through `loadInitialDataIfNeeded`. */
  function LoadInitialDataAsWritten(
    st: TodayLoad, userId: Option<int>, calendar: Answer<CalendarInfo>, plan: Answer<seq<DailyTaskItem>>): (r: TodayLoad)
    ensures !st.isLoading ==> r == st
    ensures st.isLoading ==> (r.isLoading <==> userId.None?)
  {
    if !st.isLoading then st else FetchCalendarAndPlanAsWritten(st, userId, calendar, plan)
  }

  /**
   * Without a user id the splash screen never goes away, however often the
   * screen re-appears and retries, and the error it sets is hidden under it.
   */
  lemma NoUserKeepsSplash(calendar1: Answer<CalendarInfo>, calendar2: Answer<CalendarInfo>, plan: Answer<seq<DailyTaskItem>>)
    ensures LoadInitialDataAsWritten(InitialToday, None, calendar1, plan).isLoading
    ensures LoadInitialDataAsWritten(LoadInitialDataAsWritten(InitialToday, None, calendar1, plan), None, calendar2, plan).isLoading
  {
  }

  /**
   * The load with the loading flag lowered on every path, the evident intent:
   * the flag ends down; the error is absent exactly when the calendar and the
   * plan both arrived for a known user, and otherwise names the last failure;
   * the calendar and the plan are replaced exactly when they arrived.
   */
  function FetchCalendarAndPlan(
    st: TodayLoad, userId: Option<int>, calendar: Answer<CalendarInfo>, plan: Answer<seq<DailyTaskItem>>): (r: TodayLoad)
    ensures !r.isLoading
    ensures r.loadError.None? <==> calendar.Answered? && userId.Some? && plan.Answered?
    ensures userId.None? ==> r.loadError == Some(NoAccountTasksText)
    ensures userId.Some? && plan.Threw? ==> r.loadError == Some(PlanFailedText)
    ensures userId.Some? && plan.Answered? && calendar.Threw? ==> r.loadError == Some(CalendarFailedText)
    ensures r.calendarInfo == (if calendar.Answered? then Some(calendar.value) else st.calendarInfo)
    ensures r.dailyPlan == (if userId.Some? && plan.Answered? then Some(plan.value) else st.dailyPlan)
  {
    FetchCalendarAndPlanAsWritten(st, userId, calendar, plan).(isLoading := false)
  }

  /** The correction changes nothing when there is a user. */
  lemma CorrectedLoadAgreesWithUser(st: TodayLoad, userId: Option<int>, calendar: Answer<CalendarInfo>, plan: Answer<seq<DailyTaskItem>>)
    requires userId.Some?
    ensures FetchCalendarAndPlan(st, userId, calendar, plan) == FetchCalendarAndPlanAsWritten(st, userId, calendar, plan)
  {
  }

  /** `loadInitialDataIfNeeded`: loads only while the screen still shows it is loading. */
  function LoadInitialDataIfNeeded(
    st: TodayLoad, userId: Option<int>, calendar: Answer<CalendarInfo>, plan: Answer<seq<DailyTaskItem>>): (r: TodayLoad)
    ensures !r.isLoading
    ensures !st.isLoading ==> r == st
  {
    if !st.isLoading then st else FetchCalendarAndPlan(st, userId, calendar, plan)
  }

  /** Once loaded, re-appearing does not load again, whatever the server would answer. */
  lemma InitialLoadRunsOnce(
    st: TodayLoad, userId: Option<int>,
    calendar1: Answer<CalendarInfo>, plan1: Answer<seq<DailyTaskItem>>,
    calendar2: Answer<CalendarInfo>, plan2: Answer<seq<DailyTaskItem>>)
    ensures var once := LoadInitialDataIfNeeded(st, userId, calendar1, plan1);
      LoadInitialDataIfNeeded(once, userId, calendar2, plan2) == once
  {
  }

  // ---------------------------------------------------------------------------
  // Task actions
  // ---------------------------------------------------------------------------

  /** The three buttons of a task card (`ExecutionAction`). */
  datatype ExecutionAction = Complete | Cancel | Postpone

  /** `ExecutionUpdateRequest`: the action's name and, for a postpone, the new date. */
  datatype ExecutionUpdateRequest = ExecutionUpdateRequest(action: string, newDate: Option<string>)

  /** The frequencies whose tasks come back on their own and so cannot be postponed. */
  predicate IsRepeating(frequency: string) {
    frequency == "daily" || frequency == "weekdays"
  }

  /** The request for an action; `tomorrow` is the formatted date of the next day. */
  function RequestFor(action: ExecutionAction, tomorrow: string): (r: ExecutionUpdateRequest)
    ensures r.newDate.Some? <==> action == Postpone
    ensures action == Postpone ==> r.newDate == Some(tomorrow)
    ensures RequestedAction(r) == Some(action)
  {
    match action
    case Complete => ExecutionUpdateRequest("complete", None)
    case Cancel => ExecutionUpdateRequest("cancel", None)
    case Postpone => ExecutionUpdateRequest("postpone", Some(tomorrow))
  }

  /** The action a request's name stands for, as the server reads it. */
  function RequestedAction(r: ExecutionUpdateRequest): Option<ExecutionAction> {
    match r.action
    case "complete" => Some(Complete)
    case "cancel" => Some(Cancel)
    case "postpone" => Some(Postpone)
    case _ => None
  }

  /** Different actions send different names. */
  lemma RequestNamesDistinct(a: ExecutionAction, b: ExecutionAction, tomorrow: string)
    ensures RequestFor(a, tomorrow).action == RequestFor(b, tomorrow).action ==> a == b
  {
    assert RequestedAction(RequestFor(a, tomorrow)) == Some(a);
    assert RequestedAction(RequestFor(b, tomorrow)) == Some(b);
  }

  /** The in-flight flag and the error line both screens keep for task actions. */
  datatype ActionGate = ActionGate(isUpdating: bool, actionError: Option<string>)

  const NoPostponeText := "该待办事项为每日/工作日重复事项，目前不支持推迟。"
  const UpdateFailedText := "更新待办事项状态失败，请稍后重试。"

  /**
   * The synchronous part of `handleExecutionAction`: ignored while another
   * update is in flight; postponing a repeating task only sets the error;
   * anything else raises the flag, clears the error and sends the request.
   */
  function StartAction(g: ActionGate, action: ExecutionAction, frequency: string, tomorrow: string)
    : (r: (ActionGate, Option<ExecutionUpdateRequest>))
    ensures g.isUpdating ==> r == (g, None)
    ensures r.1.Some? <==> !g.isUpdating && !(action == Postpone && IsRepeating(frequency))
    ensures r.1.Some? ==> r.1.value == RequestFor(action, tomorrow) && r.0 == ActionGate(true, None)
    ensures !g.isUpdating && r.1.None? ==> r.0 == g.(actionError := Some(NoPostponeText))
  {
    if g.isUpdating then (g, None)
    else if action == Postpone && IsRepeating(frequency) then (g.(actionError := Some(NoPostponeText)), None)
    else (ActionGate(true, None), Some(RequestFor(action, tomorrow)))
  }

  /** The end of the update, success or failure: the flag comes down, and a failure is reported. */
  function FinishAction(g: ActionGate, updated: bool): (r: ActionGate)
    ensures !r.isUpdating
    ensures updated ==> r.actionError == g.actionError
    ensures !updated ==> r.actionError == Some(UpdateFailedText)
  {
    if updated then g.(isUpdating := false)
    else ActionGate(false, Some(UpdateFailedText))
  }

  /**
   * One action at a time: while a started action is in flight every other
   * action is ignored, and after it ends, whatever the outcome, the next one
   * is accepted again.
   */
  lemma OneActionAtATime(
    g: ActionGate, a: ExecutionAction, f: string, t: string,
    b: ExecutionAction, f2: string, t2: string, updated: bool)
    requires StartAction(g, a, f, t).1.Some?
    ensures StartAction(StartAction(g, a, f, t).0, b, f2, t2) == (StartAction(g, a, f, t).0, None)
    ensures StartAction(FinishAction(StartAction(g, a, f, t).0, updated), b, f2, t2).1.Some? <==> !(b == Postpone && IsRepeating(f2))
  {
  }

  /** No request ever asks to postpone a daily or weekday task. */
  lemma RepeatingNeverPostponed(g: ActionGate, a: ExecutionAction, frequency: string, tomorrow: string)
    requires IsRepeating(frequency) && StartAction(g, a, frequency, tomorrow).1.Some?
    ensures RequestedAction(StartAction(g, a, frequency, tomorrow).1.value) != Some(Postpone)
    ensures StartAction(g, a, frequency, tomorrow).1.value.newDate.None?
  {
  }
}

=== FILE: dialog_components.dfy ===
/**
 * The reusable dialog pieces the edit dialogs are built from: the dimmed
 * container, the option picker, the cancel/save button row and the
 * confirmation overlay. Only their decisions are modelled, not their looks.
 */
module DialogComponents {
  import opened Common

  /** `DialogContainer`'s default for `allowDismissOnTap`. */
  const DefaultAllowDismissOnTap := true

  /** `DialogContainer`: a tap on the dimmed background; the result is the new `isPresented`. */
  function BackgroundTap(isPresented: bool, allowDismissOnTap: bool): (r: bool)
    ensures allowDismissOnTap ==> !r
    ensures !allowDismissOnTap ==> r == isPresented
  {
    if allowDismissOnTap then false else isPresented
  }

  /** Which of the two buttons of `DialogButtonRow` accept taps. */
  datatype ButtonRow = ButtonRow(cancelEnabled: bool, saveEnabled: bool)

  /** `DialogButtonRow`'s `disabled` modifiers. */
  function ButtonRowState(isSaving: bool, isSaveDisabled: bool): (r: ButtonRow)
    ensures r.cancelEnabled <==> !isSaving
    ensures r.saveEnabled <==> !isSaving && !isSaveDisabled
  {
    ButtonRow(!isSaving, !(isSaving || isSaveDisabled))
  }

  /** While saving nothing can be tapped; save is never enabled when cancel is not. */
  lemma ButtonRowWhileSaving(isSaveDisabled: bool, isSaving: bool)
    ensures ButtonRowState(true, isSaveDisabled) == ButtonRow(false, false)
    ensures ButtonRowState(isSaving, isSaveDisabled).saveEnabled ==> ButtonRowState(isSaving, isSaveDisabled).cancelEnabled
  {
  }

  /**
   * The effect of tapping an option of `OptionPicker`: the picker's bound
   * value afterwards, and the value handed to `onSelectionChange`, if any.
   */
  datatype PickerTap = PickerTap(selectedValue: string, forwarded: Option<string>)

  /** `OptionPicker`'s button action. */
  function OptionPickerTap(selected: string, option: string, hasOnSelectionChange: bool): (r: PickerTap)
    ensures hasOnSelectionChange ==> r.selectedValue == selected && r.forwarded == Some(option)
    ensures !hasOnSelectionChange ==> r.selectedValue == option && r.forwarded == None
  {
    if hasOnSelectionChange then PickerTap(selected, Some(option)) else PickerTap(option, None)
  }

  /** The two buttons of `ConfirmationDialogOverlay`. */
  datatype OverlayButton = OverlayCancel | OverlayConfirm

  /** What a tap on an overlay button does: whether `onConfirm` runs, and whether the overlay stays. */
  datatype OverlayEffect = OverlayEffect(runsOnConfirm: bool, stillPresented: bool)

  function OverlayTap(b: OverlayButton): (r: OverlayEffect)
    ensures !r.stillPresented
    ensures r.runsOnConfirm <==> b == OverlayConfirm
  {
    match b
    case OverlayCancel => OverlayEffect(false, false)
    case OverlayConfirm => OverlayEffect(true, false)
  }
}

=== FILE: expired_milestone_wizard.dfy ===
/**
 * The wizard shown for milestones whose due date has passed. The user first
 * marks each one achieved or not; if all were achieved they are completed on
 * the server, otherwise each unfulfilled one is either continued with a new
 * due date (reopened) or skipped.
 *
 * Dates are seconds since an epoch; the server's `yyyy-MM-dd` text for a date
 * is not modelled.
 */
module ExpiredMilestoneWizard {
  import opened Common

  datatype WizardStep = Review | Success | Restart

  /** `MilestoneStatus`: completed, notCompleted, restart, skip. */
  datatype ReviewStatus = Achieved | NotAchieved | Continue | Skip

  /** `ExpiredMilestoneInfo`, with the fields the wizard reads. */
  datatype ExpiredMilestone = ExpiredMilestone(milestoneId: int, title: string, goalTitle: Option<string>, dueDate: Option<string>)

  datatype Wizard = Wizard(
    step: WizardStep,
    statuses: map<int, ReviewStatus>,
    dueDates: map<int, int>,
    isLoading: bool,
    errorMessage: Option<string>,
    showDatePicker: bool,
    selectedForDate: Option<ExpiredMilestone>,
    isPresented: bool)

  /** A server call `performMilestoneAction`. */
  datatype MilestoneAction = MilestoneAction(milestoneId: int, action: string, newDueDate: Option<int>)

  const SecondsPerWeek := 7 * 24 * 60 * 60
  const SaveFailedMessage := "保存失败，请稍后再试"

  function InitialWizard(): Wizard {
    Wizard(Review, map[], map[], false, None, false, None, true)
  }

  // ---------------------------------------------------------------------------
  // Review predicates
  // ---------------------------------------------------------------------------

  function StatusOf(statuses: map<int, ReviewStatus>, id: int): Option<ReviewStatus> {
    if id in statuses then Some(statuses[id]) else None
  }

  /** `allMilestonesReviewed`. */
  predicate AllReviewed(ms: seq<ExpiredMilestone>, statuses: map<int, ReviewStatus>)
    ensures AllReviewed(ms, statuses) <==> forall m :: m in ms ==> StatusOf(statuses, m.milestoneId).Some?
  {
    forall i :: 0 <= i < |ms| ==> ms[i].milestoneId in statuses
  }

  /** `allCompleted`. */
  predicate AllAchieved(ms: seq<ExpiredMilestone>, statuses: map<int, ReviewStatus>)
    ensures AllAchieved(ms, statuses) <==> forall m :: m in ms ==> m.milestoneId in statuses && statuses[m.milestoneId] == Achieved
  {
    forall i :: 0 <= i < |ms| ==> StatusOf(statuses, ms[i].milestoneId) == Some(Achieved)
  }

  predicate IsUnfulfilled(statuses: map<int, ReviewStatus>, m: ExpiredMilestone) {
    StatusOf(statuses, m.milestoneId) in {Some(NotAchieved), Some(Continue), Some(Skip)}
  }

  predicate IsToRestart(statuses: map<int, ReviewStatus>, m: ExpiredMilestone) {
    StatusOf(statuses, m.milestoneId) == Some(Continue)
  }

  /** `unfulfilledMilestones`. */
  function Unfulfilled(ms: seq<ExpiredMilestone>, statuses: map<int, ReviewStatus>): (r: seq<ExpiredMilestone>)
    ensures IsSubsequence(r, ms)
    ensures forall i :: 0 <= i < |r| ==> IsUnfulfilled(statuses, r[i])
    ensures forall i :: 0 <= i < |ms| && IsUnfulfilled(statuses, ms[i]) ==> ms[i] in r
  {
    var p := m => IsUnfulfilled(statuses, m);
    FilterIsSubsequence(ms, p);
    forall i | 0 <= i < |ms| && IsUnfulfilled(statuses, ms[i])
      ensures ms[i] in Filter(ms, p)
    {
      FilterMembers(ms, p, ms[i]);
    }
    Filter(ms, p)
  }

  /** `milestonesToRestart`. */
  function ToRestart(ms: seq<ExpiredMilestone>, statuses: map<int, ReviewStatus>): (r: seq<ExpiredMilestone>)
    ensures |r| <= |ms| && IsSubsequence(r, ms)
    ensures forall i :: 0 <= i < |r| ==> StatusOf(statuses, r[i].milestoneId) == Some(Continue)
    ensures forall i :: 0 <= i < |ms| && IsToRestart(statuses, ms[i]) ==> ms[i] in r
  {
    var p := m => IsToRestart(statuses, m);
    FilterIsSubsequence(ms, p);
    forall i | 0 <= i < |ms| && IsToRestart(statuses, ms[i])
      ensures ms[i] in Filter(ms, p)
    {
      FilterMembers(ms, p, ms[i]);
    }
    Filter(ms, p)
  }

  /** Everything achieved means everything reviewed; an empty list is both. */
  lemma AchievedImpliesReviewed(ms: seq<ExpiredMilestone>, statuses: map<int, ReviewStatus>)
    ensures AllAchieved(ms, statuses) ==> AllReviewed(ms, statuses)
    ensures AllAchieved([], statuses) && AllReviewed([], statuses)
  {
    if AllAchieved(ms, statuses) {
      forall i | 0 <= i < |ms|
        ensures ms[i].milestoneId in statuses
      {
        assert StatusOf(statuses, ms[i].milestoneId) == Some(Achieved);
      }
    }
  }

  /** The milestones to restart are exactly the restart ones among the unfulfilled, in order. */
  lemma RestartIsSubsequenceOfUnfulfilled(ms: seq<ExpiredMilestone>, statuses: map<int, ReviewStatus>)
    ensures Filter(Unfulfilled(ms, statuses), m => IsToRestart(statuses, m)) == ToRestart(ms, statuses)
    ensures IsSubsequence(ToRestart(ms, statuses), Unfulfilled(ms, statuses))
  {
    FilterNarrow(ms, m => IsUnfulfilled(statuses, m), m => IsToRestart(statuses, m));
    FilterIsSubsequence(Unfulfilled(ms, statuses), m => IsToRestart(statuses, m));
  }

  // ---------------------------------------------------------------------------
  // Editing
  // ---------------------------------------------------------------------------

  /** The "达成" and "未达成" buttons of a review card. */
  function MarkReviewed(w: Wizard, id: int, s: ReviewStatus): (r: Wizard)
    requires s == Achieved || s == NotAchieved
    ensures r.statuses == w.statuses[id := s]
    ensures r == w.(statuses := r.statuses)
  {
    w.(statuses := w.statuses[id := s])
  }

  /** Whether "下一步" accepts taps. */
  predicate NextEnabled(ms: seq<ExpiredMilestone>, w: Wizard)
    ensures NextEnabled(ms, w) <==> forall i :: 0 <= i < |ms| ==> StatusOf(w.statuses, ms[i].milestoneId).Some?
  {
    AllReviewed(ms, w.statuses)
  }

  /** "延续计划": open the date picker for `m` and mark it for a restart. */
  function ContinuePlan(w: Wizard, m: ExpiredMilestone): (r: Wizard)
    ensures StatusOf(r.statuses, m.milestoneId) == Some(Continue)
    ensures r.showDatePicker && r.selectedForDate == Some(m)
    ensures r.dueDates == w.dueDates && r.step == w.step
  {
    w.(selectedForDate := Some(m), showDatePicker := true, statuses := w.statuses[m.milestoneId := Continue])
  }

  /** "跳过该里程碑": mark it skipped and forget any new due date. */
  function SkipMilestone(w: Wizard, m: ExpiredMilestone): (r: Wizard)
    ensures StatusOf(r.statuses, m.milestoneId) == Some(Skip)
    ensures m.milestoneId !in r.dueDates
    ensures forall id :: id != m.milestoneId ==> (id in r.dueDates <==> id in w.dueDates)
    ensures r.step == w.step && r.showDatePicker == w.showDatePicker
  {
    w.(statuses := w.statuses[m.milestoneId := Skip], dueDates := w.dueDates - {m.milestoneId})
  }

  /** The date picker's binding: the chosen date is stored for `m`. */
  function PickDate(w: Wizard, m: ExpiredMilestone, date: int): (r: Wizard)
    ensures r.dueDates == w.dueDates[m.milestoneId := date]
    ensures r.statuses == w.statuses
  {
    w.(dueDates := w.dueDates[m.milestoneId := date])
  }

  /** The picker's "确定": a milestone without a chosen date gets one a week from `now`. */
  function ConfirmDate(w: Wizard, m: ExpiredMilestone, now: int): (r: Wizard)
    ensures m.milestoneId in r.dueDates && !r.showDatePicker
    ensures m.milestoneId in w.dueDates ==> r.dueDates == w.dueDates
    ensures m.milestoneId !in w.dueDates ==> r.dueDates[m.milestoneId] == now + SecondsPerWeek
    ensures r.statuses == w.statuses
  {
    var dates := if m.milestoneId in w.dueDates then w.dueDates else w.dueDates[m.milestoneId := now + SecondsPerWeek];
    w.(dueDates := dates, showDatePicker := false)
  }

  /** A tap beside the date picker closes it and changes nothing else. */
  function DismissDatePicker(w: Wizard): (r: Wizard)
    ensures !r.showDatePicker && r.dueDates == w.dueDates && r.statuses == w.statuses
  {
    w.(showDatePicker := false)
  }

  // ---------------------------------------------------------------------------
  // Server actions
  // ---------------------------------------------------------------------------

  /** The "complete" calls: one per achieved milestone, in list order. */
  function CompleteActions(ms: seq<ExpiredMilestone>, statuses: map<int, ReviewStatus>): (r: seq<MilestoneAction>)
    ensures |r| <= |ms|
    ensures forall i :: 0 <= i < |r| ==>
      (r[i].action == "complete" && r[i].newDueDate.None? && StatusOf(statuses, r[i].milestoneId) == Some(Achieved))
    ensures forall i :: 0 <= i < |ms| && StatusOf(statuses, ms[i].milestoneId) == Some(Achieved) ==>
      MilestoneAction(ms[i].milestoneId, "complete", None) in r
  {
    if |ms| == 0 then []
    else
      var rest := CompleteActions(ms[1..], statuses);
      if StatusOf(statuses, ms[0].milestoneId) == Some(Achieved) then
        [MilestoneAction(ms[0].milestoneId, "complete", None)] + rest
      else rest
  }

  /** The "reopen" calls: one per restart milestone that has a new due date, in list order. */
  function ReopenActions(us: seq<ExpiredMilestone>, statuses: map<int, ReviewStatus>, dueDates: map<int, int>): (r: seq<MilestoneAction>)
    ensures |r| <= |us|
    ensures forall i :: 0 <= i < |r| ==>
      (&& r[i].action == "reopen"
       && StatusOf(statuses, r[i].milestoneId) == Some(Continue)
       && r[i].milestoneId in dueDates && r[i].newDueDate == Some(dueDates[r[i].milestoneId]))
    ensures forall i :: 0 <= i < |us| && StatusOf(statuses, us[i].milestoneId) == Some(Continue) && us[i].milestoneId in dueDates ==>
      MilestoneAction(us[i].milestoneId, "reopen", Some(dueDates[us[i].milestoneId])) in r
  {
    if |us| == 0 then []
    else
      var rest := ReopenActions(us[1..], statuses, dueDates);
      var id := us[0].milestoneId;
      if StatusOf(statuses, id) == Some(Continue) && id in dueDates then
        [MilestoneAction(id, "reopen", Some(dueDates[id]))] + rest
      else rest
  }

  /** What a save did: the final wizard, the calls made, and whether `onComplete` ran. */
  datatype SaveOutcome = SaveOutcome(wizard: Wizard, actions: seq<MilestoneAction>, completed: bool)

  /** Some issued reopen call failed. */
  predicate AnyReopenFailed(actions: seq<MilestoneAction>, reopenFails: int -> bool) {
    exists i :: 0 <= i < |actions| && reopenFails(actions[i].milestoneId)
  }

  /**
   * `saveRestartMilestones`: complete the achieved milestones (their failures
   * are ignored), then reopen the unfulfilled restart ones with a date;
   * `reopenFails` says which reopen calls the server rejects.
   */
  function SaveRestartMilestones(w: Wizard, ms: seq<ExpiredMilestone>, reopenFails: int -> bool): (r: SaveOutcome)
    ensures r.actions == CompleteActions(ms, w.statuses) + ReopenActions(Unfulfilled(ms, w.statuses), w.statuses, w.dueDates)
    ensures !r.wizard.isLoading
    ensures var reopens := ReopenActions(Unfulfilled(ms, w.statuses), w.statuses, w.dueDates);
      && (AnyReopenFailed(reopens, reopenFails) ==> r.wizard.errorMessage == Some(SaveFailedMessage) && r.wizard.isPresented == w.isPresented && !r.completed)
      && (!AnyReopenFailed(reopens, reopenFails) ==> r.wizard.errorMessage.None? && !r.wizard.isPresented && r.completed)
  {
    var completes := CompleteActions(ms, w.statuses);
    var reopens := ReopenActions(Unfulfilled(ms, w.statuses), w.statuses, w.dueDates);
    var failed := AnyReopenFailed(reopens, reopenFails);
    var w1 := w.(isLoading := false, errorMessage := if failed then Some(SaveFailedMessage) else None);
    if failed then SaveOutcome(w1, completes + reopens, false)
    else SaveOutcome(w1.(isPresented := false), completes + reopens, true)
  }

  /** A skipped milestone is never reopened, and a continued one with a date always is. */
  lemma ReopenExactlyContinuedWithDate(ms: seq<ExpiredMilestone>, w: Wizard, m: ExpiredMilestone)
    requires m in ms
    ensures var reopens := ReopenActions(Unfulfilled(ms, w.statuses), w.statuses, w.dueDates);
      && (StatusOf(w.statuses, m.milestoneId) == Some(Skip) ==> forall i :: 0 <= i < |reopens| ==> reopens[i].milestoneId != m.milestoneId)
      && (StatusOf(w.statuses, m.milestoneId) == Some(Continue) && m.milestoneId in w.dueDates ==>
            MilestoneAction(m.milestoneId, "reopen", Some(w.dueDates[m.milestoneId])) in reopens)
  {
    var k :| 0 <= k < |ms| && ms[k] == m;
    if StatusOf(w.statuses, m.milestoneId) == Some(Continue) {
      assert IsUnfulfilled(w.statuses, ms[k]);
    }
  }

  /** "Continue plan" followed by the picker's "确定" always leads to a reopen call on save. */
  lemma ContinueThenConfirmReopens(w: Wizard, ms: seq<ExpiredMilestone>, m: ExpiredMilestone, now: int)
    requires m in ms
    ensures var w2 := ConfirmDate(ContinuePlan(w, m), m, now);
      exists d :: MilestoneAction(m.milestoneId, "reopen", Some(d)) in ReopenActions(Unfulfilled(ms, w2.statuses), w2.statuses, w2.dueDates)
  {
    var w2 := ConfirmDate(ContinuePlan(w, m), m, now);
    ReopenExactlyContinuedWithDate(ms, w2, m);
    var d := w2.dueDates[m.milestoneId];
    assert MilestoneAction(m.milestoneId, "reopen", Some(d)) in ReopenActions(Unfulfilled(ms, w2.statuses), w2.statuses, w2.dueDates);
  }

  /** Skipping drops any date chosen before, so nothing is reopened for that milestone. */
  lemma SkipNeverReopens(w: Wizard, ms: seq<ExpiredMilestone>, m: ExpiredMilestone)
    requires m in ms
    ensures var w2 := SkipMilestone(w, m);
      forall a :: a in ReopenActions(Unfulfilled(ms, w2.statuses), w2.statuses, w2.dueDates) ==> a.milestoneId != m.milestoneId
  {
    var w2 := SkipMilestone(w, m);
    ReopenExactlyContinuedWithDate(ms, w2, m);
  }

  /** The outcome of "下一步": the actions sent and the wizard afterwards. */
  datatype NextOutcome = NextOutcome(wizard: Wizard, actions: seq<MilestoneAction>)

  /**
   * `handleNextStep`: when everything was achieved, `markAllCompleted` runs
   * and the wizard moves to success; otherwise it moves to the restart step.
   */
  function HandleNextStep(w: Wizard, ms: seq<ExpiredMilestone>): (r: NextOutcome)
    ensures AllAchieved(ms, w.statuses) ==> r.wizard.step == Success && r.actions == CompleteActions(ms, w.statuses)
    ensures !AllAchieved(ms, w.statuses) ==> r.wizard.step == Restart && r.actions == []
    ensures AllAchieved(ms, w.statuses) ==> !r.wizard.isLoading
    ensures r.wizard.statuses == w.statuses && r.wizard.dueDates == w.dueDates
  {
    if AllAchieved(ms, w.statuses) then
      NextOutcome(w.(isLoading := false, step := Success), CompleteActions(ms, w.statuses))
    else
      NextOutcome(w.(step := Restart), [])
  }

  /** When all were achieved, every milestone gets exactly its "complete" call, in order. */
  lemma {:induction false} AllAchievedCompletesAll(ms: seq<ExpiredMilestone>, statuses: map<int, ReviewStatus>)
    requires AllAchieved(ms, statuses)
    ensures |CompleteActions(ms, statuses)| == |ms|
    ensures forall i :: 0 <= i < |ms| ==> CompleteActions(ms, statuses)[i] == MilestoneAction(ms[i].milestoneId, "complete", None)
  {
    if |ms| > 0 {
      assert StatusOf(statuses, ms[0].milestoneId) == Some(Achieved);
      AllAchievedCompletesAll(ms[1..], statuses);
    }
  }

  /** `handleComplete` on the success step. */
  function HandleComplete(w: Wizard): (r: (Wizard, bool))
    ensures !r.0.isPresented && r.1
  {
    (w.(isPresented := false), true)
  }
}

=== FILE: five_elements.dfy ===
/**
 * The five-element tables of the Bazi screens: which element each heavenly
 * stem and each earthly branch belongs to, the element's one-character name,
 * and the colour each element is drawn in.
 */
module FiveElements {
  import opened Common

  datatype Element = Wood | Fire | Earth | Metal | Water

  /** The character the screens show for an element. */
  function Glyph(e: Element): (g: string)
    ensures |g| == 1
  {
    match e
    case Wood => "木"
    case Fire => "火"
    case Earth => "土"
    case Metal => "金"
    case Water => "水"
  }

  /** The element a one-character name stands for. */
  function ElementNamed(g: string): (r: Option<Element>)
    ensures r.Some? ==> Glyph(r.value) == g
  {
    match g
    case "木" => Some(Wood)
    case "火" => Some(Fire)
    case "土" => Some(Earth)
    case "金" => Some(Metal)
    case "水" => Some(Water)
    case _ => None
  }

  /** Every element is read back from its character, so the characters are distinct. */
  lemma GlyphRoundTrip(e: Element, f: Element)
    ensures ElementNamed(Glyph(e)) == Some(e)
    ensures Glyph(e) == Glyph(f) ==> e == f
  {
  }

  /** The ten heavenly stems in their traditional order. */
  const HeavenlyStems: seq<string> := ["甲", "乙", "丙", "丁", "戊", "己", "庚", "辛", "壬", "癸"]

  /** The twelve earthly branches in their traditional order. */
  const EarthlyBranches: seq<string> := ["子", "丑", "寅", "卯", "辰", "巳", "午", "未", "申", "酉", "戌", "亥"]

  /** The elements in the order the stems run through them, two stems each. */
  const StemElements: seq<Element> := [Wood, Fire, Earth, Metal, Water]

  /** `elementForStem`: the ten stems, two per element; anything else has none. */
  function ElementForStem(stem: string): (r: Option<Element>)
    ensures r.Some? <==> stem in HeavenlyStems
  {
    match stem
    case "甲" => Some(Wood)
    case "乙" => Some(Wood)
    case "丙" => Some(Fire)
    case "丁" => Some(Fire)
    case "戊" => Some(Earth)
    case "己" => Some(Earth)
    case "庚" => Some(Metal)
    case "辛" => Some(Metal)
    case "壬" => Some(Water)
    case "癸" => Some(Water)
    case _ => None
  }

  /** The stems go through the elements in order, a yang and a yin stem for each (`StemElements` lists each element once). */
  lemma StemsPairUp(i: nat)
    requires i < |HeavenlyStems|
    ensures ElementForStem(HeavenlyStems[i]) == Some(StemElements[i / 2])
  {
  }

  /** `elementForBranch`: the twelve branches; anything else has none. */
  function ElementForBranch(branch: string): (r: Option<Element>)
    ensures r.Some? <==> branch in EarthlyBranches
  {
    match branch
    case "寅" => Some(Wood)
    case "卯" => Some(Wood)
    case "巳" => Some(Fire)
    case "午" => Some(Fire)
    case "申" => Some(Metal)
    case "酉" => Some(Metal)
    case "子" => Some(Water)
    case "亥" => Some(Water)
    case "丑" => Some(Earth)
    case "辰" => Some(Earth)
    case "未" => Some(Earth)
    case "戌" => Some(Earth)
    case _ => None
  }

  /** The elements of the branches, in branch order. */
  const BranchElements: seq<Element> := [Water, Earth, Wood, Wood, Earth, Fire, Fire, Earth, Metal, Metal, Earth, Water]

  /** The branch table, read in branch order, gives `BranchElements`. */
  lemma BranchesInOrder(i: nat)
    requires i < |EarthlyBranches|
    ensures ElementForBranch(EarthlyBranches[i]) == Some(BranchElements[i])
  {
  }

  /** The stems and the branches are each listed once. */
  lemma NamesDistinct()
    ensures forall i, j :: 0 <= i < j < |HeavenlyStems| ==> HeavenlyStems[i] != HeavenlyStems[j]
    ensures forall i, j :: 0 <= i < j < |EarthlyBranches| ==> EarthlyBranches[i] != EarthlyBranches[j]
  {
  }

  /** The stems of an element: two each. */
  function StemsOf(e: Element): (r: set<string>)
    ensures forall stem :: stem in r <==> ElementForStem(stem) == Some(e)
    ensures |r| == 2
  {
    match e
    case Wood => {"甲", "乙"}
    case Fire => {"丙", "丁"}
    case Earth => {"戊", "己"}
    case Metal => {"庚", "辛"}
    case Water => {"壬", "癸"}
  }

  /** The branches of an element: four for earth, two for every other element. */
  function BranchesOf(e: Element): (r: set<string>)
    ensures forall branch :: branch in r <==> ElementForBranch(branch) == Some(e)
    ensures |r| == if e == Earth then 4 else 2
  {
    match e
    case Wood => {"寅", "卯"}
    case Fire => {"巳", "午"}
    case Earth => {"丑", "辰", "未", "戌"}
    case Metal => {"申", "酉"}
    case Water => {"子", "亥"}
  }

  /** The colours of the element palette, and the default text colour. */
  datatype Ink = ElementGold | ElementWood | ElementWater | ElementFire | ElementEarth | TextBlack

  /** `color(forElement:)`: an element's colour by its name, the text colour for anything else. */
  function ColorForElement(name: string): (c: Ink)
    ensures c == TextBlack <==> ElementNamed(name).None?
  {
    match name
    case "金" => ElementGold
    case "木" => ElementWood
    case "水" => ElementWater
    case "火" => ElementFire
    case "土" => ElementEarth
    case _ => TextBlack
  }

  /** Each element has a colour of its own. */
  lemma ElementColorsDistinct(e: Element, f: Element)
    ensures ColorForElement(Glyph(e)) != TextBlack
    ensures e != f ==> ColorForElement(Glyph(e)) != ColorForElement(Glyph(f))
  {
  }

  /** `colorForHeavenlyStem`. */
  function ColorForStem(stem: string): (c: Ink)
    ensures c == TextBlack <==> stem !in HeavenlyStems
  {
    match ElementForStem(stem)
    case Some(e) => ColorForElement(Glyph(e))
    case None => TextBlack
  }

  /** `colorForEarthlyBranch`. */
  function ColorForBranch(branch: string): (c: Ink)
    ensures c == TextBlack <==> branch !in EarthlyBranches
  {
    match ElementForBranch(branch)
    case Some(e) => ColorForElement(Glyph(e))
    case None => TextBlack
  }

  /** A stem and a branch are drawn in the same colour exactly when they belong to the same element. */
  lemma SameColorSameElement(stem: string, branch: string)
    requires stem in HeavenlyStems && branch in EarthlyBranches
    ensures ColorForStem(stem) == ColorForBranch(branch) <==> ElementForStem(stem) == ElementForBranch(branch)
  {
    ElementColorsDistinct(ElementForStem(stem).value, ElementForBranch(branch).value);
  }
}

=== FILE: goal_edit_dialogs.dfy ===
/**
 * The goal, milestone and task edit dialogs: how their forms are filled from
 * the record being edited, how a status change is held back behind a
 * confirmation, when saving is allowed, and the "only what changed" update
 * request each dialog sends.
 *
 * The date picker's value is represented by its `yyyy-MM-dd` text.
 * `reformat` is the dialog's formatter applied both ways: for a server string
 * it gives `string(from: date(from: s))`, or None when the formatter cannot
 * read `s`. A lenient reading ("2025-1-5") can give a different text back
 * ("2025-01-05").
 */
module GoalEditDialogs {
  import opened Common
  import opened GoalModels
  import opened DialogComponents
  import GoalTrackingViewModel

  const GoalStatusOptions: seq<string> := ["active", "completed", "abandoned"]
  const MilestoneStatusOptions: seq<string> := ["active", "completed"]
  const PriorityOptions: seq<string> := ["high", "medium", "low"]
  const FrequencyOptions: seq<string> := ["once", "daily", "weekdays", "weekly", "monthly"]

  /** A milestone's status can be set to active or completed but not abandoned. */
  lemma StatusOptionSets()
    ensures forall s :: s in MilestoneStatusOptions ==> s in GoalStatusOptions
    ensures "abandoned" in GoalStatusOptions && "abandoned" !in MilestoneStatusOptions
    ensures |GoalStatusOptions| == 3 && |MilestoneStatusOptions| == 2
  {
  }

  // ---------------------------------------------------------------------------
  // Status changes behind a confirmation
  // ---------------------------------------------------------------------------

  /** The status picker of the goal and milestone dialogs with its confirmation overlay. */
  datatype StatusSelection = StatusSelection(status: string, pending: Option<string>, showConfirmation: bool)

  /** The `onSelectionChange` closure: `original` is the status of the record being edited. */
  function OnStatusSelectionChange(sel: StatusSelection, newStatus: string, original: string): (r: StatusSelection)
    ensures newStatus != sel.status && newStatus != original ==>
      r.status == sel.status && r.pending == Some(newStatus) && r.showConfirmation
    ensures newStatus == sel.status || newStatus == original ==>
      r.status == newStatus && r.pending == sel.pending && r.showConfirmation == sel.showConfirmation
  {
    if newStatus != sel.status && newStatus != original then
      sel.(pending := Some(newStatus), showConfirmation := true)
    else
      sel.(status := newStatus)
  }

  /** A tap on a status option: the picker forwards it to `OnStatusSelectionChange`. */
  function TapStatusOption(sel: StatusSelection, option: string, original: string): (r: StatusSelection)
    ensures option != sel.status && option != original ==>
      r.status == sel.status && r.pending == Some(option) && r.showConfirmation
    ensures option == sel.status || option == original ==>
      r.status == option && r.pending == sel.pending && r.showConfirmation == sel.showConfirmation
  {
    var tap := OptionPickerTap(sel.status, option, true);
    OnStatusSelectionChange(sel.(status := tap.selectedValue), tap.forwarded.GetOr(option), original)
  }

  /** The `onConfirm` closure: adopt the pending status, if any, and forget it. */
  function ConfirmPendingStatus(sel: StatusSelection): (r: StatusSelection)
    ensures sel.pending.Some? ==> r.status == sel.pending.value
    ensures sel.pending.None? ==> r.status == sel.status
    ensures r.pending.None? && r.showConfirmation == sel.showConfirmation
  {
    sel.(status := sel.pending.GetOr(sel.status), pending := None)
  }

  /** A tap on one of the confirmation overlay's buttons. */
  function TapConfirmation(sel: StatusSelection, b: OverlayButton): (r: StatusSelection)
    ensures !r.showConfirmation
    ensures b == OverlayConfirm ==> r.pending.None? && r.status == sel.pending.GetOr(sel.status)
    ensures b == OverlayCancel ==> r.status == sel.status && r.pending == sel.pending
  {
    var effect := OverlayTap(b);
    var s1 := if effect.runsOnConfirm then ConfirmPendingStatus(sel) else sel;
    s1.(showConfirmation := effect.stillPresented)
  }

  /**
   * Choosing a status other than the shown and the original one asks first:
   * confirming adopts it, cancelling keeps the shown status.
   */
  lemma StatusChangeNeedsConfirmation(sel: StatusSelection, s: string, original: string)
    requires s != sel.status && s != original
    ensures TapStatusOption(sel, s, original).status == sel.status
    ensures TapStatusOption(sel, s, original).showConfirmation
    ensures TapConfirmation(TapStatusOption(sel, s, original), OverlayConfirm)
      == StatusSelection(s, None, false)
    ensures TapConfirmation(TapStatusOption(sel, s, original), OverlayCancel).status == sel.status
    ensures !TapConfirmation(TapStatusOption(sel, s, original), OverlayCancel).showConfirmation
  {
  }

  /** Choosing the shown or the original status takes effect at once, without the overlay. */
  lemma ReturningStatusAppliesDirectly(sel: StatusSelection, s: string, original: string)
    requires s == sel.status || s == original
    ensures TapStatusOption(sel, s, original).status == s
    ensures TapStatusOption(sel, s, original).showConfirmation == sel.showConfirmation
  {
  }

  /** A tap on an option of a picker without `onSelectionChange` (priority, frequency). */
  function TapPlainOption(selected: string, option: string): (r: string)
    ensures r == option
  {
    OptionPickerTap(selected, option, false).selectedValue
  }

  // ---------------------------------------------------------------------------
  // Goal dialog
  // ---------------------------------------------------------------------------

  datatype GoalForm = GoalForm(
    title: string,
    dueDate: string,
    hasDueDate: bool,
    selection: StatusSelection,
    isSaving: bool)

  /** The `@State` values before `onAppear`; `today` is the date picker's initial date. */
  function InitialGoalForm(today: string): GoalForm {
    GoalForm("", today, false, StatusSelection("active", None, false), false)
  }

  /** `onAppear`: fill the form from the goal being edited. */
  function GoalFormOnAppear(goal: GoalPlan, today: string, reformat: string -> Option<string>): (f: GoalForm)
    ensures f.title == goal.title && f.selection.status == goal.status
    ensures f.hasDueDate <==> goal.dueDate.Some? && reformat(goal.dueDate.value).Some?
    ensures f.hasDueDate ==> Some(f.dueDate) == reformat(goal.dueDate.value)
    ensures !f.hasDueDate ==> f.dueDate == today
    ensures f.selection.pending.None? && !f.selection.showConfirmation && !f.isSaving
  {
    var f := InitialGoalForm(today).(title := goal.title, selection := StatusSelection(goal.status, None, false));
    if goal.dueDate.Some? && reformat(goal.dueDate.value).Some? then
      f.(dueDate := reformat(goal.dueDate.value).value, hasDueDate := true)
    else f
  }

  /** `isSaveDisabled` of the button row, shared by all three dialogs. */
  predicate SaveDisabled(title: string)
    ensures SaveDisabled(title) <==> |title| == 0
    ensures |title| > 0 && AllIn(title, IsWhitespaceOrNewline) ==> !SaveDisabled(title)
  {
    title == ""
  }

  /** The request `saveGoal` sends. */
  function GoalRequest(f: GoalForm, goal: GoalPlan): (r: GoalUpdateRequest)
    ensures r.title.Some? <==> f.title != goal.title
    ensures r.status.Some? <==> f.selection.status != goal.status
    ensures r.dueDate.Some? <==> f.hasDueDate
  {
    GoalUpdateRequest(
      if f.title != goal.title then Some(f.title) else None,
      if f.selection.status != goal.status then Some(f.selection.status) else None,
      if f.hasDueDate then Some(f.dueDate) else None)
  }

  /**
   * Applying the request to the goal it was built from gives the edited
   * values; with the due-date toggle off the old due date stays.
   */
  lemma GoalRequestRoundTrip(f: GoalForm, goal: GoalPlan)
    ensures var g := GoalTrackingViewModel.PatchGoal(goal, GoalRequest(f, goal));
      && g.title == f.title && g.status == f.selection.status
      && (f.hasDueDate ==> g.dueDate == Some(f.dueDate))
      && (!f.hasDueDate ==> g.dueDate == goal.dueDate)
  {
  }

  /**
   * Saving an untouched goal form sends neither title nor status. A due date
   * the formatter reads is resent in the formatter's own writing, which is
   * the stored text exactly when that text is already written that way.
   */
  lemma UntouchedGoalRequest(goal: GoalPlan, today: string, reformat: string -> Option<string>)
    ensures var r := GoalRequest(GoalFormOnAppear(goal, today, reformat), goal);
      && r.title.None? && r.status.None?
      && (r.dueDate.Some? <==> goal.dueDate.Some? && reformat(goal.dueDate.value).Some?)
      && (r.dueDate.Some? ==> r.dueDate == reformat(goal.dueDate.value))
      && (goal.dueDate.Some? && reformat(goal.dueDate.value) == goal.dueDate ==> r.dueDate == goal.dueDate)
  {
  }

  /** A stored due date the formatter reads leniently is rewritten by a save that changed nothing. */
  lemma LenientDueDateRewritten(goal: GoalPlan, today: string, reformat: string -> Option<string>)
    requires goal.dueDate.Some? && reformat(goal.dueDate.value).Some?
    requires reformat(goal.dueDate.value).value != goal.dueDate.value
    ensures var r := GoalRequest(GoalFormOnAppear(goal, today, reformat), goal);
      r.dueDate.Some? && r.dueDate != goal.dueDate
  {
  }

  /** `saveGoal` start: the form turns to saving and the request goes out. */
  function StartGoalSave(f: GoalForm, goal: GoalPlan): (r: (GoalForm, GoalUpdateRequest))
    ensures r.0.isSaving && r.0.(isSaving := f.isSaving) == f
    ensures r.1.title.Some? <==> f.title != goal.title
  {
    (f.(isSaving := true), GoalRequest(f, goal))
  }

  /** While saving, the background does not dismiss the dialog and neither button accepts taps. */
  lemma SavingLocksDialog(f: GoalForm, goal: GoalPlan, presented: bool)
    ensures var saving := StartGoalSave(f, goal).0;
      && BackgroundTap(presented, !saving.isSaving) == presented
      && !ButtonRowState(saving.isSaving, SaveDisabled(saving.title)).saveEnabled
      && !ButtonRowState(saving.isSaving, SaveDisabled(saving.title)).cancelEnabled
  {
  }

  /** An empty title never lets the save button through, in any dialog. */
  lemma EmptyTitleBlocksSave(isSaving: bool)
    ensures !ButtonRowState(isSaving, SaveDisabled("")).saveEnabled
  {
  }

  // ---------------------------------------------------------------------------
  // Milestone dialog
  // ---------------------------------------------------------------------------

  datatype MilestoneForm = MilestoneForm(
    title: string,
    desc: string,
    dueDate: string,
    hasDueDate: bool,
    priority: string,
    selection: StatusSelection,
    isSaving: bool)

  function MilestoneFormOnAppear(m: Milestone, today: string, reformat: string -> Option<string>): (f: MilestoneForm)
    ensures f.title == m.title && f.desc == m.desc.GetOr("") && f.priority == m.priority
    ensures f.selection == StatusSelection(m.status, None, false)
    ensures f.hasDueDate <==> m.dueDate.Some? && reformat(m.dueDate.value).Some?
    ensures f.hasDueDate ==> Some(f.dueDate) == reformat(m.dueDate.value)
    ensures !f.hasDueDate ==> f.dueDate == today
  {
    var f := MilestoneForm(m.title, m.desc.GetOr(""), today, false, m.priority, StatusSelection(m.status, None, false), false);
    if m.dueDate.Some? && reformat(m.dueDate.value).Some? then
      f.(dueDate := reformat(m.dueDate.value).value, hasDueDate := true)
    else f
  }

  /** The request `saveMilestone` sends; a missing description counts as "". */
  function MilestoneRequest(f: MilestoneForm, m: Milestone): (r: MilestoneUpdateRequest)
    ensures r.title.Some? <==> f.title != m.title
    ensures r.desc.Some? <==> f.desc != m.desc.GetOr("")
    ensures r.dueDate.Some? <==> f.hasDueDate
    ensures r.priority.Some? <==> f.priority != m.priority
    ensures r.status.Some? <==> f.selection.status != m.status
  {
    MilestoneUpdateRequest(
      if f.title != m.title then Some(f.title) else None,
      if f.desc != m.desc.GetOr("") then Some(f.desc) else None,
      if f.hasDueDate then Some(f.dueDate) else None,
      if f.priority != m.priority then Some(f.priority) else None,
      if f.selection.status != m.status then Some(f.selection.status) else None)
  }

  /** Patching the milestone with its request reproduces every edited field. */
  lemma MilestoneRequestRoundTrip(f: MilestoneForm, m: Milestone)
    ensures var n := GoalTrackingViewModel.PatchMilestone(m, MilestoneRequest(f, m));
      && n.title == f.title && n.desc.GetOr("") == f.desc && n.priority == f.priority
      && n.status == f.selection.status
      && (f.hasDueDate ==> n.dueDate == Some(f.dueDate))
  {
  }

  /**
   * Saving an untouched milestone form changes no title, description,
   * priority or status; a readable due date is resent as the formatter writes it.
   */
  lemma UntouchedMilestoneRequest(m: Milestone, today: string, reformat: string -> Option<string>)
    ensures var r := MilestoneRequest(MilestoneFormOnAppear(m, today, reformat), m);
      && r.title.None? && r.desc.None? && r.priority.None? && r.status.None?
      && (r.dueDate.Some? <==> m.dueDate.Some? && reformat(m.dueDate.value).Some?)
      && (r.dueDate.Some? ==> r.dueDate == reformat(m.dueDate.value))
  {
  }

  // ---------------------------------------------------------------------------
  // Task dialog
  // ---------------------------------------------------------------------------

  datatype TaskForm = TaskForm(title: string, priority: string, frequency: string, isSaving: bool)

  /** `onAppear`: a task without a priority shows "medium". */
  function TaskFormOnAppear(t: PlanTask): (f: TaskForm)
    ensures f.title == t.title && f.frequency == t.frequency && !f.isSaving
    ensures f.priority == t.priority.GetOr("medium")
  {
    TaskForm(t.title, t.priority.GetOr("medium"), t.frequency, false)
  }

  /** The request `saveTask` sends; it never carries a status. */
  function TaskRequest(f: TaskForm, t: PlanTask): (r: TaskUpdateRequest)
    ensures r.title.Some? <==> f.title != t.title
    ensures r.priority.Some? <==> f.priority != t.priority.GetOr("medium")
    ensures r.frequency.Some? <==> f.frequency != t.frequency
    ensures r.status.None?
  {
    TaskUpdateRequest(
      if f.title != t.title then Some(f.title) else None,
      if f.priority != t.priority.GetOr("medium") then Some(f.priority) else None,
      if f.frequency != t.frequency then Some(f.frequency) else None,
      None)
  }

  /** Opening and saving a task unchanged sends the empty request, also for a task without priority. */
  lemma UntouchedTaskRequest(t: PlanTask)
    ensures TaskRequest(TaskFormOnAppear(t), t) == EmptyTaskRequest
  {
  }

  /** Patching the task with its request reproduces the edited fields and keeps the status. */
  lemma TaskRequestRoundTrip(f: TaskForm, t: PlanTask)
    ensures var u := GoalTrackingViewModel.PatchTask(t, TaskRequest(f, t));
      && u.title == f.title && u.frequency == f.frequency
      && u.priority.GetOr("medium") == f.priority && u.status == t.status
  {
  }
}

=== FILE: goal_models.dfy ===
/**
 * The goal-plan records the client receives from the backend, the daily task
 * items of today's plan, and the partial-update requests the edit dialogs send.
 * Dates stay the strings the server sends; they are only compared and copied.
 */
module GoalModels {
  import opened Common

  /** One task of a milestone (`GoalPlanTask`). */
  datatype PlanTask = PlanTask(
    id: int,
    title: string,
    desc: Option<string>,
    dueAt: Option<string>,
    estimatedMinutes: Option<int>,
    frequency: string,
    status: string,
    priority: Option<string>)

  /** One milestone of a goal plan (`GoalPlanMilestone`). */
  datatype Milestone = Milestone(
    id: int,
    title: string,
    desc: Option<string>,
    startDate: Option<string>,
    dueDate: Option<string>,
    priority: string,
    status: string,
    tasks: seq<PlanTask>)

  /** A goal together with its milestones (`GoalPlanResponse`). */
  datatype GoalPlan = GoalPlan(
    goalId: int,
    title: string,
    desc: Option<string>,
    dueDate: Option<string>,
    dailyMinutes: Option<int>,
    motivation: Option<string>,
    constraints: Option<string>,
    progress: int,
    status: string,
    milestones: seq<Milestone>)

  /** Partial update of a goal: `None` means "leave unchanged". */
  datatype GoalUpdateRequest = GoalUpdateRequest(
    title: Option<string>,
    status: Option<string>,
    dueDate: Option<string>)

  /** Partial update of a milestone. */
  datatype MilestoneUpdateRequest = MilestoneUpdateRequest(
    title: Option<string>,
    desc: Option<string>,
    dueDate: Option<string>,
    priority: Option<string>,
    status: Option<string>)

  /** Partial update of a task. */
  datatype TaskUpdateRequest = TaskUpdateRequest(
    title: Option<string>,
    priority: Option<string>,
    frequency: Option<string>,
    status: Option<string>)

  /** One task execution scheduled for today (`DailyTaskItemResponse`). */
  datatype DailyTaskItem = DailyTaskItem(
    executionId: int,
    goalId: int,
    goalTitle: Option<string>,
    milestoneId: Option<int>,
    title: string,
    status: string,
    frequency: string,
    estimatedMinutes: Option<int>)

  /** The empty requests: every field absent. */
  const EmptyGoalRequest := GoalUpdateRequest(None, None, None)
  const EmptyMilestoneRequest := MilestoneUpdateRequest(None, None, None, None, None)
  const EmptyTaskRequest := TaskUpdateRequest(None, None, None, None)
}

=== FILE: goal_onboarding_chat.dfy ===
/**
 * The goal chat at the end of onboarding: the same backend conversation as
 * the goal wizard, but sent on behalf of the onboarding's user id, with a
 * loading indicator of cycling dots, and with a fetched plan accepted only
 * when it is complete enough to show.
 */
module GoalOnboardingChat {
  import opened Common
  import opened ChatBasics
  import opened GoalStages
  import GoalModels
  import OnboardingState

  datatype GoalChatScreen = GoalChatScreen(
    messages: seq<Message>,
    draft: string,
    isSending: bool,
    errorText: Option<string>,
    inputMode: InputMode,
    currentStage: Option<Stage>,
    isFetchingPlan: bool,
    loadingDotsStep: nat,
    hasAutoConfirmedSplitting: bool,
    isAutoContinuing: bool)

  const InitialScreen := GoalChatScreen([], "", false, None, TextInput, None, false, 0, false, false)

  const MissingUserToSend := "缺少用户信息，暂时无法发送。"
  const MissingUserToSkip := "缺少用户信息，暂时无法跳过。"
  const SendFailedText := "发送失败，请稍后重试。"
  const AutoContinueFailedText := "生成目标计划时出错，请稍后重试。"
  const IncompletePlanText := "目前生成的目标计划还不够完整，我们会继续为你优化，请稍后再试。"
  const PlanFailedText := "获取目标计划失败，请稍后重试。"
  const SkipFailedText := "跳过失败，请稍后重试。"

  // ---------------------------------------------------------------------------
  // The loading indicator
  // ---------------------------------------------------------------------------

  /** How many dots the indicator shows at a step: three, four, five, three, ... */
  function DotsCount(step: nat): (n: nat)
    ensures n in {3, 4, 5}
  {
    step % 3 + 3
  }

  /** The count repeats every three steps and changes at every step. */
  lemma DotsCycle(step: nat)
    ensures DotsCount(step + 3) == DotsCount(step)
    ensures DotsCount(step + 1) != DotsCount(step)
    ensures DotsCount(step) == 3 <==> step % 3 == 0
  {
  }

  /** The indicator's text. */
  function Dots(step: nat): (s: string)
    ensures |s| == DotsCount(step) && forall i :: 0 <= i < |s| ==> s[i] == '.'
  {
    seq(DotsCount(step), _ => '.')
  }

  /** The timer's tick: the dots move only while a message is in flight. */
  function TickDots(st: GoalChatScreen): (r: GoalChatScreen)
    ensures r.loadingDotsStep == if st.isSending then st.loadingDotsStep + 1 else st.loadingDotsStep
    ensures r == st.(loadingDotsStep := r.loadingDotsStep)
  {
    if st.isSending then st.(loadingDotsStep := st.loadingDotsStep + 1) else st
  }

  // ---------------------------------------------------------------------------
  // Sending
  // ---------------------------------------------------------------------------

  /** The greeting shown to an empty conversation. */
  function Greeting(nickname: string): string {
    nickname + "，太棒了！现在我们一起来设定一个你真正想完成的目标吧。你可以先告诉我，你最近最想达成的一个目标是什么？"
  }

  /** `setupInitialMessage`: greet an empty conversation, by nickname. */
  function SetupInitialMessage(st: GoalChatScreen, ob: OnboardingState.Onboarding): (r: GoalChatScreen)
    ensures |st.messages| > 0 ==> r == st
    ensures |st.messages| == 0 ==> r.messages == [Message(Greeting(ob.nickname), Ai)] && r == st.(messages := r.messages)
  {
    if |st.messages| > 0 then st else st.(messages := [Message(Greeting(ob.nickname), Ai)])
  }

  /** The greeting starts with the nickname, and appearing again adds nothing. */
  lemma GreetingOnce(st: GoalChatScreen, ob: OnboardingState.Onboarding)
    ensures Greeting(ob.nickname)[..|ob.nickname|] == ob.nickname
    ensures var once := SetupInitialMessage(st, ob); SetupInitialMessage(once, ob) == once
  {
  }

  /**
   * The synchronous part of `sendMessage`: blank input is dropped; without
   * the onboarding's user id only an error is shown; otherwise the trimmed
   * text always becomes a new user bubble and the request is built.
   */
  function StartSend(st: GoalChatScreen, ob: OnboardingState.Onboarding, content: string): (r: (GoalChatScreen, Option<GoalMessageRequest>))
    ensures OutgoingText(content).None? ==> r == (st, None)
    ensures OutgoingText(content).Some? && ob.submitUserId.None? ==> r == (st.(errorText := Some(MissingUserToSend)), None)
    ensures OutgoingText(content).Some? && ob.submitUserId.Some? ==>
      var text := OutgoingText(content).value;
      && r.1 == Some(GoalMessageRequest(ob.submitUserId.value, text))
      && r.0 == st.(messages := st.messages + [Message(text, User)], isSending := true, errorText := None)
    ensures |r.0.messages| == |st.messages| + (if r.1.Some? then 1 else 0)
  {
    match OutgoingText(content)
    case None => (st, None)
    case Some(text) =>
      match ob.submitUserId
      case None => (st.(errorText := Some(MissingUserToSend)), None)
      case Some(id) =>
        (st.(messages := st.messages + [Message(text, User)], isSending := true, errorText := None),
         Some(GoalMessageRequest(id, text)))
  }

  /** `sendCurrentMessage`: nothing while busy; otherwise the draft is cleared and sent. */
  function SendCurrentMessage(st: GoalChatScreen, ob: OnboardingState.Onboarding): (r: (GoalChatScreen, Option<GoalMessageRequest>))
    ensures st.isSending || st.isFetchingPlan ==> r == (st, None)
    ensures !st.isSending && !st.isFetchingPlan ==> r.0.draft == "" && r == StartSend(st.(draft := ""), ob, st.draft)
  {
    if st.isSending || st.isFetchingPlan then (st, None)
    else StartSend(st.(draft := ""), ob, st.draft)
  }

  /** Without a user id no message is ever added, whatever is typed. */
  lemma NoUserNoMessage(st: GoalChatScreen, ob: OnboardingState.Onboarding, content: string)
    requires ob.submitUserId.None?
    ensures StartSend(st, ob, content).0.messages == st.messages
    ensures SendCurrentMessage(st, ob).0.messages == st.messages
  {
  }

  // ---------------------------------------------------------------------------
  // Fetching the plan
  // ---------------------------------------------------------------------------

  /** The check `fetchGoalPlan` makes: some milestone, and some milestone with a task. */
  predicate PlanIsComplete(plan: GoalModels.GoalPlan)
    ensures PlanIsComplete(plan) <==> exists i :: 0 <= i < |plan.milestones| && |plan.milestones[i].tasks| > 0
  {
    && |plan.milestones| > 0
    && exists i :: 0 <= i < |plan.milestones| && |plan.milestones[i].tasks| > 0
  }

  /** The milestone check is implied by the task check. */
  lemma CompleteIffSomeTask(plan: GoalModels.GoalPlan)
    ensures PlanIsComplete(plan) <==> exists m :: m in plan.milestones && |m.tasks| > 0
  {
    if exists m :: m in plan.milestones && |m.tasks| > 0 {
      var m :| m in plan.milestones && |m.tasks| > 0;
      var i :| 0 <= i < |plan.milestones| && plan.milestones[i] == m;
      assert |plan.milestones[i].tasks| > 0;
    }
  }

  /** The start of `fetchGoalPlan(goalId:)`: ignored while a fetch is in flight; otherwise the flag goes up and the plan is requested. */
  function StartPlanFetch(st: GoalChatScreen, goalId: int): (r: (GoalChatScreen, Option<int>))
    ensures r.1.Some? <==> !st.isFetchingPlan
    ensures r.1.Some? ==> r.1.value == goalId
    ensures r.0.isFetchingPlan && r.0.(isFetchingPlan := st.isFetchingPlan) == st
  {
    if st.isFetchingPlan then (st, None) else (st.(isFetchingPlan := true), Some(goalId))
  }

  /**
   * The end of `fetchGoalPlan(goalId:)`: the flag comes down; a complete plan
   * is stored and moves onboarding to the plan screen; an incomplete one or a
   * failure only shows an error.
   */
  function FinishPlanFetch(st: GoalChatScreen, ob: OnboardingState.Onboarding, answer: PlanAnswer): (r: (GoalChatScreen, OnboardingState.Onboarding))
    ensures !r.0.isFetchingPlan
    ensures answer.PlanFetched? && PlanIsComplete(answer.plan) ==>
      r == (st.(isFetchingPlan := false), ob.(goalPlan := Some(answer.plan), currentStep := OnboardingState.GoalPlanStep))
    ensures answer.PlanFetched? && !PlanIsComplete(answer.plan) ==>
      r == (st.(errorText := Some(IncompletePlanText), isFetchingPlan := false), ob)
    ensures answer.PlanThrew? ==> r == (st.(errorText := Some(PlanFailedText), isFetchingPlan := false), ob)
  {
    match answer
    case PlanFetched(plan) =>
      if PlanIsComplete(plan) then (st.(isFetchingPlan := false), ob.(goalPlan := Some(plan), currentStep := OnboardingState.GoalPlanStep))
      else (st.(errorText := Some(IncompletePlanText), isFetchingPlan := false), ob)
    case PlanThrew => (st.(errorText := Some(PlanFailedText), isFetchingPlan := false), ob)
  }

  /**
   * Onboarding reaches the plan screen from the chat exactly when the fetched
   * plan is complete; milestones without any task keep the user in the chat.
   */
  lemma PlanScreenIffComplete(st: GoalChatScreen, ob: OnboardingState.Onboarding, answer: PlanAnswer)
    requires ob.currentStep != OnboardingState.GoalPlanStep
    ensures FinishPlanFetch(st, ob, answer).1.currentStep == OnboardingState.GoalPlanStep
      <==> answer.PlanFetched? && exists m :: m in answer.plan.milestones && |m.tasks| > 0
  {
    if answer.PlanFetched? {
      CompleteIffSomeTask(answer.plan);
    }
  }

  /**
   * What both answer handlers do with an answer: a reply's stage is taken and
   * its goal id stored in the onboarding state; once the goal is complete,
   * the plan fetch for `GoalToFetch` starts, which is the goal now stored.
   */
  function TakeStage(st: GoalChatScreen, ob: OnboardingState.Onboarding, answer: StageAnswer)
    : (r: (GoalChatScreen, OnboardingState.Onboarding, Option<int>))
    ensures answer.StageThrew? ==> r == (st, ob, None)
    ensures answer.StageReplied? ==>
      && r.0.currentStage == MapStage(answer.stage)
      && r.1 == ob.(currentGoalId := if answer.goalId.Some? then answer.goalId else ob.currentGoalId)
    ensures r.2.Some? <==> !st.isFetchingPlan && GoalToFetch(ob.currentGoalId, answer).Some?
    ensures r.2.Some? ==> r.2 == r.1.currentGoalId
    ensures r.0.isFetchingPlan == (st.isFetchingPlan || r.2.Some?)
    ensures r.0 == st.(currentStage := r.0.currentStage, isFetchingPlan := r.0.isFetchingPlan)
  {
    match answer
    case StageThrew => (st, ob, None)
    case StageReplied(stage, _, goalId, _) =>
      var staged := st.(currentStage := MapStage(stage));
      var ob' := if goalId.Some? then ob.(currentGoalId := goalId) else ob;
      match GoalToFetch(ob.currentGoalId, answer)
      case None => (staged, ob', None)
      case Some(id) =>
        var (fetching, fetch) := StartPlanFetch(staged, id);
        (fetching, ob', fetch)
  }

  /** A reply goes up as an assistant bubble, trimmed, unless it is blank. */
  function ShowReply(st: GoalChatScreen, reply: string): (r: GoalChatScreen)
    ensures r.messages == st.messages + (match OutgoingText(reply) case None => [] case Some(t) => [Message(t, Ai)])
    ensures r == st.(messages := r.messages)
  {
    match OutgoingText(reply)
    case None => st
    case Some(t) => st.(messages := st.messages + [Message(t, Ai)])
  }

  /** The last line of a send: the sending flag comes down unless the continuation holds it. */
  function EndSend(st: GoalChatScreen): (r: GoalChatScreen)
    ensures r.isSending == (st.isSending && st.isAutoContinuing) && r.(isSending := st.isSending) == st
  {
    st.(isSending := st.isSending && st.isAutoContinuing)
  }

  /**
   * The asynchronous part of `sendMessage`, when the reply arrives. The send
   * ends now, or, when a plan fetch was started, once the plan arrives
   * (`FinishSendAfterPlan`).
   */
  function FinishSend(st: GoalChatScreen, ob: OnboardingState.Onboarding, answer: StageAnswer)
    : (r: (GoalChatScreen, OnboardingState.Onboarding, Option<int>))
    ensures r.0.hasAutoConfirmedSplitting == st.hasAutoConfirmedSplitting
    ensures r.2.None? ==> r.0.isSending == (st.isSending && st.isAutoContinuing)
    ensures r.2.Some? ==> r.0.isSending == st.isSending && r.0.isFetchingPlan && r.2 == r.1.currentGoalId
    ensures r.2.Some? <==> !st.isFetchingPlan && GoalToFetch(ob.currentGoalId, answer).Some?
    ensures answer.StageThrew? ==> r == (st.(errorText := Some(SendFailedText), isSending := r.0.isSending), ob, None)
    ensures answer.StageReplied? ==>
      && r.0.currentStage == MapStage(answer.stage)
      && r.0.messages == st.messages + (match OutgoingText(answer.reply) case None => [] case Some(t) => [Message(t, Ai)])
  {
    match answer
    case StageThrew => (EndSend(st.(errorText := Some(SendFailedText))), ob, None)
    case StageReplied(_, reply, _, _) =>
      var (staged, ob', fetch) := TakeStage(ShowReply(st, reply), ob, answer);
      if fetch.None? then (EndSend(staged), ob', None) else (staged, ob', fetch)
  }

  /** The rest of `sendMessage` once the plan it fetches has arrived: the fetch ends, then the send. */
  function FinishSendAfterPlan(st: GoalChatScreen, ob: OnboardingState.Onboarding, plan: PlanAnswer)
    : (r: (GoalChatScreen, OnboardingState.Onboarding))
    ensures !r.0.isFetchingPlan && r.0.isSending == (st.isSending && st.isAutoContinuing)
    ensures r.1 == FinishPlanFetch(st, ob, plan).1
    ensures plan.PlanThrew? ==> r.0.errorText == Some(PlanFailedText) && r.1 == ob
    ensures r.0.messages == st.messages && r.0.hasAutoConfirmedSplitting == st.hasAutoConfirmedSplitting
  {
    var (done, ob') := FinishPlanFetch(st, ob, plan);
    (EndSend(done), ob')
  }

  /**
   * A plan is fetched after a reply exactly when the server says the goal is
   * complete, a goal id is known from the reply or from the onboarding state,
   * and no fetch is in flight; the id is the reply's, else the stored one.
   */
  lemma PlanFetchIffGoalComplete(st: GoalChatScreen, ob: OnboardingState.Onboarding, answer: StageAnswer)
    ensures var fetch := FinishSend(st, ob, answer).2;
      && (fetch.Some? <==>
            !st.isFetchingPlan && answer.StageReplied? && answer.goalCompleted && (answer.goalId.Some? || ob.currentGoalId.Some?))
      && (fetch.Some? ==> fetch == (if answer.goalId.Some? then answer.goalId else ob.currentGoalId))
  {
  }

  /** While the plan is in flight the send button does nothing. */
  lemma PlanInFlightLocksInput(st: GoalChatScreen, ob: OnboardingState.Onboarding, answer: StageAnswer)
    ensures var (waiting, ob', fetch) := FinishSend(st, ob, answer);
      fetch.Some? ==> SendCurrentMessage(waiting, ob').1.None?
  {
  }

  // ---------------------------------------------------------------------------
  // The automatic continuation
  // ---------------------------------------------------------------------------

  /**
   * `autoContinueAfterGoalSplittingIfNeeded`: the once-only flag is set
   * before the user id is looked at, so a missing id uses up the one chance.
   */
  function AutoContinue(st: GoalChatScreen, ob: OnboardingState.Onboarding): (r: (GoalChatScreen, Option<GoalMessageRequest>))
    ensures st.hasAutoConfirmedSplitting ==> r == (st, None)
    ensures !st.hasAutoConfirmedSplitting && ob.submitUserId.None? ==> r == (st.(hasAutoConfirmedSplitting := true), None)
    ensures !st.hasAutoConfirmedSplitting && ob.submitUserId.Some? ==>
      && r.1 == Some(GoalMessageRequest(ob.submitUserId.value, AutoContinueMessage))
      && r.0 == st.(hasAutoConfirmedSplitting := true, isSending := true, isAutoContinuing := true, errorText := None)
    ensures r.0.hasAutoConfirmedSplitting && r.0.messages == st.messages
  {
    if st.hasAutoConfirmedSplitting then (st, None)
    else
      var marked := st.(hasAutoConfirmedSplitting := true);
      match ob.submitUserId
      case None => (marked, None)
      case Some(id) =>
        (marked.(isSending := true, isAutoContinuing := true, errorText := None), Some(GoalMessageRequest(id, AutoContinueMessage)))
  }

  /** The reaction to a stage change. */
  function OnStageChange(st: GoalChatScreen, ob: OnboardingState.Onboarding, newStage: Option<Stage>): (r: (GoalChatScreen, Option<GoalMessageRequest>))
    ensures !StartsAutoContinue(newStage) ==> r == (st, None)
    ensures r.1.Some? <==> StartsAutoContinue(newStage) && !st.hasAutoConfirmedSplitting && ob.submitUserId.Some?
  {
    if StartsAutoContinue(newStage) then AutoContinue(st, ob) else (st, None)
  }

  /** The last lines of the continuation: the input is unlocked and the continuation is over. */
  function EndAutoContinue(st: GoalChatScreen): (r: GoalChatScreen)
    ensures !r.isSending && !r.isAutoContinuing
    ensures r.(isSending := st.isSending, isAutoContinuing := st.isAutoContinuing) == st
  {
    st.(isSending := false, isAutoContinuing := false)
  }

  /**
   * The asynchronous part of the continuation, when its answer arrives. The
   * busy state ends now, or, when a plan fetch was started, once the plan
   * arrives (`FinishAutoContinueAfterPlan`).
   */
  function FinishAutoContinue(st: GoalChatScreen, ob: OnboardingState.Onboarding, answer: StageAnswer)
    : (r: (GoalChatScreen, OnboardingState.Onboarding, Option<int>))
    ensures r.0.hasAutoConfirmedSplitting == st.hasAutoConfirmedSplitting && r.0.messages == st.messages
    ensures r.2.None? ==> !r.0.isSending && !r.0.isAutoContinuing
    ensures r.2.Some? ==> r.0.isSending == st.isSending && r.0.isAutoContinuing == st.isAutoContinuing && r.0.isFetchingPlan
    ensures r.2.Some? <==> !st.isFetchingPlan && GoalToFetch(ob.currentGoalId, answer).Some?
    ensures answer.StageThrew? ==>
      r == (st.(errorText := Some(AutoContinueFailedText), isSending := false, isAutoContinuing := false), ob, None)
    ensures answer.StageReplied? ==> r.0.currentStage == MapStage(answer.stage)
  {
    match answer
    case StageThrew => (EndAutoContinue(st.(errorText := Some(AutoContinueFailedText))), ob, None)
    case StageReplied(_, _, _, _) =>
      var (staged, ob', fetch) := TakeStage(st, ob, answer);
      if fetch.None? then (EndAutoContinue(staged), ob', None) else (staged, ob', fetch)
  }

  /** The rest of the continuation once the plan it fetches has arrived: the fetch ends, then the busy state. */
  function FinishAutoContinueAfterPlan(st: GoalChatScreen, ob: OnboardingState.Onboarding, plan: PlanAnswer)
    : (r: (GoalChatScreen, OnboardingState.Onboarding))
    ensures !r.0.isFetchingPlan && !r.0.isSending && !r.0.isAutoContinuing
    ensures r.1 == FinishPlanFetch(st, ob, plan).1
    ensures r.0.messages == st.messages && r.0.hasAutoConfirmedSplitting == st.hasAutoConfirmedSplitting
  {
    var (done, ob') := FinishPlanFetch(st, ob, plan);
    (EndAutoContinue(done), ob')
  }

  /**
   * One chance only: a continuation that was aborted for want of a user id
   * is never retried, even once the id is known.
   */
  lemma AbortedContinuationNotRetried(st: GoalChatScreen, ob: OnboardingState.Onboarding, id: int, later: Option<Stage>)
    requires !st.hasAutoConfirmedSplitting && ob.submitUserId.None?
    ensures var aborted := OnStageChange(st, ob, Some(GoalSplittingExpert));
      && aborted.1.None?
      && OnStageChange(aborted.0, ob.(submitUserId := Some(id)), later).1.None?
  {
  }

  /** The continuation goes out at most once, whatever the answers. */
  lemma AutoContinueOnce(st: GoalChatScreen, ob: OnboardingState.Onboarding, answer: StageAnswer, plan: PlanAnswer,
                         reply: StageAnswer, later: Option<Stage>)
    ensures var (started, _) := AutoContinue(st, ob);
      var (finished, ob2, _) := FinishAutoContinue(started, ob, answer);
      && OnStageChange(finished, ob2, later).1.None?
      && OnStageChange(FinishAutoContinueAfterPlan(finished, ob2, plan).0, ob2, later).1.None?
      && OnStageChange(FinishSend(finished, ob2, reply).0, ob2, later).1.None?
  {
    var (started, _) := AutoContinue(st, ob);
    var (finished, ob2, _) := FinishAutoContinue(started, ob, answer);
    assert finished.hasAutoConfirmedSplitting;
    assert FinishSend(finished, ob2, reply).0.hasAutoConfirmedSplitting;
  }

  // ---------------------------------------------------------------------------
  // Skipping and the input switch
  // ---------------------------------------------------------------------------

  /** `handleSkip` on the tap: without a user id only an error; otherwise the skip request for that id. */
  function StartSkip(st: GoalChatScreen, ob: OnboardingState.Onboarding): (r: (GoalChatScreen, Option<int>))
    ensures r.1 == ob.submitUserId
    ensures r.0 == if ob.submitUserId.None? then st.(errorText := Some(MissingUserToSkip)) else st
  {
    if ob.submitUserId.None? then (st.(errorText := Some(MissingUserToSkip)), None) else (st, ob.submitUserId)
  }

  /** `handleSkip` on the answer: a failure shows an error, a success changes nothing on this screen. */
  function FinishSkip(st: GoalChatScreen, succeeded: bool): (r: GoalChatScreen)
    ensures succeeded ==> r == st
    ensures !succeeded ==> r == st.(errorText := Some(SkipFailedText))
  {
    if succeeded then st else st.(errorText := Some(SkipFailedText))
  }

  /** `toggleInputMode`. */
  function ToggleInput(st: GoalChatScreen): (r: GoalChatScreen)
    ensures r.inputMode != st.inputMode && r == st.(inputMode := r.inputMode)
  {
    st.(inputMode := ToggleInputMode(st.inputMode))
  }
}

=== FILE: goal_stages.dfy ===
/**
 * The stages the goal-setting backend reports while it turns a wish into a
 * plan, as both goal chats (the home screen's goal wizard and the onboarding
 * goal chat) read them: the backend's stage names, the progress bar in
 * thirds, the stage titles, and the server's answers both chats receive.
 */
module GoalStages {
  import opened Common
  import GoalModels

  /** The backend stages, in the order a conversation passes through them. */
  datatype Stage = OperatorStage | GoalSettingExpert | GoalSplittingExpert | Done | StageError

  /** The name the backend uses for each stage. */
  function BackendValue(s: Stage): (v: string)
    ensures v in BackendValues
  {
    match s
    case OperatorStage => "operator"
    case GoalSettingExpert => "goal_setting_expert"
    case GoalSplittingExpert => "goal_splitting_expert"
    case Done => "done"
    case StageError => "error"
  }

  const BackendValues: set<string> := {"operator", "goal_setting_expert", "goal_splitting_expert", "done", "error"}

  /** `mapStage(from:)`: the five names are recognised and every other string is not. */
  function MapStage(value: string): (r: Option<Stage>)
    ensures r.Some? <==> value in BackendValues
    ensures r.Some? ==> BackendValue(r.value) == value
  {
    match value
    case "operator" => Some(OperatorStage)
    case "goal_setting_expert" => Some(GoalSettingExpert)
    case "goal_splitting_expert" => Some(GoalSplittingExpert)
    case "done" => Some(Done)
    case "error" => Some(StageError)
    case _ => None
  }

  /** Every stage is recognised from its own name, so no two stages share a name. */
  lemma MapStageRoundTrip(s: Stage, t: Stage)
    ensures MapStage(BackendValue(s)) == Some(s)
    ensures BackendValue(s) == BackendValue(t) ==> s == t
  {
  }

  /** Two recognised names that map to the same stage are the same name. */
  lemma MapStageInjective(a: string, b: string)
    requires MapStage(a).Some? && MapStage(a) == MapStage(b)
    ensures a == b
  {
  }

  /** `stageProgress(for:)`, counted in thirds of the bar. */
  function ProgressThirds(s: Stage): (n: nat)
    ensures n <= 3
  {
    match s
    case OperatorStage => 1
    case GoalSettingExpert => 2
    case GoalSplittingExpert => 3
    case Done => 3
    case StageError => 0
  }

  /**
   * The bar grows by a third with each expert the conversation reaches, is
   * full from the splitting stage on, and is empty only on an error.
   */
  lemma ProgressFollowsFlow(s: Stage)
    ensures ProgressThirds(OperatorStage) < ProgressThirds(GoalSettingExpert) < ProgressThirds(GoalSplittingExpert)
    ensures ProgressThirds(s) == 3 <==> s in {GoalSplittingExpert, Done}
    ensures ProgressThirds(s) == 0 <==> s == StageError
  {
  }

  /** `stageTitle(for:)`. */
  function StageTitle(s: Stage): (r: string)
    ensures |r| > 3
    ensures r[1] == '/' && r[2] == '3' <==> s in {OperatorStage, GoalSettingExpert, GoalSplittingExpert}
  {
    match s
    case OperatorStage => "1/3 目标澄清中"
    case GoalSettingExpert => "2/3 目标设定中"
    case GoalSplittingExpert => "3/3 正在为你拆解目标"
    case Done => "目标计划已生成"
    case StageError => "目标设定出错，请稍后重试"
  }

  /** The "k/3" a title starts with for the three experts is the bar's own fill. */
  lemma TitleMatchesProgress(s: Stage)
    requires s in {OperatorStage, GoalSettingExpert, GoalSplittingExpert}
    ensures StageTitle(s)[..3] == NatToString(ProgressThirds(s)) + "/3"
  {
    assert NatToString(ProgressThirds(s)) == [DigitChar(ProgressThirds(s))];
  }

  /** The stage change that starts the automatic "ok" to the splitting expert. */
  predicate StartsAutoContinue(newStage: Option<Stage>) {
    newStage == Some(GoalSplittingExpert)
  }

  /** `GoalOnboardingMessageRequest`. */
  datatype GoalMessageRequest = GoalMessageRequest(userId: int, message: string)

  /** The word sent on the user's behalf to let the splitting expert go on. */
  const AutoContinueMessage := "ok"

  /** The server's answer to a goal-chat message. */
  datatype StageAnswer =
    | StageReplied(stage: string, reply: string, goalId: Option<int>, goalCompleted: bool)
    | StageThrew

  /** The server's answer to a plan fetch. */
  datatype PlanAnswer = PlanFetched(plan: GoalModels.GoalPlan) | PlanThrew

  /**
   * The goal id to fetch the plan for after an answer, if any: only a reply
   * that says the goal is complete fetches, for `known ?? reply's id` once
   * the reply's id has been stored, which is the reply's id when it has one.
   */
  function GoalToFetch(known: Option<int>, answer: StageAnswer): (r: Option<int>)
    ensures r.Some? <==> answer.StageReplied? && answer.goalCompleted && (answer.goalId.Some? || known.Some?)
    ensures r.Some? ==> r == answer.goalId.Or(known)
  {
    match answer
    case StageThrew => None
    case StageReplied(_, _, goalId, completed) =>
      if !completed then None
      else if goalId.Some? then goalId
      else known
  }
}

=== FILE: goal_tracking_page.dfy ===
/**
 * The goal-tracking page: which of the user's goal plans is shown, how the
 * selection is repaired when the list of plans changes, and which milestones
 * count as current because today's tasks belong to them.
 */
module GoalTrackingPage {
  import opened Common
  import opened GoalModels

  /** The goal dropdown appears only when there is more than one plan; without it the page shows the only plan there is. */
  predicate ShowsGoalDropdown(plans: seq<GoalPlan>)
    ensures ShowsGoalDropdown(plans) <==> |plans| >= 2
    ensures !ShowsGoalDropdown(plans) && |plans| > 0 ==> SelectedPlan(plans, None) == Some(plans[|plans| - 1])
  {
    |plans| > 1
  }

  predicate HasGoal(plans: seq<GoalPlan>, id: int) {
    exists i :: 0 <= i < |plans| && plans[i].goalId == id
  }

  /** `selectedPlan`: the first plan without a selection, else the first plan with that goal id. */
  function SelectedPlan(plans: seq<GoalPlan>, selected: Option<int>): (r: Option<GoalPlan>)
    ensures selected.None? ==> r == (if |plans| > 0 then Some(plans[0]) else None)
    ensures selected.Some? ==> (r.Some? <==> HasGoal(plans, selected.value))
    ensures selected.Some? && r.Some? ==> r.value in plans && r.value.goalId == selected.value
  {
    match selected
    case None => if |plans| > 0 then Some(plans[0]) else None
    case Some(id) => First(plans, (p: GoalPlan) => p.goalId == id)
  }

  /** The goal whose milestones are highlighted: the selection, else the first plan's goal. */
  function EffectiveGoalId(plans: seq<GoalPlan>, selected: Option<int>): (r: Option<int>)
    ensures selected.Some? ==> r == selected
    ensures selected.None? ==> (r.Some? <==> |plans| > 0)
    ensures selected.None? && r.Some? ==> HasGoal(plans, r.value)
  {
    selected.Or(if |plans| > 0 then Some(plans[0].goalId) else None)
  }

  /** The milestone ids of today's tasks of goal `goalId`. */
  function MilestoneIdsOfGoal(tasks: seq<DailyTaskItem>, goalId: int): (r: set<int>)
    ensures forall id :: id in r <==> exists i :: 0 <= i < |tasks| && tasks[i].goalId == goalId && tasks[i].milestoneId == Some(id)
  {
    if |tasks| == 0 then {}
    else
      var rest := MilestoneIdsOfGoal(tasks[1..], goalId);
      assert forall i :: 1 <= i < |tasks| ==> tasks[i] == tasks[1..][i - 1];
      if tasks[0].goalId == goalId && tasks[0].milestoneId.Some? then {tasks[0].milestoneId.value} + rest
      else rest
  }

  /** `currentMilestoneIdsForSelectedGoal`. */
  function CurrentMilestoneIds(plans: seq<GoalPlan>, tasks: seq<DailyTaskItem>, selected: Option<int>): (r: set<int>)
    ensures selected.None? && |plans| == 0 ==> r == {}
    ensures EffectiveGoalId(plans, selected).Some? ==>
      forall id :: id in r <==> exists i :: 0 <= i < |tasks| && tasks[i].goalId == EffectiveGoalId(plans, selected).value && tasks[i].milestoneId == Some(id)
  {
    match EffectiveGoalId(plans, selected)
    case None => {}
    case Some(g) => MilestoneIdsOfGoal(tasks, g)
  }

  /** `onAppear`: a missing selection becomes the first plan. */
  function OnAppear(plans: seq<GoalPlan>, selected: Option<int>): (r: Option<int>)
    ensures selected.Some? ==> r == selected
    ensures selected.None? && |plans| > 0 ==> r == Some(plans[0].goalId)
    ensures selected.None? && |plans| == 0 ==> r.None?
  {
    if selected.None? && |plans| > 0 then Some(plans[0].goalId) else selected
  }

  /** `onChange(of:)` of the plans' goal ids: repair a selection that no longer names a plan. */
  function OnPlansChange(plans: seq<GoalPlan>, selected: Option<int>): (r: Option<int>)
    ensures |plans| > 0 ==> r.Some? && HasGoal(plans, r.value)
    ensures selected.Some? && HasGoal(plans, selected.value) ==> r == selected
    ensures |plans| == 0 ==> r == selected
  {
    if selected.Some? && !HasGoal(plans, selected.value) && |plans| > 0 then Some(plans[0].goalId)
    else if selected.None? && |plans| > 0 then Some(plans[0].goalId)
    else selected
  }

  /** After a repair the page always shows a plan whenever there is one. */
  lemma RepairedSelectionShowsPlan(plans: seq<GoalPlan>, selected: Option<int>)
    requires |plans| > 0
    ensures SelectedPlan(plans, OnPlansChange(plans, selected)).Some?
    ensures SelectedPlan(plans, OnAppear(plans, selected)).Some? || (selected.Some? && !HasGoal(plans, selected.value))
  {
  }

  /** The dropdown's buttons: pick a goal by its id. */
  function SelectGoal(plan: GoalPlan): (r: Option<int>)
    ensures SelectedPlan([plan], r) == Some(plan)
  {
    Some(plan.goalId)
  }

  /** Choosing a plan from the dropdown shows a plan of that goal. */
  lemma DropdownShowsChosenGoal(plans: seq<GoalPlan>, p: GoalPlan)
    requires p in plans
    ensures SelectedPlan(plans, SelectGoal(p)).Some?
    ensures SelectedPlan(plans, SelectGoal(p)).value.goalId == p.goalId
  {
    var k :| 0 <= k < |plans| && plans[k] == p;
    assert HasGoal(plans, p.goalId);
  }
}

=== FILE: goal_tracking_view_model.dfy ===
/**
 * The goal-tracking view model's optimistic updates: an edit is applied to a
 * local copy of the plan at once, shown instead of the server's plan, and
 * dropped again when the server call fails.
 */
module GoalTrackingViewModel {
  import opened Common
  import opened GoalModels

  /** The view model's state that the updates touch. */
  datatype TrackingState = TrackingState(
    localPlan: Option<GoalPlan>,
    selectedMilestone: Option<Milestone>,
    selectedTask: Option<PlanTask>)

  /** `displayPlan(from:)`: the local copy wins over the plan passed in. */
  function DisplayPlan(st: TrackingState, plan: Option<GoalPlan>): (r: Option<GoalPlan>)
    ensures st.localPlan.Some? ==> r == st.localPlan
    ensures st.localPlan.None? ==> r == plan
  {
    st.localPlan.Or(plan)
  }

  // ---------------------------------------------------------------------------
  // Patching one record
  // ---------------------------------------------------------------------------

  /** The goal-level fields other than title, due date and status agree. */
  predicate SameGoalBody(a: GoalPlan, b: GoalPlan) {
    && a.goalId == b.goalId && a.desc == b.desc && a.dailyMinutes == b.dailyMinutes
    && a.motivation == b.motivation && a.constraints == b.constraints
    && a.progress == b.progress && a.milestones == b.milestones
  }

  /** The goal record `applyGoalUpdate` builds: only the three fields a request can name may differ. */
  function PatchGoal(p: GoalPlan, req: GoalUpdateRequest): (r: GoalPlan)
    ensures r.(title := p.title, dueDate := p.dueDate, status := p.status) == p
  {
    p.(title := req.title.GetOr(p.title),
       dueDate := req.dueDate.Or(p.dueDate),
       status := req.status.GetOr(p.status))
  }

  /** The milestone record `applyMilestoneUpdate` builds for a matching id: only the five named fields may differ. */
  function PatchMilestone(m: Milestone, req: MilestoneUpdateRequest): (r: Milestone)
    ensures r.(title := m.title, desc := m.desc, dueDate := m.dueDate, priority := m.priority, status := m.status) == m
  {
    m.(title := req.title.GetOr(m.title),
       desc := req.desc.Or(m.desc),
       dueDate := req.dueDate.Or(m.dueDate),
       priority := req.priority.GetOr(m.priority),
       status := req.status.GetOr(m.status))
  }

  /** The task record `applyTaskUpdate` builds for a matching id: only the four named fields may differ. */
  function PatchTask(t: PlanTask, req: TaskUpdateRequest): (r: PlanTask)
    ensures r.(title := t.title, frequency := t.frequency, status := t.status, priority := t.priority) == t
  {
    t.(title := req.title.GetOr(t.title),
       frequency := req.frequency.GetOr(t.frequency),
       status := req.status.GetOr(t.status),
       priority := req.priority.Or(t.priority))
  }

  /** A supplied field wins; an absent one keeps the old value; the rest never change. */
  lemma PatchGoalFields(p: GoalPlan, req: GoalUpdateRequest)
    ensures var q := PatchGoal(p, req);
      && (req.title.Some? ==> q.title == req.title.value) && (req.title.None? ==> q.title == p.title)
      && (req.dueDate.Some? ==> q.dueDate == req.dueDate) && (req.dueDate.None? ==> q.dueDate == p.dueDate)
      && (req.status.Some? ==> q.status == req.status.value) && (req.status.None? ==> q.status == p.status)
      && SameGoalBody(q, p)
  {
  }

  lemma PatchMilestoneFields(m: Milestone, req: MilestoneUpdateRequest)
    ensures var n := PatchMilestone(m, req);
      && n.id == m.id && n.startDate == m.startDate && n.tasks == m.tasks
      && (req.title.Some? ==> n.title == req.title.value) && (req.title.None? ==> n.title == m.title)
      && (req.desc.Some? ==> n.desc == req.desc) && (req.desc.None? ==> n.desc == m.desc)
      && (req.dueDate.Some? ==> n.dueDate == req.dueDate) && (req.dueDate.None? ==> n.dueDate == m.dueDate)
      && (req.priority.Some? ==> n.priority == req.priority.value) && (req.priority.None? ==> n.priority == m.priority)
      && (req.status.Some? ==> n.status == req.status.value) && (req.status.None? ==> n.status == m.status)
  {
  }

  lemma PatchTaskFields(t: PlanTask, req: TaskUpdateRequest)
    ensures var u := PatchTask(t, req);
      && u.id == t.id && u.desc == t.desc && u.dueAt == t.dueAt && u.estimatedMinutes == t.estimatedMinutes
      && (req.title.Some? ==> u.title == req.title.value) && (req.title.None? ==> u.title == t.title)
      && (req.frequency.Some? ==> u.frequency == req.frequency.value) && (req.frequency.None? ==> u.frequency == t.frequency)
      && (req.status.Some? ==> u.status == req.status.value) && (req.status.None? ==> u.status == t.status)
      && (req.priority.Some? ==> u.priority == req.priority) && (req.priority.None? ==> u.priority == t.priority)
  {
  }

  /** A request with every field absent changes nothing. */
  lemma EmptyRequestsAreIdentity(p: GoalPlan, m: Milestone, t: PlanTask)
    ensures PatchGoal(p, EmptyGoalRequest) == p
    ensures PatchMilestone(m, EmptyMilestoneRequest) == m
    ensures PatchTask(t, EmptyTaskRequest) == t
  {
  }

  /** Applying the same patch twice gives what applying it once gives. */
  lemma PatchesIdempotent(p: GoalPlan, gr: GoalUpdateRequest, m: Milestone, mr: MilestoneUpdateRequest, t: PlanTask, tr: TaskUpdateRequest)
    ensures PatchGoal(PatchGoal(p, gr), gr) == PatchGoal(p, gr)
    ensures PatchMilestone(PatchMilestone(m, mr), mr) == PatchMilestone(m, mr)
    ensures PatchTask(PatchTask(t, tr), tr) == PatchTask(t, tr)
  {
  }

  // ---------------------------------------------------------------------------
  // Patching inside lists
  // ---------------------------------------------------------------------------

  /** The milestone list after `applyMilestoneUpdate`'s `map`. */
  function UpdateMilestones(ms: seq<Milestone>, id: int, req: MilestoneUpdateRequest): (r: seq<Milestone>)
    ensures |r| == |ms|
    ensures forall i :: 0 <= i < |ms| ==> r[i] == if ms[i].id == id then PatchMilestone(ms[i], req) else ms[i]
  {
    if |ms| == 0 then []
    else [if ms[0].id == id then PatchMilestone(ms[0], req) else ms[0]] + UpdateMilestones(ms[1..], id, req)
  }

  /** The task list of one milestone after the inner `map` of `applyTaskUpdate`. */
  function UpdateTasks(ts: seq<PlanTask>, id: int, req: TaskUpdateRequest): (r: seq<PlanTask>)
    ensures |r| == |ts|
    ensures forall i :: 0 <= i < |ts| ==> r[i] == if ts[i].id == id then PatchTask(ts[i], req) else ts[i]
  {
    if |ts| == 0 then []
    else [if ts[0].id == id then PatchTask(ts[0], req) else ts[0]] + UpdateTasks(ts[1..], id, req)
  }

  /** The milestone list after the outer `map` of `applyTaskUpdate`. */
  function UpdateTasksInMilestones(ms: seq<Milestone>, id: int, req: TaskUpdateRequest): (r: seq<Milestone>)
    ensures |r| == |ms|
    ensures forall i :: 0 <= i < |ms| ==> r[i] == ms[i].(tasks := UpdateTasks(ms[i].tasks, id, req))
  {
    if |ms| == 0 then []
    else [ms[0].(tasks := UpdateTasks(ms[0].tasks, id, req))] + UpdateTasksInMilestones(ms[1..], id, req)
  }

  /** Ids, like every other field, survive the list update. */
  lemma UpdateMilestonesKeepsIds(ms: seq<Milestone>, id: int, req: MilestoneUpdateRequest)
    ensures forall i :: 0 <= i < |ms| ==> UpdateMilestones(ms, id, req)[i].id == ms[i].id
  {
  }

  /** The first task with id `id`, looking through the milestones in order. */
  function FirstTaskWithId(ms: seq<Milestone>, id: int): (r: Option<PlanTask>)
    ensures r.Some? ==> r.value.id == id
    ensures r.Some? ==> exists i :: 0 <= i < |ms| && r.value in ms[i].tasks
    ensures r.None? <==> forall i :: 0 <= i < |ms| ==> forall t :: t in ms[i].tasks ==> t.id != id
  {
    if |ms| == 0 then None
    else
      match First(ms[0].tasks, (t: PlanTask) => t.id == id)
      case Some(t) => Some(t)
      case None => FirstTaskWithId(ms[1..], id)
  }

  // ---------------------------------------------------------------------------
  // The view model operations
  // ---------------------------------------------------------------------------

  /** `applyGoalUpdate(request:currentPlan:)`. */
  function ApplyGoalUpdate(st: TrackingState, req: GoalUpdateRequest, current: Option<GoalPlan>): (r: TrackingState)
    ensures current.None? ==> r == st
    ensures current.Some? ==> r.localPlan == Some(PatchGoal(current.value, req))
    ensures r.selectedMilestone == st.selectedMilestone && r.selectedTask == st.selectedTask
  {
    match current
    case None => st
    case Some(p) => st.(localPlan := Some(PatchGoal(p, req)))
  }

  /** `applyMilestoneUpdate(milestoneId:request:currentPlan:)`. */
  function ApplyMilestoneUpdate(st: TrackingState, id: int, req: MilestoneUpdateRequest, current: Option<GoalPlan>): (r: TrackingState)
    ensures current.None? ==> r == st
    ensures current.Some? ==> (r.localPlan.Some?
      && r.localPlan.value == current.value.(milestones := UpdateMilestones(current.value.milestones, id, req)))
    ensures r.selectedTask == st.selectedTask
    ensures current.Some? ==>
      var ms := current.value.milestones;
      && ((exists i :: 0 <= i < |ms| && ms[i].id == id) ==>
            r.selectedMilestone.Some? && r.selectedMilestone.value.id == id
            && exists i :: 0 <= i < |ms| && ms[i].id == id && (forall j :: 0 <= j < i ==> ms[j].id != id)
                 && r.selectedMilestone.value == PatchMilestone(ms[i], req))
      && ((forall i :: 0 <= i < |ms| ==> ms[i].id != id) ==> r.selectedMilestone == st.selectedMilestone)
  {
    match current
    case None => st
    case Some(p) =>
      var updated := UpdateMilestones(p.milestones, id, req);
      var st1 := st.(localPlan := Some(p.(milestones := updated)));
      match FirstIndex(updated, (m: Milestone) => m.id == id)
      case Some(k) => st1.(selectedMilestone := Some(updated[k]))
      case None => st1
  }

  /** `applyTaskUpdate(taskId:request:currentPlan:)`. */
  function ApplyTaskUpdate(st: TrackingState, id: int, req: TaskUpdateRequest, current: Option<GoalPlan>): (r: TrackingState)
    ensures current.None? ==> r == st
    ensures current.Some? ==> (r.localPlan.Some?
      && r.localPlan.value == current.value.(milestones := UpdateTasksInMilestones(current.value.milestones, id, req)))
    ensures r.selectedMilestone == st.selectedMilestone
    ensures current.Some? ==>
      var first := FirstTaskWithId(current.value.milestones, id);
      && (first.Some? ==> r.selectedTask == Some(PatchTask(first.value, req)) && r.selectedTask.value.id == id)
      && (first.None? ==> r.selectedTask == st.selectedTask)
  {
    match current
    case None => st
    case Some(p) =>
      SelectedTaskIsFirstPatched(p.milestones, id, req);
      var updated := UpdateTasksInMilestones(p.milestones, id, req);
      var st1 := st.(localPlan := Some(p.(milestones := updated)));
      match FirstTaskWithId(updated, id)
      case Some(t) => st1.(selectedTask := Some(t))
      case None => st1
  }

  /** The milestone and task updates change only what sits under the matching id. */
  lemma UpdatesKeepGoalFields(st: TrackingState, mid: int, mr: MilestoneUpdateRequest, tid: int, tr: TaskUpdateRequest, p: GoalPlan)
    ensures SameGoalBodyExceptMilestones(ApplyMilestoneUpdate(st, mid, mr, Some(p)).localPlan.value, p)
    ensures SameGoalBodyExceptMilestones(ApplyTaskUpdate(st, tid, tr, Some(p)).localPlan.value, p)
  {
  }

  /** Every goal-level field agrees, the milestone list aside. */
  predicate SameGoalBodyExceptMilestones(a: GoalPlan, b: GoalPlan) {
    a == b.(milestones := a.milestones)
  }

  /**
   * The task chosen for the dialog is the patched copy of the first task with
   * that id in plan order, and one exists exactly when the plan holds such a task.
   */
  lemma {:induction false} SelectedTaskIsFirstPatched(ms: seq<Milestone>, id: int, req: TaskUpdateRequest)
    ensures var sel := FirstTaskWithId(UpdateTasksInMilestones(ms, id, req), id);
      && (sel.Some? <==> FirstTaskWithId(ms, id).Some?)
      && (sel.Some? ==> sel.value == PatchTask(FirstTaskWithId(ms, id).value, req))
  {
    if |ms| > 0 {
      var ts := ms[0].tasks;
      var us := UpdateTasks(ts, id, req);
      var p := (t: PlanTask) => t.id == id;
      SelectedTaskIsFirstPatched(ms[1..], id, req);
      assert UpdateTasksInMilestones(ms, id, req)[1..] == UpdateTasksInMilestones(ms[1..], id, req);
      FirstIndexOfPatchedTasks(ts, id, req);
      match FirstIndex(ts, p)
      case Some(k) =>
        assert First(us, p) == Some(us[k]);
      case None =>
        assert First(us, p) == None;
    }
  }

  /** Patching matching tasks does not move the first match. */
  lemma {:induction false} FirstIndexOfPatchedTasks(ts: seq<PlanTask>, id: int, req: TaskUpdateRequest)
    ensures FirstIndex(UpdateTasks(ts, id, req), (t: PlanTask) => t.id == id) == FirstIndex(ts, (t: PlanTask) => t.id == id)
  {
    if |ts| > 0 {
      FirstIndexOfPatchedTasks(ts[1..], id, req);
      assert UpdateTasks(ts, id, req)[1..] == UpdateTasks(ts[1..], id, req);
    }
  }

  /**
   * The end of `updateGoalAPI`, `updateMilestoneAPI` or `updateTaskAPI`: a
   * success keeps the optimistic copy (the refresh callback is outside this
   * model), a failure drops it.
   */
  function FinishUpdateCall(st: TrackingState, succeeded: bool): (r: TrackingState)
    ensures succeeded ==> r == st
    ensures !succeeded ==> r.localPlan.None?
    ensures r.selectedMilestone == st.selectedMilestone && r.selectedTask == st.selectedTask
  {
    if succeeded then st else st.(localPlan := None)
  }

  /** `resetLocalPlan`. */
  function ResetLocalPlan(st: TrackingState): (r: TrackingState)
    ensures r.localPlan.None?
    ensures r.selectedMilestone == st.selectedMilestone && r.selectedTask == st.selectedTask
  {
    st.(localPlan := None)
  }

  /** After a revert the server's plan is what is shown. */
  lemma RevertShowsServerPlan(st: TrackingState, plan: Option<GoalPlan>)
    ensures DisplayPlan(FinishUpdateCall(st, false), plan) == plan
    ensures DisplayPlan(ResetLocalPlan(st), plan) == plan
  {
  }
}

=== FILE: goal_wizard.dfy ===
/**
 * The home screen's goal wizard: a chat with the goal-setting backend that
 * may start from a candidate goal, follows the backend's stages, sends one
 * automatic "ok" when the splitting expert is reached, fetches the finished
 * plan and then asks whether to start today. Each server call is split into
 * the part that runs on the tap and the part that runs on the answer.
 */
module GoalWizard {
  import opened Common
  import opened ChatBasics
  import opened GoalStages
  import GoalModels

  datatype WizardScreen = WizardScreen(
    userId: int,
    messages: seq<Message>,
    draft: string,
    isSending: bool,
    errorText: Option<string>,
    inputMode: InputMode,
    currentStage: Option<Stage>,
    isFetchingPlan: bool,
    hasAutoConfirmedSplitting: bool,
    isAutoContinuing: bool,
    currentGoalId: Option<int>,
    goalPlan: Option<GoalModels.GoalPlan>,
    showStartPrompt: bool,
    isAssigningTasks: bool)

  function Opened(userId: int): WizardScreen {
    WizardScreen(userId, [], "", false, None, TextInput, None, false, false, false, None, None, false, false)
  }

  const WizardGreeting := "你好！我是你的目标设定助手。告诉我你想达成什么目标？"
  const SendFailedText := "消息发送失败，请检查网络后稍后再试。"
  const AutoContinueFailedText := "生成目标计划时出了点问题，请稍后再试。"
  const PlanFailedText := "暂时无法获取目标计划，请稍后再试。"
  const AssignFailedText := "任务分配失败，请稍后在目标页面重试。"

  // ---------------------------------------------------------------------------
  // Sending
  // ---------------------------------------------------------------------------

  /** Whether the conversation already ends with the user saying `text`. */
  predicate EndsWithUserText(ms: seq<Message>, text: string) {
    |ms| > 0 && ms[|ms| - 1] == Message(text, User)
  }

  /**
   * The synchronous part of `sendMessage`: blank input is dropped; otherwise
   * the trimmed text is shown as a user bubble unless the conversation
   * already ends with exactly that user bubble, and the request is built.
   */
  function SendMessage(st: WizardScreen, content: string): (r: (WizardScreen, Option<GoalMessageRequest>))
    ensures OutgoingText(content).None? ==> r == (st, None)
    ensures OutgoingText(content).Some? ==>
      var text := OutgoingText(content).value;
      && r.1 == Some(GoalMessageRequest(st.userId, text))
      && r.0.isSending && r.0.errorText.None?
      && EndsWithUserText(r.0.messages, text)
      && (r.0.messages == st.messages <==> EndsWithUserText(st.messages, text))
      && (r.0.messages != st.messages ==> r.0.messages == st.messages + [Message(text, User)])
      && r.0 == st.(messages := r.0.messages, isSending := true, errorText := None)
  {
    match OutgoingText(content)
    case None => (st, None)
    case Some(text) =>
      var ms := if EndsWithUserText(st.messages, text) then st.messages else st.messages + [Message(text, User)];
      (st.(messages := ms, isSending := true, errorText := None), Some(GoalMessageRequest(st.userId, text)))
  }

  /** Sending the same text twice in a row shows it once. */
  lemma RepeatedSendShowsOnce(st: WizardScreen, content: string)
    requires OutgoingText(content).Some?
    ensures var once := SendMessage(st, content).0;
      SendMessage(once, content).0.messages == once.messages
  {
  }

  /** `sendCurrentMessage`: nothing while a message or the plan is in flight; otherwise the draft is cleared and sent. */
  function SendCurrentMessage(st: WizardScreen): (r: (WizardScreen, Option<GoalMessageRequest>))
    ensures st.isSending || st.isFetchingPlan ==> r == (st, None)
    ensures !st.isSending && !st.isFetchingPlan ==> r.0.draft == "" && r == SendMessage(st.(draft := ""), st.draft)
  {
    if st.isSending || st.isFetchingPlan then (st, None)
    else SendMessage(st.(draft := ""), st.draft)
  }

  /** While busy, the send button does nothing, draft included. */
  lemma BusyIgnoresSend(st: WizardScreen)
    requires st.isSending || st.isFetchingPlan
    ensures SendCurrentMessage(st).1.None? && SendCurrentMessage(st).0.draft == st.draft
  {
  }

  // ---------------------------------------------------------------------------
  // Fetching the plan
  // ---------------------------------------------------------------------------

  /** The start of `fetchGoalPlan(goalId:)`: ignored while a fetch is in flight; otherwise the flag goes up and the plan is requested. */
  function StartPlanFetch(st: WizardScreen, goalId: int): (r: (WizardScreen, Option<int>))
    ensures r.1.Some? <==> !st.isFetchingPlan
    ensures r.1.Some? ==> r.1.value == goalId
    ensures r.0.isFetchingPlan && r.0.(isFetchingPlan := st.isFetchingPlan) == st
  {
    if st.isFetchingPlan then (st, None) else (st.(isFetchingPlan := true), Some(goalId))
  }

  /** The end of `fetchGoalPlan(goalId:)`: the flag comes down; a plan is stored and opens the start prompt; a failure only shows an error. */
  function FinishPlanFetch(st: WizardScreen, answer: PlanAnswer): (r: WizardScreen)
    ensures !r.isFetchingPlan
    ensures answer.PlanFetched? ==> r.goalPlan == Some(answer.plan) && r.showStartPrompt && r.errorText == st.errorText
    ensures answer.PlanThrew? ==>
      r.goalPlan == st.goalPlan && r.showStartPrompt == st.showStartPrompt && r.errorText == Some(PlanFailedText)
    ensures r == st.(isFetchingPlan := false, goalPlan := r.goalPlan, showStartPrompt := r.showStartPrompt, errorText := r.errorText)
  {
    match answer
    case PlanFetched(plan) => st.(goalPlan := Some(plan), isFetchingPlan := false, showStartPrompt := true)
    case PlanThrew => st.(errorText := Some(PlanFailedText), isFetchingPlan := false)
  }

  /**
   * What both answer handlers do with an answer: a reply's stage is taken and
   * its goal id remembered; once the goal is complete, the plan fetch for
   * `GoalToFetch` starts, which is the goal the screen now remembers.
   */
  function TakeStage(st: WizardScreen, answer: StageAnswer): (r: (WizardScreen, Option<int>))
    ensures answer.StageThrew? ==> r == (st, None)
    ensures answer.StageReplied? ==>
      && r.0.currentStage == MapStage(answer.stage)
      && r.0.currentGoalId == (if answer.goalId.Some? then answer.goalId else st.currentGoalId)
    ensures r.1.Some? <==> !st.isFetchingPlan && GoalToFetch(st.currentGoalId, answer).Some?
    ensures r.1.Some? ==> r.1 == r.0.currentGoalId
    ensures r.0.isFetchingPlan == (st.isFetchingPlan || r.1.Some?)
    ensures r.0 == st.(currentStage := r.0.currentStage, currentGoalId := r.0.currentGoalId, isFetchingPlan := r.0.isFetchingPlan)
  {
    match answer
    case StageThrew => (st, None)
    case StageReplied(stage, _, goalId, _) =>
      var staged := st.(currentStage := MapStage(stage), currentGoalId := if goalId.Some? then goalId else st.currentGoalId);
      match GoalToFetch(st.currentGoalId, answer)
      case None => (staged, None)
      case Some(id) => StartPlanFetch(staged, id)
  }

  /** A reply goes up as an assistant bubble, trimmed, unless it is blank. */
  function ShowReply(st: WizardScreen, reply: string): (r: WizardScreen)
    ensures r.messages == st.messages + (match OutgoingText(reply) case None => [] case Some(t) => [Message(t, Ai)])
    ensures r == st.(messages := r.messages)
  {
    match OutgoingText(reply)
    case None => st
    case Some(t) => st.(messages := st.messages + [Message(t, Ai)])
  }

  /** The last line of a send: the sending flag comes down unless the continuation holds it. */
  function EndSend(st: WizardScreen): (r: WizardScreen)
    ensures r.isSending == (st.isSending && st.isAutoContinuing) && r.(isSending := st.isSending) == st
  {
    st.(isSending := st.isSending && st.isAutoContinuing)
  }

  /**
   * The asynchronous part of `sendMessage`, when the reply arrives: show the
   * trimmed reply when it is not blank, or an error on a failure, and take
   * the stage. The send ends now, or, when a plan fetch was started, once the
   * plan arrives (`FinishSendAfterPlan`).
   */
  function FinishSend(st: WizardScreen, answer: StageAnswer): (r: (WizardScreen, Option<int>))
    ensures r.0.hasAutoConfirmedSplitting == st.hasAutoConfirmedSplitting
    ensures r.1.None? ==> r.0.isSending == (st.isSending && st.isAutoContinuing)
    ensures r.1.Some? ==> r.0.isSending == st.isSending && r.0.isFetchingPlan && r.1 == r.0.currentGoalId
    ensures r.1.Some? <==> !st.isFetchingPlan && GoalToFetch(st.currentGoalId, answer).Some?
    ensures answer.StageThrew? ==> r == (st.(errorText := Some(SendFailedText), isSending := r.0.isSending), None)
    ensures answer.StageReplied? ==>
      && r.0.currentStage == MapStage(answer.stage)
      && r.0.messages == st.messages + (match OutgoingText(answer.reply) case None => [] case Some(t) => [Message(t, Ai)])
  {
    match answer
    case StageThrew => (EndSend(st.(errorText := Some(SendFailedText))), None)
    case StageReplied(_, reply, _, _) =>
      var shown := ShowReply(st, reply);
      var (staged, fetch) := TakeStage(shown, answer);
      if fetch.None? then (EndSend(staged), None) else (staged, fetch)
  }

  /** The rest of `sendMessage` once the plan it fetches has arrived: the fetch ends, then the send. */
  function FinishSendAfterPlan(st: WizardScreen, plan: PlanAnswer): (r: WizardScreen)
    ensures !r.isFetchingPlan && r.isSending == (st.isSending && st.isAutoContinuing)
    ensures plan.PlanFetched? ==> r.showStartPrompt && r.goalPlan == Some(plan.plan)
    ensures plan.PlanThrew? ==> r.errorText == Some(PlanFailedText) && r.goalPlan == st.goalPlan
    ensures r.messages == st.messages && r.hasAutoConfirmedSplitting == st.hasAutoConfirmedSplitting
  {
    EndSend(FinishPlanFetch(st, plan))
  }

  /**
   * A plan is fetched after a reply exactly when the server says the goal is
   * complete, a goal id is known from the reply or from before, and no fetch
   * is in flight; the id is the reply's, else the one known before.
   */
  lemma PlanFetchIffGoalComplete(st: WizardScreen, answer: StageAnswer)
    ensures var fetch := FinishSend(st, answer).1;
      && (fetch.Some? <==>
            !st.isFetchingPlan && answer.StageReplied? && answer.goalCompleted && (answer.goalId.Some? || st.currentGoalId.Some?))
      && (fetch.Some? ==> fetch == (if answer.goalId.Some? then answer.goalId else st.currentGoalId))
  {
  }

  /** While the plan is in flight the send button does nothing, and once it arrives the input is free again. */
  lemma PlanInFlightLocksInput(st: WizardScreen, answer: StageAnswer, plan: PlanAnswer)
    requires !st.isAutoContinuing
    ensures var (waiting, fetch) := FinishSend(st, answer);
      && (fetch.Some? ==> SendCurrentMessage(waiting).1.None?)
      && (fetch.Some? ==> !FinishSendAfterPlan(waiting, plan).isSending && !FinishSendAfterPlan(waiting, plan).isFetchingPlan)
      && (fetch.None? ==> !waiting.isSending)
  {
  }

  // ---------------------------------------------------------------------------
  // The automatic continuation
  // ---------------------------------------------------------------------------

  /**
   * `autoContinueAfterGoalSplittingIfNeeded`: the first time only, mark it
   * done and send "ok" on the user's behalf.
   */
  function AutoContinue(st: WizardScreen): (r: (WizardScreen, Option<GoalMessageRequest>))
    ensures st.hasAutoConfirmedSplitting ==> r == (st, None)
    ensures !st.hasAutoConfirmedSplitting ==>
      && r.1 == Some(GoalMessageRequest(st.userId, AutoContinueMessage))
      && r.0 == st.(hasAutoConfirmedSplitting := true, isSending := true, isAutoContinuing := true, errorText := None)
    ensures r.0.hasAutoConfirmedSplitting && r.0.messages == st.messages
  {
    if st.hasAutoConfirmedSplitting then (st, None)
    else
      (st.(hasAutoConfirmedSplitting := true, isSending := true, isAutoContinuing := true, errorText := None),
       Some(GoalMessageRequest(st.userId, AutoContinueMessage)))
  }

  /** The reaction to a stage change: entering the splitting stage starts the continuation. */
  function OnStageChange(st: WizardScreen, newStage: Option<Stage>): (r: (WizardScreen, Option<GoalMessageRequest>))
    ensures !StartsAutoContinue(newStage) ==> r == (st, None)
    ensures r.1.Some? <==> StartsAutoContinue(newStage) && !st.hasAutoConfirmedSplitting
  {
    if StartsAutoContinue(newStage) then AutoContinue(st) else (st, None)
  }

  /** The last lines of the continuation: the input is unlocked and the continuation is over. */
  function EndAutoContinue(st: WizardScreen): (r: WizardScreen)
    ensures !r.isSending && !r.isAutoContinuing
    ensures r.(isSending := st.isSending, isAutoContinuing := st.isAutoContinuing) == st
  {
    st.(isSending := false, isAutoContinuing := false)
  }

  /**
   * The asynchronous part of the continuation, when its answer arrives: take
   * the stage. The busy state ends now, or, when a plan fetch was started,
   * once the plan arrives (`FinishAutoContinueAfterPlan`).
   */
  function FinishAutoContinue(st: WizardScreen, answer: StageAnswer): (r: (WizardScreen, Option<int>))
    ensures r.0.hasAutoConfirmedSplitting == st.hasAutoConfirmedSplitting
    ensures r.1.None? ==> !r.0.isSending && !r.0.isAutoContinuing
    ensures r.1.Some? ==> r.0.isSending == st.isSending && r.0.isAutoContinuing == st.isAutoContinuing && r.0.isFetchingPlan
    ensures r.1.Some? <==> !st.isFetchingPlan && GoalToFetch(st.currentGoalId, answer).Some?
    ensures r.0.messages == st.messages
    ensures answer.StageThrew? ==> r == (st.(errorText := Some(AutoContinueFailedText), isSending := false, isAutoContinuing := false), None)
    ensures answer.StageReplied? ==> r.0.currentStage == MapStage(answer.stage)
  {
    match answer
    case StageThrew => (EndAutoContinue(st.(errorText := Some(AutoContinueFailedText))), None)
    case StageReplied(_, _, _, _) =>
      var (staged, fetch) := TakeStage(st, answer);
      if fetch.None? then (EndAutoContinue(staged), None) else (staged, fetch)
  }

  /** The rest of the continuation once the plan it fetches has arrived: the fetch ends, then the busy state. */
  function FinishAutoContinueAfterPlan(st: WizardScreen, plan: PlanAnswer): (r: WizardScreen)
    ensures !r.isFetchingPlan && !r.isSending && !r.isAutoContinuing
    ensures plan.PlanFetched? ==> r.showStartPrompt && r.goalPlan == Some(plan.plan)
    ensures r.messages == st.messages && r.hasAutoConfirmedSplitting == st.hasAutoConfirmedSplitting
  {
    EndAutoContinue(FinishPlanFetch(st, plan))
  }

  /**
   * The continuation is sent at most once per wizard: whatever answers
   * arrive and however often the splitting stage is entered again, no second
   * "ok" goes out.
   */
  lemma AutoContinueOnce(st: WizardScreen, answer: StageAnswer, plan: PlanAnswer, later: Option<Stage>, reply: StageAnswer)
    ensures var (started, _) := AutoContinue(st);
      var finished := FinishAutoContinue(started, answer).0;
      && OnStageChange(finished, later).1.None?
      && OnStageChange(FinishAutoContinueAfterPlan(finished, plan), later).1.None?
      && OnStageChange(FinishSend(finished, reply).0, later).1.None?
  {
    var (started, _) := AutoContinue(st);
    var finished := FinishAutoContinue(started, answer).0;
    assert finished.hasAutoConfirmedSplitting;
    assert FinishSend(finished, reply).0.hasAutoConfirmedSplitting;
  }

  /**
   * A reply arriving while the continuation runs leaves the sending flag
   * set, so the input stays locked until the continuation ends.
   */
  lemma ContinuationKeepsInputLocked(st: WizardScreen, answer: StageAnswer)
    requires !st.hasAutoConfirmedSplitting
    ensures var started := AutoContinue(st).0;
      && FinishSend(started, answer).0.isSending
      && SendCurrentMessage(FinishSend(started, answer).0).1.None?
  {
  }

  // ---------------------------------------------------------------------------
  // The first message
  // ---------------------------------------------------------------------------

  /**
   * `setupInitialMessage` as written: on an empty conversation a non-empty
   * candidate is shown as a user bubble exactly as given and then sent
   * (which trims it), and otherwise the greeting is shown.
   */
  function SetupInitialMessageAsWritten(st: WizardScreen, candidate: Option<string>): (r: (WizardScreen, Option<GoalMessageRequest>))
    ensures |st.messages| > 0 ==> r == (st, None)
    ensures |st.messages| == 0 && (candidate.None? || candidate.value == []) ==>
      r == (st.(messages := [Message(WizardGreeting, Ai)]), None)
    ensures |st.messages| == 0 && candidate.Some? && candidate.value != [] ==>
      r == SendMessage(st.(messages := [Message(candidate.value, User)]), candidate.value)
  {
    if |st.messages| > 0 then (st, None)
    else if candidate.Some? && candidate.value != [] then
      SendMessage(st.(messages := [Message(candidate.value, User)]), candidate.value)
    else (st.(messages := [Message(WizardGreeting, Ai)]), None)
  }

  /** A candidate with a space around it is shown twice: once as given and once trimmed. */
  lemma PaddedCandidateShownTwice(st: WizardScreen)
    requires st.messages == []
    ensures SetupInitialMessageAsWritten(st, Some(" 早睡")).0.messages == [Message(" 早睡", User), Message("早睡", User)]
  {
    assert " 早睡"[0] == ' ' && IsWhitespaceOrNewline(' ');
    assert !IsWhitespaceOrNewline('早') && !IsWhitespaceOrNewline('睡');
    assert LeadingCount(" 早睡", IsWhitespaceOrNewline) == 1 by {
      assert " 早睡"[1..] == "早睡";
    }
    assert Trim(" 早睡", IsWhitespaceOrNewline) == "早睡";
  }

  /** A blank candidate leaves a blank user bubble, with no greeting and nothing sent. */
  lemma BlankCandidateLeavesBlankBubble(st: WizardScreen)
    requires st.messages == []
    ensures SetupInitialMessageAsWritten(st, Some(" ")) == (st.(messages := [Message(" ", User)]), None)
  {
    assert AllIn(" ", IsWhitespaceOrNewline);
  }

  /**
   * `setupInitialMessage` as its comment intends: the candidate is trimmed
   * before it is shown, so the send finds it already there, and a blank
   * candidate counts as no candidate.
   */
  function SetupInitialMessage(st: WizardScreen, candidate: Option<string>): (r: (WizardScreen, Option<GoalMessageRequest>))
    ensures |st.messages| > 0 ==> r == (st, None)
  {
    if |st.messages| > 0 then (st, None)
    else match if candidate.Some? then OutgoingText(candidate.value) else None
      case Some(text) => SendMessage(st.(messages := [Message(text, User)]), text)
      case None => (st.(messages := [Message(WizardGreeting, Ai)]), None)
  }

  /**
   * On an empty conversation the first message is shown exactly once: the
   * candidate's trimmed text, sent as it is shown, or the greeting when
   * there is no real candidate.
   */
  lemma SetupShowsOneMessage(st: WizardScreen, candidate: Option<string>)
    requires st.messages == []
    ensures var (r, req) := SetupInitialMessage(st, candidate);
      && |r.messages| == 1
      && (req.Some? <==> candidate.Some? && !AllIn(candidate.value, IsWhitespaceOrNewline))
      && (req.Some? ==> r.messages == [Message(req.value.message, User)] && req.value.message == OutgoingText(candidate.value).value)
      && (req.None? ==> r.messages == [Message(WizardGreeting, Ai)] && r == st.(messages := r.messages))
  {
    if candidate.Some? && OutgoingText(candidate.value).Some? {
      var text := OutgoingText(candidate.value).value;
      OutgoingTextStable(candidate.value);
      assert EndsWithUserText([Message(text, User)], text);
    }
  }

  /** An already-trimmed candidate gives the same screen both ways. */
  lemma TrimmedCandidateAgrees(st: WizardScreen, candidate: string)
    requires OutgoingText(candidate) == Some(candidate)
    ensures SetupInitialMessage(st, Some(candidate)) == SetupInitialMessageAsWritten(st, Some(candidate))
  {
  }

  /** Appearing again never adds a second first message. */
  lemma SetupRunsOnce(st: WizardScreen, candidate: Option<string>, again: Option<string>)
    ensures var once := SetupInitialMessage(st, candidate).0;
      |st.messages| == 0 ==> SetupInitialMessage(once, again) == (once, None)
  {
    SetupShowsOneMessage(st.(messages := []), candidate);
  }

  /** `toggleInputMode`. */
  function ToggleInput(st: WizardScreen): (r: WizardScreen)
    ensures r.inputMode != st.inputMode && r == st.(inputMode := r.inputMode)
  {
    st.(inputMode := ToggleInputMode(st.inputMode))
  }

  // ---------------------------------------------------------------------------
  // Starting today or later
  // ---------------------------------------------------------------------------

  /**
   * A tap on "今天开始": the button is disabled while tasks are being
   * assigned, so a tap then does nothing (`None`); otherwise the spinner
   * replaces the label and the daily-plan call goes out.
   */
  function TapStartToday(st: WizardScreen): (r: Option<WizardScreen>)
    ensures r.None? <==> st.isAssigningTasks
    ensures r.Some? ==> r.value.isAssigningTasks && r.value == st.(isAssigningTasks := true)
  {
    if st.isAssigningTasks then None else Some(st.(isAssigningTasks := true))
  }

  /** A tap while the call is out is ignored; once it returns, the prompt is gone and the button is live again. */
  lemma StartTodayTapsOnce(st: WizardScreen, succeeded: bool)
    requires TapStartToday(st).Some?
    ensures TapStartToday(TapStartToday(st).value).None?
    ensures var done := FinishStartToday(TapStartToday(st).value, succeeded).0;
      !done.showStartPrompt && TapStartToday(done).Some?
  {
  }

  /** `handleStartToday` when the daily-plan call returns: the prompt closes and the wizard is dismissed either way. */
  function FinishStartToday(st: WizardScreen, succeeded: bool): (r: (WizardScreen, bool))
    ensures r.1 && !r.0.showStartPrompt && !r.0.isAssigningTasks
    ensures r.0.errorText == (if succeeded then st.errorText else Some(AssignFailedText))
    ensures r.0 == st.(showStartPrompt := false, isAssigningTasks := false, errorText := r.0.errorText)
  {
    var closed := st.(showStartPrompt := false, isAssigningTasks := false);
    (if succeeded then closed else closed.(errorText := Some(AssignFailedText)), true)
  }

  /** `handleStartLater`: close the prompt and dismiss the wizard. */
  function StartLater(st: WizardScreen): (r: (WizardScreen, bool))
    ensures r.1 && r.0 == st.(showStartPrompt := false)
  {
    (st.(showStartPrompt := false), true)
  }
}

=== FILE: hex_color.dfy ===
/**
 * `Color.init(hex:)` of the design system: the integer red, green and blue
 * channels a hex colour string yields, before they are scaled to [0, 1].
 */
module HexColor {
  import opened Common

  /** The characters the string keeps at its ends (letters and digits). */
  predicate IsAlphanumeric(c: char) {
    IsAsciiLetter(c) || IsAsciiDigit(c)
  }

  predicate IsNotAlphanumeric(c: char) {
    !IsAlphanumeric(c)
  }

  predicate IsHexDigit(c: char) {
    IsAsciiDigit(c) || ('a' <= c <= 'f') || ('A' <= c <= 'F')
  }

  function HexDigitValue(c: char): (d: nat)
    requires IsHexDigit(c)
    ensures d < 16
  {
    if IsAsciiDigit(c) then DigitValue(c)
    else if 'a' <= c <= 'f' then c as int - 'a' as int + 10
    else c as int - 'A' as int + 10
  }

  function Pow16(n: nat): (p: nat)
    ensures p >= 1
  {
    if n == 0 then 1 else 16 * Pow16(n - 1)
  }

  /** The number a run of hex digits writes, most significant first. */
  function HexValue(digits: string): (v: nat)
    requires AllIn(digits, IsHexDigit)
    ensures v < Pow16(|digits|)
  {
    if digits == [] then 0
    else 16 * HexValue(digits[..|digits| - 1]) + HexDigitValue(digits[|digits| - 1])
  }

  /** Appending a digit shifts the value one place and adds the digit. */
  lemma HexValueSnoc(s: string, n: nat)
    requires AllIn(s, IsHexDigit) && 0 < n <= |s|
    ensures AllIn(s[..n], IsHexDigit) && AllIn(s[..n - 1], IsHexDigit)
    ensures HexValue(s[..n]) == 16 * HexValue(s[..n - 1]) + HexDigitValue(s[n - 1])
  {
    assert AllIn(s[..n], IsHexDigit);
    assert s[..n][..n - 1] == s[..n - 1];
  }

  /** How many hex digits `s` starts with. */
  function HexRunLength(s: string): (n: nat)
    ensures n <= |s| && AllIn(s[..n], IsHexDigit)
    ensures n < |s| ==> !IsHexDigit(s[n])
  {
    if s != [] && IsHexDigit(s[0]) then
      var n := 1 + HexRunLength(s[1..]);
      assert s[..n] == [s[0]] + s[1..][..n - 1];
      n
    else 0
  }

  /** Whether `s` opens with a "0x" or "0X" prefix followed by a digit. */
  predicate HasHexPrefix(s: string) {
    |s| >= 3 && s[0] == '0' && (s[1] == 'x' || s[1] == 'X') && IsHexDigit(s[2])
  }

  /**
   * `Scanner.scanHexInt64`: an optional "0x" prefix, then the longest run of
   * hex digits; nothing readable leaves the value at 0.
   */
  function ScanHex(s: string): (v: nat)
    ensures !HasHexPrefix(s) ==> v == HexValue(s[..HexRunLength(s)])
    ensures HasHexPrefix(s) ==> v == HexValue(s[2..][..HexRunLength(s[2..])])
    ensures !HasHexPrefix(s) && (s == [] || !IsHexDigit(s[0])) ==> v == 0
  {
    var body := if HasHexPrefix(s) then s[2..] else s;
    HexValue(body[..HexRunLength(body)])
  }

  /** The string with everything but letters and digits trimmed from its ends. */
  function Sanitize(hex: string): (r: string)
    ensures IsTrimmed(r, IsNotAlphanumeric) && |r| <= |hex|
    ensures r == [] <==> AllIn(hex, IsNotAlphanumeric)
    ensures IsTrimmed(hex, IsNotAlphanumeric) ==> r == hex
  {
    Trim(hex, IsNotAlphanumeric)
  }

  datatype Rgb = Rgb(r: int, g: int, b: int)

  predicate IsChannel(x: int) {
    0 <= x <= 255
  }

  /**
   * The channels `Color.init(hex:)` computes: six characters are read as
   * red, green and blue bytes, three as one digit each repeated, and any
   * other length gives black.
   */
  function HexRgb(hex: string): (c: Rgb)
    ensures IsChannel(c.r) && IsChannel(c.g) && IsChannel(c.b)
    ensures |Sanitize(hex)| != 6 && |Sanitize(hex)| != 3 ==> c == Rgb(0, 0, 0)
  {
    var s := Sanitize(hex);
    var v := ScanHex(s);
    if |s| == 6 then Rgb(v / 65536 % 256, v / 256 % 256, v % 256)
    else if |s| == 3 then Rgb(v / 256 % 16 * 17, v / 16 % 16 * 17, v % 16 * 17)
    else Rgb(0, 0, 0)
  }

  /** Anything that is neither a letter nor a digit around the colour is ignored, so "#RRGGBB" reads as "RRGGBB". */
  lemma PaddingIgnored(p: string, s: string, q: string)
    requires AllIn(p, IsNotAlphanumeric) && AllIn(q, IsNotAlphanumeric)
    requires s != [] && IsAlphanumeric(s[0]) && IsAlphanumeric(s[|s| - 1])
    ensures HexRgb(p + s + q) == HexRgb(s)
  {
    TrimPadded(p, s, q, IsNotAlphanumeric);
  }

  /** A byte written as two hex digits. */
  function Byte(hi: char, lo: char): (b: int)
    requires IsHexDigit(hi) && IsHexDigit(lo)
    ensures IsChannel(b)
  {
    16 * HexDigitValue(hi) + HexDigitValue(lo)
  }

  /** A run of hex digits has nothing to trim. */
  lemma SanitizeKeepsHex(s: string)
    requires AllIn(s, IsHexDigit)
    ensures Sanitize(s) == s
  {
    if s != [] {
      assert IsHexDigit(s[0]) && IsHexDigit(s[|s| - 1]);
    }
    assert IsTrimmed(s, IsNotAlphanumeric);
  }

  /** A run of hex digits without a "0x" prefix is kept whole by the trim and scanned whole. */
  lemma ScanAllHex(s: string)
    requires AllIn(s, IsHexDigit) && (|s| < 2 || (s[1] != 'x' && s[1] != 'X'))
    ensures Sanitize(s) == s && ScanHex(s) == HexValue(s)
  {
    SanitizeKeepsHex(s);
    assert !HasHexPrefix(s);
    assert HexRunLength(s) == |s|;
    assert s[..|s|] == s;
  }

  /** Six digits read as one number: red times 65536, green times 256, blue. */
  lemma SixDigitValue(s: string)
    requires |s| == 6 && AllIn(s, IsHexDigit)
    ensures HexValue(s) == Byte(s[0], s[1]) * 65536 + Byte(s[2], s[3]) * 256 + Byte(s[4], s[5])
  {
    assert s[..0] == [];
    HexValueSnoc(s, 1);
    HexValueSnoc(s, 2);
    HexValueSnoc(s, 3);
    HexValueSnoc(s, 4);
    HexValueSnoc(s, 5);
    HexValueSnoc(s, 6);
    assert s[..6] == s;
  }

  /** Shifting and masking recovers each byte of a 24-bit value. */
  lemma ByteChannels(r: int, g: int, b: int)
    requires IsChannel(r) && IsChannel(g) && IsChannel(b)
    ensures var v := r * 65536 + g * 256 + b;
      v / 65536 % 256 == r && v / 256 % 256 == g && v % 256 == b
  {
    var v := r * 65536 + g * 256 + b;
    assert v / 65536 == r;
    assert v / 256 == r * 256 + g;
  }

  /** Six hex digits give the three bytes they write, in order. */
  lemma SixDigits(s: string)
    requires |s| == 6 && AllIn(s, IsHexDigit)
    ensures HexRgb(s) == Rgb(Byte(s[0], s[1]), Byte(s[2], s[3]), Byte(s[4], s[5]))
  {
    ScanAllHex(s);
    SixDigitValue(s);
    ByteChannels(Byte(s[0], s[1]), Byte(s[2], s[3]), Byte(s[4], s[5]));
  }

  /** Three digits read as one number: each digit a place of sixteen. */
  lemma ThreeDigitValue(s: string)
    requires |s| == 3 && AllIn(s, IsHexDigit)
    ensures HexValue(s) == HexDigitValue(s[0]) * 256 + HexDigitValue(s[1]) * 16 + HexDigitValue(s[2])
  {
    assert s[..0] == [];
    HexValueSnoc(s, 1);
    HexValueSnoc(s, 2);
    HexValueSnoc(s, 3);
    assert s[..3] == s;
  }

  /** Shifting and masking recovers each digit of a 12-bit value. */
  lemma NibbleChannels(x: int, y: int, z: int)
    requires 0 <= x < 16 && 0 <= y < 16 && 0 <= z < 16
    ensures var v := x * 256 + y * 16 + z;
      v / 256 % 16 == x && v / 16 % 16 == y && v % 16 == z
  {
    var v := x * 256 + y * 16 + z;
    assert v / 256 == x;
    assert v / 16 == x * 16 + y;
  }

  /** Three hex digits give one channel each, the digit repeated. */
  lemma ThreeDigits(a: char, b: char, c: char)
    requires IsHexDigit(a) && IsHexDigit(b) && IsHexDigit(c)
    ensures HexRgb([a, b, c]) == Rgb(17 * HexDigitValue(a), 17 * HexDigitValue(b), 17 * HexDigitValue(c))
  {
    var s := [a, b, c];
    ScanAllHex(s);
    ThreeDigitValue(s);
    NibbleChannels(HexDigitValue(a), HexDigitValue(b), HexDigitValue(c));
  }

  /** The short form doubles each digit, so "ABC" reads as "AABBCC". */
  lemma ShortFormDoubles(a: char, b: char, c: char)
    requires IsHexDigit(a) && IsHexDigit(b) && IsHexDigit(c)
    ensures HexRgb([a, b, c]) == HexRgb([a, a, b, b, c, c])
  {
    ThreeDigits(a, b, c);
    SixDigits([a, a, b, b, c, c]);
  }
}

=== FILE: home_daily_tasks.dfy ===
/**
 * The tabbed home screen's view model (`HomeDailyTasksViewModel`) and the
 * part of the screen that handles task actions: which of today's tasks are
 * listed, which goals count as active, the guarded loads of the goal plans
 * and of the daily fortune, and the celebration after a completed task.
 */
module HomeDailyTasks {
  import opened Common
  import opened GoalModels
  import opened DailyTasks
  import HomeHeader

  datatype HomeTasksModel = HomeTasksModel(
    userId: Option<int>,
    today: TodayLoad,
    dailyFortune: Option<HomeHeader.DailyFortune>,
    isFortuneLoading: bool,
    fortuneError: Option<string>,
    goalPlans: seq<GoalPlan>,
    isGoalPlanLoading: bool,
    goalPlanError: Option<string>)

  /** A fresh view model: today's data loading, no fortune, no goal plans. */
  function Init(userId: Option<int>): (m: HomeTasksModel)
    ensures m.userId == userId && m.today.isLoading && m.goalPlans == []
    ensures !m.isGoalPlanLoading && !m.isFortuneLoading
  {
    HomeTasksModel(userId, InitialToday, None, false, None, [], false, None)
  }

  predicate IsActiveGoal(p: GoalPlan) {
    p.status == "active"
  }

  /** `activeGoalPlans`: the plans of active goals, in their order. */
  function ActiveGoalPlans(plans: seq<GoalPlan>): (r: seq<GoalPlan>)
    ensures forall p :: p in r <==> p in plans && p.status == "active"
    ensures IsSubsequence(r, plans)
  {
    FilterMembership(plans, IsActiveGoal);
    FilterIsSubsequence(plans, IsActiveGoal);
    Filter(plans, IsActiveGoal)
  }

  /** The ids of the active goals. */
  function ActiveGoalIds(plans: seq<GoalPlan>): (ids: set<int>)
    ensures forall id :: id in ids <==> exists p :: p in plans && p.status == "active" && p.goalId == id
  {
    set p | p in ActiveGoalPlans(plans) :: p.goalId
  }

  /** Whether a task is listed, given the ids of the active goals. */
  function ShowsTask(activeIds: set<int>): DailyTaskItem -> bool {
    (t: DailyTaskItem) => IsOpen(t.status) && t.goalId in activeIds
  }

  /** `visibleTasks`: today's open tasks that belong to an active goal. */
  function VisibleTasks(m: HomeTasksModel): (r: seq<DailyTaskItem>)
    ensures m.today.dailyPlan.None? ==> r == []
    ensures m.today.dailyPlan.Some? ==> |r| <= |m.today.dailyPlan.value|
    ensures forall i :: 0 <= i < |r| ==> IsOpen(r[i].status) && r[i].goalId in ActiveGoalIds(m.goalPlans)
  {
    match m.today.dailyPlan
    case None => []
    case Some(items) => Filter(items, ShowsTask(ActiveGoalIds(m.goalPlans)))
  }

  /** A task is listed exactly when it is in today's plan, open, and of an active goal. */
  lemma VisibleTasksMembership(m: HomeTasksModel, t: DailyTaskItem)
    ensures t in VisibleTasks(m) <==>
      && m.today.dailyPlan.Some? && t in m.today.dailyPlan.value
      && IsOpen(t.status)
      && exists p :: p in m.goalPlans && p.status == "active" && p.goalId == t.goalId
  {
    if m.today.dailyPlan.Some? {
      FilterMembers(m.today.dailyPlan.value, ShowsTask(ActiveGoalIds(m.goalPlans)), t);
    }
  }

  /** The listed tasks keep the plan's order. */
  lemma VisibleTasksInOrder(m: HomeTasksModel)
    requires m.today.dailyPlan.Some?
    ensures IsSubsequence(VisibleTasks(m), m.today.dailyPlan.value)
  {
    FilterIsSubsequence(m.today.dailyPlan.value, ShowsTask(ActiveGoalIds(m.goalPlans)));
  }

  /** Without a plan, or without any active goal, nothing is listed. */
  lemma NothingVisibleWithoutActiveGoal(m: HomeTasksModel)
    requires m.today.dailyPlan.None? || forall p :: p in m.goalPlans ==> p.status != "active"
    ensures VisibleTasks(m) == []
  {
    if m.today.dailyPlan.Some? {
      var items := m.today.dailyPlan.value;
      assert ActiveGoalIds(m.goalPlans) == {};
      FilterNone(items, ShowsTask(ActiveGoalIds(m.goalPlans)));
    }
  }

  // ---------------------------------------------------------------------------
  // Goal plans
  // ---------------------------------------------------------------------------

  const NoAccountPlansText := "系统暂时无法获取你的账户信息，目标计划暂时无法加载，请稍后再试。"
  const GoalPlansFailedText := "暂时无法获取目标计划，请稍后再试。"

  /**
   * The start of `loadGoalPlanIfNeeded`; the boolean says whether the plans
   * are fetched. Nothing happens while a load runs or once plans exist;
   * without a user only the error is set.
   */
  function StartGoalPlanLoad(m: HomeTasksModel): (r: (HomeTasksModel, bool))
    ensures m.isGoalPlanLoading || m.goalPlans != [] ==> r == (m, false)
    ensures r.1 <==> !m.isGoalPlanLoading && m.goalPlans == [] && m.userId.Some?
    ensures r.1 ==> r.0 == m.(isGoalPlanLoading := true, goalPlanError := None)
    ensures !r.1 && !m.isGoalPlanLoading && m.goalPlans == [] ==>
      r.0 == m.(goalPlanError := Some(NoAccountPlansText))
  {
    if m.isGoalPlanLoading || m.goalPlans != [] then (m, false)
    else if m.userId.None? then (m.(goalPlanError := Some(NoAccountPlansText)), false)
    else (m.(isGoalPlanLoading := true, goalPlanError := None), true)
  }

  /** The end of the load: the plans or the failure are recorded and the flag comes down. */
  function FinishGoalPlanLoad(m: HomeTasksModel, answer: Answer<seq<GoalPlan>>): (r: HomeTasksModel)
    ensures !r.isGoalPlanLoading
    ensures answer.Answered? ==> r == m.(goalPlans := answer.value, isGoalPlanLoading := false)
    ensures answer.Threw? ==> r == m.(goalPlanError := Some(GoalPlansFailedText), isGoalPlanLoading := false)
  {
    match answer
    case Answered(plans) => m.(goalPlans := plans, isGoalPlanLoading := false)
    case Threw => m.(goalPlanError := Some(GoalPlansFailedText), isGoalPlanLoading := false)
  }

  /**
   * A load in flight is never doubled, and plans once received are not
   * fetched again until they are cleared.
   */
  lemma GoalPlansLoadOnce(m: HomeTasksModel, plans: seq<GoalPlan>)
    requires StartGoalPlanLoad(m).1
    ensures !StartGoalPlanLoad(StartGoalPlanLoad(m).0).1
    ensures plans != [] ==> !StartGoalPlanLoad(FinishGoalPlanLoad(StartGoalPlanLoad(m).0, Answered(plans))).1
    ensures StartGoalPlanLoad(FinishGoalPlanLoad(StartGoalPlanLoad(m).0, Threw)).1
  {
  }

  // ---------------------------------------------------------------------------
  // Daily fortune
  // ---------------------------------------------------------------------------

  const NoAccountFortuneText := "系统暂时无法获取你的账户信息，今日运势暂时无法加载，请稍后再试。"
  const FortuneFailedText := "暂时无法获取今日运势，请稍后再试。"

  /** The start of `loadDailyFortuneIfNeeded`; guarded only by the loading flag. */
  function StartFortuneLoad(m: HomeTasksModel): (r: (HomeTasksModel, bool))
    ensures m.isFortuneLoading ==> r == (m, false)
    ensures r.1 <==> !m.isFortuneLoading && m.userId.Some?
    ensures r.1 ==> r.0 == m.(isFortuneLoading := true, fortuneError := None)
    ensures !r.1 && !m.isFortuneLoading ==> r.0 == m.(fortuneError := Some(NoAccountFortuneText))
  {
    if m.isFortuneLoading then (m, false)
    else if m.userId.None? then (m.(fortuneError := Some(NoAccountFortuneText)), false)
    else (m.(isFortuneLoading := true, fortuneError := None), true)
  }

  function FinishFortuneLoad(m: HomeTasksModel, answer: Answer<HomeHeader.DailyFortune>): (r: HomeTasksModel)
    ensures !r.isFortuneLoading
    ensures answer.Answered? ==> r == m.(dailyFortune := Some(answer.value), isFortuneLoading := false)
    ensures answer.Threw? ==> r == m.(fortuneError := Some(FortuneFailedText), isFortuneLoading := false)
  {
    match answer
    case Answered(f) => m.(dailyFortune := Some(f), isFortuneLoading := false)
    case Threw => m.(fortuneError := Some(FortuneFailedText), isFortuneLoading := false)
  }

  /** Unlike the goal plans, a fortune already shown is fetched again on the next request. */
  lemma FortuneFetchedAgain(m: HomeTasksModel, f: HomeHeader.DailyFortune)
    requires StartFortuneLoad(m).1
    ensures !StartFortuneLoad(StartFortuneLoad(m).0).1
    ensures StartFortuneLoad(FinishFortuneLoad(StartFortuneLoad(m).0, Answered(f))).1
  {
  }

  // ---------------------------------------------------------------------------
  // Plan reload and task actions
  // ---------------------------------------------------------------------------

  /** `reloadPlanOnly`: a new plan replaces the old one; without a user or on failure nothing changes. */
  function ReloadPlanOnly(m: HomeTasksModel, answer: Answer<seq<DailyTaskItem>>): (r: HomeTasksModel)
    ensures m.userId.None? || answer.Threw? ==> r == m
    ensures m.userId.Some? && answer.Answered? ==> r == m.(today := m.today.(dailyPlan := Some(answer.value)))
  {
    if m.userId.Some? && answer.Answered? then m.(today := m.today.(dailyPlan := Some(answer.value)))
    else m
  }

  /** A reload leaves the loading flags and the goal plans alone, so the listed tasks follow the new plan alone. */
  lemma ReloadListsNewPlan(m: HomeTasksModel, items: seq<DailyTaskItem>, t: DailyTaskItem)
    requires m.userId.Some?
    ensures var r := ReloadPlanOnly(m, Answered(items));
      r.today.isLoading == m.today.isLoading && r.goalPlans == m.goalPlans
      && (t in VisibleTasks(r) <==> t in items && IsOpen(t.status) && t.goalId in ActiveGoalIds(m.goalPlans))
  {
    var r := ReloadPlanOnly(m, Answered(items));
    VisibleTasksMembership(r, t);
  }

  /** The tabbed home screen: its view model, the action gate, and the celebration overlay. */
  datatype HomeScreen = HomeScreen(model: HomeTasksModel, gate: ActionGate, showCelebration: bool)

  /** The start of `handleExecutionAction` for a task; the request goes out with the task's execution id. */
  function HandleAction(s: HomeScreen, action: ExecutionAction, task: DailyTaskItem, tomorrow: string)
    : (r: (HomeScreen, Option<(int, ExecutionUpdateRequest)>))
    ensures r.0.model == s.model && r.0.showCelebration == s.showCelebration
    ensures r.1.Some? <==> StartAction(s.gate, action, task.frequency, tomorrow).1.Some?
    ensures r.1.Some? ==> r.1.value == (task.executionId, RequestFor(action, tomorrow))
  {
    var (gate, request) := StartAction(s.gate, action, task.frequency, tomorrow);
    (s.(gate := gate), if request.Some? then Some((task.executionId, request.value)) else None)
  }

  /**
   * The end of the action: after a successful update a completed task is
   * celebrated and the plan reloaded; a failure sets the error; the flag
   * comes down either way.
   */
  function FinishHomeAction(s: HomeScreen, action: ExecutionAction, updated: bool, reload: Answer<seq<DailyTaskItem>>)
    : (r: HomeScreen)
    ensures !r.gate.isUpdating
    ensures updated ==> r.model == ReloadPlanOnly(s.model, reload)
    ensures !updated ==> r.model == s.model && r.gate.actionError == Some(UpdateFailedText)
  {
    if updated then
      HomeScreen(ReloadPlanOnly(s.model, reload), FinishAction(s.gate, true), s.showCelebration || action == Complete)
    else
      HomeScreen(s.model, FinishAction(s.gate, false), s.showCelebration)
  }

  /** The celebration appears exactly after a successful completion. */
  lemma CelebrationOnlyAfterCompletion(s: HomeScreen, action: ExecutionAction, updated: bool, reload: Answer<seq<DailyTaskItem>>)
    requires !s.showCelebration
    ensures FinishHomeAction(s, action, updated, reload).showCelebration <==> updated && action == Complete
  {
  }
}

=== FILE: home_header.dfy ===
/**
 * The header of the daily-tasks tab: a greeting chosen by the hour, the
 * solar date in Chinese, and the day's fortune guide, whose values may list
 * several items separated by ASCII or full-width commas.
 */
module HomeHeader {
  import opened Common

  // ---------------------------------------------------------------------------
  // The greeting
  // ---------------------------------------------------------------------------

  const Morning := "早上好"
  const Noon := "中午好"
  const Afternoon := "下午好"
  const Evening := "晚上好"

  /** `timeBasedGreeting` for the hour of the day; any hour outside the three day buckets is evening. */
  function Greeting(hour: int): (g: string)
    ensures g in {Morning, Noon, Afternoon, Evening}
  {
    if 5 <= hour < 12 then Morning
    else if 12 <= hour < 14 then Noon
    else if 14 <= hour < 18 then Afternoon
    else Evening
  }

  /** The four greetings partition the hours into [5,12), [12,14), [14,18) and the rest. */
  lemma GreetingBuckets(hour: int)
    ensures Greeting(hour) == Morning <==> 5 <= hour < 12
    ensures Greeting(hour) == Noon <==> 12 <= hour < 14
    ensures Greeting(hour) == Afternoon <==> 14 <= hour < 18
    ensures Greeting(hour) == Evening <==> hour < 5 || 18 <= hour
  {
    assert Morning[0] == '早' && Noon[0] == '中' && Afternoon[0] == '下' && Evening[0] == '晚';
  }

  // ---------------------------------------------------------------------------
  // Dates
  // ---------------------------------------------------------------------------

  /** A calendar date as the `yyyy-MM-dd` formatter reads it; the year is the year of the era. */
  datatype YearMonthDay = YearMonthDay(year: nat, month: nat, day: nat)

  /**
   * `formattedSolarDate`: a readable date becomes "yyyy年M月d日", the year
   * zero-padded to four digits and month and day unpadded; anything else is
   * shown as it is.
   */
  function FormattedSolarDate(text: string, parse: string -> Option<YearMonthDay>): (r: string)
    ensures parse(text).None? ==> r == text
    ensures parse(text).Some? ==> |r| >= 9 && r[|r| - 1] == '日'
  {
    match parse(text)
    case None => text
    case Some(d) => ZeroPad(d.year, 4) + "年" + NatToString(d.month) + "月" + NatToString(d.day) + "日"
  }

  /** Reads "y年M月d日" back into its three numbers; anything else is unreadable. */
  function ReadChineseDate(s: string): Option<YearMonthDay> {
    match ReadNumberUpTo(s, '年')
    case None => None
    case Some((y, afterYear)) =>
      match ReadNumberUpTo(afterYear, '月')
      case None => None
      case Some((m, afterMonth)) =>
        match ReadNumberUpTo(afterMonth, '日')
        case None => None
        case Some((d, tail)) => if tail == [] then Some(YearMonthDay(y, m, d)) else None
  }

  /** A readable date is shown as the same year, month and day. */
  lemma FormattedSolarDateReadsBack(text: string, parse: string -> Option<YearMonthDay>)
    requires parse(text).Some?
    ensures ReadChineseDate(FormattedSolarDate(text, parse)) == parse(text)
  {
    var d := parse(text).value;
    var y, m, dd := ZeroPad(d.year, 4), NatToString(d.month), NatToString(d.day);
    var afterMonth := dd + ['日'];
    var afterYear := m + ['月'] + afterMonth;
    assert FormattedSolarDate(text, parse) == y + ['年'] + afterYear;
    NatToStringRoundTrip(d.month);
    NatToStringRoundTrip(d.day);
    ReadNumberUpToDigits(dd, '日', []);
    assert dd + ['日'] + [] == afterMonth;
    ReadNumberUpToDigits(m, '月', afterMonth);
    ReadNumberUpToDigits(y, '年', afterYear);
  }

  /** A year below 1000 keeps its leading zeros: the year 25 is shown as "0025". */
  lemma EarlyYearIsPadded(text: string, parse: string -> Option<YearMonthDay>)
    requires parse(text) == Some(YearMonthDay(25, 1, 5))
    ensures FormattedSolarDate(text, parse) == "0025年1月5日"
  {
    assert NatToString(25) == "25";
    assert ZeroPad(25, 3) == "025";
    assert ZeroPad(25, 4) == "0025";
  }

  // ---------------------------------------------------------------------------
  // The fortune guide
  // ---------------------------------------------------------------------------

  /** The fields of `DailyFortuneResponse` the guide shows. */
  datatype DailyFortune = DailyFortune(color: Option<string>, food: Option<string>, direction: Option<string>)

  /** The guide shows fortune data when there is a fortune with at least one of its three fields; otherwise the fetch button. */
  predicate ShowsFortune(fortune: Option<DailyFortune>)
    ensures ShowsFortune(fortune) ==> fortune.Some?
    ensures fortune.Some? && fortune.value.color.Some? ==> ShowsFortune(fortune)
  {
    fortune.Some? && (fortune.value.color.Some? || fortune.value.food.Some? || fortune.value.direction.Some?)
  }

  const FullWidthComma := '，'

  /** `replacingOccurrences(of: "，", with: ",")`. */
  function NormalizeCommas(s: string): (r: string)
    ensures |r| == |s|
    ensures forall i :: 0 <= i < |s| ==> r[i] == if s[i] == FullWidthComma then ',' else s[i]
  {
    seq(|s|, i requires 0 <= i < |s| => if s[i] == FullWidthComma then ',' else s[i])
  }

  /** Trim spaces and tabs (not newlines) from every piece. */
  function TrimEach(pieces: seq<string>): (r: seq<string>)
    ensures |r| == |pieces| && forall i :: 0 <= i < |r| ==> r[i] == Trim(pieces[i], IsWhitespace)
  {
    seq(|pieces|, i requires 0 <= i < |pieces| => Trim(pieces[i], IsWhitespace))
  }

  predicate IsNonEmpty(s: string) {
    s != []
  }

  /** `fortuneInfoItem`'s lines: split on either comma, trim spaces, drop what is left empty. */
  function FortuneItems(value: string): (r: seq<string>)
    ensures forall i :: 0 <= i < |r| ==> r[i] != []
  {
    Filter(TrimEach(Split(NormalizeCommas(value), ',')), IsNonEmpty)
  }

  /** Trimming keeps only characters the piece already had. */
  lemma TrimKeepsClass(s: string, q: char -> bool)
    requires AllIn(s, q)
    ensures AllIn(Trim(s, IsWhitespace), q)
  {
    TrimIsInfix(s, IsWhitespace);
  }

  /** The pieces of the split value: none holds a comma of either kind. */
  lemma PiecesHaveNoComma(value: string)
    ensures forall k :: 0 <= k < |Split(NormalizeCommas(value), ',')| ==>
      AllIn(Split(NormalizeCommas(value), ',')[k], IsNot(','))
      && AllIn(Split(NormalizeCommas(value), ',')[k], IsNot(FullWidthComma))
  {
    var n := NormalizeCommas(value);
    assert AllIn(n, IsNot(FullWidthComma));
    SplitFromPieces(n, ',', []);
    SplitKeepsCharacters(n, ',', [], IsNot(FullWidthComma));
  }

  /** Every line is non-empty, has no comma of either kind, and no space at either end. */
  lemma FortuneItemsWellFormed(value: string)
    ensures forall i :: 0 <= i < |FortuneItems(value)| ==>
      var item := FortuneItems(value)[i];
      && item != [] && IsTrimmed(item, IsWhitespace)
      && AllIn(item, IsNot(',')) && AllIn(item, IsNot(FullWidthComma))
  {
    var pieces := Split(NormalizeCommas(value), ',');
    var trimmed := TrimEach(pieces);
    var items := FortuneItems(value);
    PiecesHaveNoComma(value);
    forall i | 0 <= i < |items|
      ensures items[i] != [] && IsTrimmed(items[i], IsWhitespace)
      ensures AllIn(items[i], IsNot(',')) && AllIn(items[i], IsNot(FullWidthComma))
    {
      FilterMembers(trimmed, IsNonEmpty, items[i]);
      var k :| 0 <= k < |trimmed| && trimmed[k] == items[i];
      TrimKeepsClass(pieces[k], IsNot(','));
      TrimKeepsClass(pieces[k], IsNot(FullWidthComma));
    }
  }

  lemma NormalizeCommasConcat(a: string, b: string)
    ensures NormalizeCommas(a + b) == NormalizeCommas(a) + NormalizeCommas(b)
  {
  }

  /**
   * Either comma separates the value into the lines of its two sides, in
   * order; so the lines appear in the order their text has in the value.
   */
  lemma FortuneItemsAtComma(a: string, b: string, comma: char)
    requires comma == ',' || comma == FullWidthComma
    ensures FortuneItems(a + [comma] + b) == FortuneItems(a) + FortuneItems(b)
  {
    NormalizeCommasConcat(a + [comma], b);
    NormalizeCommasConcat(a, [comma]);
    var na, nb := NormalizeCommas(a), NormalizeCommas(b);
    assert NormalizeCommas(a + [comma] + b) == na + [','] + nb;
    SplitAtSeparator(na, nb, ',', []);
    var pa, pb := Split(na, ','), Split(nb, ',');
    assert TrimEach(pa + pb) == TrimEach(pa) + TrimEach(pb);
    FilterConcat(TrimEach(pa), TrimEach(pb), IsNonEmpty);
  }

  /** A value without commas that is not blank is a single line: the value with its spaces trimmed. */
  lemma FortuneSingleItem(value: string)
    requires AllIn(value, IsNot(',')) && AllIn(value, IsNot(FullWidthComma))
    requires !AllIn(value, IsWhitespace)
    ensures FortuneItems(value) == [Trim(value, IsWhitespace)]
  {
    assert NormalizeCommas(value) == value;
    SplitFromNoSeparator(value, [], ',', []);
    assert value + [] == value && [] + value == value;
    assert Split(value, ',') == [value];
  }

  /** A blank value has no lines. */
  lemma BlankFortuneHasNoItems(value: string)
    requires AllIn(value, IsWhitespace)
    ensures FortuneItems(value) == []
  {
    var n := NormalizeCommas(value);
    assert AllIn(n, IsWhitespace);
    SplitFromPieces(n, ',', []);
    var pieces := Split(n, ',');
    SplitKeepsCharacters(n, ',', [], IsWhitespace);
    FilterNone(TrimEach(pieces), IsNonEmpty);
  }

  /** One column of the guide: its label and its lines. */
  datatype FortuneColumn = FortuneColumn(heading: string, items: seq<string>)

  function ColumnFor(heading: string, value: Option<string>): seq<FortuneColumn> {
    match value
    case Some(v) => [FortuneColumn(heading, FortuneItems(v))]
    case None => []
  }

  /** The columns shown for a fortune: colour, food and direction, each only when present. */
  function FortuneColumns(f: DailyFortune): (cols: seq<FortuneColumn>)
    ensures |cols| == (if f.color.Some? then 1 else 0) + (if f.food.Some? then 1 else 0) + (if f.direction.Some? then 1 else 0)
  {
    ColumnFor("幸运颜色", f.color) + ColumnFor("幸运食材", f.food) + ColumnFor("幸运方位", f.direction)
  }

  /** The guide is shown exactly when there is at least one column to show. */
  lemma ShowsFortuneIffColumns(fortune: Option<DailyFortune>)
    ensures ShowsFortune(fortune) <==> fortune.Some? && |FortuneColumns(fortune.value)| > 0
  {
  }
}

=== FILE: kyc_chat.dfy ===
/**
 * The KYC ("icebreaking") chat of onboarding: the greeting, the automatic
 * location message, sending a message with the whole conversation as
 * history, the switch to the KYC end screen and skipping. Each asynchronous
 * operation is split into the part that runs on the tap and the part that
 * runs when the server answers.
 */
module KycChat {
  import opened Common
  import opened ChatBasics
  import OnboardingState

  datatype KycChatScreen = KycChatScreen(
    messages: seq<Message>,
    draft: string,
    isSending: bool,
    errorText: Option<string>,
    inputMode: InputMode)

  const InitialScreen := KycChatScreen([], "", false, None, TextInput)

  const MissingUserToSend := "缺少用户信息，暂时无法发送。"
  const MissingUserToSkip := "缺少用户信息，暂时无法跳过。"
  const SendFailed := "发送失败，请稍后重试。"
  const SkipFailed := "跳过失败，请稍后重试。"

  /** The collection status that means the server has all it needs. */
  const CollectionDone := "完成"

  // ---------------------------------------------------------------------------
  // Sending
  // ---------------------------------------------------------------------------

  datatype Role = UserRole | AssistantRole

  /** `KYCChatMessage`: one turn of the history sent with each message. */
  datatype HistoryEntry = HistoryEntry(role: Role, content: string)

  function RoleOf(s: Sender): Role {
    match s
    case User => UserRole
    case Ai => AssistantRole
  }

  /** The history sent to the server: every bubble on screen, in order. */
  function History(ms: seq<Message>): (h: seq<HistoryEntry>)
    ensures |h| == |ms|
    ensures forall i :: 0 <= i < |ms| ==> h[i].content == ms[i].text
    ensures forall i :: 0 <= i < |ms| ==> (h[i].role == UserRole <==> ms[i].sender == User)
  {
    seq(|ms|, i requires 0 <= i < |ms| => HistoryEntry(RoleOf(ms[i].sender), ms[i].text))
  }

  /** The server can rebuild the conversation from the history. */
  function FromHistory(h: seq<HistoryEntry>): seq<Message> {
    seq(|h|, i requires 0 <= i < |h| => Message(h[i].content, if h[i].role == UserRole then User else Ai))
  }

  lemma HistoryRoundTrip(ms: seq<Message>)
    ensures FromHistory(History(ms)) == ms
  {
    assert forall i :: 0 <= i < |ms| ==> FromHistory(History(ms))[i] == ms[i];
  }

  /** `KYCMessageRequest`. */
  datatype KycMessageRequest = KycMessageRequest(userId: int, message: string, history: seq<HistoryEntry>)

  /**
   * The synchronous part of `sendMessage`: blank input is dropped; without a
   * user id only an error is shown; otherwise the trimmed text is appended as
   * a user bubble and the request, carrying the whole conversation, is built.
   */
  function StartSend(st: KycChatScreen, userId: Option<int>, content: string): (r: (KycChatScreen, Option<KycMessageRequest>))
    ensures OutgoingText(content).None? ==> r == (st, None)
    ensures OutgoingText(content).Some? && userId.None? ==> r == (st.(errorText := Some(MissingUserToSend)), None)
    ensures OutgoingText(content).Some? && userId.Some? ==>
      var text := OutgoingText(content).value;
      && r.0 == st.(messages := st.messages + [Message(text, User)], draft := "", isSending := true, errorText := None)
      && r.1 == Some(KycMessageRequest(userId.value, text, History(r.0.messages)))
  {
    match OutgoingText(content)
    case None => (st, None)
    case Some(text) =>
      match userId
      case None => (st.(errorText := Some(MissingUserToSend)), None)
      case Some(id) =>
        var sent := st.(messages := st.messages + [Message(text, User)], draft := "", isSending := true, errorText := None);
        (sent, Some(KycMessageRequest(id, text, History(sent.messages))))
  }

  /** The request's history ends with the new message, after everything that was on screen. */
  lemma RequestHistoryEndsWithNewMessage(st: KycChatScreen, id: int, content: string)
    requires OutgoingText(content).Some?
    ensures var req := StartSend(st, Some(id), content).1.value;
      && |req.history| == |st.messages| + 1
      && req.history[|st.messages|] == HistoryEntry(UserRole, req.message)
      && req.history[..|st.messages|] == History(st.messages)
  {
  }

  /** The server's answer to a KYC message. */
  datatype KycReply = KycReplied(reply: string, collectionStatus: string, kycCompleted: bool) | KycFailed

  /** Whether a reply ends the KYC conversation. */
  predicate EndsKyc(answer: KycReply) {
    answer.KycReplied? && (answer.collectionStatus == CollectionDone || answer.kycCompleted)
  }

  /** The asynchronous part of `sendMessage`: show the reply and leave when collection is complete. */
  function FinishSend(st: KycChatScreen, ob: OnboardingState.Onboarding, answer: KycReply): (r: (KycChatScreen, OnboardingState.Onboarding))
    ensures !r.0.isSending
    ensures answer.KycReplied? ==> r.0.messages == st.messages + [Message(answer.reply, Ai)] && r.0.errorText == st.errorText
    ensures answer.KycFailed? ==> r.0.messages == st.messages && r.0.errorText == Some(SendFailed)
    ensures r.1.currentStep == OnboardingState.KycEnd <==> EndsKyc(answer) || ob.currentStep == OnboardingState.KycEnd
    ensures r.1 == ob.(currentStep := r.1.currentStep)
  {
    match answer
    case KycFailed => (st.(errorText := Some(SendFailed), isSending := false), ob)
    case KycReplied(reply, status, completed) =>
      var shown := st.(messages := st.messages + [Message(reply, Ai)], isSending := false);
      if status == CollectionDone || completed then (shown, ob.(currentStep := OnboardingState.KycEnd)) else (shown, ob)
  }

  /** A full exchange adds exactly the user's trimmed message and the reply, in that order. */
  lemma ExchangeAddsTwoBubbles(st: KycChatScreen, ob: OnboardingState.Onboarding, id: int, content: string, reply: string, status: string, done: bool)
    requires OutgoingText(content).Some?
    ensures var sent := StartSend(st, Some(id), content).0;
      FinishSend(sent, ob, KycReplied(reply, status, done)).0.messages
        == st.messages + [Message(OutgoingText(content).value, User), Message(reply, Ai)]
  {
  }

  // ---------------------------------------------------------------------------
  // Greeting and location
  // ---------------------------------------------------------------------------

  /** The assistant's opening question. */
  function Greeting(nickname: string): (r: string)
    ensures |r| > 2 + |nickname| && r[2..2 + |nickname|] == nickname && r[|r| - 1] == '？'
  {
    "嗨，" + nickname + "，能否告诉我，你现在所在的城市是？"
  }

  /** The outcome of `LocationService.fetchCurrentCity()`. */
  datatype LocationResult = Located(city: string, latitude: real, longitude: real) | PermissionDenied | FailedToResolve

  /** `LocationUpdateRequest`. */
  datatype LocationUpdate = LocationUpdate(userId: int, city: string, latitude: Option<real>, longitude: Option<real>)

  const DeclinedCity := "拒绝提供"
  const UnknownCity := "未知"
  const DeclinedMessage := "我不想提供我的所在地"
  const UnresolvedMessage := "系统没有检测到用户的所在地，请在随后的聊天信息中询问"

  /** The profile update for a location outcome. */
  function LocationUpdateFor(userId: int, result: LocationResult): (u: LocationUpdate)
    ensures u.userId == userId
    ensures result.Located? ==> u == LocationUpdate(userId, result.city, Some(result.latitude), Some(result.longitude))
    ensures result.PermissionDenied? ==> u.city == DeclinedCity && u.latitude.None? && u.longitude.None?
    ensures result.FailedToResolve? ==> u.city == UnknownCity && u.latitude.None? && u.longitude.None?
  {
    match result
    case Located(city, lat, lon) => LocationUpdate(userId, city, Some(lat), Some(lon))
    case PermissionDenied => LocationUpdate(userId, DeclinedCity, None, None)
    case FailedToResolve => LocationUpdate(userId, UnknownCity, None, None)
  }

  /** The sentence sent on the user's behalf for a location outcome. */
  function LocationSentence(result: LocationResult): (r: string)
    ensures r != [] && !IsWhitespaceOrNewline(r[0])
    ensures result.Located? ==> |r| == 4 + |result.city| && r[4..] == result.city
  {
    match result
    case Located(city, _, _) => "我目前在" + city
    case PermissionDenied => DeclinedMessage
    case FailedToResolve => UnresolvedMessage
  }

  /** The three kinds of outcome never produce the same sentence, and a found city can be read back. */
  lemma LocationSentencesDistinct(a: LocationResult, b: LocationResult)
    ensures a.Located? ==> LocationSentence(a)[..4] == "我目前在" && LocationSentence(a)[4..] == a.city
    ensures (a.Located? != b.Located? || a.PermissionDenied? != b.PermissionDenied?) ==> LocationSentence(a) != LocationSentence(b)
  {
    assert LocationSentence(a)[1] == (if a.Located? then '目' else if a.PermissionDenied? then '不' else '统');
    assert LocationSentence(b)[1] == (if b.Located? then '目' else if b.PermissionDenied? then '不' else '统');
  }

  /**
   * The synchronous part of `setupInitialMessage`: greet once, on an empty
   * conversation. Returns the screen and whether the location lookup starts
   * (only when a user id is known).
   */
  function SetupInitialMessage(st: KycChatScreen, ob: OnboardingState.Onboarding): (r: (KycChatScreen, bool))
    ensures |st.messages| > 0 ==> r == (st, false)
    ensures |st.messages| == 0 ==> r.0 == st.(messages := [Message(Greeting(ob.nickname), Ai)])
    ensures r.1 <==> |st.messages| == 0 && ob.submitUserId.Some?
  {
    if |st.messages| > 0 then (st, false)
    else (st.(messages := [Message(Greeting(ob.nickname), Ai)]), ob.submitUserId.Some?)
  }

  /** Appearing again never greets twice. */
  lemma SetupGreetsOnce(st: KycChatScreen, ob: OnboardingState.Onboarding)
    ensures var once := SetupInitialMessage(st, ob).0;
      SetupInitialMessage(once, ob) == (once, false)
  {
  }

  /**
   * The check the lookup makes when it starts and again when the location
   * arrives, on the conversation as it is at that moment: once the user has
   * spoken the lookup stops; otherwise the profile update for the outcome is
   * sent. The conversation itself is not touched here.
   */
  function OnLocation(st: KycChatScreen, userId: int, result: LocationResult): (r: Option<LocationUpdate>)
    ensures r.None? <==> exists i :: 0 <= i < |st.messages| && st.messages[i].sender == User
    ensures r.Some? ==> r.value == LocationUpdateFor(userId, result)
  {
    if HasUserMessage(st.messages) then None else Some(LocationUpdateFor(userId, result))
  }

  /**
   * What runs once the profile update has returned, whatever its outcome: the
   * location sentence is sent through `sendMessage` with no further check, on
   * the conversation as it is by then and with the user id onboarding holds
   * by then.
   */
  function AfterLocationUpdate(st: KycChatScreen, ob: OnboardingState.Onboarding, result: LocationResult): (r: (KycChatScreen, Option<KycMessageRequest>))
    ensures ob.submitUserId.Some? ==>
      var text := Trim(LocationSentence(result), IsWhitespaceOrNewline);
      && r.0.messages == st.messages + [Message(text, User)]
      && r.0.draft == "" && r.0.isSending
      && r.1 == Some(KycMessageRequest(ob.submitUserId.value, text, History(r.0.messages)))
    ensures ob.submitUserId.None? ==> r.0.messages == st.messages && r.1.None?
  {
    var s := LocationSentence(result);
    assert !IsWhitespaceOrNewline(s[0]);
    StartSend(st, ob.submitUserId, s)
  }

  /**
   * When the check passes, the location sentence goes out as a user message
   * on whatever conversation stands when the profile update returns: verbatim
   * for the two fixed sentences, trimmed like any typed text when it carries
   * a city name. Nothing is checked again, so a draft typed meanwhile is
   * cleared.
   */
  lemma LocationSentenceIsSent(atCheck: KycChatScreen, afterUpdate: KycChatScreen, ob: OnboardingState.Onboarding,
                               userId: int, result: LocationResult)
    requires !HasUserMessage(atCheck.messages) && ob.submitUserId.Some?
    ensures OnLocation(atCheck, userId, result) == Some(LocationUpdateFor(userId, result))
    ensures var r := AfterLocationUpdate(afterUpdate, ob, result);
      var text := Trim(LocationSentence(result), IsWhitespaceOrNewline);
      && r.1.Some? && r.1.value.message == text
      && r.0.messages == afterUpdate.messages + [Message(text, User)]
      && r.0.draft == ""
      && (!result.Located? ==> text == LocationSentence(result))
  {
    var s := LocationSentence(result);
    assert !IsWhitespaceOrNewline(s[0]);
    assert !result.Located? ==> IsTrimmed(s, IsWhitespaceOrNewline);
  }

  /**
   * A message the user sends while the profile update is in flight does not
   * stop the location sentence: it follows the user's message as a second
   * user bubble, although the check before the update saw no user message.
   */
  lemma MessageDuringUpdateStillFollowed(st: KycChatScreen, ob: OnboardingState.Onboarding, userId: int,
                                         result: LocationResult, typed: string)
    requires !HasUserMessage(st.messages) && ob.submitUserId.Some? && OutgoingText(typed).Some?
    ensures OnLocation(st, userId, result).Some?
    ensures var during := StartSend(st, ob.submitUserId, typed).0;
      var after := AfterLocationUpdate(during, ob, result).0;
      && HasUserMessage(during.messages)
      && after.messages == st.messages + [Message(OutgoingText(typed).value, User),
                                          Message(Trim(LocationSentence(result), IsWhitespaceOrNewline), User)]
  {
    var during := StartSend(st, ob.submitUserId, typed).0;
    assert during.messages[|st.messages|].sender == User;
  }

  /** A message sent before the location arrives stops the lookup: no update and no sentence. */
  lemma MessageBeforeLocationStopsLookup(st: KycChatScreen, ob: OnboardingState.Onboarding, userId: int,
                                         result: LocationResult, typed: string)
    requires ob.submitUserId.Some? && OutgoingText(typed).Some?
    ensures OnLocation(StartSend(st, ob.submitUserId, typed).0, userId, result).None?
  {
    var during := StartSend(st, ob.submitUserId, typed).0;
    assert during.messages[|st.messages|].sender == User;
  }

  // ---------------------------------------------------------------------------
  // Skipping
  // ---------------------------------------------------------------------------

  /**
   * `handleSkip`, with `accepted` as the server's verdict: skipping ends the
   * chat on the KYC end screen in its "skipped" mode.
   */
  function HandleSkip(st: KycChatScreen, ob: OnboardingState.Onboarding, accepted: bool): (r: (KycChatScreen, OnboardingState.Onboarding))
    ensures ob.submitUserId.None? ==> r == (st.(errorText := Some(MissingUserToSkip)), ob)
    ensures ob.submitUserId.Some? && accepted ==>
      r == (st, ob.(kycEndMode := OnboardingState.SkippedIcebreaking, currentStep := OnboardingState.KycEnd))
    ensures ob.submitUserId.Some? && !accepted ==> r == (st.(errorText := Some(SkipFailed)), ob)
  {
    if ob.submitUserId.None? then (st.(errorText := Some(MissingUserToSkip)), ob)
    else if accepted then (st, ob.(kycEndMode := OnboardingState.SkippedIcebreaking, currentStep := OnboardingState.KycEnd))
    else (st.(errorText := Some(SkipFailed)), ob)
  }

  /** The onboarding state leaves the chat only by an accepted skip or a completing reply. */
  lemma KycEndOnlyByServer(st: KycChatScreen, ob: OnboardingState.Onboarding, accepted: bool, answer: KycReply)
    requires ob.currentStep != OnboardingState.KycEnd
    ensures HandleSkip(st, ob, accepted).1.currentStep == OnboardingState.KycEnd ==> accepted && ob.submitUserId.Some?
    ensures FinishSend(st, ob, answer).1.currentStep == OnboardingState.KycEnd ==> EndsKyc(answer)
  {
  }
}

=== FILE: kyc_intro.dfy ===
/**
 * The KYC introduction: the five-element partner introduces itself by name
 * and asks the user to confirm the personality guessed from their chart.
 */
module KycIntro {
  import opened Common
  import opened FiveElements
  import BaziResult
  import OnboardingState

  const FallbackPartner := "伙伴"

  /** `partnerName`: the day stem's element followed by "宝", or "伙伴" when the stem is missing or unknown. */
  function PartnerName(bazi: Option<BaziResult.BaziData>): (name: string)
    ensures name == FallbackPartner <==> BaziResult.DayHeavenlyStem(bazi) !in HeavenlyStems
  {
    match ElementForStem(BaziResult.DayHeavenlyStem(bazi))
    case Some(e) =>
      assert (Glyph(e) + "宝")[1] != FallbackPartner[1];
      Glyph(e) + "宝"
    case None => FallbackPartner
  }

  /** The two screens name the partner alike, except that this one never leaves the name empty. */
  lemma PartnerNamesAgree(bazi: Option<BaziResult.BaziData>)
    ensures PartnerName(bazi) != []
    ensures BaziResult.PartnerName(bazi) != [] ==> PartnerName(bazi) == BaziResult.PartnerName(bazi)
    ensures BaziResult.PartnerName(bazi) == [] ==> PartnerName(bazi) == FallbackPartner
  {
  }

  const FirstLinePrefix := "👋 你好呀，我是你的五行伙伴「"

  /** The first line typed on the screen. */
  function FirstLine(partner: string): (r: string)
    ensures |r| > |FirstLinePrefix| && r[..|FirstLinePrefix|] == FirstLinePrefix && r[|r| - 1] == '」'
  {
    FirstLinePrefix + partner + "」"
  }

  /** The first line names the partner between the corner brackets. */
  lemma FirstLineNamesPartner(partner: string)
    ensures var line := FirstLine(partner);
      && |line| == |FirstLinePrefix| + |partner| + 1
      && line[|FirstLinePrefix|..|FirstLinePrefix| + |partner|] == partner
      && line[|FirstLinePrefix| - 1] == '「' && line[|line| - 1] == '」'
  {
  }

  /** The confirm button: start the personality review at its first trait. */
  function Confirm(ob: OnboardingState.Onboarding): (r: OnboardingState.Onboarding)
    ensures r.currentStep == OnboardingState.KycPersonality && r.currentPersonalityIndex == 0
    ensures r == ob.(currentStep := r.currentStep, currentPersonalityIndex := r.currentPersonalityIndex)
  {
    ob.(currentPersonalityIndex := 0, currentStep := OnboardingState.KycPersonality)
  }
}

=== FILE: legacy_home.dfy ===
/**
 * The older single-page home screen: it lists every open task of today's
 * plan, colours a task's icon by its priority, labels the next solar term,
 * and handles task actions like the tabbed screen, without a celebration and
 * with its own error for a failed reload.
 */
module LegacyHome {
  import opened Common
  import opened GoalModels
  import opened DailyTasks
  import HomeDailyTasks
  import GoalEditDialogs

  /** `visibleTasks`: the open tasks of today's plan, in order. */
  function LegacyVisibleTasks(plan: Option<seq<DailyTaskItem>>): (r: seq<DailyTaskItem>)
    ensures plan.None? ==> r == []
    ensures plan.Some? ==> IsSubsequence(r, plan.value)
    ensures forall t :: t in r <==> plan.Some? && t in plan.value && IsOpen(t.status)
  {
    match plan
    case None => []
    case Some(items) =>
      var open := (t: DailyTaskItem) => IsOpen(t.status);
      FilterMembership(items, open);
      FilterIsSubsequence(items, open);
      Filter(items, open)
  }

  /** A plan whose tasks are all open is listed in full. */
  lemma AllOpenAllListed(items: seq<DailyTaskItem>)
    requires forall i :: 0 <= i < |items| ==> IsOpen(items[i].status)
    ensures LegacyVisibleTasks(Some(items)) == items
  {
    FilterAll(items, (t: DailyTaskItem) => IsOpen(t.status));
  }

  /**
   * The tabbed screen lists the older screen's tasks narrowed to active
   * goals: the same tasks, in the same order, minus those of other goals.
   */
  lemma TabbedScreenNarrowsLegacy(m: HomeDailyTasks.HomeTasksModel)
    ensures HomeDailyTasks.VisibleTasks(m) ==
      Filter(LegacyVisibleTasks(m.today.dailyPlan), HomeDailyTasks.ShowsTask(HomeDailyTasks.ActiveGoalIds(m.goalPlans)))
    ensures IsSubsequence(HomeDailyTasks.VisibleTasks(m), LegacyVisibleTasks(m.today.dailyPlan))
  {
    var shows := HomeDailyTasks.ShowsTask(HomeDailyTasks.ActiveGoalIds(m.goalPlans));
    if m.today.dailyPlan.Some? {
      FilterNarrow(m.today.dailyPlan.value, (t: DailyTaskItem) => IsOpen(t.status), shows);
    }
    FilterIsSubsequence(LegacyVisibleTasks(m.today.dailyPlan), shows);
  }

  /** The colours a task's priority icon can take. */
  datatype PriorityInk = AccentRed | TextBlack | NeutralGray

  /** `priorityColor(for:)`: red for high, black for medium, gray for anything else. */
  function PriorityColor(priority: string): (c: PriorityInk)
    ensures c == AccentRed <==> priority == "high"
    ensures c == TextBlack <==> priority == "medium"
  {
    match priority
    case "high" => AccentRed
    case "medium" => TextBlack
    case _ => NeutralGray
  }

  /**
   * The three priorities a task can be edited to get three different
   * colours, and an unknown priority looks like a low one.
   */
  lemma PriorityOptionsDistinctColors(i: nat, j: nat, other: string)
    requires i < |GoalEditDialogs.PriorityOptions| && j < |GoalEditDialogs.PriorityOptions| && i != j
    requires other !in GoalEditDialogs.PriorityOptions
    ensures PriorityColor(GoalEditDialogs.PriorityOptions[i]) != PriorityColor(GoalEditDialogs.PriorityOptions[j])
    ensures PriorityColor(other) == PriorityColor("low")
  {
  }

  /**
   * `daysUntil`: the difference in whole days between two `yyyy-MM-dd`
   * dates; `dayNumber` is the calendar's day count of a date it can read.
   */
  function DaysUntil(target: string, base: string, dayNumber: string -> Option<int>): (r: Option<int>)
    ensures r.Some? <==> dayNumber(target).Some? && dayNumber(base).Some?
    ensures r.Some? ==> dayNumber(base).value + r.value == dayNumber(target).value
  {
    match (dayNumber(base), dayNumber(target))
    case (Some(b), Some(t)) => Some(t - b)
    case _ => None
  }

  const NextTermPrefix := "下一个节气："

  /** The next-solar-term line: the days left when that count is known and positive, otherwise "today". */
  function NextTermLabel(term: SolarTerm, days: Option<int>): (r: string)
    ensures |NextTermPrefix| + |term.name| + 1 < |r|
    ensures r[..|NextTermPrefix| + |term.name|] == NextTermPrefix + term.name
  {
    if days.Some? && days.value > 0 then NextTermPrefix + term.name + "（还有" + IntToString(days.value) + "天）"
    else NextTermPrefix + term.name + "（就在今天）"
  }

  /**
   * The line counts days exactly when the difference is known and positive;
   * a term already past, or a date that cannot be read, reads "today".
   */
  lemma NextTermLabelCounts(term: SolarTerm, days: Option<int>)
    ensures var k := |NextTermPrefix| + |term.name| + 1;
      NextTermLabel(term, days)[k] == '还' <==> days.Some? && days.value > 0
  {
    var k := |NextTermPrefix| + |term.name| + 1;
    var head := NextTermPrefix + term.name;
    if days.Some? && days.value > 0 {
      assert NextTermLabel(term, days) == head + ("（还有" + IntToString(days.value) + "天）");
    } else {
      assert NextTermLabel(term, days) == head + "（就在今天）";
    }
  }

  /**
   * The number of days a next-term line shows, read back from the text:
   * the digits between "（还有" and the closing "天）".
   */
  function DaysShown(line: string, term: SolarTerm): Option<nat> {
    var head := NextTermPrefix + term.name + "（还有";
    if |head| <= |line| && line[..|head|] == head then
      match ReadNumberUpTo(line[|head|..], '天')
      case Some((n, tail)) => if tail == "）" then Some(n) else None
      case None => None
    else None
  }

  /** The line shows exactly the day difference when it is known and positive, and no count otherwise. */
  lemma NextTermLabelReadsBack(term: SolarTerm, days: Option<int>)
    ensures DaysShown(NextTermLabel(term, days), term) == if days.Some? && days.value > 0 then Some(days.value as nat) else None
  {
    var line := NextTermLabel(term, days);
    var head := NextTermPrefix + term.name + "（还有";
    var k := |NextTermPrefix| + |term.name| + 1;
    NextTermLabelCounts(term, days);
    if days.Some? && days.value > 0 {
      var n := NatToString(days.value as nat);
      NatToStringRoundTrip(days.value as nat);
      assert line == head + (n + ['天'] + "）");
      assert line[..|head|] == head && line[|head|..] == n + ['天'] + "）";
      ReadNumberUpToDigits(n, '天', "）");
    } else {
      assert |head| == k + 2 && head[k] == '还';
      assert |head| <= |line| ==> line[..|head|][k] != head[k];
    }
  }

  /** The older screen's own state: the load, the action gate, and a user id. */
  datatype LegacyScreen = LegacyScreen(userId: Option<int>, today: TodayLoad, gate: ActionGate)

  const ReloadFailedText := "刷新待办事项列表失败，请稍后再试一次。"

  /** `reloadPlanOnly` of the older screen: a failed reload is reported on the action error line. */
  function LegacyReloadPlanOnly(s: LegacyScreen, answer: Answer<seq<DailyTaskItem>>): (r: LegacyScreen)
    ensures s.userId.None? ==> r == s
    ensures r.userId == s.userId && r.gate.isUpdating == s.gate.isUpdating
    ensures r.today.isLoading == s.today.isLoading && r.today.calendarInfo == s.today.calendarInfo
    ensures s.userId.Some? ==> (r.today.dailyPlan == if answer.Answered? then Some(answer.value) else s.today.dailyPlan)
    ensures s.userId.Some? ==> (r.gate.actionError == if answer.Answered? then s.gate.actionError else Some(ReloadFailedText))
  {
    if s.userId.None? then s
    else match answer
      case Answered(items) => s.(today := s.today.(dailyPlan := Some(items)))
      case Threw => s.(gate := s.gate.(actionError := Some(ReloadFailedText)))
  }

  /** The end of an action on the older screen: reload after success, report a failure, lower the flag. */
  function LegacyFinishAction(s: LegacyScreen, updated: bool, reload: Answer<seq<DailyTaskItem>>): (r: LegacyScreen)
    ensures !r.gate.isUpdating
    ensures !updated ==> r.today == s.today && r.gate.actionError == Some(UpdateFailedText)
    ensures updated ==> r.today == LegacyReloadPlanOnly(s, reload).today
  {
    if updated then
      var reloaded := LegacyReloadPlanOnly(s, reload);
      reloaded.(gate := reloaded.gate.(isUpdating := false))
    else s.(gate := FinishAction(s.gate, false))
  }

  /**
   * After a successful update the error line shows only a failed reload:
   * it is cleared when the action starts and set again only by the reload.
   */
  lemma LegacyErrorAfterSuccess(s: LegacyScreen, a: ExecutionAction, frequency: string, tomorrow: string, reload: Answer<seq<DailyTaskItem>>)
    requires s.userId.Some?
    requires StartAction(s.gate, a, frequency, tomorrow).1.Some?
    ensures var started := s.(gate := StartAction(s.gate, a, frequency, tomorrow).0);
      LegacyFinishAction(started, true, reload).gate.actionError == if reload.Threw? then Some(ReloadFailedText) else None
  {
  }
}

=== FILE: legacy_milestone_state.dfy ===
/**
 * The older goal-tracking section's own milestone classifier and scroll
 * target. It differs from `MilestoneStateHelpers` in the status it treats as
 * current ("in_progress" instead of "active"); its flag and connecting-line
 * styling is the same table as `MilestoneStateHelpers.FlagIcon`,
 * `FlagColor` and `ConnectingLineColor`.
 */
module LegacyMilestoneState {
  import opened Common
  import opened GoalModels
  import opened MilestoneStateHelpers

  /** Every element of `ms` has status "completed". */
  predicate AllCompleted(ms: seq<Milestone>) {
    forall i :: 0 <= i < |ms| ==> ms[i].status == "completed"
  }

  /**
   * `milestoneState(for:at:in:)` as written, including its look at the
   * milestones before `index`, whose two outcomes give the same answer.
   */
  function LegacyState(m: Milestone, index: nat, ms: seq<Milestone>, currentIds: set<int>): (s: MilestoneState)
    ensures s == Completed <==> m.status == "completed"
    ensures s == Current <==> m.status != "completed" && (m.id in currentIds || m.status == "in_progress")
  {
    if m.status == "completed" then Completed
    else if m.id in currentIds then Current
    else if m.status == "in_progress" then Current
    else
      var allPreviousCompleted := AllCompleted(ms[..if index <= |ms| then index else |ms|]);
      if !allPreviousCompleted then Upcoming else Upcoming
  }

  /** Whether the earlier milestones are completed never changes the state. */
  lemma LegacyStateIgnoresHistory(m: Milestone, i: nat, ms: seq<Milestone>, j: nat, ns: seq<Milestone>, ids: set<int>)
    ensures LegacyState(m, i, ms, ids) == LegacyState(m, j, ns, ids)
  {
  }

  /** "active" alone is not current here, unlike `calculateMilestoneState`. */
  lemma ActiveIsNotCurrentHere(m: Milestone, ms: seq<Milestone>, ids: set<int>)
    requires m.status == "active" && m.id !in ids
    ensures LegacyState(m, 0, ms, ids) == Upcoming
    ensures CalculateState(m, 0, ms, ids) == Current
  {
  }

  /** `currentMilestoneIndex(in:)`. */
  method LegacyCurrentIndex(ms: seq<Milestone>, currentIds: set<int>) returns (r: Option<nat>)
    ensures r.Some? ==> r.value < |ms| && ms[r.value].status != "completed"
    ensures (exists i :: 0 <= i < |ms| && LegacyState(ms[i], i, ms, currentIds) == Current) ==>
      r.Some? && LegacyState(ms[r.value], r.value, ms, currentIds) == Current &&
      forall j :: 0 <= j < r.value ==> LegacyState(ms[j], j, ms, currentIds) != Current
    ensures r.None? <==> AllCompleted(ms)
    ensures (forall i :: 0 <= i < |ms| ==> LegacyState(ms[i], i, ms, currentIds) != Current) && r.Some? ==>
      AllCompleted(ms[..r.value])
  {
    r := FindCurrentIndex(ms, m => LegacyState(m, 0, [], currentIds) == Current);
  }
}

=== FILE: login.dfy ===
/**
 * The SMS login screen: the digit-only input fields, when each button is
 * enabled, what sending and verifying a code do, and the once-a-second resend
 * countdown. The timer is modelled as a sequence of ticks.
 */
module Login {
  import opened Common
  import AuthManager
  import OnboardingState

  const PhoneLength := 11
  const CodeLength := 6

  /** Seconds before a code can be requested again after a successful send. */
  const ResendSeconds := 60

  datatype LoginScreen = LoginScreen(
    phone: string,
    code: string,
    isCodeSent: bool,
    countdown: int,
    timerRunning: bool,
    isLoading: bool,
    errorMessage: Option<string>)

  const InitialScreen := LoginScreen("", "", false, 0, false, false, None)

  /**
   * The `onChange` filters of both fields: keep the numeric characters, at
   * most `max` of them. Numeric is read as the ASCII digits.
   */
  function KeepDigits(s: string, max: nat): (r: string)
    ensures |r| <= max
    ensures AllIn(r, IsAsciiDigit)
  {
    var digits := Filter(s, IsAsciiDigit);
    if |digits| <= max then digits else digits[..max]
  }

  /** The filter only deletes characters; it never adds or reorders them. */
  lemma KeepDigitsIsSubsequence(s: string, max: nat)
    ensures IsSubsequence(KeepDigits(s, max), s)
  {
    var digits := Filter(s, IsAsciiDigit);
    FilterIsSubsequence(s, IsAsciiDigit);
    SubsequencePrefix(digits, s, if |digits| <= max then |digits| else max);
  }

  /** A short all-digit value passes the filter unchanged, so filtering is idempotent. */
  lemma KeepDigitsFixesDigits(s: string, max: nat)
    ensures (|s| <= max && AllIn(s, IsAsciiDigit)) <==> KeepDigits(s, max) == s
    ensures KeepDigits(KeepDigits(s, max), max) == KeepDigits(s, max)
  {
    if |s| <= max && AllIn(s, IsAsciiDigit) {
      FilterAll(s, IsAsciiDigit);
    }
    FilterAll(KeepDigits(s, max), IsAsciiDigit);
  }

  /** Typing into the phone field. */
  function EditPhone(st: LoginScreen, typed: string): (r: LoginScreen)
    ensures |r.phone| <= PhoneLength && AllIn(r.phone, IsAsciiDigit)
    ensures r == st.(phone := r.phone)
  {
    st.(phone := KeepDigits(typed, PhoneLength))
  }

  /** Typing into the code field. */
  function EditCode(st: LoginScreen, typed: string): (r: LoginScreen)
    ensures |r.code| <= CodeLength && AllIn(r.code, IsAsciiDigit)
    ensures r == st.(code := r.code)
  {
    st.(code := KeepDigits(typed, CodeLength))
  }

  /** `isPhoneValid`: eleven characters starting with 1. */
  predicate IsPhoneValid(phone: string)
    ensures IsPhoneValid(phone) <==> |phone| == PhoneLength && "1" <= phone
  {
    |phone| == PhoneLength && phone[0] == '1'
  }

  /** `canVerify`. */
  predicate CanVerify(phone: string, code: string)
    ensures CanVerify(phone, code) ==> IsPhoneValid(phone)
    ensures |code| != CodeLength ==> !CanVerify(phone, code)
  {
    IsPhoneValid(phone) && |code| == CodeLength
  }

  /** A phone number typed through the filter is valid exactly when its first eleven digits start with 1. */
  lemma TypedPhoneValidity(typed: string)
    ensures var digits := Filter(typed, IsAsciiDigit);
      IsPhoneValid(EditPhone(InitialScreen, typed).phone) <==> |digits| >= PhoneLength && digits[0] == '1'
  {
  }

  /** The "获取验证码" button. */
  predicate SendEnabled(st: LoginScreen)
    ensures st.isLoading ==> !SendEnabled(st)
    ensures SendEnabled(st) ==> |st.phone| == PhoneLength
  {
    IsPhoneValid(st.phone) && !st.isLoading
  }

  /** The "验证并登录" button. */
  predicate VerifyEnabled(st: LoginScreen)
    ensures VerifyEnabled(st) ==> SendEnabled(st) && |st.code| == CodeLength
  {
    CanVerify(st.phone, st.code) && !st.isLoading
  }

  /** The resend button beside the code field. */
  predicate ResendEnabled(st: LoginScreen)
    ensures ResendEnabled(st) <==> st.countdown <= 0 && !st.isLoading
  {
    !(st.countdown > 0 || st.isLoading)
  }

  /** `startCountdown(from:)`: set the counter and (re)start the one-second timer. */
  function StartCountdown(st: LoginScreen, seconds: int): (r: LoginScreen)
    ensures r.countdown == seconds && r.timerRunning
  {
    st.(countdown := seconds, timerRunning := true)
  }

  /** One firing of the timer: count down while positive, otherwise stop the timer. */
  function Tick(st: LoginScreen): (r: LoginScreen)
    ensures st.countdown > 0 ==> r == st.(countdown := st.countdown - 1)
    ensures st.countdown <= 0 ==> r == st.(timerRunning := false)
  {
    if st.countdown > 0 then st.(countdown := st.countdown - 1)
    else st.(timerRunning := false)
  }

  /** The state after `n` timer firings. */
  function Ticks(st: LoginScreen, n: nat): LoginScreen
    decreases n
  {
    if n == 0 then st else Ticks(Tick(st), n - 1)
  }

  /** After `n` seconds a countdown from `c` shows `max(c - n, 0)`; a negative one never moves. */
  lemma {:induction false} CountdownAfterTicks(st: LoginScreen, n: nat)
    ensures st.countdown >= 0 ==>
      Ticks(st, n).countdown == (if n >= st.countdown then 0 else st.countdown - n)
    ensures st.countdown < 0 ==> Ticks(st, n).countdown == st.countdown
    ensures Ticks(st, n).(countdown := st.countdown, timerRunning := st.timerRunning) == st
    decreases n
  {
    if n > 0 {
      CountdownAfterTicks(Tick(st), n - 1);
    }
  }

  /** The server's answer to a send request: a response body or a thrown error. */
  datatype SmsAnswer =
    | SmsResponse(success: bool, message: string, retryAfter: Option<int>)
    | SmsThrew(error: string)

  /** `sendSMS`. */
  function SendSms(st: LoginScreen, answer: SmsAnswer): (r: LoginScreen)
    ensures !IsPhoneValid(st.phone) ==> r == st
    ensures IsPhoneValid(st.phone) ==> !r.isLoading && r.phone == st.phone && r.code == st.code
    ensures IsPhoneValid(st.phone) && answer.SmsResponse? && answer.success ==>
      r.isCodeSent && r.countdown == ResendSeconds && r.timerRunning && r.errorMessage.None?
    ensures IsPhoneValid(st.phone) && answer.SmsResponse? && !answer.success && answer.retryAfter.Some? ==>
      r.isCodeSent && r.countdown == answer.retryAfter.value && r.errorMessage == Some(answer.message)
    ensures IsPhoneValid(st.phone) && answer.SmsResponse? && !answer.success && answer.retryAfter.None? ==>
      r == st.(errorMessage := Some(answer.message), isLoading := false)
    ensures IsPhoneValid(st.phone) && answer.SmsThrew? ==>
      r == st.(errorMessage := Some(answer.error), isLoading := false)
  {
    if !IsPhoneValid(st.phone) then st
    else
      var started := st.(isLoading := true, errorMessage := None);
      var answered :=
        match answer
        case SmsThrew(e) => started.(errorMessage := Some(e))
        case SmsResponse(ok, msg, retry) =>
          if ok then StartCountdown(started.(isCodeSent := true), ResendSeconds)
          else if retry.Some? then StartCountdown(started.(errorMessage := Some(msg)), retry.value).(isCodeSent := true)
          else started.(errorMessage := Some(msg));
      answered.(isLoading := false)
  }

  /** After a successful send, resend stays disabled for exactly sixty seconds. */
  lemma ResendLockedForSixtySeconds(st: LoginScreen, message: string, n: nat)
    requires IsPhoneValid(st.phone)
    ensures var sent := SendSms(st, SmsResponse(true, message, None));
      (n < ResendSeconds ==> !ResendEnabled(Ticks(sent, n))) && (n >= ResendSeconds ==> ResendEnabled(Ticks(sent, n)))
  {
    CountdownAfterTicks(SendSms(st, SmsResponse(true, message, None)), n);
  }

  /** The server's answer to a verify request. */
  datatype VerifyAnswer =
    | Verified(accessToken: string, refreshToken: string, expiresIn: int, userId: int, nickname: string, isNewUser: bool)
    | VerifyThrew(error: string)

  /** A guest with a stored session binds the phone to that session instead of signing in afresh. */
  predicate IsGuestBinding(auth: AuthManager.AuthState)
    ensures IsGuestBinding(auth) ==> auth.isGuest
    ensures auth.isGuest && auth.accessToken.Some? ==> IsGuestBinding(auth)
    ensures !AuthManager.HasStoredToken(auth) ==> !IsGuestBinding(auth)
  {
    auth.isGuest && AuthManager.HasStoredToken(auth)
  }

  /** The screen title. */
  function Title(auth: AuthManager.AuthState): (r: string)
    ensures r == "绑定手机号" <==> IsGuestBinding(auth)
    ensures !auth.isGuest ==> r == "登录/注册"
  {
    if IsGuestBinding(auth) then "绑定手机号" else "登录/注册"
  }

  /** The request `verifySMS` sends; the device name that goes with it is not modelled. */
  datatype VerifyRequest = VerifyRequest(phone: string, code: string, accessToken: Option<string>)

  /** Everything `verifyCode` leaves behind: the request it sent, if any, and the argument of `onLoginSuccess` when it is called. */
  datatype VerifyResult = VerifyResult(
    screen: LoginScreen,
    onboarding: OnboardingState.Onboarding,
    auth: AuthManager.AuthState,
    request: Option<VerifyRequest>,
    loginSuccess: Option<bool>)

  /**
   * `verifyCode`. A binding guest first fetches the current access token
   * (refreshing it if due, with `refresh` as the server's answer) and sends
   * it along, so that the server binds the phone to the guest's account.
   */
  function VerifyCode(st: LoginScreen, ob: OnboardingState.Onboarding, auth: AuthManager.AuthState,
                      refresh: AuthManager.RefreshAnswer, answer: VerifyAnswer, now: int): (r: VerifyResult)
    ensures !CanVerify(st.phone, st.code) ==> r == VerifyResult(st, ob, auth, None, None)
    ensures CanVerify(st.phone, st.code) ==>
      && !r.screen.isLoading
      && r.request.Some? && r.request.value.phone == st.phone && r.request.value.code == st.code
    ensures CanVerify(st.phone, st.code) && IsGuestBinding(auth) ==>
      r.request.value.accessToken == AuthManager.GetAccessToken(auth, refresh, now).1
    ensures CanVerify(st.phone, st.code) && !IsGuestBinding(auth) ==> r.request.value.accessToken.None?
    ensures CanVerify(st.phone, st.code) && answer.Verified? ==>
      && r.loginSuccess == Some(answer.isNewUser)
      && r.auth.accessToken == Some(answer.accessToken) && r.auth.refreshToken == Some(answer.refreshToken)
      && r.auth.isAuthenticated
      && r.onboarding == ob.(submitUserId := Some(answer.userId), nickname := answer.nickname)
      && r.screen.errorMessage.None?
    ensures CanVerify(st.phone, st.code) && answer.VerifyThrew? ==>
      && r.loginSuccess.None? && r.onboarding == ob && r.screen.errorMessage == Some(answer.error)
      && r.auth == (if IsGuestBinding(auth) then AuthManager.GetAccessToken(auth, refresh, now).0 else auth)
  {
    if !CanVerify(st.phone, st.code) then VerifyResult(st, ob, auth, None, None)
    else
      var started := st.(isLoading := true, errorMessage := None);
      var (auth1, token) := if IsGuestBinding(auth) then AuthManager.GetAccessToken(auth, refresh, now) else (auth, None);
      var request := Some(VerifyRequest(st.phone, st.code, token));
      match answer
      case VerifyThrew(e) =>
        VerifyResult(started.(errorMessage := Some(e), isLoading := false), ob, auth1, request, None)
      case Verified(access, refreshToken, expiresIn, id, nick, isNew) =>
        VerifyResult(
          started.(isLoading := false),
          ob.(submitUserId := Some(id), nickname := nick),
          AuthManager.SaveTokens(auth1, access, refreshToken, expiresIn, now),
          request,
          Some(isNew))
  }

  /**
   * Only a binding guest's request carries a token: the stored one while it
   * is not due for a refresh, none at all when a due refresh fails (the
   * session is then cleared), and a fresh sign-in never carries one.
   */
  lemma BindingSendsSessionToken(st: LoginScreen, ob: OnboardingState.Onboarding, auth: AuthManager.AuthState,
                                 refresh: AuthManager.RefreshAnswer, answer: VerifyAnswer, now: int)
    requires CanVerify(st.phone, st.code)
    ensures var r := VerifyCode(st, ob, auth, refresh, answer, now);
      && (r.request.value.accessToken.Some? ==> IsGuestBinding(auth))
      && (IsGuestBinding(auth) && !AuthManager.NeedsRefresh(auth, now) ==> r.request.value.accessToken == auth.accessToken)
      && (IsGuestBinding(auth) && AuthManager.NeedsRefresh(auth, now) && refresh == AuthManager.RefreshFailed ==>
            r.request.value.accessToken.None? && (answer.VerifyThrew? ==> !AuthManager.HasStoredToken(r.auth)))
      && (!IsGuestBinding(auth) && answer.VerifyThrew? ==> r.auth == auth)
  {
    if IsGuestBinding(auth) && AuthManager.NeedsRefresh(auth, now) && refresh == AuthManager.RefreshFailed {
      AuthManager.FailedRefreshHandsOutNothing(auth, now);
    }
  }

  /** The verify button is enabled only when sending was possible for the same phone number. */
  lemma VerifyImpliesSendable(st: LoginScreen)
    ensures VerifyEnabled(st) ==> SendEnabled(st)
  {
  }
}

=== FILE: milestone_state.dfy ===
/**
 * How the goal-tracking timeline classifies a milestone (completed, current or
 * upcoming), which milestone it scrolls to, and the flag and connecting-line
 * styling chosen from the classification.
 */
module MilestoneStateHelpers {
  import opened Common
  import opened GoalModels

  datatype MilestoneState = Completed | Current | Upcoming

  /** Colours of the flag circle and of the connecting line, as named tags. */
  datatype TimelineColor = AccentGreen | Primary | NeutralGray

  /**
   * `calculateMilestoneState`. The position parameters are part of the
   * signature but play no part in the decision.
   */
  function CalculateState(m: Milestone, index: int, milestones: seq<Milestone>, currentIds: set<int>): (s: MilestoneState)
    ensures s == Completed <==> m.status == "completed"
    ensures s == Current <==> m.status != "completed" && (m.status == "active" || m.id in currentIds)
    ensures s == Upcoming <==> m.status != "completed" && m.status != "active" && m.id !in currentIds
  {
    if m.status == "completed" then Completed
    else if m.status == "active" then Current
    else if m.id in currentIds then Current
    else Upcoming
  }

  /** The same milestone and id set give the same state wherever the milestone sits. */
  lemma StateIgnoresPosition(m: Milestone, i: int, ms: seq<Milestone>, j: int, ns: seq<Milestone>, ids: set<int>)
    ensures CalculateState(m, i, ms, ids) == CalculateState(m, j, ns, ids)
  {
  }

  /**
   * The scroll target of a timeline: the first milestone `isCurrent` accepts,
   * else the first one whose status is not "completed", else none. Shared by
   * `findCurrentMilestoneIndex` and the older section view, which differ only
   * in the classifier.
   */
  method FindCurrentIndex(ms: seq<Milestone>, isCurrent: Milestone -> bool) returns (r: Option<nat>)
    ensures r.Some? ==> r.value < |ms|
    ensures (exists i :: 0 <= i < |ms| && isCurrent(ms[i])) ==>
      r.Some? && isCurrent(ms[r.value]) && forall j :: 0 <= j < r.value ==> !isCurrent(ms[j])
    ensures (forall i :: 0 <= i < |ms| ==> !isCurrent(ms[i])) && r.Some? ==>
      ms[r.value].status != "completed" && forall j :: 0 <= j < r.value ==> ms[j].status == "completed"
    ensures (forall i :: 0 <= i < |ms| ==> !isCurrent(ms[i])) ==>
      (r.None? <==> forall i :: 0 <= i < |ms| ==> ms[i].status == "completed")
  {
    var i := 0;
    while i < |ms|
      invariant 0 <= i <= |ms|
      invariant forall j :: 0 <= j < i ==> !isCurrent(ms[j])
    {
      if isCurrent(ms[i]) {
        return Some(i);
      }
      i := i + 1;
    }
    i := 0;
    while i < |ms|
      invariant 0 <= i <= |ms|
      invariant forall j :: 0 <= j < i ==> ms[j].status == "completed"
    {
      if ms[i].status != "completed" {
        return Some(i);
      }
      i := i + 1;
    }
    return None;
  }

  /** `findCurrentMilestoneIndex`: the scroll target under `calculateMilestoneState`. */
  method FindCurrentMilestoneIndex(ms: seq<Milestone>, currentIds: set<int>) returns (r: Option<nat>)
    ensures r.Some? ==> r.value < |ms|
    ensures r.Some? && CalculateState(ms[r.value], r.value, ms, currentIds) == Current ==>
      forall j :: 0 <= j < r.value ==> CalculateState(ms[j], j, ms, currentIds) != Current
    ensures (exists i :: 0 <= i < |ms| && CalculateState(ms[i], i, ms, currentIds) == Current) ==>
      r.Some? && CalculateState(ms[r.value], r.value, ms, currentIds) == Current
    ensures r.None? <==> forall i :: 0 <= i < |ms| ==> ms[i].status == "completed"
    ensures r.Some? ==> ms[r.value].status != "completed"
    ensures (forall i :: 0 <= i < |ms| ==> CalculateState(ms[i], i, ms, currentIds) != Current) && r.Some? ==>
      forall j :: 0 <= j < r.value ==> ms[j].status == "completed"
  {
    r := FindCurrentIndex(ms, m => CalculateState(m, 0, [], currentIds) == Current);
  }

  /** `flagIcon`: the SF Symbol drawn in the flag circle. */
  function FlagIcon(s: MilestoneState): (name: string)
    ensures name in {"checkmark", "flag.fill", "flag"}
  {
    match s
    case Completed => "checkmark"
    case Current => "flag.fill"
    case Upcoming => "flag"
  }

  /** `flagColor`: the colour of the flag circle. */
  function FlagColor(s: MilestoneState): (c: TimelineColor)
    ensures c == AccentGreen <==> s == Completed
    ensures c == Primary <==> s == Current
  {
    match s
    case Completed => AccentGreen
    case Current => Primary
    case Upcoming => NeutralGray
  }

  /** Each state has its own flag icon and its own flag colour. */
  lemma FlagStylingDistinct(a: MilestoneState, b: MilestoneState)
    ensures a != b ==> FlagIcon(a) != FlagIcon(b)
    ensures a != b ==> FlagColor(a) != FlagColor(b)
  {
  }

  /** `connectingLineColor`: the line drawn from one milestone to the next. */
  function ConnectingLineColor(from: MilestoneState, to: MilestoneState): (c: TimelineColor)
    ensures c == AccentGreen <==> from == Completed && to == Completed
    ensures c == NeutralGray <==> from == Upcoming
    ensures c == Primary <==> from == Current || (from == Completed && to != Completed)
  {
    if from == Completed && to == Completed then AccentGreen
    else if from == Completed || from == Current then Primary
    else assert from.Upcoming?; NeutralGray
  }
}

=== FILE: native_tool_executor.dfy ===
/**
 * The native tool executor: it runs a client action the chat server asked
 * for (set an alarm, create or list calendar events, read health data, read
 * screen time) and reports a result. Opening the Clock app, EventKit's store
 * and date parsing are outside the model; what they answer is an input.
 */
module NativeToolExecutor {
  import opened Common
  import opened PermissionManager

  datatype NativeToolResult =
    | Success(message: string)
    | PermissionRequired(permission: PermissionType)
    | PermissionDenied(fallbackMessage: string)
    | Failed(error: string)

  /** A parameter value as far as `as? String` can tell: text, or something else. */
  datatype ParamValue = Text(text: string) | NotText

  /** `PendingClientAction`. */
  datatype PendingClientAction = PendingClientAction(tool: string, action: string, params: map<string, ParamValue>)

  /** `action.params[key]?.value as? String`. */
  function TextParam(a: PendingClientAction, key: string): (r: Option<string>)
    ensures r.Some? <==> key in a.params && a.params[key].Text?
  {
    if key in a.params && a.params[key].Text? then Some(a.params[key].text) else None
  }

  // ---------------------------------------------------------------------------
  // Alarm
  // ---------------------------------------------------------------------------

  /**
   * The alarm's "HH:mm" parameter: split on ':' (empty pieces dropped), and
   * both of exactly two pieces must be integers. There is no range check.
   */
  function AlarmTime(time: string): (r: Option<(int, int)>)
    ensures r.Some? <==>
      var pieces := Split(time, ':');
      |pieces| == 2 && ParseInt(pieces[0]).Some? && ParseInt(pieces[1]).Some?
  {
    var pieces := Split(time, ':');
    if |pieces| != 2 then None
    else match (ParseInt(pieces[0]), ParseInt(pieces[1]))
      case (Some(h), Some(m)) => Some((h, m))
      case _ => None
  }

  const Int32Min: int := -0x8000_0000
  const Int32Max: int := 0x7FFF_FFFF

  /**
   * The number `%d` prints for a Swift `Int`: the format reads a 32-bit C
   * `int`, so only the low 32 bits of the value are shown, as a signed number.
   */
  function CInt(n: int): (r: int)
    ensures Int32Min <= r <= Int32Max
    ensures (n - r) % 0x1_0000_0000 == 0
    ensures Int32Min <= n <= Int32Max ==> r == n
  {
    var low := n % 0x1_0000_0000;
    assert n == (n / 0x1_0000_0000) * 0x1_0000_0000 + low;
    if low <= Int32Max then low else low - 0x1_0000_0000
  }

  /** The time as the success message shows it, `%02d:%02d`, each number cut to 32 bits. */
  function TimeText(hour: int, minute: int): (s: string)
    ensures 0 <= hour < 100 && 0 <= minute < 100 ==> |s| == 5 && s[2] == ':'
  {
    Pad2(CInt(hour)) + ":" + Pad2(CInt(minute))
  }

  /** The shown time reads back as the low 32 bits of the hour and minute that were set. */
  lemma TimeTextReadsBack(hour: int, minute: int)
    ensures AlarmTime(TimeText(hour, minute)) == Some((CInt(hour), CInt(minute)))
  {
    var h, m := Pad2(CInt(hour)), Pad2(CInt(minute));
    assert AllIn(h, IsNot(':')) && AllIn(m, IsNot(':'));
    SplitJoin([h, m], ':');
    assert Join([h, m], ':') == TimeText(hour, minute);
    Pad2RoundTrip(CInt(hour));
    Pad2RoundTrip(CInt(minute));
  }

  /** Within 32 bits, the shown time reads back as the hour and minute that were set. */
  lemma TimeTextRoundTrip(hour: int, minute: int)
    requires Int32Min <= hour <= Int32Max && Int32Min <= minute <= Int32Max
    ensures AlarmTime(TimeText(hour, minute)) == Some((hour, minute))
  {
    TimeTextReadsBack(hour, minute);
  }

  /** An hour past 32 bits is accepted as it is, and the message shows only its low bits. */
  lemma TimeTextShowsLowBits()
    ensures TimeText(0x1_0000_0005, 5) == "05:05"
    ensures AlarmTime(TimeText(0x1_0000_0005, 5)) != Some((0x1_0000_0005, 5))
  {
    assert CInt(0x1_0000_0005) == 5;
    assert NatToString(5) == "5";
    TimeTextReadsBack(0x1_0000_0005, 5);
  }

  /** There is no range check: a time no clock shows is accepted as it is. */
  lemma AlarmTimeHasNoRangeCheck()
    ensures AlarmTime("99:99") == Some((99, 99))
  {
    SplitJoin(["99", "99"], ':');
    assert Join(["99", "99"], ':') == "99:99";
    assert "99"[..1] == "9";
    assert DigitsValue("99") == 99;
  }

  /** Empty pieces are dropped, so stray separators are ignored. */
  lemma AlarmTimeDropsEmptyPieces()
    ensures AlarmTime(":7::8:") == Some((7, 8))
  {
    StraySeparatorsSplit();
  }

  /** Splitting ":7::8:" at ':' keeps only the two numbers. */
  lemma StraySeparatorsSplit()
    ensures Split(":7::8:", ':') == ["7", "8"]
  {
    assert ":7::8:"[1..] == "7::8:" && "7::8:"[1..] == "::8:" && "::8:"[1..] == ":8:";
    assert ":8:"[1..] == "8:" && "8:"[1..] == ":";
    assert [] + "7" == "7" && [] + "8" == "8";
    assert SplitFrom(":", ':', "8") == ["8"];
    assert SplitFrom("8:", ':', []) == ["8"];
    assert SplitFrom("::8:", ':', "7") == ["7"] + SplitFrom(":8:", ':', []);
  }

  /** Three pieces are one too many. */
  lemma AlarmTimeNeedsTwoPieces()
    ensures AlarmTime("7:8:9") == None
  {
    SplitJoin(["7", "8", "9"], ':');
    assert Join(["7", "8", "9"], ':') == "7:8:9";
  }

  const DefaultAlarmLabel := "闹钟"

  /** `executeAlarmAction`: the action is checked first, then the time, then the label is defaulted. */
  function AlarmAction(a: PendingClientAction): (r: NativeToolResult)
    ensures a.action != "create_alarm" ==> r == Failed("Unknown alarm action: " + a.action)
    ensures a.action == "create_alarm" && TextParam(a, "time").None? ==> r == Failed("Missing time parameter")
    ensures r.Success? <==> a.action == "create_alarm" && TextParam(a, "time").Some? && AlarmTime(TextParam(a, "time").value).Some?
    ensures r.Success? ==>
      var (h, m) := AlarmTime(TextParam(a, "time").value).value;
      r.message == "已打开时钟应用，请手动设置" + TimeText(h, m) + "的闹钟「" + TextParam(a, "label").GetOr(DefaultAlarmLabel) + "」"
    ensures !r.PermissionRequired? && !r.PermissionDenied?
  {
    if a.action != "create_alarm" then Failed("Unknown alarm action: " + a.action)
    else if TextParam(a, "time").None? then Failed("Missing time parameter")
    else match AlarmTime(TextParam(a, "time").value)
      case None => Failed("Invalid time format")
      case Some(hm) =>
        var name := TextParam(a, "label").GetOr(DefaultAlarmLabel);
        Success("已打开时钟应用，请手动设置" + TimeText(hm.0, hm.1) + "的闹钟「" + name + "」")
  }

  // ---------------------------------------------------------------------------
  // Calendar and health
  // ---------------------------------------------------------------------------

  /**
   * The permission switch in front of the calendar and health actions: an
   * undetermined permission asks for it, a denied or restricted one gives the
   * fallback text, and only an authorised one lets the action run.
   */
  function PermissionGate(status: PermissionStatus, t: PermissionType): (r: Option<NativeToolResult>)
    ensures r.None? <==> status == Authorized
    ensures r == Some(PermissionRequired(t)) <==> status == NotDetermined
    ensures r == Some(PermissionDenied(DenialMessage(t))) <==> status in {Denied, Restricted}
  {
    match status
    case NotDetermined => Some(PermissionRequired(t))
    case Denied => Some(PermissionDenied(DenialMessage(t)))
    case Restricted => Some(PermissionDenied(DenialMessage(t)))
    case Authorized => None
  }

  /** Seconds since a fixed origin. */
  type Instant = int

  /** The event handed to EventKit for saving. */
  datatype CalendarEvent = CalendarEvent(title: string, start: Instant, end: Instant, notes: Option<string>)

  /** One of the formats `parseDateTime` tries: it reads a text as an instant or fails. */
  type DateFormat = string -> Option<Instant>

  /** `parseDateTime`: the instant read by the first of the formats, tried in order, that accepts the text. */
  function ParseDateTime(formats: seq<DateFormat>, s: string): (r: Option<Instant>)
    ensures r.Some? <==> exists i :: 0 <= i < |formats| && formats[i](s).Some?
    ensures r.Some? ==> formats[0](s).Some? ==> r == formats[0](s)
  {
    if |formats| == 0 then None
    else if formats[0](s).Some? then formats[0](s)
    else
      var rest := ParseDateTime(formats[1..], s);
      assert forall i :: 1 <= i < |formats| ==> formats[i] == formats[1..][i - 1];
      rest
  }

  /** An earlier format that accepts the text always wins over a later one. */
  lemma {:induction false} ParseDateTimeFirstWins(formats: seq<DateFormat>, s: string, i: nat)
    requires i < |formats| && formats[i](s).Some?
    requires forall j :: 0 <= j < i ==> formats[j](s).None?
    ensures ParseDateTime(formats, s) == formats[i](s)
    decreases i
  {
    if i > 0 {
      ParseDateTimeFirstWins(formats[1..], s, i - 1);
    }
  }

  const DefaultEventSeconds := 3600

  /**
   * `createCalendarEvent`: a title and a readable start are required; an end
   * that is missing or unreadable means one hour after the start. `saveError`
   * is EventKit's answer to the save. Returns the result and the event that
   * was handed to the store.
   */
  function CreateEvent(a: PendingClientAction, formats: seq<DateFormat>, saveError: Option<string>): (r: (NativeToolResult, Option<CalendarEvent>))
    ensures TextParam(a, "title").None? ==> r == (Failed("Missing event title"), None)
    ensures r.1.Some? <==>
      TextParam(a, "title").Some? && TextParam(a, "start_time").Some?
      && ParseDateTime(formats, TextParam(a, "start_time").value).Some?
    ensures r.1.Some? ==>
      && r.1.value.title == TextParam(a, "title").value
      && r.1.value.start == ParseDateTime(formats, TextParam(a, "start_time").value).value
      && r.1.value.notes == TextParam(a, "notes")
    ensures r.1.Some? && (TextParam(a, "end_time").None? || ParseDateTime(formats, TextParam(a, "end_time").value).None?) ==>
      r.1.value.end == r.1.value.start + DefaultEventSeconds
    ensures r.1.Some? && TextParam(a, "end_time").Some? && ParseDateTime(formats, TextParam(a, "end_time").value).Some? ==>
      r.1.value.end == ParseDateTime(formats, TextParam(a, "end_time").value).value
    ensures TextParam(a, "title").Some? && r.1.None? ==> r.0 == Failed("Missing or invalid start time")
    ensures r.0.Success? <==> r.1.Some? && saveError.None?
    ensures r.0.Success? ==> r.0.message == "已创建日程「" + r.1.value.title + "」"
    ensures r.1.Some? && saveError.Some? ==> r.0 == Failed("创建日程失败: " + saveError.value)
  {
    match TextParam(a, "title")
    case None => (Failed("Missing event title"), None)
    case Some(title) =>
      var start := if TextParam(a, "start_time").Some? then ParseDateTime(formats, TextParam(a, "start_time").value) else None;
      match start
      case None => (Failed("Missing or invalid start time"), None)
      case Some(s) =>
        var end := if TextParam(a, "end_time").Some? then ParseDateTime(formats, TextParam(a, "end_time").value) else None;
        var event := CalendarEvent(title, s, end.GetOr(s + DefaultEventSeconds), TextParam(a, "notes"));
        match saveError
        case None => (Success("已创建日程「" + title + "」"), Some(event))
        case Some(e) => (Failed("创建日程失败: " + e), Some(event))
  }

  /** One of today's events: its start already formatted as "HH:mm", and its title if it has one. */
  datatype DayEvent = DayEvent(time: string, title: Option<string>)

  const NoEventsMessage := "今天没有日程安排"
  const EventsHeader := "今天的日程："

  /** A bullet line of the event list; an untitled event is "无标题". */
  function EventLine(e: DayEvent): (line: string)
    ensures line != [] && line[0] == '•'
  {
    "• " + e.time + " " + e.title.GetOr("无标题")
  }

  /** `queryCalendarEvents`: a header line and one bullet line per event. */
  function QueryEvents(events: seq<DayEvent>): (r: NativeToolResult)
    ensures r.Success?
    ensures events == [] <==> r.message == NoEventsMessage
  {
    if events == [] then Success(NoEventsMessage)
    else
      var lines := seq(|events|, i requires 0 <= i < |events| => EventLine(events[i]));
      var message := Join([EventsHeader] + lines, '\n');
      assert message[2] != NoEventsMessage[2] by {
        assert message == EventsHeader + ['\n'] + Join(([EventsHeader] + lines)[1..], '\n');
      }
      Success(message)
  }

  /**
   * When no event's time or title holds a line break, the message splits on
   * line breaks into the header and exactly one line per event, in order.
   */
  lemma QueryEventsLines(events: seq<DayEvent>)
    requires events != []
    requires forall i :: 0 <= i < |events| ==>
      AllIn(events[i].time, IsNot('\n')) && AllIn(events[i].title.GetOr("无标题"), IsNot('\n'))
    ensures var pieces := Split(QueryEvents(events).message, '\n');
      |pieces| == |events| + 1 && pieces[0] == EventsHeader
      && forall i :: 0 <= i < |events| ==> pieces[i + 1] == EventLine(events[i])
  {
    var lines := seq(|events|, i requires 0 <= i < |events| => EventLine(events[i]));
    var pieces := [EventsHeader] + lines;
    forall i | 0 <= i < |pieces|
      ensures pieces[i] != [] && AllIn(pieces[i], IsNot('\n'))
    {
      if i > 0 {
        var e := events[i - 1];
        assert pieces[i] == "• " + e.time + " " + e.title.GetOr("无标题");
      }
    }
    SplitJoin(pieces, '\n');
  }

  /** `executeCalendarAction`: the permission first, then the action name. */
  function CalendarAction(a: PendingClientAction, status: PermissionStatus, formats: seq<DateFormat>,
                          saveError: Option<string>, today: seq<DayEvent>): (r: (NativeToolResult, Option<CalendarEvent>))
    ensures status != Authorized ==> r == (PermissionGate(status, Calendar).value, None)
    ensures status == Authorized && a.action == "create_event" ==> r == CreateEvent(a, formats, saveError)
    ensures status == Authorized && a.action == "query_events" ==> r == (QueryEvents(today), None)
    ensures status == Authorized && a.action !in {"create_event", "query_events"} ==>
      r == (Failed("Unknown calendar action: " + a.action), None)
  {
    match PermissionGate(status, Calendar)
    case Some(blocked) => (blocked, None)
    case None =>
      if a.action == "create_event" then CreateEvent(a, formats, saveError)
      else if a.action == "query_events" then (QueryEvents(today), None)
      else (Failed("Unknown calendar action: " + a.action), None)
  }

  const HealthPlaceholder := "健康数据查询功能开发中"

  /** `executeHealthAction`: past the permission, every action gets the placeholder text. */
  function HealthAction(status: PermissionStatus): (r: NativeToolResult)
    ensures status == Authorized <==> r == Success(HealthPlaceholder)
    ensures status != Authorized ==> r == PermissionGate(status, Health).value
  {
    match PermissionGate(status, Health)
    case Some(blocked) => blocked
    case None => Success(HealthPlaceholder)
  }

  // ---------------------------------------------------------------------------
  // Dispatch
  // ---------------------------------------------------------------------------

  /** What the device answers during one execution. */
  datatype Device = Device(
    platform: Platform,
    formats: seq<DateFormat>,
    saveError: Option<string>,
    today: seq<DayEvent>)

  /** The result, the permission cache afterwards, and the event handed to the store. */
  datatype Execution = Execution(result: NativeToolResult, cache: Cache, event: Option<CalendarEvent>)

  /**
   * `execute`: dispatch on exactly four tool names. Calendar and health look up
   * their permission through the cache; screen time is always denied.
   */
  function Execute(a: PendingClientAction, cache: Cache, d: Device): (r: Execution)
    ensures a.tool !in {"alarm_manager", "calendar_manager", "health_data", "screen_time"} ==>
      r == Execution(Failed("Unknown tool: " + a.tool), cache, None)
    ensures a.tool == "alarm_manager" ==> r == Execution(AlarmAction(a), cache, None)
    ensures a.tool == "screen_time" ==> r == Execution(PermissionDenied(DenialMessage(ScreenTime)), cache, None)
    ensures r.event.Some? ==> a.tool == "calendar_manager" && a.action == "create_event"
    ensures r.result.PermissionRequired? ==> a.tool in {"calendar_manager", "health_data"} && RawValue(r.result.permission) == a.tool
    ensures a.tool == "calendar_manager" ==>
      var (status, c) := CheckStatus(cache, Calendar, d.platform);
      && r.cache == c
      && (status != Authorized ==> r.result == PermissionGate(status, Calendar).value && r.event.None?)
      && (status == Authorized && a.action == "create_event" ==> (r.result, r.event) == CreateEvent(a, d.formats, d.saveError))
      && (status == Authorized && a.action == "query_events" ==> r.result == QueryEvents(d.today) && r.event.None?)
      && (status == Authorized && a.action !in {"create_event", "query_events"} ==>
            r.result == Failed("Unknown calendar action: " + a.action) && r.event.None?)
    ensures a.tool == "health_data" ==>
      var (status, c) := CheckStatus(cache, Health, d.platform);
      && r.cache == c && r.event.None?
      && (status == Authorized ==> r.result == Success(HealthPlaceholder))
      && (status != Authorized ==> r.result == PermissionGate(status, Health).value)
  {
    if a.tool == "alarm_manager" then Execution(AlarmAction(a), cache, None)
    else if a.tool == "calendar_manager" then
      var (status, c) := CheckStatus(cache, Calendar, d.platform);
      var (result, event) := CalendarAction(a, status, d.formats, d.saveError, d.today);
      Execution(result, c, event)
    else if a.tool == "health_data" then
      var (status, c) := CheckStatus(cache, Health, d.platform);
      Execution(HealthAction(status), c, None)
    else if a.tool == "screen_time" then Execution(PermissionDenied(DenialMessage(ScreenTime)), cache, None)
    else Execution(Failed("Unknown tool: " + a.tool), cache, None)
  }

  /** `checkPermissionStatus(for:)`: nil for a tool without a permission, else the (cached) status. */
  function CheckPermissionStatus(a: PendingClientAction, cache: Cache, p: Platform): (r: (Option<PermissionStatus>, Cache))
    ensures r.0.None? <==> !RequiresPermission(a.tool)
    ensures r.0.None? ==> r.1 == cache
  {
    match PermissionTypeFor(a.tool)
    case None => (None, cache)
    case Some(t) =>
      var (s, c) := CheckStatus(cache, t, p);
      (Some(s), c)
  }

  /**
   * For calendar and health, what `execute` reports about the permission is
   * what `checkPermissionStatus` says, and both leave the same cache behind.
   */
  lemma ExecuteAgreesWithCheck(a: PendingClientAction, cache: Cache, d: Device)
    requires a.tool in {"calendar_manager", "health_data"}
    ensures var (s, c) := CheckPermissionStatus(a, cache, d.platform);
      var r := Execute(a, cache, d);
      && s.Some? && r.cache == c
      && (r.result.PermissionRequired? <==> s.value == NotDetermined)
      && (r.result.PermissionDenied? <==> s.value in {Denied, Restricted})
  {
    var t := PermissionTypeFor(a.tool).value;
    var (status, c) := CheckStatus(cache, t, d.platform);
    if status == Authorized && t == Calendar {
      var r := CalendarAction(a, status, d.formats, d.saveError, d.today);
      assert !r.0.PermissionRequired? && !r.0.PermissionDenied?;
    }
  }

  /**
   * Screen time is the one tool whose check and execution disagree: with a
   * consistent cache the check says undetermined, yet executing is denied.
   */
  lemma ScreenTimeCheckDisagrees(a: PendingClientAction, cache: Cache, d: Device)
    requires a.tool == "screen_time" && CacheConsistent(cache, d.platform)
    ensures CheckPermissionStatus(a, cache, d.platform).0 == Some(NotDetermined)
    ensures Execute(a, cache, d).result.PermissionDenied?
  {
  }
}

=== FILE: next_task.dfy ===
/**
 * The helper script that asks for the next task: it prints a banner and a
 * prompt, ends the session on "exit" or "quit" in any case and with any
 * surrounding whitespace, and otherwise echoes the task back. The read from
 * standard input is the parameter; what is printed is returned as lines.
 */
module NextTask {
  import opened Common

  /** A string of `n` copies of `c`, like Python's `c * n`. */
  function Repeat(c: char, n: nat): (s: string)
    ensures |s| == n
    ensures forall i :: 0 <= i < n ==> s[i] == c
  {
    seq(n, i => c)
  }

  /** The separator printed above and below the prompt. */
  const Banner := Repeat('=', 120)

  /** Python's `str.isspace` for one character: the whitespace and newline class plus the four ASCII separators U+001C to U+001F. */
  predicate IsPySpace(c: char) {
    IsWhitespaceOrNewline(c) || ('\U{001C}' <= c <= '\U{001F}')
  }

  predicate IsNotPySpace(c: char) {
    !IsPySpace(c)
  }

  /** `lower()` of one character, on ASCII letters. */
  function LowerChar(c: char): (l: char)
    ensures IsPySpace(l) <==> IsPySpace(c)
    ensures 'A' <= c <= 'Z' ==> l != c
    ensures !('A' <= c <= 'Z') ==> l == c
  {
    if 'A' <= c <= 'Z' then (c as int - 'A' as int + 'a' as int) as char else c
  }

  function Lower(s: string): (r: string)
    ensures |r| == |s|
    ensures forall i :: 0 <= i < |s| ==> r[i] == LowerChar(s[i])
  {
    seq(|s|, i requires 0 <= i < |s| => LowerChar(s[i]))
  }

  /** Python's `strip()` with no argument. */
  function Strip(s: string): string {
    Trim(s, IsPySpace)
  }

  /** The words that end the session. */
  const ExitWords: seq<string> := ["exit", "quit"]

  /** Whether an input ends the session. */
  predicate IsExitCommand(input: string)
    ensures IsExitCommand(input) ==> |input| >= 4 && !AllIn(input, IsPySpace)
  {
    Strip(Lower(input)) in ExitWords
  }

  lemma LowerConcat(a: string, b: string)
    ensures Lower(a + b) == Lower(a) + Lower(b)
  {
  }

  lemma LowerKeepsSpace(s: string)
    ensures AllIn(Lower(s), IsPySpace) <==> AllIn(s, IsPySpace)
  {
    assert forall i :: 0 <= i < |s| ==> (IsPySpace(Lower(s)[i]) <==> IsPySpace(s[i]));
  }

  /** Whitespace around a trimmed word stays whitespace after lower-casing, and stripping removes exactly it. */
  lemma StripLowerPadded(p: string, t: string, q: string)
    requires AllIn(p, IsPySpace) && AllIn(q, IsPySpace)
    requires t != [] && IsTrimmed(t, IsPySpace)
    ensures Strip(Lower(p + t + q)) == Lower(t)
  {
    LowerConcat(p + t, q);
    LowerConcat(p, t);
    LowerKeepsSpace(p);
    LowerKeepsSpace(q);
    var lt := Lower(t);
    assert !IsPySpace(lt[0]) && !IsPySpace(lt[|lt| - 1]);
    TrimPadded(Lower(p), lt, Lower(q), IsPySpace);
  }

  /** Lower-casing and stripping can be done in either order. */
  lemma LowerStripCommute(s: string)
    ensures Strip(Lower(s)) == Lower(Strip(s))
  {
    TrimIsInfix(s, IsPySpace);
    var k := TrimOffset(s, IsPySpace);
    var t := Strip(s);
    if t == [] {
      LowerKeepsSpace(s);
    } else {
      var p, q := s[..k], s[k + |t|..];
      assert s == p + t + q;
      StripLowerPadded(p, t, q);
    }
  }

  /**
   * An input ends the session exactly when, stripped of surrounding
   * whitespace, it spells "exit" or "quit" in some mix of upper and lower case.
   */
  lemma ExitCommandIff(input: string)
    ensures IsExitCommand(input) <==> Lower(Strip(input)) in ExitWords
    ensures IsExitCommand(input) ==> |Strip(input)| == 4
  {
    LowerStripCommute(input);
  }

  /** Any case variant of an exit word, padded with any whitespace, ends the session. */
  lemma PaddedVariantsExit(p: string, w: string, q: string)
    requires AllIn(p, IsPySpace) && AllIn(q, IsPySpace)
    requires Lower(w) in ExitWords
    ensures IsExitCommand(p + w + q)
  {
    var lw := Lower(w);
    assert !IsPySpace(lw[0]) && !IsPySpace(lw[|lw| - 1]);
    StripLowerPadded(p, w, q);
  }

  /** A trimmed input that is not four characters long is a task. */
  lemma WrongLengthIsTask(input: string)
    requires IsTrimmed(input, IsPySpace) && |input| != 4
    ensures !IsExitCommand(input)
  {
    ExitCommandIff(input);
  }

  /** A word that lower-cases to an exit word ends the session. */
  lemma WordExits(w: string)
    requires Lower(w) in ExitWords
    ensures IsExitCommand(w)
  {
    PaddedVariantsExit([], w, []);
    assert [] + w + [] == w;
  }

  /** "EXIT" and "Quit" end the session. */
  lemma CaseVariantsExit()
    ensures IsExitCommand("EXIT") && IsExitCommand("Quit")
  {
    var u, t := "EXIT", "Quit";
    assert Lower(u) == "exit" by {
      assert Lower(u)[0] == 'e' && Lower(u)[1] == 'x' && Lower(u)[2] == 'i' && Lower(u)[3] == 't';
    }
    assert Lower(t) == "quit" by {
      assert Lower(t)[0] == 'q' && Lower(t)[1] == 'u' && Lower(t)[2] == 'i' && Lower(t)[3] == 't';
    }
    WordExits(u);
    WordExits(t);
  }

  /** "quit" between two spaces on each side ends the session. */
  lemma PaddedQuitExits()
    ensures IsExitCommand("  " + "quit" + "  ")
  {
    var pad := "  ";
    assert AllIn(pad, IsPySpace) by {
      assert pad[0] == ' ' && pad[1] == ' ';
    }
    var w := "quit";
    assert Lower(w) == w by {
      assert Lower(w)[0] == 'q' && Lower(w)[1] == 'u' && Lower(w)[2] == 'i' && Lower(w)[3] == 't';
    }
    PaddedVariantsExit(pad, w, pad);
  }

  /** "", "exit now" and "ex it" are tasks. */
  lemma TaskExamples()
    ensures !IsExitCommand("") && !IsExitCommand("exit now") && !IsExitCommand("ex it")
  {
    WrongLengthIsTask("");
    WrongLengthIsTask("exit now");
    WrongLengthIsTask("ex it");
  }

  /** The lines printed before the input is read. */
  const PromptLines: seq<string> := [
    "\n" + Banner,
    "Please describe the next task you'd like me to work on.",
    "You can also type 'exit' or 'quit' to end the session.",
    Banner
  ]

  /** What `input` writes before it reads, with no line break after it. */
  const InputPrompt := "> "

  /** What `print` writes for each of `lines`: the line and a line break. */
  function Printed(lines: seq<string>): (out: string)
    ensures |out| >= |lines|
    ensures lines != [] ==> out[|out| - 1] == '\n'
  {
    if lines == [] then [] else Printed(lines[..|lines| - 1]) + lines[|lines| - 1] + "\n"
  }

  /** Everything on the terminal before the task is typed: the four prompt lines, then the input marker. */
  function PromptOutput(): (out: string)
    ensures |out| > |PromptLines| + 2
    ensures out[|out| - 2..] == InputPrompt && out[|out| - 3] == '\n'
  {
    Printed(PromptLines) + InputPrompt
  }

  /** How the script ends: `Ended` exits the session, `Accepted` hands the task on. */
  datatype Outcome = Ended(lines: seq<string>) | Accepted(lines: seq<string>)

  const InterruptedLine := "\nSession ended by user."
  const GoodbyeLine := "Session ended. Goodbye!"
  const ReceivedLine := "\nReceived next task:"
  const ThanksLine := "\nThank you, I will get to work on that now."

  /** The quoted, indented echo of a task, exactly as it was typed. */
  function EchoLine(task: string): (line: string)
    ensures |line| == |task| + 4
    ensures line[..3] == "  \"" && line[3..|line| - 1] == task && line[|line| - 1] == '"'
  {
    "  \"" + task + "\""
  }

  /**
   * `get_next_task` after the prompt: `input` is the line read, or None when
   * the reader interrupted it.
   */
  function Respond(input: Option<string>): (r: Outcome)
    ensures input.None? ==> r == Ended([InterruptedLine])
    ensures input.Some? ==> (r.Ended? <==> IsExitCommand(input.value))
    ensures r.Ended? && input.Some? ==> r.lines == [GoodbyeLine]
    ensures r.Accepted? ==> input.Some? && r.lines == [ReceivedLine, EchoLine(input.value), ThanksLine]
  {
    match input
    case None => Ended([InterruptedLine])
    case Some(task) =>
      if IsExitCommand(task) then Ended([GoodbyeLine])
      else Accepted([ReceivedLine, EchoLine(task), ThanksLine])
  }

  /** The banner lines are 120 '=' characters, the first after a blank line. */
  lemma BannerShape()
    ensures PromptLines[0] == "\n" + Banner && PromptLines[3] == Banner
    ensures |Banner| == 120 && forall i :: 0 <= i < |Banner| ==> Banner[i] == '='
  {
  }

  /** An accepted task is echoed unstripped: padding typed around it stays inside the quotes. */
  lemma TaskEchoedRaw(task: string)
    requires !IsExitCommand(task)
    ensures Respond(Some(task)).Accepted?
    ensures Respond(Some(task)).lines[1][3..|task| + 3] == task
  {
  }

  /** The empty line is a task, not an exit. */
  lemma EmptyInputIsTask()
    ensures Respond(Some("")).Accepted? && Respond(Some("")).lines[1] == "  \"\""
  {
    TaskExamples();
  }
}

=== FILE: onboarding_state.dfy ===
/**
 * The onboarding flow's shared state: which screen comes first after launch,
 * the nickname rules, and what submitting the profile does to the state and
 * to the session store. UserDefaults persistence, date formatting and the
 * network are not modelled; the server's answers are inputs.
 */
module OnboardingState {
  import opened Common
  import AuthManager
  import GoalModels

  /** The screens of the onboarding flow, in their declaration order. */
  datatype Step =
    | Splash | Intro | Login | Nickname | Profile | Loading | BaziResult
    | KycIntro | KycPersonality | KycPersonalityEnd | KycChat | KycEnd
    | GoalChat | GoalPlanStep | Subscription | Home

  datatype Gender = Female | Male

  datatype Accuracy = NotAccurate | PartiallyAccurate | VeryAccurate

  /** How the flow reached the KYC end screen. */
  datatype KycEndMode = DefaultGoal | SkippedIcebreaking

  datatype PersonalityTrait = PersonalityTrait(id: int, text: string)

  /** A city picked in the profile step, with the fields onboarding uses. */
  datatype City = City(id: string, name: string)

  datatype Onboarding = Onboarding(
    showLoginOption: bool,
    currentStep: Step,
    nickname: string,
    gender: Gender,
    selectedCity: Option<City>,
    submitUserId: Option<int>,
    isSubmitting: bool,
    submitError: Option<string>,
    currentGoalId: Option<int>,
    goalPlan: Option<GoalModels.GoalPlan>,
    personalityTraits: seq<PersonalityTrait>,
    currentPersonalityIndex: int,
    ratings: map<int, Accuracy>,
    kycEndMode: KycEndMode)

  /** The state a fresh `OnboardingState()` starts in. */
  const Initial := Onboarding(true, Splash, "", Female, None, None, false, None, None, None, [], 0, map[], DefaultGoal)

  const NicknameMaxLength := 12

  // ---------------------------------------------------------------------------
  // Nicknames
  // ---------------------------------------------------------------------------

  /**
   * The Unicode script property Han (Scripts.txt of Unicode 15.0): it covers
   * the whole CJK Unified Ideographs block and lies between the CJK radicals
   * and the last extension, clear of ASCII and of every space character.
   */
  predicate IsHan(c: char)
    ensures '\U{4E00}' <= c <= '\U{9FFF}' ==> IsHan(c)
    ensures IsHan(c) ==> '\U{2E80}' <= c <= '\U{323AF}' && !IsAsciiLetter(c) && !IsWhitespaceOrNewline(c)
  {
    || ('\U{2E80}' <= c <= '\U{2E99}')
    || ('\U{2E9B}' <= c <= '\U{2EF3}')
    || ('\U{2F00}' <= c <= '\U{2FD5}')
    || c == '\U{3005}'
    || c == '\U{3007}'
    || ('\U{3021}' <= c <= '\U{3029}')
    || ('\U{3038}' <= c <= '\U{303B}')
    || ('\U{3400}' <= c <= '\U{4DBF}')
    || ('\U{4E00}' <= c <= '\U{9FFF}')
    || ('\U{F900}' <= c <= '\U{FA6D}')
    || ('\U{FA70}' <= c <= '\U{FAD9}')
    || ('\U{16FE2}' <= c <= '\U{16FE3}')
    || ('\U{16FF0}' <= c <= '\U{16FF1}')
    || ('\U{20000}' <= c <= '\U{2A6DF}')
    || ('\U{2A700}' <= c <= '\U{2B739}')
    || ('\U{2B740}' <= c <= '\U{2B81D}')
    || ('\U{2B820}' <= c <= '\U{2CEA1}')
    || ('\U{2CEB0}' <= c <= '\U{2EBE0}')
    || ('\U{2F800}' <= c <= '\U{2FA1D}')
    || ('\U{30000}' <= c <= '\U{3134A}')
    || ('\U{31350}' <= c <= '\U{323AF}')
  }

  /** The regex class `[\p{Han}A-Za-z]`: no space, line break or digit belongs to it. */
  predicate IsNicknameChar(c: char)
    ensures IsNicknameChar(c) ==> !IsWhitespaceOrNewline(c) && !IsLineTerminator(c) && !IsAsciiDigit(c)
    ensures IsAsciiLetter(c) ==> IsNicknameChar(c)
  {
    IsHan(c) || IsAsciiLetter(c)
  }

  /** No whitespace or newline character can appear in a nickname. */
  lemma WhitespaceIsNotNicknameChar()
    ensures forall c :: IsWhitespaceOrNewline(c) ==> !IsNicknameChar(c)
  {
  }

  /**
   * The intended nickname rule: 1 to `maxLength` characters, each a Han
   * character or an ASCII letter.
   */
  predicate IsValidNickname(value: string, maxLength: int)
    ensures IsValidNickname(value, maxLength) ==>
      && 0 < |value| <= maxLength
      && !IsWhitespaceOrNewline(value[0]) && !IsWhitespaceOrNewline(value[|value| - 1])
      && forall i :: 0 <= i < |value| ==> !IsLineTerminator(value[i])
  {
    0 < |value| <= maxLength && AllIn(value, IsNicknameChar)
  }

  /** The line terminators before which ICU's `$` also matches at the end of the input. */
  predicate IsLineTerminator(c: char) {
    ('\U{000A}' <= c <= '\U{000D}') || c == '\U{0085}' || c == '\U{2028}' || c == '\U{2029}'
  }

  /** What `^[\p{Han}A-Za-z]{1,max}$` matches inside the whole value. */
  predicate MatchesNicknamePattern(value: string, maxLength: int)
    ensures IsValidNickname(value, maxLength) ==> MatchesNicknamePattern(value, maxLength)
    ensures MatchesNicknamePattern(value, maxLength) ==>
      0 < |value| && (IsLineTerminator(value[|value| - 1]) || IsValidNickname(value, maxLength))
  {
    || (0 < |value| <= maxLength && AllIn(value, IsNicknameChar))
    || (1 < |value| && IsLineTerminator(value[|value| - 1])
        && |value| - 1 <= maxLength && AllIn(value[..|value| - 1], IsNicknameChar))
    || (2 < |value| && value[|value| - 2..] == "\r\n"
        && |value| - 2 <= maxLength && AllIn(value[..|value| - 2], IsNicknameChar))
  }

  /**
   * `isValidNickname(_:maxLength:)` as written: the length guard, then the
   * anchored regular expression, whose `$` lets one final line break through.
   */
  predicate IsValidNicknameAsWritten(value: string, maxLength: int)
    ensures IsValidNicknameAsWritten(value, maxLength) ==> 0 < |value| <= maxLength && IsNicknameChar(value[0])
  {
    0 < |value| <= maxLength && MatchesNicknamePattern(value, maxLength)
  }

  /** Empty and over-long values are rejected, and everything the intended rule accepts still passes. */
  lemma NicknameGuard(value: string, maxLength: int)
    ensures |value| == 0 ==> !IsValidNicknameAsWritten(value, maxLength) && !IsValidNickname(value, maxLength)
    ensures |value| > maxLength ==> !IsValidNicknameAsWritten(value, maxLength) && !IsValidNickname(value, maxLength)
    ensures IsValidNickname(value, maxLength) ==> IsValidNicknameAsWritten(value, maxLength)
  {
  }

  /** A letter followed by a newline passes the check as written, though a newline is not a letter. */
  lemma TrailingNewlineAccepted()
    ensures IsValidNicknameAsWritten("ab\n", NicknameMaxLength)
    ensures !IsValidNickname("ab\n", NicknameMaxLength)
  {
    assert AllIn("ab\n"[..2], IsNicknameChar) by {
      assert "ab\n"[..2] == "ab";
    }
    assert !IsNicknameChar("ab\n"[2]);
  }

  /** The two rules differ only on values that end in a line break. */
  lemma AsWrittenDiffersOnlyAtLineBreak(value: string, maxLength: int)
    requires IsValidNicknameAsWritten(value, maxLength) && !IsValidNickname(value, maxLength)
    ensures IsLineTerminator(value[|value| - 1])
  {
  }

  /**
   * `sanitizeNickname`: trim whitespace and newlines, drop every character that
   * is neither Han nor an ASCII letter, keep the first 12. The fallback for a
   * regular expression that fails to compile is dead: the pattern is a constant.
   */
  function SanitizeNickname(value: string): (r: string)
    ensures |r| <= NicknameMaxLength
    ensures AllIn(r, IsNicknameChar)
  {
    var cleaned := Filter(Trim(value, IsWhitespaceOrNewline), IsNicknameChar);
    if |cleaned| <= NicknameMaxLength then cleaned else cleaned[..NicknameMaxLength]
  }

  /**
   * The reference reading of the sanitiser, without the trim: the first 12
   * nickname characters of the input, in their original order.
   */
  lemma SanitizeKeepsFirstNicknameChars(value: string)
    ensures var kept := Filter(value, IsNicknameChar);
      SanitizeNickname(value) == kept[..if |kept| <= NicknameMaxLength then |kept| else NicknameMaxLength]
  {
    WhitespaceIsNotNicknameChar();
    FilterOfTrim(value, IsWhitespaceOrNewline, IsNicknameChar);
  }

  /** The sanitised nickname is the input with characters deleted, nothing added or reordered. */
  lemma SanitizeIsSubsequence(value: string)
    ensures IsSubsequence(SanitizeNickname(value), value)
  {
    SanitizeKeepsFirstNicknameChars(value);
    var kept := Filter(value, IsNicknameChar);
    FilterIsSubsequence(value, IsNicknameChar);
    SubsequencePrefix(kept, value, if |kept| <= NicknameMaxLength then |kept| else NicknameMaxLength);
  }

  /** Whatever the input, the sanitised nickname is empty or valid. */
  lemma SanitizeGivesValidOrEmpty(value: string)
    ensures SanitizeNickname(value) == [] || IsValidNickname(SanitizeNickname(value), NicknameMaxLength)
  {
  }

  /** A valid nickname is exactly a non-empty value the sanitiser leaves alone. */
  lemma ValidIffSanitizeFixes(value: string)
    ensures IsValidNickname(value, NicknameMaxLength) <==> value != [] && SanitizeNickname(value) == value
  {
    if IsValidNickname(value, NicknameMaxLength) {
      SanitizeKeepsFirstNicknameChars(value);
      FilterAll(value, IsNicknameChar);
    }
  }

  /** Sanitising twice changes nothing more. */
  lemma SanitizeIdempotent(value: string)
    ensures SanitizeNickname(SanitizeNickname(value)) == SanitizeNickname(value)
  {
    var s := SanitizeNickname(value);
    if s != [] {
      ValidIffSanitizeFixes(s);
    } else {
      assert Trim(s, IsWhitespaceOrNewline) == [];
    }
  }

  // ---------------------------------------------------------------------------
  // First screen after launch
  // ---------------------------------------------------------------------------

  /** The first screen for a signed-in user the server returned. */
  function ScreenForUser(u: AuthManager.CurrentUser, hasAccess: bool): (r: Step)
    ensures r == Login <==> u.isGuest
    ensures r == Intro <==> !u.isGuest && !u.hasCompletedOnboarding
    ensures r == Home <==> !u.isGuest && u.hasCompletedOnboarding && hasAccess
    ensures r == Subscription <==> !u.isGuest && u.hasCompletedOnboarding && !hasAccess
  {
    if u.isGuest then Login
    else if !u.hasCompletedOnboarding then Intro
    else if hasAccess then Home
    else Subscription
  }

  /** Back to the start: the intro with the login option; nothing else is touched. */
  function StartFresh(ob: Onboarding): (r: Onboarding)
    ensures r.currentStep == Intro && r.showLoginOption
    ensures r.(showLoginOption := ob.showLoginOption, currentStep := ob.currentStep) == ob
  {
    ob.(showLoginOption := true, currentStep := Intro)
  }

  /**
   * `initializeFromAuthState`. `refresh` and `answer` are the server's replies
   * to the token refresh and to `/auth/me`; `hasAccess` is the subscription
   * check's verdict. Returns the onboarding state and the session store.
   */
  function InitializeFromAuthState(
    ob: Onboarding, auth: AuthManager.AuthState, refresh: AuthManager.RefreshAnswer,
    answer: AuthManager.UserAnswer, now: int, hasAccess: bool): (r: (Onboarding, AuthManager.AuthState))
    ensures !AuthManager.HasStoredToken(auth) ==> r == (StartFresh(ob), auth)
    ensures AuthManager.HasStoredToken(auth) && AuthManager.FetchCurrentUser(auth, refresh, answer, now).1.FetchThrew? ==>
      r.0 == StartFresh(ob) && AuthManager.IsCleared(r.1)
    ensures AuthManager.HasStoredToken(auth) && AuthManager.FetchCurrentUser(auth, refresh, answer, now).1.FetchOk? ==>
      && answer.UserFetched?
      && r.0.currentStep == ScreenForUser(answer.user, hasAccess)
      && r.0.submitUserId == Some(answer.user.id)
      && r.0.nickname == answer.user.nickname
      && r.0.showLoginOption == (ob.showLoginOption && (answer.user.isGuest || answer.user.hasCompletedOnboarding))
      && r.1 == AuthManager.FetchCurrentUser(auth, refresh, answer, now).0
  {
    if !AuthManager.HasStoredToken(auth) then (StartFresh(ob), auth)
    else
      var (auth1, fetched) := AuthManager.FetchCurrentUser(auth, refresh, answer, now);
      if fetched.FetchThrew? then (StartFresh(ob), AuthManager.ClearTokens(auth1))
      else
        match auth1.currentUser
        case None => (StartFresh(ob), AuthManager.ClearTokens(auth1))
        case Some(u) =>
          var known := ob.(submitUserId := Some(u.id), nickname := u.nickname);
          if u.isGuest then (known.(currentStep := Login), auth1)
          else if !u.hasCompletedOnboarding then (known.(showLoginOption := false, currentStep := Intro), auth1)
          else (known.(currentStep := if hasAccess then Home else Subscription), auth1)
  }

  /**
   * The routing table for a stored, unexpired access token: the user the
   * server returns decides the screen, and only a signed-in user who has not
   * finished onboarding sees the intro without the login option.
   */
  lemma RoutingTable(ob: Onboarding, auth: AuthManager.AuthState, refresh: AuthManager.RefreshAnswer,
                     u: AuthManager.CurrentUser, now: int, hasAccess: bool)
    requires auth.accessToken.Some? && !AuthManager.NeedsRefresh(auth, now)
    ensures var r := InitializeFromAuthState(ob, auth, refresh, AuthManager.UserFetched(u), now, hasAccess);
      && (u.isGuest ==> r.0.currentStep == Login)
      && (!u.isGuest && !u.hasCompletedOnboarding ==> r.0.currentStep == Intro && !r.0.showLoginOption)
      && (!u.isGuest && u.hasCompletedOnboarding && hasAccess ==> r.0.currentStep == Home)
      && (!u.isGuest && u.hasCompletedOnboarding && !hasAccess ==> r.0.currentStep == Subscription)
      && AuthManager.HasStoredToken(r.1)
  {
  }

  /** Every way the user lookup can fail ends on the intro with the login option and no stored token. */
  lemma FailedLookupStartsFresh(ob: Onboarding, auth: AuthManager.AuthState, refresh: AuthManager.RefreshAnswer,
                                message: string, now: int, hasAccess: bool)
    requires AuthManager.HasStoredToken(auth)
    ensures var r := InitializeFromAuthState(ob, auth, refresh, AuthManager.UserFetchFailed(message), now, hasAccess);
      r.0.currentStep == Intro && r.0.showLoginOption && !AuthManager.HasStoredToken(r.1)
  {
  }

  /** The intro without the login option is reached only by a non-guest who has not finished onboarding. */
  lemma NoLoginOptionMeansIncompleteUser(ob: Onboarding, auth: AuthManager.AuthState, refresh: AuthManager.RefreshAnswer,
                                         answer: AuthManager.UserAnswer, now: int, hasAccess: bool)
    requires ob.showLoginOption
    ensures var r := InitializeFromAuthState(ob, auth, refresh, answer, now, hasAccess);
      !r.0.showLoginOption ==>
        answer.UserFetched? && !answer.user.isGuest && !answer.user.hasCompletedOnboarding && r.0.currentStep == Intro
  {
  }

  // ---------------------------------------------------------------------------
  // Submitting the profile
  // ---------------------------------------------------------------------------

  /** The fields of `OnboardingSubmitRequest` the model tracks (the birth time is formatted elsewhere). */
  datatype SubmitRequest = SubmitRequest(nickname: string, cityId: string, gender: Gender)

  /** The fields of the submit response onboarding acts on. */
  datatype SubmitResponse = SubmitResponse(
    userId: int,
    accessToken: Option<string>,
    refreshToken: Option<string>,
    expiresIn: Option<int>,
    personalityTraits: Option<seq<PersonalityTrait>>)

  datatype SubmitOutcome = Submitted(response: SubmitResponse) | SubmitFailed(message: string)

  /** The request `submitOnboarding` sends, or none when no city is selected. */
  function RequestFor(ob: Onboarding): (r: Option<SubmitRequest>)
    ensures r.None? <==> ob.selectedCity.None?
    ensures r.Some? ==> r.value.cityId == ob.selectedCity.value.id && r.value.nickname == ob.nickname && r.value.gender == ob.gender
  {
    match ob.selectedCity
    case None => None
    case Some(city) => Some(SubmitRequest(ob.nickname, city.id, ob.gender))
  }

  /** `submitOnboarding`: `outcome` is the server's reply to `RequestFor(ob)`. */
  function SubmitOnboarding(ob: Onboarding, auth: AuthManager.AuthState, outcome: SubmitOutcome, now: int): (r: (Onboarding, AuthManager.AuthState))
    ensures ob.selectedCity.None? ==> r == (ob, auth)
    ensures ob.selectedCity.Some? ==> !r.0.isSubmitting && r.0.currentStep == ob.currentStep
    ensures ob.selectedCity.Some? && outcome.SubmitFailed? ==>
      r.0 == ob.(isSubmitting := false, submitError := Some(outcome.message)) && r.1 == auth
    ensures ob.selectedCity.Some? && outcome.Submitted? ==>
      && r.0.submitUserId == Some(outcome.response.userId)
      && r.0.submitError.None?
      && r.0.currentPersonalityIndex == 0 && r.0.ratings == map[]
      && r.0.personalityTraits == outcome.response.personalityTraits.GetOr([])
    ensures ob.selectedCity.Some? && outcome.Submitted? ==>
      r.0.(submitUserId := ob.submitUserId, personalityTraits := ob.personalityTraits,
           currentPersonalityIndex := ob.currentPersonalityIndex, ratings := ob.ratings,
           submitError := ob.submitError, isSubmitting := ob.isSubmitting) == ob
  {
    if ob.selectedCity.None? then (ob, auth)
    else
      var started := ob.(isSubmitting := true, submitError := None);
      match outcome
      case SubmitFailed(msg) => (started.(submitError := Some(msg), isSubmitting := false), auth)
      case Submitted(resp) =>
        var auth1 :=
          if resp.accessToken.Some? && resp.refreshToken.Some? && resp.expiresIn.Some? then
            AuthManager.SaveTokens(auth, resp.accessToken.value, resp.refreshToken.value, resp.expiresIn.value, now)
          else auth;
        (started.(submitUserId := Some(resp.userId),
                  personalityTraits := resp.personalityTraits.GetOr([]),
                  currentPersonalityIndex := 0,
                  ratings := map[],
                  isSubmitting := false), auth1)
  }

  /** Tokens are stored after a submit exactly when the response carried all three parts, or were stored already. */
  lemma SubmitStoresTokensWhenComplete(ob: Onboarding, auth: AuthManager.AuthState, resp: SubmitResponse, now: int)
    requires ob.selectedCity.Some?
    ensures var r := SubmitOnboarding(ob, auth, Submitted(resp), now);
      && (resp.accessToken.Some? && resp.refreshToken.Some? && resp.expiresIn.Some? ==>
            r.1.accessToken == resp.accessToken && r.1.isAuthenticated)
      && (resp.accessToken.None? || resp.refreshToken.None? || resp.expiresIn.None? ==> r.1 == auth)
  {
  }

  /** A failed submit keeps whatever a previous success recorded; a later success clears the error. */
  lemma RetryAfterFailureClearsError(ob: Onboarding, auth: AuthManager.AuthState, msg: string, resp: SubmitResponse, now: int)
    requires ob.selectedCity.Some?
    ensures var failed := SubmitOnboarding(ob, auth, SubmitFailed(msg), now);
      && failed.0.submitUserId == ob.submitUserId && failed.0.personalityTraits == ob.personalityTraits
      && SubmitOnboarding(failed.0, failed.1, Submitted(resp), now).0.submitError.None?
  {
  }
}

=== FILE: permission_manager.dfy ===
/**
 * The permission manager: which tools need a system permission, the
 * messages shown for each permission, and the per-type status cache. The
 * platform's own answers (EventKit's authorisation status, whether HealthKit
 * exists on the device, what a permission prompt returned) are inputs.
 */
module PermissionManager {
  import opened Common

  /** The three permissions; the alarm tool needs none. */
  datatype PermissionType = Calendar | Health | ScreenTime

  /** The raw value of each type, which is also the tool name it guards. */
  function RawValue(t: PermissionType): (s: string)
    ensures s in {"calendar_manager", "health_data", "screen_time"}
  {
    match t
    case Calendar => "calendar_manager"
    case Health => "health_data"
    case ScreenTime => "screen_time"
  }

  /** `permissionType(for:)`, which is `PermissionType(rawValue:)`. */
  function PermissionTypeFor(tool: string): (r: Option<PermissionType>)
    ensures r.Some? <==> tool in {"calendar_manager", "health_data", "screen_time"}
    ensures r.Some? ==> RawValue(r.value) == tool
  {
    if tool == "calendar_manager" then Some(Calendar)
    else if tool == "health_data" then Some(Health)
    else if tool == "screen_time" then Some(ScreenTime)
    else None
  }

  /** Every type is found again from its raw value, so raw values are distinct. */
  lemma PermissionTypeRoundTrip(t: PermissionType, u: PermissionType)
    ensures PermissionTypeFor(RawValue(t)) == Some(t)
    ensures RawValue(t) == RawValue(u) ==> t == u
  {
  }

  /** `requiresPermission(tool:)`. */
  function RequiresPermission(tool: string): (b: bool)
    ensures b <==> exists t: PermissionType :: RawValue(t) == tool
    ensures tool == "alarm_manager" ==> !b
  {
    var r := PermissionTypeFor(tool);
    if r.Some? then
      assert RawValue(r.value) == tool;
      true
    else
      assert forall t: PermissionType :: RawValue(t) != tool by {
        forall t: PermissionType ensures RawValue(t) != tool {
          PermissionTypeRoundTrip(t, t);
        }
      }
      false
  }

  /** `displayName`. */
  function DisplayName(t: PermissionType): (r: string)
    ensures |r| >= 2
  {
    match t
    case Calendar => "日历"
    case Health => "健康数据"
    case ScreenTime => "屏幕使用时间"
  }

  /** `contextMessage`: why the app asks. */
  function ContextMessage(t: PermissionType): (r: string)
    ensures |r| > 4 && r[..4] == "为了帮你"
  {
    match t
    case Calendar => "为了帮你管理日程，需要访问你的日历"
    case Health => "为了帮你查看健康数据，需要访问健康应用"
    case ScreenTime => "为了帮你查看屏幕使用情况，需要访问屏幕使用时间"
  }

  /** `denialMessage`: what the user can do instead. */
  function DenialMessage(t: PermissionType): (r: string)
    ensures |r| > 9 && r[..9] == "没关系，你也可以在"
  {
    match t
    case Calendar => "没关系，你也可以在系统日历中手动查看和管理日程"
    case Health => "没关系，你也可以在健康应用中查看相关数据"
    case ScreenTime => "没关系，你也可以在设置中查看屏幕使用时间"
  }

  /** Each type has its own name and its own messages, and no message is empty. */
  lemma MessagesDistinct(t: PermissionType, u: PermissionType)
    ensures t != u ==> DisplayName(t) != DisplayName(u)
    ensures t != u ==> ContextMessage(t) != ContextMessage(u)
    ensures t != u ==> DenialMessage(t) != DenialMessage(u)
    ensures DisplayName(t) != [] && ContextMessage(t) != [] && DenialMessage(t) != []
  {
    if t != u {
      assert DisplayName(t)[0] != DisplayName(u)[0];
      assert ContextMessage(t)[8] != ContextMessage(u)[8];
      assert DenialMessage(t)[9] != DenialMessage(u)[9];
    }
  }

  datatype PermissionStatus = NotDetermined | Authorized | Denied | Restricted

  /** EventKit's authorisation status for events, including the values it may add later. */
  datatype CalendarAuthorization =
    | EkNotDetermined | EkAuthorized | EkFullAccess | EkDenied | EkRestricted | EkWriteOnly | EkUnknown

  /** What the device reports: EventKit's status, and whether a HealthKit store exists. */
  datatype Platform = Platform(calendar: CalendarAuthorization, healthAvailable: bool)

  /** `checkCalendarStatus`: write-only access counts as restricted, an unknown value as undetermined. */
  function CalendarStatus(a: CalendarAuthorization): (s: PermissionStatus)
    ensures s == Authorized <==> a in {EkAuthorized, EkFullAccess}
    ensures s == Restricted <==> a in {EkRestricted, EkWriteOnly}
    ensures s == Denied <==> a == EkDenied
  {
    match a
    case EkNotDetermined => NotDetermined
    case EkAuthorized => Authorized
    case EkFullAccess => Authorized
    case EkDenied => Denied
    case EkRestricted => Restricted
    case EkWriteOnly => Restricted
    case EkUnknown => NotDetermined
  }

  /** The status the platform gives when nothing is cached. */
  function QueryStatus(t: PermissionType, p: Platform): (s: PermissionStatus)
    ensures t == Health ==> (s == Restricted <==> !p.healthAvailable) && s != Authorized && s != Denied
    ensures t == ScreenTime ==> s == NotDetermined
  {
    match t
    case Calendar => CalendarStatus(p.calendar)
    case Health => if p.healthAvailable then NotDetermined else Restricted
    case ScreenTime => NotDetermined
  }

  /** `cachedStatus`. */
  type Cache = map<PermissionType, PermissionStatus>

  /** `checkStatus(for:)`: the cached status if there is one, otherwise query and cache. */
  function CheckStatus(cache: Cache, t: PermissionType, p: Platform): (r: (PermissionStatus, Cache))
    ensures t in cache ==> r == (cache[t], cache)
    ensures t !in cache ==> r.0 == QueryStatus(t, p) && r.1 == cache[t := r.0]
    ensures t in r.1 && r.1[t] == r.0
  {
    if t in cache then (cache[t], cache)
    else
      var s := QueryStatus(t, p);
      (s, cache[t := s])
  }

  /** A second check answers from the cache: same status, same cache, whatever the platform now says. */
  lemma CheckStatusIsCached(cache: Cache, t: PermissionType, p: Platform, later: Platform)
    ensures var (s, c) := CheckStatus(cache, t, p);
      CheckStatus(c, t, later) == (s, c)
  {
  }

  /** `clearCache`. */
  function ClearCache(cache: Cache): (r: Cache)
    ensures forall t: PermissionType :: t !in r
  {
    map[]
  }

  /** After the cache is cleared, the next check asks the platform again. */
  lemma ClearThenCheckQueries(cache: Cache, t: PermissionType, p: Platform)
    ensures CheckStatus(ClearCache(cache), t, p).0 == QueryStatus(t, p)
  {
  }

  /** What a permission prompt came back with: a yes/no answer, or a thrown error. */
  datatype PromptAnswer = Answered(granted: bool) | PromptThrew

  /**
   * `requestPermission(for:)`. The calendar caches and returns what the user
   * chose, and denied on an error. Health returns restricted without a store;
   * otherwise a completed request counts as authorised (HealthKit does not say
   * which read types were granted) and an error as denied, and either is cached.
   * Screen time is denied and nothing is cached.
   */
  function RequestPermission(cache: Cache, t: PermissionType, p: Platform, answer: PromptAnswer): (r: (PermissionStatus, Cache))
    ensures t == ScreenTime ==> r == (Denied, cache)
    ensures t == Health && !p.healthAvailable ==> r == (Restricted, cache)
    ensures t == Calendar || (t == Health && p.healthAvailable) ==> r.1 == cache[t := r.0]
    ensures t == Calendar ==> (r.0 == Authorized <==> answer == Answered(true))
    ensures t == Health && p.healthAvailable ==> (r.0 == Authorized <==> answer.Answered?)
    ensures r.0 in {Authorized, Denied, Restricted}
  {
    match t
    case Calendar =>
      var s := if answer == Answered(true) then Authorized else Denied;
      (s, cache[Calendar := s])
    case Health =>
      if !p.healthAvailable then (Restricted, cache)
      else
        var s := if answer.Answered? then Authorized else Denied;
        (s, cache[Health := s])
    case ScreenTime => (Denied, cache)
  }

  /** After a calendar or health prompt on a device that has the store, checking gives the prompt's outcome. */
  lemma RequestThenCheck(cache: Cache, t: PermissionType, p: Platform, answer: PromptAnswer, later: Platform)
    requires t == Calendar || (t == Health && p.healthAvailable)
    ensures var (s, c) := RequestPermission(cache, t, p, answer);
      CheckStatus(c, t, later).0 == s
  {
  }

  /**
   * The cache never claims more than the platform allows: screen time is only
   * ever cached as undetermined, and on a device without HealthKit health is
   * only ever cached as restricted.
   */
  predicate CacheConsistent(cache: Cache, p: Platform) {
    && (ScreenTime in cache ==> cache[ScreenTime] == NotDetermined)
    && (!p.healthAvailable && Health in cache ==> cache[Health] == Restricted)
  }

  /** Every operation on the cache keeps it consistent with the device. */
  lemma CacheConsistencyPreserved(cache: Cache, t: PermissionType, p: Platform, answer: PromptAnswer)
    requires CacheConsistent(cache, p)
    ensures CacheConsistent(CheckStatus(cache, t, p).1, p)
    ensures CacheConsistent(RequestPermission(cache, t, p, answer).1, p)
    ensures CacheConsistent(ClearCache(cache), p)
  {
  }

  /** With a consistent cache, screen time is never reported as authorised. */
  lemma ScreenTimeNeverAuthorized(cache: Cache, p: Platform, answer: PromptAnswer)
    requires CacheConsistent(cache, p)
    ensures CheckStatus(cache, ScreenTime, p).0 == NotDetermined
    ensures RequestPermission(cache, ScreenTime, p, answer).0 == Denied
  {
  }
}

=== FILE: personality_review.dfy ===
/**
 * The personality review screen: a cursor over the traits the profile submit
 * returned, one accuracy rating per trait, and the feedback request sent when
 * the last trait is confirmed.
 */
module PersonalityReview {
  import opened Common
  import opened OnboardingState

  /** `currentIndex`: the stored cursor clamped into the list, 0 for an empty list. */
  function CurrentIndex(count: nat, raw: int): (i: nat)
    ensures count == 0 ==> i == 0
    ensures count > 0 ==> i < count
    ensures 0 <= raw < count ==> i == raw
    ensures count > 0 && raw < 0 ==> i == 0
    ensures count > 0 && raw >= count ==> i == count - 1
  {
    if count == 0 then 0
    else if raw < 0 then 0
    else if raw > count - 1 then count - 1
    else raw
  }

  /** Clamping an index that is already clamped changes nothing. */
  lemma CurrentIndexIdempotent(count: nat, raw: int)
    ensures CurrentIndex(count, CurrentIndex(count, raw)) == CurrentIndex(count, raw)
  {
  }

  /** `currentTrait`. */
  function CurrentTrait(ob: Onboarding): (t: Option<PersonalityTrait>)
    ensures t.None? <==> |ob.personalityTraits| == 0
    ensures t.Some? ==> t.value in ob.personalityTraits
  {
    var i := CurrentIndex(|ob.personalityTraits|, ob.currentPersonalityIndex);
    if i < |ob.personalityTraits| then Some(ob.personalityTraits[i]) else None
  }

  /** `selectedRating`: the rating stored for the trait on screen. */
  function SelectedRating(ob: Onboarding): (r: Option<Accuracy>)
    ensures r.Some? ==> CurrentTrait(ob).Some? && CurrentTrait(ob).value.id in ob.ratings
  {
    match CurrentTrait(ob)
    case None => None
    case Some(t) => if t.id in ob.ratings then Some(ob.ratings[t.id]) else None
  }

  /** The two numbers `progressText` shows: position and total. */
  function ProgressCounts(count: nat, raw: int): (p: (nat, nat))
    ensures p.1 == count
    ensures count == 0 ==> p.0 == 0
    ensures count > 0 ==> 1 <= p.0 <= count
  {
    if count == 0 then (0, 0) else (CurrentIndex(count, raw) + 1, count)
  }

  /** `progressText`: "0/0" for an empty list, otherwise "position/total". */
  function ProgressText(count: nat, raw: int): (r: string)
    ensures var total := NatToString(count);
      && |r| > |total| + 1
      && r[|r| - |total|..] == total && r[|r| - |total| - 1] == '/'
  {
    var (shown, total) := ProgressCounts(count, raw);
    NatToString(shown) + "/" + NatToString(total)
  }

  /** The text splits at its one slash into the two counts it was built from. */
  lemma ProgressTextReadsBack(count: nat, raw: int)
    ensures var text := ProgressText(count, raw);
      var k := |NatToString(ProgressCounts(count, raw).0)|;
      && k < |text| && text[k] == '/'
      && AllIn(text[..k], IsAsciiDigit) && DigitsValue(text[..k]) == ProgressCounts(count, raw).0
      && AllIn(text[k + 1..], IsAsciiDigit) && DigitsValue(text[k + 1..]) == count
  {
    var (shown, total) := ProgressCounts(count, raw);
    var text := ProgressText(count, raw);
    var k := |NatToString(shown)|;
    assert text[..k] == NatToString(shown);
    assert text[k + 1..] == NatToString(total);
    NatToStringRoundTrip(shown);
    NatToStringRoundTrip(total);
  }

  /** The progress bar's filled fraction, clamped into [0, 1]. */
  function ProgressFraction(count: nat, raw: int): (f: real)
    requires count > 0
    ensures 0.0 < f <= 1.0
    ensures f == 1.0 <==> CurrentIndex(count, raw) == count - 1
  {
    var v := (CurrentIndex(count, raw) + 1) as real / count as real;
    if v < 0.0 then 0.0 else if v > 1.0 then 1.0 else v
  }

  /** `isLastTrait`. */
  predicate IsLastTrait(ob: Onboarding)
    ensures IsLastTrait(ob) <==>
      |ob.personalityTraits| > 0 && (ob.currentPersonalityIndex >= |ob.personalityTraits| - 1 || |ob.personalityTraits| == 1)
  {
    |ob.personalityTraits| > 0
    && CurrentIndex(|ob.personalityTraits|, ob.currentPersonalityIndex) == |ob.personalityTraits| - 1
  }

  /** `primaryButtonTitle`. */
  function PrimaryButtonTitle(ob: Onboarding): (title: string)
    ensures title == "完成" <==> IsLastTrait(ob)
  {
    if IsLastTrait(ob) then "完成" else "继续"
  }

  /** `setRating`: record the rating for the trait on screen, replacing an earlier one. */
  function SetRating(ob: Onboarding, rating: Accuracy): (r: Onboarding)
    ensures |ob.personalityTraits| == 0 ==> r == ob
    ensures |ob.personalityTraits| > 0 ==>
      r == ob.(ratings := ob.ratings[CurrentTrait(ob).value.id := rating])
    ensures |ob.personalityTraits| > 0 ==> SelectedRating(r) == Some(rating)
  {
    match CurrentTrait(ob)
    case None => ob
    case Some(t) => ob.(ratings := ob.ratings[t.id := rating])
  }

  /** Rating one trait leaves the ratings of every other trait as they were. */
  lemma SetRatingIsLocal(ob: Onboarding, rating: Accuracy, id: int)
    requires CurrentTrait(ob).Some? && id != CurrentTrait(ob).value.id
    ensures id in SetRating(ob, rating).ratings <==> id in ob.ratings
    ensures id in ob.ratings ==> SetRating(ob, rating).ratings[id] == ob.ratings[id]
  {
  }

  /** The wire flag of a rating. */
  function FeedbackFlag(a: Accuracy): (f: string)
    ensures f in {"not_accurate", "somewhat_accurate", "accurate"}
  {
    match a
    case NotAccurate => "not_accurate"
    case PartiallyAccurate => "somewhat_accurate"
    case VeryAccurate => "accurate"
  }

  /** The server's reading of a wire flag. */
  function ParseFeedbackFlag(f: string): (r: Option<Accuracy>)
    ensures r.Some? ==> FeedbackFlag(r.value) == f
    ensures r.None? <==> f !in {"not_accurate", "somewhat_accurate", "accurate"}
  {
    if f == "not_accurate" then Some(NotAccurate)
    else if f == "somewhat_accurate" then Some(PartiallyAccurate)
    else if f == "accurate" then Some(VeryAccurate)
    else None
  }

  /** Each rating survives the trip through its wire flag, so no two ratings share a flag. */
  lemma FeedbackFlagRoundTrip(a: Accuracy, b: Accuracy)
    ensures ParseFeedbackFlag(FeedbackFlag(a)) == Some(a)
    ensures FeedbackFlag(a) == FeedbackFlag(b) ==> a == b
  {
  }

  /**
   * The `traitFeedbacks` of the request: one entry per rated trait, keyed by
   * trait id, carrying the rating's wire flag (every entry's comment is nil).
   * Swift's dictionary `map` gives no order, so the entries are a map.
   */
  function TraitFeedbacks(ratings: map<int, Accuracy>): (r: map<int, string>)
    ensures r.Keys == ratings.Keys && |r| == |ratings|
  {
    map k | k in ratings :: FeedbackFlag(ratings[k])
  }

  /** The server can read every rating back from the feedback entries. */
  lemma TraitFeedbacksRoundTrip(ratings: map<int, Accuracy>)
    ensures forall k :: k in TraitFeedbacks(ratings) ==> ParseFeedbackFlag(TraitFeedbacks(ratings)[k]) == Some(ratings[k])
  {
    forall k | k in TraitFeedbacks(ratings)
      ensures ParseFeedbackFlag(TraitFeedbacks(ratings)[k]) == Some(ratings[k])
    {
      FeedbackFlagRoundTrip(ratings[k], ratings[k]);
    }
  }

  datatype FeedbackRequest = FeedbackRequest(userId: int, traitFeedbacks: map<int, string>)

  /** The feedback request for the current ratings; none without a user id. */
  function FeedbackRequestFor(ob: Onboarding): (r: Option<FeedbackRequest>)
    ensures r.None? <==> ob.submitUserId.None?
    ensures r.Some? ==> r.value.userId == ob.submitUserId.value && r.value.traitFeedbacks.Keys == ob.ratings.Keys
  {
    match ob.submitUserId
    case None => None
    case Some(id) => Some(FeedbackRequest(id, TraitFeedbacks(ob.ratings)))
  }

  /**
   * `handlePrimaryAction`: advance the cursor, or on the last trait send the
   * feedback (with `accepted` as the server's verdict) and move on to the
   * KYC chat when it is accepted. Returns the state and the request sent.
   */
  function HandlePrimaryAction(ob: Onboarding, accepted: bool): (r: (Onboarding, Option<FeedbackRequest>))
    ensures |ob.personalityTraits| == 0 ==> r == (ob, None)
    ensures |ob.personalityTraits| > 0 && !IsLastTrait(ob) ==>
      r == (ob.(currentPersonalityIndex := ob.currentPersonalityIndex + 1), None)
    ensures IsLastTrait(ob) ==> r.1 == FeedbackRequestFor(ob)
    ensures IsLastTrait(ob) ==> (r.0.currentStep == KycChat <==> (ob.submitUserId.Some? && accepted) || ob.currentStep == KycChat)
    ensures IsLastTrait(ob) ==> r.0 == ob.(currentStep := r.0.currentStep)
  {
    if |ob.personalityTraits| == 0 then (ob, None)
    else if !IsLastTrait(ob) then (ob.(currentPersonalityIndex := ob.currentPersonalityIndex + 1), None)
    else
      var request := FeedbackRequestFor(ob);
      if request.Some? && accepted then (ob.(currentStep := KycChat), request) else (ob, request)
  }

  /** From any in-range position, `count - 1 - i` presses of the primary button reach the last trait. */
  lemma {:induction false} PressesReachLastTrait(ob: Onboarding, presses: nat)
    requires 0 <= ob.currentPersonalityIndex && ob.currentPersonalityIndex + presses == |ob.personalityTraits| - 1
    ensures IsLastTrait(Press(ob, presses))
    ensures Press(ob, presses).ratings == ob.ratings
    decreases presses
  {
    if presses > 0 {
      PressesReachLastTrait(HandlePrimaryAction(ob, false).0, presses - 1);
    }
  }

  /**
   * `n` presses of the primary button with every submit rejected: the
   * position only moves forward, and the traits and ratings stay as they were.
   */
  function Press(ob: Onboarding, n: nat): (r: Onboarding)
    ensures r.personalityTraits == ob.personalityTraits && r.ratings == ob.ratings
    ensures r.currentPersonalityIndex >= ob.currentPersonalityIndex
    decreases n
  {
    if n == 0 then ob else Press(HandlePrimaryAction(ob, false).0, n - 1)
  }
}

=== FILE: subscription.dfy ===
/**
 * The subscription vocabulary shared with the backend and the App Store:
 * the states a subscription can be in, the two plans, and the two product
 * identifiers with the plan each one buys.
 */
module Subscription {
  import opened Common

  /** `SubscriptionState`. */
  datatype SubscriptionState = Trial | Active | Expired | Cancelled

  /** Raw values are lower-case ASCII words. */
  predicate IsAsciiLower(c: char) {
    'a' <= c <= 'z'
  }

  /** The string the backend sends for a state. */
  function StateRawValue(s: SubscriptionState): (r: string)
    ensures r != [] && AllIn(r, IsAsciiLower)
  {
    match s
    case Trial => "trial"
    case Active => "active"
    case Expired => "expired"
    case Cancelled => "cancelled"
  }

  /** Decoding a state from the backend's string; any other string is rejected. */
  function StateFromRawValue(raw: string): (r: Option<SubscriptionState>)
    ensures r.Some? ==> StateRawValue(r.value) == raw
  {
    match raw
    case "trial" => Some(Trial)
    case "active" => Some(Active)
    case "expired" => Some(Expired)
    case "cancelled" => Some(Cancelled)
    case _ => None
  }

  /** Every state survives a trip through its raw value, and only the four raw values decode. */
  lemma StateRawValueRoundTrip(s: SubscriptionState, raw: string)
    ensures StateFromRawValue(StateRawValue(s)) == Some(s)
    ensures StateFromRawValue(raw).Some? <==> raw in {"trial", "active", "expired", "cancelled"}
  {
  }

  /** The label a state is shown with: three characters, "已…" (already …) for all but the trial. */
  function StateDisplayName(s: SubscriptionState): (r: string)
    ensures |r| == 3
    ensures r[0] == '已' <==> s != Trial
  {
    match s
    case Trial => "试用中"
    case Active => "已订阅"
    case Expired => "已过期"
    case Cancelled => "已取消"
  }

  /** No two states share a label. */
  lemma StateDisplayNamesDistinct(a: SubscriptionState, b: SubscriptionState)
    ensures StateDisplayName(a) == StateDisplayName(b) <==> a == b
  {
  }

  /** `PlanType`. */
  datatype PlanType = Monthly | Yearly

  function PlanRawValue(p: PlanType): (r: string)
    ensures r != [] && AllIn(r, IsAsciiLower)
    ensures |r| > 2 && r[|r| - 2..] == "ly"
  {
    match p
    case Monthly => "monthly"
    case Yearly => "yearly"
  }

  function PlanFromRawValue(raw: string): (r: Option<PlanType>)
    ensures r.Some? ==> PlanRawValue(r.value) == raw
  {
    match raw
    case "monthly" => Some(Monthly)
    case "yearly" => Some(Yearly)
    case _ => None
  }

  /** The label a plan is shown with: its period, then "会员" (membership). */
  function PlanDisplayName(p: PlanType): (r: string)
    ensures |r| == 4 && r[2..] == "会员"
  {
    match p
    case Monthly => "月度会员"
    case Yearly => "年度会员"
  }

  /** Plans round-trip through their raw values and are shown with different labels. */
  lemma PlanNamesDistinct(p: PlanType, q: PlanType)
    ensures PlanFromRawValue(PlanRawValue(p)) == Some(p)
    ensures PlanRawValue(p) == PlanRawValue(q) <==> p == q
    ensures PlanDisplayName(p) == PlanDisplayName(q) <==> p == q
  {
  }

  /** `SubscriptionProductID`: the App Store products. */
  datatype ProductId = MonthlyPremium | YearlyPremium

  const BundlePrefix := "ai.dors.AICompanion."

  const AllProducts: seq<ProductId> := [MonthlyPremium, YearlyPremium]

  /** The identifiers live under the app's bundle id. */
  function ProductRawValue(id: ProductId): (r: string)
    ensures BundlePrefix <= r && |r| > |BundlePrefix|
  {
    match id
    case MonthlyPremium => "ai.dors.AICompanion.monthly_premium"
    case YearlyPremium => "ai.dors.AICompanion.yearly_premium"
  }

  /** The plan a product buys. */
  function ProductPlan(id: ProductId): (p: PlanType)
    ensures p == Monthly <==> id == MonthlyPremium
  {
    match id
    case MonthlyPremium => Monthly
    case YearlyPremium => Yearly
  }

  /** `allIdentifiers`: the raw values of every product. */
  function AllIdentifiers(): (ids: set<string>)
    ensures forall id :: ProductRawValue(id) in ids
    ensures forall raw :: raw in ids ==> exists id :: ProductRawValue(id) == raw
  {
    set id | id in AllProducts :: ProductRawValue(id)
  }

  /** There are exactly two identifiers, one per plan. */
  lemma TwoDistinctIdentifiers()
    ensures |AllIdentifiers()| == 2
    ensures AllIdentifiers() == {"ai.dors.AICompanion.monthly_premium", "ai.dors.AICompanion.yearly_premium"}
    ensures ProductRawValue(MonthlyPremium) != ProductRawValue(YearlyPremium)
    ensures ProductPlan(MonthlyPremium) != ProductPlan(YearlyPremium)
  {
    var m, y := ProductRawValue(MonthlyPremium), ProductRawValue(YearlyPremium);
    assert m[3] == 'd' && y[3] == 'd' && m[20] == 'm' && y[20] == 'y';
    assert AllIdentifiers() == {m, y};
  }
}

=== FILE: task_card.dfy ===
/**
 * The buttons of a task card on the home screen: delete and complete go
 * through a confirmation dialog when the screen supplies one, and postpone
 * is disabled for tasks that repeat every day or every weekday.
 */
module TaskCard {
  import opened Common
  import opened DailyTasks

  datatype CardButton = DeleteButton | CompleteButton | PostponeButton

  /** What a press hands to the screen. */
  datatype CardEvent =
    | EmitAction(action: ExecutionAction)
    | AskToConfirmDelete
    | AskToConfirmComplete
    | NoEvent

  /** `canPostpone`. */
  predicate CanPostpone(frequency: string)
    ensures CanPostpone(frequency) ==> frequency != "daily" && frequency != "weekdays"
    ensures frequency in {"once", "weekly", "monthly"} ==> CanPostpone(frequency)
  {
    !IsRepeating(frequency)
  }

  /**
   * A press on one of the card's buttons. `confirmsDelete` and
   * `confirmsComplete` say whether the screen passed the confirmation
   * callbacks.
   */
  function Press(button: CardButton, frequency: string, confirmsDelete: bool, confirmsComplete: bool): (e: CardEvent)
    ensures e == EmitAction(Postpone) <==> button == PostponeButton && CanPostpone(frequency)
    ensures e == EmitAction(Cancel) <==> button == DeleteButton && !confirmsDelete
    ensures e == EmitAction(Complete) <==> button == CompleteButton && !confirmsComplete
    ensures e == AskToConfirmDelete <==> button == DeleteButton && confirmsDelete
    ensures e == AskToConfirmComplete <==> button == CompleteButton && confirmsComplete
  {
    match button
    case DeleteButton => if confirmsDelete then AskToConfirmDelete else EmitAction(Cancel)
    case CompleteButton => if confirmsComplete then AskToConfirmComplete else EmitAction(Complete)
    case PostponeButton => if CanPostpone(frequency) then EmitAction(Postpone) else NoEvent
  }

  /**
   * The card and the screen's handler agree: whatever the card emits is
   * sent to the server when no other update is in flight, so the handler's
   * own postpone check never fires for a press on the card.
   */
  lemma CardActionsAreAccepted(
    button: CardButton, frequency: string, confirmsDelete: bool, confirmsComplete: bool,
    g: ActionGate, tomorrow: string)
    requires Press(button, frequency, confirmsDelete, confirmsComplete).EmitAction?
    requires !g.isUpdating
    ensures var a := Press(button, frequency, confirmsDelete, confirmsComplete).action;
      StartAction(g, a, frequency, tomorrow).1 == Some(RequestFor(a, tomorrow))
  {
  }
}

=== FILE: task_grouping.dfy ===
/**
 * The "today's small actions" page (`TaskForTodayView`): today's tasks
 * grouped by goal, one card per goal, the cards ordered by goal title.
 */
module TaskGrouping {
  import opened Common
  import opened GoalModels
  import DailyTasks

  // ---------------------------------------------------------------------------
  // String order
  // ---------------------------------------------------------------------------

  /** Swift's `<` on strings, read as the lexicographic order of their characters. */
  predicate Before(a: string, b: string)
    decreases |a|
  {
    if |a| == 0 then |b| > 0
    else if |b| == 0 then false
    else if a[0] != b[0] then a[0] < b[0]
    else Before(a[1..], b[1..])
  }

  /** Two different strings are ordered one way or the other, never both. */
  lemma {:induction false} BeforeTotal(a: string, b: string)
    ensures a == b || Before(a, b) || Before(b, a)
    ensures !(Before(a, b) && Before(b, a))
    decreases |a|
  {
    if |a| > 0 && |b| > 0 && a[0] == b[0] {
      BeforeTotal(a[1..], b[1..]);
      if a[1..] == b[1..] {
        assert a == [a[0]] + a[1..] && b == [b[0]] + b[1..];
      }
    }
  }

  lemma {:induction false} BeforeTransitive(a: string, b: string, c: string)
    requires Before(a, b) && Before(b, c)
    ensures Before(a, c)
    decreases |a|
  {
    if |a| > 0 && a[0] == b[0] && b[0] == c[0] {
      BeforeTransitive(a[1..], b[1..], c[1..]);
    }
  }

  /** The order the sort keeps between neighbours: not after. */
  predicate NotAfter(a: string, b: string) {
    !Before(b, a)
  }

  lemma NotAfterTransitive(a: string, b: string, c: string)
    requires NotAfter(a, b) && NotAfter(b, c)
    ensures NotAfter(a, c)
  {
    BeforeTotal(a, b);
    BeforeTotal(b, c);
    if Before(c, a) {
      if a == b {
      } else if b == c {
      } else {
        BeforeTransitive(a, b, c);
        BeforeTotal(a, c);
      }
    }
  }

  // ---------------------------------------------------------------------------
  // Grouping
  // ---------------------------------------------------------------------------

  /** `GoalTaskGroup`: a goal's id, the title its card shows, and its tasks. */
  datatype GoalTaskGroup = GoalTaskGroup(id: int, goalTitle: string, items: seq<DailyTaskItem>)

  const UnnamedGoal := "未命名目标"

  function HasGoal(id: int): DailyTaskItem -> bool {
    (t: DailyTaskItem) => t.goalId == id
  }

  function OtherGoal(id: int): DailyTaskItem -> bool {
    (t: DailyTaskItem) => t.goalId != id
  }

  /** A card's title: the goal title of its first task, or the placeholder. */
  function TitleOf(items: seq<DailyTaskItem>): string {
    if items != [] && items[0].goalTitle.Some? then items[0].goalTitle.value else UnnamedGoal
  }

  /** The card of one goal: every task of that goal, in the plan's order. */
  function GroupOf(items: seq<DailyTaskItem>, id: int): GoalTaskGroup {
    var members := Filter(items, HasGoal(id));
    GoalTaskGroup(id, TitleOf(members), members)
  }

  /**
   * The cards before sorting, one per goal in the order goals first appear.
   * (`Dictionary(grouping:)` leaves this order unspecified; only the sort
   * below fixes the order the page shows.)
   */
  function Groups(items: seq<DailyTaskItem>): seq<GoalTaskGroup>
    decreases |items|
  {
    if items == [] then []
    else [GroupOf(items, items[0].goalId)] + Groups(Filter(items[1..], OtherGoal(items[0].goalId)))
  }

  /** The number of tasks across all cards. */
  function Total(groups: seq<GoalTaskGroup>): nat {
    if groups == [] then 0 else |groups[0].items| + Total(groups[1..])
  }

  predicate DistinctIds(groups: seq<GoalTaskGroup>) {
    forall i, j :: 0 <= i < j < |groups| ==> groups[i].id != groups[j].id
  }

  /** A predicate and its negation split a sequence between them. */
  lemma {:induction false} FilterPartition<T>(s: seq<T>, p: T -> bool, q: T -> bool)
    requires forall x :: q(x) == !p(x)
    ensures |Filter(s, p)| + |Filter(s, q)| == |s|
  {
    if |s| > 0 {
      FilterPartition(s[1..], p, q);
    }
  }

  /** Dropping the tasks of the first goal does not change any other goal's card. */
  lemma GroupOfRest(items: seq<DailyTaskItem>, id: int)
    requires items != [] && id != items[0].goalId
    ensures GroupOf(Filter(items[1..], OtherGoal(items[0].goalId)), id) == GroupOf(items, id)
  {
    FilterNarrow(items[1..], OtherGoal(items[0].goalId), HasGoal(id));
  }

  /** The goals that have a task. */
  function ItemGoalIds(items: seq<DailyTaskItem>): set<int> {
    set t | t in items :: t.goalId
  }

  /** The goals that have a card. */
  function GroupIds(groups: seq<GoalTaskGroup>): set<int> {
    set g | g in groups :: g.id
  }

  /** The goals of a plan: the first task's, and those of the tasks of other goals. */
  lemma ItemGoalIdsSplit(items: seq<DailyTaskItem>)
    requires items != []
    ensures ItemGoalIds(items) == {items[0].goalId} + ItemGoalIds(Filter(items[1..], OtherGoal(items[0].goalId)))
    ensures items[0].goalId !in ItemGoalIds(Filter(items[1..], OtherGoal(items[0].goalId)))
  {
    var h := items[0].goalId;
    var rest := Filter(items[1..], OtherGoal(h));
    FilterMembership(items[1..], OtherGoal(h));
    forall id | id in ItemGoalIds(items)
      ensures id == h || id in ItemGoalIds(rest)
    {
      var t :| t in items && t.goalId == id;
      if id != h {
        assert t in items[1..];
        assert t in rest;
      }
    }
    forall id | id in ItemGoalIds(rest)
      ensures id in ItemGoalIds(items) && id != h
    {
      var t :| t in rest && t.goalId == id;
      assert t in items[1..];
    }
  }

  /** There is a card for a goal exactly when some task has that goal. */
  lemma {:induction false} GroupsCoverGoals(items: seq<DailyTaskItem>)
    ensures GroupIds(Groups(items)) == ItemGoalIds(items)
    decreases |items|
  {
    if items != [] {
      var h := items[0].goalId;
      var rest := Filter(items[1..], OtherGoal(h));
      GroupsCoverGoals(rest);
      ItemGoalIdsSplit(items);
      var gs := Groups(items);
      assert gs == [GroupOf(items, h)] + Groups(rest);
      assert GroupIds(gs) == {h} + GroupIds(Groups(rest));
    }
  }

  /** Each unsorted card is its goal's card. */
  lemma {:induction false} GroupsAreGroupOf(items: seq<DailyTaskItem>)
    ensures forall g :: g in Groups(items) ==> g == GroupOf(items, g.id)
    decreases |items|
  {
    if items != [] {
      var h := items[0].goalId;
      var rest := Filter(items[1..], OtherGoal(h));
      GroupsAreGroupOf(rest);
      GroupsCoverGoals(rest);
      ItemGoalIdsSplit(items);
      forall g | g in Groups(rest)
        ensures g == GroupOf(items, g.id)
      {
        assert g.id in GroupIds(Groups(rest));
        GroupOfRest(items, g.id);
      }
    }
  }

  /** No goal has two cards. */
  lemma {:induction false} GroupsDistinct(items: seq<DailyTaskItem>)
    ensures DistinctIds(Groups(items))
    decreases |items|
  {
    if items != [] {
      var h := items[0].goalId;
      var rest := Filter(items[1..], OtherGoal(h));
      GroupsDistinct(rest);
      GroupsCoverGoals(rest);
      ItemGoalIdsSplit(items);
      var gs := Groups(items);
      forall i, j | 0 <= i < j < |gs|
        ensures gs[i].id != gs[j].id
      {
        assert gs[j] == Groups(rest)[j - 1];
        if i == 0 {
          assert gs[j] in Groups(rest);
          assert gs[j].id in GroupIds(Groups(rest));
        } else {
          assert gs[i] == Groups(rest)[i - 1];
        }
      }
    }
  }

  /** The cards hold every task once. */
  lemma {:induction false} GroupsTotal(items: seq<DailyTaskItem>)
    ensures Total(Groups(items)) == |items|
    decreases |items|
  {
    if items != [] {
      var h := items[0].goalId;
      var rest := Filter(items[1..], OtherGoal(h));
      GroupsTotal(rest);
      assert Filter(items, HasGoal(h)) == [items[0]] + Filter(items[1..], HasGoal(h));
      FilterPartition(items[1..], HasGoal(h), OtherGoal(h));
    }
  }

  // ---------------------------------------------------------------------------
  // Sorting by title
  // ---------------------------------------------------------------------------

  predicate SortedByTitle(groups: seq<GoalTaskGroup>) {
    forall i, j :: 0 <= i < j < |groups| ==> NotAfter(groups[i].goalTitle, groups[j].goalTitle)
  }

  /** Put a card in front of the first card whose title is not before its own. */
  function Insert(g: GoalTaskGroup, s: seq<GoalTaskGroup>): seq<GoalTaskGroup> {
    if s == [] then [g]
    else if NotAfter(g.goalTitle, s[0].goalTitle) then [g] + s
    else [s[0]] + Insert(g, s[1..])
  }

  lemma {:induction false} InsertFacts(g: GoalTaskGroup, s: seq<GoalTaskGroup>)
    ensures forall x :: x in Insert(g, s) <==> x == g || x in s
    ensures Total(Insert(g, s)) == |g.items| + Total(s)
  {
    if s != [] && !NotAfter(g.goalTitle, s[0].goalTitle) {
      InsertFacts(g, s[1..]);
      assert Insert(g, s)[1..] == Insert(g, s[1..]);
      assert s == [s[0]] + s[1..];
    } else if s != [] {
      assert ([g] + s)[1..] == s;
    }
  }

  /** A card that sorts before every card of an ordered list, and shares no id with them, keeps it ordered at its front. */
  lemma ConsKeepsOrder(h: GoalTaskGroup, tail: seq<GoalTaskGroup>)
    requires SortedByTitle(tail) && DistinctIds(tail)
    requires forall k :: 0 <= k < |tail| ==> NotAfter(h.goalTitle, tail[k].goalTitle) && h.id != tail[k].id
    ensures SortedByTitle([h] + tail) && DistinctIds([h] + tail)
  {
    var r := [h] + tail;
    forall i, j | 0 <= i < j < |r|
      ensures NotAfter(r[i].goalTitle, r[j].goalTitle) && r[i].id != r[j].id
    {
      if i == 0 {
        assert r[j] == tail[j - 1];
      } else {
        assert r[i] == tail[i - 1] && r[j] == tail[j - 1];
      }
    }
  }

  lemma {:induction false} InsertKeepsOrder(g: GoalTaskGroup, s: seq<GoalTaskGroup>)
    requires SortedByTitle(s)
    requires forall i :: 0 <= i < |s| ==> s[i].id != g.id
    requires DistinctIds(s)
    ensures SortedByTitle(Insert(g, s)) && DistinctIds(Insert(g, s))
  {
    if s == [] {
    } else if NotAfter(g.goalTitle, s[0].goalTitle) {
      forall k | 0 <= k < |s|
        ensures NotAfter(g.goalTitle, s[k].goalTitle)
      {
        if k > 0 {
          NotAfterTransitive(g.goalTitle, s[0].goalTitle, s[k].goalTitle);
        }
      }
      ConsKeepsOrder(g, s);
    } else {
      InsertKeepsOrder(g, s[1..]);
      InsertFacts(g, s[1..]);
      BeforeTotal(g.goalTitle, s[0].goalTitle);
      var tail := Insert(g, s[1..]);
      forall k | 0 <= k < |tail|
        ensures NotAfter(s[0].goalTitle, tail[k].goalTitle) && s[0].id != tail[k].id
      {
        assert tail[k] in tail;
        if tail[k] != g {
          var m :| 0 <= m < |s[1..]| && s[1..][m] == tail[k];
          assert s[m + 1] == tail[k];
        }
      }
      ConsKeepsOrder(s[0], tail);
    }
  }

  /** Insertion sort by title. */
  function SortByTitle(s: seq<GoalTaskGroup>): seq<GoalTaskGroup> {
    if s == [] then [] else Insert(s[0], SortByTitle(s[1..]))
  }

  /** Sorting keeps the cards and their tasks, keeps goals apart, and orders the titles. */
  lemma {:induction false} SortFacts(s: seq<GoalTaskGroup>)
    requires DistinctIds(s)
    ensures forall x :: x in SortByTitle(s) <==> x in s
    ensures Total(SortByTitle(s)) == Total(s)
    ensures SortedByTitle(SortByTitle(s)) && DistinctIds(SortByTitle(s))
  {
    if s != [] {
      var tail := SortByTitle(s[1..]);
      SortFacts(s[1..]);
      InsertFacts(s[0], tail);
      forall i | 0 <= i < |tail|
        ensures tail[i].id != s[0].id
      {
        assert tail[i] in s[1..];
        var m :| 0 <= m < |s[1..]| && s[1..][m] == tail[i];
        assert s[m + 1] == tail[i];
      }
      InsertKeepsOrder(s[0], tail);
      assert s == [s[0]] + s[1..];
    }
  }

  /** `goalGroups(from:)`. */
  function GoalGroups(items: seq<DailyTaskItem>): (r: seq<GoalTaskGroup>)
    ensures DistinctIds(r) && SortedByTitle(r)
    ensures Total(r) == |items|
  {
    GroupsDistinct(items);
    GroupsTotal(items);
    SortFacts(Groups(items));
    SortByTitle(Groups(items))
  }

  /**
   * The page's cards: one per goal that has a task today, no goal twice;
   * each card holds exactly its goal's tasks in the plan's order, under its
   * first task's goal title or the placeholder; together the cards hold
   * every task once; the titles never decrease down the page.
   */
  lemma GoalGroupsWellFormed(items: seq<DailyTaskItem>)
    ensures var r := GoalGroups(items);
      && DistinctIds(r)
      && GroupIds(r) == ItemGoalIds(items)
      && (forall g :: g in r ==> g.items == Filter(items, HasGoal(g.id)) && g.goalTitle == TitleOf(g.items))
      && Total(r) == |items|
      && SortedByTitle(r)
  {
    GroupsCoverGoals(items);
    GroupsAreGroupOf(items);
    GroupsDistinct(items);
    GroupsTotal(items);
    SortFacts(Groups(items));
    assert GroupIds(GoalGroups(items)) == GroupIds(Groups(items));
  }

  /** Every task sits in the card of its own goal and in no other, in its plan order. */
  lemma EachTaskInItsGoalsCard(items: seq<DailyTaskItem>, g: GoalTaskGroup, t: DailyTaskItem)
    requires g in GoalGroups(items) && t in items
    ensures t in g.items <==> t.goalId == g.id
    ensures IsSubsequence(g.items, items)
  {
    GoalGroupsWellFormed(items);
    FilterMembers(items, HasGoal(g.id), t);
    FilterIsSubsequence(items, HasGoal(g.id));
  }

  // ---------------------------------------------------------------------------
  // Loading
  // ---------------------------------------------------------------------------

  datatype TodayPage = TodayPage(isLoading: bool, plan: Option<seq<DailyTaskItem>>, errorText: Option<string>)

  const NoAccountText := "系统暂时无法获取你的账户信息，今日待办事项暂时无法加载，请稍后再试。"
  const FetchFailedText := "暂时无法获取今日的待办事项，请稍后再试。"

  /**
   * The start of `loadPlanIfNeeded`; the boolean says whether the plan is
   * fetched. Only a loading page loads; without a user the page stops
   * loading and shows an error.
   */
  function StartLoad(p: TodayPage, userId: Option<int>): (r: (TodayPage, bool))
    ensures !p.isLoading ==> r == (p, false)
    ensures r.1 <==> p.isLoading && userId.Some?
    ensures r.1 ==> r.0 == p
    ensures p.isLoading && userId.None? ==> r.0 == p.(errorText := Some(NoAccountText), isLoading := false)
  {
    if !p.isLoading then (p, false)
    else if userId.None? then (p.(errorText := Some(NoAccountText), isLoading := false), false)
    else (p, true)
  }

  /** The end of the fetch: the plan with the error cleared, or the failure; loading ends. */
  function FinishLoad(p: TodayPage, answer: DailyTasks.Answer<seq<DailyTaskItem>>): (r: TodayPage)
    ensures !r.isLoading
    ensures r.errorText.None? <==> answer.Answered?
    ensures r.plan == (if answer.Answered? then Some(answer.value) else p.plan)
  {
    match answer
    case Answered(items) => TodayPage(false, Some(items), None)
    case Threw => p.(errorText := Some(FetchFailedText), isLoading := false)
  }

  /** The retry button of the error view: back to loading with the error cleared, then the load. */
  function Retry(p: TodayPage, userId: Option<int>): (r: (TodayPage, bool))
    ensures r.1 <==> userId.Some?
    ensures userId.Some? ==> r.0 == p.(isLoading := true, errorText := None)
    ensures userId.None? ==> !r.0.isLoading && r.0.errorText == Some(NoAccountText)
  {
    StartLoad(p.(isLoading := true, errorText := None), userId)
  }

  /** Once the page has loaded or given up, it never loads again. */
  lemma LoadsUntilDone(p: TodayPage, userId: Option<int>, answer: DailyTasks.Answer<seq<DailyTaskItem>>)
    ensures !StartLoad(FinishLoad(p, answer), userId).1
    ensures p.isLoading && userId.None? ==> !StartLoad(StartLoad(p, userId).0, userId).1
    ensures userId.Some? ==> Retry(FinishLoad(p, answer), userId).1
  {
  }
}

=== FILE: weekly_calendar.dfy ===
/**
 * The week strip above today's tasks: seven columns from Monday to Sunday,
 * today highlighted, and every past day coloured by whether all its tasks
 * were completed. Days are counted as whole day numbers, so "later than now"
 * is "a later day number".
 */
module WeeklyCalendar {
  import opened Common

  /** The column headings, Monday first. */
  const WeekdayLabels: seq<string> := ["周一", "周二", "周三", "周四", "周五", "周六", "周日"]

  /** The calendar's weekday numbering: Sunday is 1, Monday 2, …, Saturday 7. */
  predicate IsWeekday(weekday: int) {
    1 <= weekday <= 7
  }

  /** How many days today lies after this week's Monday. */
  function DaysFromMonday(weekday: int): (d: int)
    requires IsWeekday(weekday)
    ensures 0 <= d < |WeekdayLabels|
  {
    (weekday + 5) % 7
  }

  /** The weekday `k` days after a day of the given weekday. */
  function WeekdayAfter(weekday: int, k: int): (w: int)
    requires IsWeekday(weekday)
    ensures IsWeekday(w)
  {
    (weekday - 1 + k) % 7 + 1
  }

  /** Monday is column 0, Sunday column 6, and no two weekdays share a column. */
  lemma DaysFromMondayBijective(a: int, b: int)
    requires IsWeekday(a) && IsWeekday(b)
    ensures DaysFromMonday(2) == 0 && DaysFromMonday(1) == 6
    ensures DaysFromMonday(a) == DaysFromMonday(b) ==> a == b
  {
  }

  /** The weekday a column stands for. */
  function ColumnWeekday(column: int): (w: int)
    requires 0 <= column < 7
    ensures IsWeekday(w)
  {
    (column + 1) % 7 + 1
  }

  /** `ColumnWeekday` and `DaysFromMonday` are inverse: every column is some weekday's, and only its. */
  lemma ColumnWeekdayInverse(column: int, weekday: int)
    requires 0 <= column < 7 && IsWeekday(weekday)
    ensures DaysFromMonday(ColumnWeekday(column)) == column
    ensures ColumnWeekday(DaysFromMonday(weekday)) == weekday
  {
  }

  /**
   * Column `i`, which shows the day `i - DaysFromMonday(weekday)` days from
   * today, falls on the `i`-th day of the week counted from Monday.
   */
  lemma ColumnsRunMondayToSunday(weekday: int, i: int)
    requires IsWeekday(weekday) && 0 <= i < 7
    ensures DaysFromMonday(WeekdayAfter(weekday, i - DaysFromMonday(weekday))) == i
  {
  }

  /** `DailyCompletionItem`: a day's date as `yyyy-MM-dd` and the share of its tasks completed. */
  datatype DailyCompletion = DailyCompletion(date: string, completionRate: real)

  /** The fill of a day's circle. */
  datatype DayFill = Primary | CardWhite | AccentGreen | AccentRed

  /** The colour of the day number. */
  datatype DayText = White | TextLight

  /** `DayInfo`: the day of the month shown, whether it is today, and the two colours. */
  datatype DayInfo = DayInfo(dayNumber: int, isToday: bool, fill: DayFill, text: DayText)

  /**
   * `dayInfoForIndex` for column `index`, on a day `today` of the given
   * weekday. `format` writes a day as `yyyy-MM-dd` and `dayOfMonth` gives its
   * day of the month; the record of a day is the first with its date.
   */
  function DayInfoForIndex(
    index: int, weekday: int, today: int, completions: seq<DailyCompletion>,
    format: int -> string, dayOfMonth: int -> int): (r: DayInfo)
    requires IsWeekday(weekday)
    ensures var day := today - DaysFromMonday(weekday) + index;
      r.dayNumber == dayOfMonth(day) && (r.isToday <==> day == today)
    ensures r.fill == Primary <==> r.isToday
    ensures r.text == White <==> r.fill != CardWhite
  {
    var day := today - DaysFromMonday(weekday) + index;
    var record := First(completions, (c: DailyCompletion) => c.date == format(day));
    var fill :=
      if day == today then Primary
      else if day > today then CardWhite
      else match record
        case Some(c) => if c.completionRate >= 1.0 then AccentGreen else AccentRed
        case None => CardWhite;
    DayInfo(dayOfMonth(day), day == today, fill, if fill == CardWhite then TextLight else White)
  }

  /** Today's column is the one `DaysFromMonday` names. */
  lemma TodayColumn(index: int, weekday: int, today: int, completions: seq<DailyCompletion>,
                    format: int -> string, dayOfMonth: int -> int)
    requires IsWeekday(weekday)
    ensures DayInfoForIndex(index, weekday, today, completions, format, dayOfMonth).isToday <==> index == DaysFromMonday(weekday)
  {
  }

  /** Days after today are never green or red, whatever their records say. */
  lemma FutureDaysUncoloured(index: int, weekday: int, today: int, completions: seq<DailyCompletion>,
                             format: int -> string, dayOfMonth: int -> int)
    requires IsWeekday(weekday) && index > DaysFromMonday(weekday)
    ensures DayInfoForIndex(index, weekday, today, completions, format, dayOfMonth).fill == CardWhite
  {
  }

  /**
   * A past day is green when its first record shows every task done, red
   * when its first record shows less, and white without a record.
   */
  lemma PastDayColours(index: int, weekday: int, today: int, completions: seq<DailyCompletion>,
                       format: int -> string, dayOfMonth: int -> int)
    requires IsWeekday(weekday) && index < DaysFromMonday(weekday)
    ensures var day := today - DaysFromMonday(weekday) + index;
      var fill := DayInfoForIndex(index, weekday, today, completions, format, dayOfMonth).fill;
      var record := First(completions, (c: DailyCompletion) => c.date == format(day));
      && (fill == CardWhite <==> forall i :: 0 <= i < |completions| ==> completions[i].date != format(day))
      && (fill == AccentGreen <==> record.Some? && record.value.completionRate >= 1.0)
      && (fill == AccentRed <==> record.Some? && record.value.completionRate < 1.0)
  {
  }
}
